=== FILE: README.md ===
# Character voice-prompt generator: a Dafny model of its decision logic

The system takes the name of a character and collects information about it.
The sources are Wikipedia, one web search engine (Google, Bing, DuckDuckGo,
or the LLM's own knowledge, called "ChatGPT search") and YouTube subtitles.
An LLM then turns what was collected into a role-play prompt that reproduces
the character's way of speaking. Around this pipeline sit:

- an execution log and a live console status table;
- a command-line entry point;
- a small diagnosis script for the OpenAI key.

This project models the deterministic part of that system as pure Dafny
functions over strings, sequences and records. That covers:

- the URL repair and the DuckDuckGo redirect unwrapping, including
  percent-decoding and UTF-8 decoding;
- whitespace collapsing;
- video-id extraction;
- the result records and their dict forms;
- the regex-driven speech-pattern extractors, written as explicit scanners;
- each collector's filtering, fallback, cap and retry rules;
- the orchestration that merges the three collection branches;
- prompt assembly and its deterministic fallback;
- the log and console bookkeeping;
- the command-line checks;
- the credential masking of the diagnosis script.

Every external service is an uninterpreted function-typed parameter: HTTP
fetches and parsed pages, search engines, the OpenAI API, Wikipedia and the
transcript API. A service "raising" is an `Outcome` value
(`Returned(v)` / `Raised(message)`). Clocks and timestamps are parameters too.

One module per source file. Shared helpers:

| module | contents |
|---|---|
| `Prelude` | `Option`, `Outcome` |
| `Seqs` | `Take`, `Filter`, `Subseq`, `FilterMap`, `NoDup`, `Count` |
| `Strings` | Python's `strip`, `split`, `lower`, `in`, `join`, integer formatting |
| `Json` | a dict-like `Value` |
| `Unquote` | `urllib.parse.unquote` |
| `Speech` | the extractors shared by several files |
| `WebSearch` | the page-fetching code the Google and Bing collectors share |

Several limits that the source imports from its settings module are not
defined in config.py, for example `YOUTUBE_MAX_VIDEOS`, `CHATGPT_MAX_PATTERNS`,
`SAMPLE_PHRASE_MIN_LENGTH` and `OPENAI_MODEL`. They are parameters (a `Limits`
record); `Config.ConfigLimits` fills them from the matching fields that
config.py does define.

## Model

| member | source | states |
|---|---|---|
| Config.FormatName | config.py:64 | `pattern.format(name=...)` raises exactly when the template uses anything but `{name}` fields and the `{{`/`}}` escapes; otherwise every `{name}` field is replaced by the name |
| Config.FormatNameSplices | config.py:57-64 | a template whose only braces are one `{name}` field renders as the surrounding text with the name spliced in |
| Config.FromEnv | config.py:26-32 | only the two Google credentials come from the environment, each "" when unset; every other field keeps its default |
| Config.NewSearchConfig | config.py:36-60 | a supplied pattern list is kept unchanged; the three default templates are installed only when none is given; the numeric defaults are as declared |
| Config.SearchPatterns | config.py:62-64 | one query per template in template order, each the template formatted with the name; it raises only if some template cannot be formatted |
| Config.DefaultTemplateFormats | config.py:57-59 | each default template formats to the quoted name followed by its own suffix |
| Config.DefaultQueriesQuoteName | config.py:54-64 | with the defaults there are exactly three queries: the quoted name followed by 口癖 語尾, 話し方 特徴 and 口調 喋り方 |
| Config.DefaultQueries | config.py:54-64 | with the defaults the queries are the three default templates with the name substituted |
| Config.DefaultQueryTexts | config.py:54-64 | the three default queries spelled out: the quoted name followed by the words of each template |
| Config.DefaultQueryQuoted | config.py:54-64 | each default query contains the name between double quotes |
| Config.SearchPatternsAllFormat | config.py:61-63 | when every template formats, the queries are exactly the formatted templates, in order |
| Config.DefaultQueriesContainQuotedName | config.py:54-64 | every default query contains the name between double quotes |
| Config.DefaultProcessingConfig | config.py:82-96 | the default length windows are non-empty, the phrase window lies inside the quality window, and the display count stays within the phrase maximum |
| Config.Load | config.py:107-115 | the loaded configuration takes its API part from the environment and the default search templates |
| Interfaces.NewCharacterQuote | core/interfaces.py:37-43 | a new quote keeps its text and source, with confidence 0.5 and no source URL or context |
| Interfaces.QuoteDictRoundTrip | core/interfaces.py:45-55 | a quote can be read back unchanged from its dict |
| Interfaces.QuoteToDict | core/interfaces.py:45-55 | the dict has exactly the five quote keys and reads back as the same quote |
| Interfaces.QuotesRoundTrip | core/interfaces.py:85-86 | a whole quote list is read back unchanged from its list of dicts |
| Interfaces.SearchResultToDict | core/interfaces.py:71-87 | ten fixed keys, plus "character_quotes" exactly when there are quotes |
| Interfaces.NormalizeQuotes | core/interfaces.py:85-86 | the dict form identifies "no quotes" with "an empty quote list" and keeps everything else |
| Interfaces.SearchResultDictRoundTrip | core/interfaces.py:71-87 | reading the dict of a search result back gives the result again, up to an empty quote list; the quotes are mapped in order |
| Interfaces.CollectionToDict | core/interfaces.py:23-33 | the dict has exactly the seven keys of a collection result |
| Interfaces.CollectionDictRoundTrip | core/interfaces.py:23-33 | the seven keys carry the seven fields unchanged: reading the dict back gives the record |
| Interfaces.SourceName | core/interfaces.py:95 | the source name is never longer than the class name |
| Interfaces.SourceNameOf | core/interfaces.py:95 | a class named `<Base>Collector` has source name `base.lower()` |
| Interfaces.CollectorStems | core/interfaces.py:95 | the five collector classes have source names google, bing, duckduckgo, chatgpt and youtube |
| Interfaces.CreateErrorResult | core/interfaces.py:113-122 | not found, the given error, no results, total 0, the given query, the collector's source, no duration |
| Interfaces.CreateSuccessResult | core/interfaces.py:124-134 | found iff there are results; total is their number; no error; result i is the dict of hit i; the source is the collector's |
| Interfaces.ExtractBasicPatterns | core/interfaces.py:162-186 | nothing for empty text; otherwise at most three entries as a subsequence of (name mention, tone, speech), each present iff its keyword test holds |
| Interfaces.BasicPatternsShape | core/interfaces.py:162-186 | the result is a subsequence of the three entries in fixed order, each present iff its own test matched |
| Exceptions.Ancestors | core/exceptions.py:8-71 | the class, then each parent in turn, up to `CharacterPromptError` |
| Exceptions.HierarchyChains | core/exceptions.py:27-62 | every error class is a `CharacterPromptError`; RateLimitError ⊂ SearchEngineError ⊂ CollectorError ⊂ CharacterPromptError and OpenAIError ⊂ APIError ⊂ CharacterPromptError |
| Exceptions.ClassName | core/exceptions.py:20 | the `error_type` reported for a class is read back as that class |
| Exceptions.ClassNameIdentifies | core/exceptions.py:20 | the reported `error_type` identifies the concrete class |
| Exceptions.NewError | core/exceptions.py:11-15 | the message is kept; missing details become {}; the original error is kept as its text |
| Exceptions.NewRateLimitError | core/exceptions.py:45-47 | `retry_after` is kept besides the base fields |
| Exceptions.ErrorToDict | core/exceptions.py:17-24 | the dict has exactly the four reported keys |
| Exceptions.ErrorDictRoundTrip | core/exceptions.py:17-24 | `to_dict` reports everything except `retry_after`: reading it back gives the error with `retry_after` cleared |
| TextProcessor.CleanText | utils/text_processor.py:22-36 | "" for empty input; no line break and no double space; no leading space; at most `max_length` when that is positive; otherwise the whole collapsed text, of which it is always a prefix |
| TextProcessor.CleanTextKeepsText | utils/text_processor.py:27-30 | without a limit the output keeps exactly the non-whitespace characters of the input, in order |
| TextProcessor.CleanTextIdempotent | utils/text_processor.py:22-36 | cleaning a cleaned text changes nothing |
| TextProcessor.CleanTextLimit | utils/text_processor.py:32-34 | a limit only cuts the unlimited result short, and a limit of 0 or one at least as long changes nothing |
| TextProcessor.Collapse | utils/text_processor.py:27-30 | the collapsed text keeps exactly the non-whitespace characters and has no line break, double space or edge space |
| TextProcessor.BasicPatterns | utils/text_processor.py:39-63 | empty text gives no entry; otherwise the name entry is present iff the lower-cased name occurs in the lower-cased text, the tone entry iff 口調 or 語尾 occurs, the speech entry iff 一人称 or 話し方 occurs; the entries keep this order |
| TextProcessor.ChatAnswerPatterns | utils/text_processor.py:66-102 | nothing for empty text; at most 10 entries, each a parsed pronoun, ending, habit, quote or feature entry justified by the text, in that kind order |
| TextProcessor.ValidateUrl | utils/text_processor.py:121-135 | "" or an http(s) URL; "" exactly for empty input or an absolute path; a non-empty result ends with the input; an http(s) input is unchanged |
| TextProcessor.ValidateUrlIdempotent | utils/text_processor.py:121-135 | repairing a repaired URL changes nothing |
| TextProcessor.YoutubeUrlMarkerAt | utils/text_processor.py:138-140 | `is_youtube_url`: a URL is a YouTube URL exactly when the watch marker occurs at some position in it |
| TextProcessor.FilterUrls | utils/text_processor.py:145-153 | a subsequence of the repaired URLs, each non-empty and with no excluded domain; every such repaired URL is kept |
| TextProcessor.FilterValidUrls | utils/text_processor.py:142-153 | as `FilterUrls`, with a missing exclusion list read as empty |
| TextProcessor.EmptyDomainExcludesAll | utils/text_processor.py:150 | an empty string among the excluded domains excludes every URL |
| TextProcessor.ExtractDuckDuckGoUrl | utils/text_processor.py:108-119 | any URL that is not a redirect link is returned unchanged |
| TextProcessor.DuckDuckGoRoundTrip | utils/text_processor.py:112-116 | unwrapping a redirect whose `uddg` parameter is the percent-encoded UTF-8 of a target gives the target back, whatever parameters follow |
| Unquote.DecodeEncode | utils/text_processor.py:116 | UTF-8 decoding inverts UTF-8 encoding for every text |
| Unquote.PercentBytesEncode | utils/text_processor.py:116 | reading `%XX` escapes back gives the encoded bytes |
| Unquote.PercentEncode | utils/text_processor.py:116 | three ASCII characters per byte |
| Unquote.Unquote | utils/text_processor.py:116 | text without `%` is returned unchanged |
| Unquote.UnquoteQuote | utils/text_processor.py:116 | percent-encoding the UTF-8 bytes of any text and unquoting gives the text back |
| Unquote.UnquoteAscii | utils/text_processor.py:116 | unquoting an ASCII text that starts with `%` decodes its escaped bytes as UTF-8 |
| HttpClient.ValidateUrl | utils/http_client.py:113-134 | "" for empty input; http(s) unchanged; `//x` gets `https:`; `/x` gives ""; anything else gets `https://` |
| HttpClient.ValidateUrlAgrees | utils/http_client.py:113-134 | the module-level copy agrees with `URLProcessor.validate_url` on every input |
| CollectorFactory.EngineFromValue | core/collector_factory.py:13-19 | a value is accepted only if it is the value of the member returned |
| CollectorFactory.EngineValueRoundTrip | core/collector_factory.py:13-19 | each member is found again from its value, so the four values are distinct |
| CollectorFactory.DetermineBestSearchEngine | core/collector_factory.py:89-117 | ChatGPT iff its flag is set or no flag is; Bing, DuckDuckGo and Google each iff its flag is set and no earlier one is |
| CollectorFactory.CreateSearchEngineCollector | core/collector_factory.py:25-75 | refused with a ConfigurationError exactly for ChatGPT without a key; otherwise the engine's own class; Google gets the search delay and the Google credentials, the others the common delay |
| CollectorFactory.DispatchDistinct | core/collector_factory.py:41-71 | two built collectors have the same class iff they were asked for the same engine |
| Speech.LabelMatches | utils/text_processor.py:75-85 | every capture of `LABEL[：:]…` is non-empty, inside the value class and occurs in the text; none without the label |
| Speech.LabelScan | utils/text_processor.py:75-85 | every capture from a position on is non-empty, inside the value class and occurs in the text; none unless the label occurs |
| Speech.LabelAt | utils/text_processor.py:75-85 | a match at a position needs the label and a colon there; its capture is the maximal run of value characters from where the value starts, so it stops only at a non-value character or the end of the text |
| Speech.LabelAtNoneComplete | utils/text_processor.py:75-85 | when the label and colon occur but nothing matches, no value start exists and no amount of giving back the spaces (with or without an opening quote) reaches a value character: the pattern really fails there |
| Speech.LabelScanEmptyNoMatch | utils/text_processor.py:75-85 | an empty scan from a position means the pattern matches at no later position |
| Speech.LabelScanNonEmptyMatch | utils/text_processor.py:75-85 | a non-empty scan from a position means the pattern matches at some later position |
| Speech.LabelScanEmpty | utils/text_processor.py:75-85 | the scan finds nothing exactly when the pattern matches at no position: `re.findall` misses no match |
| Speech.LabelScanLeftmost | utils/text_processor.py:75-85 | the first capture comes from the leftmost matching position, and the scan resumes after that match's end |
| Speech.LabelLeading | utils/text_processor.py:75-85 | for the label, a full-width colon and a non-empty value run that starts with neither a space nor a quote, the first capture is that whole value, up to the first non-value character or the end |
| Speech.LabelEntriesComplete | utils/text_processor.py:75-85 | every capture after a label, stripped, is an entry of that label's kind |
| Speech.AnswerEntriesLabelled | utils/text_processor.py:74-85 | every capture after 一人称, 語尾 and 口癖, stripped, is among the answer's entries with its kind |
| Speech.QuoteMatches | utils/text_processor.py:90 | every quoted span is non-empty, free of closing quotes, and occurs in the text |
| Speech.NoOpenNoQuotes | utils/text_processor.py:90 | a text without an opening quote has no quoted span |
| Speech.LeadingQuote | utils/text_processor.py:90 | a closed quote at the very start is the first span found, and scanning resumes right after it |
| Speech.ParseRender | utils/text_processor.py:77-97 | every reported line parses back to the entry it was rendered from |
| Speech.QuoteEntries | utils/text_processor.py:91-93 | exactly the spans among the first `maxQuotes` that are longer than the minimum and do not contain the name (case-insensitively) |
| Speech.AnswerEntries | utils/text_processor.py:74-97 | entries ordered by kind, each justified by the text; the feature entry iff the text mentions 特徴 or 表現; every kept quote appears |
| Speech.AnswerPatterns | utils/text_processor.py:66-102 | nothing for empty text; at most `maxPatterns` lines, each parsing to a justified entry, in kind order; the feature line only if the text mentions it |
| Speech.AnswerPatternsComplete | utils/text_processor.py:66-102 | below the cap nothing is lost: every kept quote and the feature entry are reported |
| Speech.AnswerPatternsHasEntry | utils/text_processor.py:66-102 | below the cap every entry of the answer is reported, rendered |
| Speech.AnswerPatternsLabelsComplete | utils/text_processor.py:74-102 | below the cap every capture after 一人称, 語尾 and 口癖 is reported as `一人称: `, `語尾: ` or `口癖: ` followed by the stripped capture |
| Speech.EmptyNameDropsQuotes | utils/text_processor.py:92 | with an empty name every quoted span is dropped, since "" occurs in every text |
| Speech.ColonLineOf | utils/api_client.py:187-190 | a line counts iff stripped it is non-empty and contains ':'; it is kept stripped |
| Speech.ColonLinesOf | utils/api_client.py:187-190 | exactly the stripped, non-empty lines containing ':', each from some line of the answer |
| Speech.ColonLines | utils/api_client.py:186-192 | at most 10 stripped colon lines without line feeds; below the cap every such line of the answer is present |
| Speech.KeywordOf | collectors/chatgpt_collector.py:349-352 | a line yields a keyword only if it contains キーワード and ':'; the keyword is non-empty, not `[説明]`, and has no ':' |
| Speech.AnswerKeywords | collectors/chatgpt_collector.py:347-354 | at most `maxKeywords` keywords, each from a line of the answer; below the cap every usable keyword line contributes |
| WebSearch.RepairUrl | collectors/google_collector.py:142-149 | rejected exactly for an absolute path; otherwise an http(s) URL ending with the input; an http(s) input is kept |
| WebSearch.RepairAgreesWithValidateUrl | collectors/google_collector.py:142-149 | the collectors' repair is `validate_url` with "" read as rejected, except that "" itself becomes `https://` |
| WebSearch.RepairIdempotent | collectors/google_collector.py:142-149 | a repaired URL is left alone by a second repair |
| WebSearch.SpeechPatterns | collectors/google_collector.py:276-360 | nothing for empty text or no key, or when the LLM call raises; otherwise the colon lines of the answer to the first 2000 characters, at most 10 |
| WebSearch.PageContent | collectors/google_collector.py:170-178 | the collapsed body text cut to the page limit, with no line break or double space |
| WebSearch.ExtractPageContent | collectors/google_collector.py:131-204 | None exactly when the URL is rejected or the fetch fails; otherwise the repaired URL, the stripped title or 不明, content within the limit with its length recorded, and speech patterns only with a key and more than 50 stripped characters |
| WebSearch.PerPattern | collectors/google_collector.py:62 | `max(1, n // k)`: raises iff there are no patterns, at least 1, and exactly 1 when n < 2k |
| WebSearch.Flatten | collectors/google_collector.py:64-67 | every collected result comes from some query, and every result of every query is collected |
| WebSearch.FlattenBound | collectors/google_collector.py:62-67 | with at most k results per query, the whole run has at most (number of queries)·k |
| WebSearch.Succeeded | collectors/google_collector.py:72-78 | found iff total > 0, the total is the number of results, no error |
| WebSearch.Failed | collectors/google_collector.py:80-87 | not found, no results, total 0, the prefixed error text |
| WebSearch.WatchUrls | collectors/google_collector.py:239-242 | reference: the distinct watch URLs among the hits, each one kept |
| WebSearch.WatchUrlsPrefix | collectors/google_collector.py:239-246 | fewer hits give a prefix of the watch URLs |
| WebSearch.GatheredIsTake | collectors/google_collector.py:239-246 | stopping when the list is full or the hits run out leaves the first `maxUrls` distinct watch URLs |
| WebSearch.TakenWatchUrls | collectors/google_collector.py:239-246 | those URLs are distinct watch URLs, each from the hits |
| WebSearch.GatherWatchUrls | collectors/google_collector.py:239-246 | the loop keeps exactly the first `maxUrls` distinct watch URLs of the reference |
| WebSearch.SearchYouTubeVideos | collectors/google_collector.py:206-261 | no query for a name of two characters or fewer; otherwise the first `maxUrls` distinct watch URLs of the one query's hits |
| GoogleCollector.Queries | collectors/google_collector.py:49-60 | ten queries, each the quoted name followed by its fixed suffix |
| GoogleCollector.QueriesQuoteName | collectors/google_collector.py:49-60 | every query contains the name in double quotes |
| GoogleCollector.QueriesDistinct | collectors/google_collector.py:49-60 | the ten queries are ten different searches |
| GoogleCollector.SuffixesDistinct | collectors/google_collector.py:49-60 | the ten query suffixes are pairwise different |
| GoogleCollector.TakenUrls | collectors/google_collector.py:104-109 | a prefix of the hits, at most the bound when the bound is ≥ 1, and one hit even for a bound below one |
| GoogleCollector.Pages | collectors/google_collector.py:104-129 | at most one record per URL, each a readable page of one of them with an http(s) URL and its content length within the limit |
| GoogleCollector.SearchSinglePattern | collectors/google_collector.py:89-129 | nothing if the search raises; at most the bound; each record a readable page of a taken hit with a repaired URL and recorded length |
| GoogleCollector.CollectInfo | collectors/google_collector.py:34-87 | found iff there are results; total = their number; no error; the fixed query label; at most 10·`max(1, n // 10)` results, each from some query |
| BingCollector.RequestCount | collectors/bing_collector.py:159 | `min(max_results, 50)` |
| BingCollector.FirstNonEmpty | collectors/bing_collector.py:169-180 | the elements of the first selector that matched anything, and nothing iff no selector matched |
| BingCollector.HitOf | collectors/bing_collector.py:185-207 | a hit needs a title link with a title and a usable href; `/...` is made absolute on www.bing.com, other non-http hrefs are dropped; title and description are kept |
| BingCollector.HitsOf | collectors/bing_collector.py:182-207 | exactly the hits of the elements, in order |
| BingCollector.UsedElements | collectors/bing_collector.py:162-182 | nothing when the request raises; otherwise at most `max_results` elements of the first matching selector |
| BingCollector.PerformBingSearch | collectors/bing_collector.py:140-216 | at most `max_results` hits with http(s) URLs and titles, every hit of the used elements included; it never raises |
| BingCollector.Attempts | collectors/bing_collector.py:91-136 | 1 to 3 attempts; each failure before the last is rate-limited and followed by a wait of 30·(retry+1) s; the results are those of the last attempt, or nothing if it raised |
| BingCollector.AlwaysRateLimited | collectors/bing_collector.py:91-136 | constant rate limiting costs three attempts with waits of 30 and 60 s and yields nothing |
| BingCollector.NoRetryWithoutRaise | collectors/bing_collector.py:117-118 | an attempt that returns is made once, without waiting |
| BingCollector.PageOfHit | collectors/bing_collector.py:103-108 | the page record takes the hit's own title and description and exists iff the page could be read |
| BingCollector.SearchSinglePattern | collectors/bing_collector.py:76-138 | since the search never raises, there is always exactly one attempt and no wait; at most the bound; each record from a hit |
| BingCollector.CollectInfo | collectors/bing_collector.py:30-74 | found iff there are results; an error exactly when the patterns cannot be built or are empty; without an error, every result comes from the search of some formatted pattern and every result of every pattern's search is kept |
| BingCollector.UrlsOf | collectors/bing_collector.py:299-352 | the URLs of the hits, in order |
| BingCollector.HitPages | collectors/bing_collector.py:97-114 | at most one page per hit, each with an http(s) URL and a title, carrying its hit's URL, title and snippet |
| BingCollector.SearchYouTubeVideos | collectors/bing_collector.py:299-352 | short names and non-positive caps give nothing; distinct watch URLs from the Bing hits, at most the cap |
| DuckDuckGoCollector.WithHref | collectors/duckduckgo_collector.py:293 | exactly the anchors with an href, in order |
| DuckDuckGoCollector.Accepted | collectors/duckduckgo_collector.py:296-319 | at most `cap` records, each of an accepted anchor; below the cap every accepted anchor contributes |
| DuckDuckGoCollector.Fallback | collectors/duckduckgo_collector.py:291-319 | at most 5 records from the first 20 anchors with an href; each URL starts with http, lacks duckduckgo, and has a title longer than 5 |
| DuckDuckGoCollector.ParseLite | collectors/duckduckgo_collector.py:330-364 | at most 10 records, each from an http link with a title longer than 5; below the cap every such link contributes |
| DuckDuckGoCollector.ParseSimple | collectors/duckduckgo_collector.py:366-404 | at most 5 records, each from a link whose title is longer than 10 and names the character case-insensitively and whose href lacks duckduckgo |
| DuckDuckGoCollector.ContainerRecord | collectors/duckduckgo_collector.py:248-286 | a record iff the container has a titled link whose unwrapped URL is non-empty; the snippet is description and content; basic patterns of description and title |
| DuckDuckGoCollector.SetRecords | collectors/duckduckgo_collector.py:248 | at most 10 records, each from a container of the set |
| DuckDuckGoCollector.FirstSelector | collectors/duckduckgo_collector.py:242-288 | nothing iff no selector set yields a record; every record has a title, a URL and its content length |
| DuckDuckGoCollector.FirstSelectorWins | collectors/duckduckgo_collector.py:242-288 | the first selector set that yields records is the one whose records are returned |
| DuckDuckGoCollector.ParseHtml | collectors/duckduckgo_collector.py:216-328 | the first productive selector set, otherwise the fallback over plain links; every record titled, with a URL and its content length |
| DuckDuckGoCollector.TrySearch | collectors/duckduckgo_collector.py:139-214 | raises iff the request raises; any status but 200 (202 included) gives nothing; 200 gives the endpoint's parse |
| DuckDuckGoCollector.FirstProductive | collectors/duckduckgo_collector.py:110-127 | the first attempt that returned something non-empty, and nothing iff none did |
| DuckDuckGoCollector.FirstOfThree | collectors/duckduckgo_collector.py:110-127 | with three attempts: the first if productive, else the second if productive, else the third's or nothing |
| DuckDuckGoCollector.SearchPattern | collectors/duckduckgo_collector.py:92-137 | HTML, then Lite, then Simple; the first non-empty result wins and a raising endpoint is skipped |
| DuckDuckGoCollector.CollectInfo | collectors/duckduckgo_collector.py:42-90 | found iff there are results; total = their number; an error exactly when the patterns cannot be built; at most 10 records per pattern |
| DuckDuckGoCollector.ContentLengths | collectors/duckduckgo_collector.py:92-137 | every record any endpoint produces reports its content's length |
| ChatGPTCollector.NameOfUrl | collectors/chatgpt_collector.py:193 | a name read from a URL rebuilds that URL |
| ChatGPTCollector.KnowledgeUrlRoundTrip | collectors/chatgpt_collector.py:193 | `chatgpt://knowledge-base/<name>` gives back the name |
| ChatGPTCollector.ResultPatterns | collectors/chatgpt_collector.py:214-262 | nothing for empty text; at most CHATGPT_MAX_PATTERNS justified entries in kind order |
| ChatGPTCollector.SearchWithChatGPT | collectors/chatgpt_collector.py:104-212 | None iff the LLM call raises; otherwise the fixed pseudo-page of the answer with its length and patterns, source chatgpt |
| ChatGPTCollector.Answers | collectors/chatgpt_collector.py:55-73 | at most one answer per query, in query order; nothing iff every query fails; every answered query contributes |
| ChatGPTCollector.AnswersAppend | collectors/chatgpt_collector.py:55-73 | asking two batches gives the answers of the first followed by those of the second |
| ChatGPTCollector.AnswersShape | collectors/chatgpt_collector.py:79-97 | every kept record has the collector's fixed shape |
| ChatGPTCollector.Collected | collectors/chatgpt_collector.py:52-99 | the success record: no error, one result per answer in query order, found iff some query was answered |
| ChatGPTCollector.CollectInfo | collectors/chatgpt_collector.py:33-102 | without a key, the fixed error record; a failure to build the queries gives the outer error record; otherwise the success record of the answers |
| ChatGPTCollector.YouTubeKeywords | collectors/chatgpt_collector.py:305-358 | nothing when the call raises; at most CHATGPT_MAX_KEYWORDS parsed keywords |
| ChatGPTCollector.SearchYouTubeVideos | collectors/chatgpt_collector.py:264-303 | never a URL; without a key no keyword; otherwise at most CHATGPT_TOP_KEYWORDS keywords shown, a prefix of those parsed |
| YouTubeCollector.IdFrom | collectors/youtube_collector.py:121-129 | the maximal run of id characters from the start position |
| YouTubeCollector.DirectScanFound | collectors/youtube_collector.py:121-129 | a marker ending before an id character is found: the scan gives the id start after the leftmost marker |
| YouTubeCollector.DirectScanNone | collectors/youtube_collector.py:121-129 | the scan finds nothing exactly when no marker followed by an id character occurs |
| YouTubeCollector.QueryScan | collectors/youtube_collector.py:124-129 | the start of the id after the last `v=` of the leftmost `youtube.com/watch?` match |
| YouTubeCollector.ExtractVideoId | collectors/youtube_collector.py:111-135 | any id found is non-empty, made of id characters and occurs in the URL |
| YouTubeCollector.ExtractVideoIdNone | collectors/youtube_collector.py:111-135 | no id exactly when neither pattern matches |
| YouTubeCollector.ExtractVideoIdDirect | collectors/youtube_collector.py:111-135 | when the first pattern matches, its id is the one returned |
| YouTubeCollector.WatchUrlId | collectors/youtube_collector.py:121-129 | `https://www.youtube.com/watch?v=<id>` gives `<id>` |
| YouTubeCollector.WatchUrlRecognised | utils/text_processor.py:138-140 | every `https://www.youtube.com/watch?v=<id>` is recognised as a YouTube URL |
| YouTubeCollector.ShortUrlId | collectors/youtube_collector.py:121-129 | `https://youtu.be/<id>` gives `<id>` |
| YouTubeCollector.MarkedUrlId | collectors/youtube_collector.py:121-129 | a prefix without 'y', a marker and an id give that id |
| YouTubeCollector.CloseBracket | collectors/youtube_collector.py:231 | the lazy `.*?\]` stops at the first `]` and cannot cross a line feed |
| YouTubeCollector.RemoveBrackets | collectors/youtube_collector.py:231 | the result is never longer than the input, and text without `[` is unchanged |
| YouTubeCollector.DropsBracketed | collectors/youtube_collector.py:231 | a bracketed noise marker at the front disappears together with its brackets |
| YouTubeCollector.Dedup | collectors/youtube_collector.py:250-257 | a subsequence with distinct normal forms, each new and longer than the minimum; every eligible sentence's normal form is represented |
| YouTubeCollector.UniquePhrases | collectors/youtube_collector.py:225-257 | nothing for empty text; distinct phrases with distinct normal forms, each a kept sentence; every kept sentence's normal form is represented |
| YouTubeCollector.UniquePhraseKept | collectors/youtube_collector.py:238-247 | every unique phrase is a stripped sentence that passes the length and noise filter |
| YouTubeCollector.ExtractSamplePhrases | collectors/youtube_collector.py:213-267 | at most `max_phrases` unique phrases with distinct normal forms; all of them when there are few enough, exactly `max_phrases` otherwise; nothing for a negative count |
| YouTubeCollector.Sample | collectors/youtube_collector.py:260-261 | `random.sample`: k distinct elements of the list |
| YouTubeCollector.SampleNormsDistinct | collectors/youtube_collector.py:260-261 | a sample of phrases with distinct normal forms keeps them distinct |
| YouTubeCollector.CheckSampleQuality | collectors/youtube_collector.py:269-304 | an order-preserving subsequence of the stripped phrases: exactly those passing every test |
| YouTubeCollector.CheckSampleQualityIdempotent | collectors/youtube_collector.py:269-304 | checking twice changes nothing |
| YouTubeCollector.Contribution | collectors/youtube_collector.py:55-70 | at most one transcript per URL, and only a found transcript of a URL with an id |
| YouTubeCollector.GatheredPrefix | collectors/youtube_collector.py:53-74 | fewer URLs give a prefix of the transcripts |
| YouTubeCollector.Gathered | collectors/youtube_collector.py:55-70 | reference: at most one transcript per URL, every one found |
| YouTubeCollector.GatheredNext | collectors/youtube_collector.py:55-70 | one more URL extends the reference by that URL's contribution |
| YouTubeCollector.FetchedPrefix | collectors/youtube_collector.py:53-74 | stopping at the cap leaves the first `maxTranscripts` transcripts of the window |
| YouTubeCollector.FetchTranscripts | collectors/youtube_collector.py:53-74 | a prefix of all transcripts of the window: the first `maxTranscripts` of them |
| YouTubeCollector.CollectInfo | collectors/youtube_collector.py:27-109 | no URLs give the fixed error record; found iff some transcript; totals equal the number of transcripts; at most the first `maxTranscripts` of the first `max_videos` URLs; every sample phrase is a unique phrase of the transcripts' texts that passes the quality check, at most `samplePhrasesMax` of them; when there are no more unique phrases than that, every unique phrase that passes the check is a sample phrase |
| YouTubeCollector.UniquePhrasesStripped | collectors/youtube_collector.py:238-247 | every unique phrase is already stripped |
| YouTubeCollector.CheckedWithin | collectors/youtube_collector.py:269-304 | checking phrases drawn from a set of stripped phrases keeps only members of that set |
| YouTubeCollector.CheckedComplete | collectors/youtube_collector.py:269-304 | checking stripped phrases keeps every one that passes the tests |
| YouTubeCollector.ResponseLines | collectors/youtube_collector.py:376-377 | the stripped non-empty lines of the answer, without line feeds; every such line is present |
| YouTubeCollector.SubtitleText | collectors/youtube_collector.py:322-328 | the space-joined subtitles cut to the limit, a prefix of the whole |
| YouTubeCollector.FilterCharacterSpeech | collectors/youtube_collector.py:306-402 | without a key the sample phrases; with one, at most 10 answer lines, or the sample phrases again when the call fails |
| CharacterInfoService.WikipediaFailure | core/character_info_service.py:139-150 | the fixed Wikipedia failure record: not found, the error, null title, summary, content and URL, no categories |
| CharacterInfoService.WebFailure | core/character_info_service.py:219-227 | the fixed web failure record: not found, the error, no results, total 0 |
| CharacterInfoService.YouTubeFailure | core/character_info_service.py:291-304 | the fixed YouTube failure record: not found, the error, no transcripts, no videos, no phrases |
| CharacterInfoService.YouTubeSkipped | core/character_info_service.py:88-96 | the fixed skip record with `skipped` true |
| CharacterInfoService.UnwrapAsWritten | core/character_info_service.py:119-127 | as written: a plain dict result raises when a logger is attached and is returned otherwise; a record gives its dict |
| CharacterInfoService.Unwrap | core/character_info_service.py:124-127 | intended: the dict form of the result, whether or not a logger is attached |
| CharacterInfoService.UnwrapAgreesWithoutLogger | core/character_info_service.py:119-127 | without a logger, or for records, the written code is the intended one |
| CharacterInfoService.WikipediaInfoAsWritten | core/character_info_service.py:100-150 | a raising collector gives the Wikipedia failure record |
| CharacterInfoService.WikipediaFoundLostWhenLogged | core/character_info_service.py:119-120 | with a logger, a found article returned as a dict is replaced by the failure record; the corrected branch keeps it |
| CharacterInfoService.WikipediaInfo | core/character_info_service.py:100-150 | the collector's dict, or the failure record when it raises |
| CharacterInfoService.WebSearchInfoAsWritten | core/character_info_service.py:152-227 | as written: a refusal or a raise gives the web failure record, and so does a plain dict result when a logger is attached |
| CharacterInfoService.WebSearchAgreesWithoutLogger | core/character_info_service.py:198-205 | without a logger, or when the collector returns a record, the written web branch is the corrected one |
| CharacterInfoService.WebFoundLostWhenLogged | core/character_info_service.py:198-200 | with a logger, a found Google, Bing or DuckDuckGo dict is replaced by the web failure record; the corrected branch keeps it |
| CharacterInfoService.WebSearchInfo | core/character_info_service.py:152-227 | corrected: the engine chosen from the flags is built and asked; a refusal or a raise gives the web failure record; a result is returned in dict form whether or not a logger is attached |
| CharacterInfoService.ChatGPTWithoutKeyFails | core/character_info_service.py:163-227 | ChatGPT search without a key ends in the web failure record |
| CharacterInfoService.YouTubeUrlSource | core/character_info_service.py:306-348 | ChatGPT asks Google if both Google keys are set, else Bing; Bing asks Bing; DuckDuckGo and "no web search" ask nobody; Google asks Google |
| CharacterInfoService.YouTubeSourceFollowsWebEngine | core/character_info_service.py:306-348 | the video search follows the web engine, except that ChatGPT delegates and DuckDuckGo skips; it never asks DuckDuckGo or ChatGPT |
| CharacterInfoService.YouTubeUrls | core/character_info_service.py:306-348 | nothing when no engine is chosen or the search raises; otherwise the chosen engine's URLs |
| CharacterInfoService.YouTubeInfo | core/character_info_service.py:229-304 | the YouTube collector's record, or the failure record with the message when it raises |
| CharacterInfoService.CollectCharacterInfo | core/character_info_service.py:27-98 | always exactly the four keys, the name as given; Wikipedia, then web search, then YouTube only when enabled |
| CharacterInfoService.CollectedFields | core/character_info_service.py:27-98 | each branch's result under its own key; the YouTube skip record when YouTube is disabled |
| ApiClient.Preview | utils/api_client.py:73-74 | a text within the limit is kept; a longer one is cut to the limit and followed by "..." |
| ApiClient.PreviewBound | utils/api_client.py:73-74 | a preview is at most the limit plus three characters and starts like the text |
| ApiClient.ModelOr | utils/api_client.py:51 | a missing or empty model takes the default |
| ApiClient.TokensOr | utils/api_client.py:53 | a missing or zero token count takes the default |
| ApiClient.TemperatureOr | utils/api_client.py:54 | a missing or zero temperature takes the default |
| ApiClient.LogOf | utils/api_client.py:70-75 | the model, the message count, and previews of the first message and, when there are at least two, the last one |
| ApiClient.FailureOf | utils/api_client.py:100-104 | an OpenAIError whose message carries the failure prefix, with `api_type` and the duration in its details |
| ApiClient.ChatCompletion | utils/api_client.py:24-104 | the request uses the defaulted arguments; success gives the stripped answer and the log previews; failure gives the mapped error |
| ApiClient.ContextLine | utils/api_client.py:134 | the name, or 不明 when it is empty |
| ApiClient.ExtractSpeechPatterns | utils/api_client.py:106-201 | nothing for empty text or a failed call; otherwise at most 10 colon lines of the answer to the text cut to the limit |
| ApiClient.ExtractTruncated | utils/api_client.py:128-129 | cutting the text to the limit beforehand changes nothing |
| ApiClient.SearchCharacterInfo | utils/api_client.py:203-276 | None iff the call fails; otherwise the stripped answer, empty only for an all-whitespace answer |
| PromptGenerator.WikiKeys | generators/prompt_generator.py:115-119 | the title entry when there is a title, then the category entry iff there are categories |
| PromptGenerator.RelatedEntry | generators/prompt_generator.py:129-130 | an entry iff the title is non-empty, at most 100 title characters after the prefix |
| PromptGenerator.HitPatterns | generators/prompt_generator.py:133-134 | exactly the patterns of the hits |
| PromptGenerator.ReadHits | generators/prompt_generator.py:123-128 | the first MAX_KEY_INFORMATION results of a found web section with results, otherwise none |
| PromptGenerator.KeyInformation | generators/prompt_generator.py:110-130 | the Wikipedia entries first, then related-title entries of the hits read; at most 2 + MAX_KEY_INFORMATION |
| PromptGenerator.WebPatterns | generators/prompt_generator.py:122-137 | present iff the web section was found with results; at most 10, a prefix of the read hits' patterns |
| PromptGenerator.Organize | generators/prompt_generator.py:88-145 | the name or 不明; Wikipedia found and summary only for a found article; the web count, key information and patterns; sample phrases only when YouTube found |
| PromptGenerator.OrganizeDefaults | generators/prompt_generator.py:98-106 | with every section missing only the defaults remain |
| PromptGenerator.NonBlankLines | generators/prompt_generator.py:206-226 | the rendered lines of the items that are not blank after stripping, and every such item |
| PromptGenerator.WikiSection | generators/prompt_generator.py:191-197 | present iff Wikipedia was found, with the summary cut to the limit plus "..." |
| PromptGenerator.KeySection | generators/prompt_generator.py:199-204 | present iff there is key information; min(count, MAX_KEY_INFORMATION) list items |
| PromptGenerator.WebSection | generators/prompt_generator.py:206-215 | present iff there are web patterns; every non-blank one as a list item |
| PromptGenerator.SampleSection | generators/prompt_generator.py:217-226 | present iff YouTube was found with phrases; at most MAX_SAMPLE_PHRASES_DISPLAY non-blank phrases in corner brackets |
| PromptGenerator.SampleLines | generators/prompt_generator.py:220-224 | at most `shown` lines, each a non-blank phrase among the first `shown`, in corner brackets |
| PromptGenerator.BuildUserPrompt | generators/prompt_generator.py:180-259 | starts with the request naming the character and ends with the fixed closing line |
| PromptGenerator.SectionLinesShowData | generators/prompt_generator.py:191-226 | the section lines hold the cut Wikipedia summary with "..." for a found article, each of the first MAX_KEY_INFORMATION key facts as a list item, every non-blank web pattern as a list item and every shown sample phrase in corner brackets |
| PromptGenerator.UserPromptHasSectionLines | generators/prompt_generator.py:191-259 | every line of every present section occurs in the joined user prompt |
| PromptGenerator.UserPromptShowsSections | generators/prompt_generator.py:180-259 | the user prompt contains the cut Wikipedia summary of a found article, each of the first MAX_KEY_INFORMATION key facts, every non-blank web pattern and every shown sample phrase, each in its list form |
| PromptGenerator.InfoSources | generators/prompt_generator.py:339-345 | Wikipedia iff found, YouTube動画 iff found, and some source iff any section contributed |
| PromptGenerator.SourcesLine | generators/prompt_generator.py:347-348 | one acknowledgement line iff any source is acknowledged |
| PromptGenerator.FallbackWebSection | generators/prompt_generator.py:295-303 | present iff there are web patterns; the non-blank ones among the first five |
| PromptGenerator.FallbackSampleSection | generators/prompt_generator.py:306-314 | present iff YouTube was found with phrases; the non-blank ones among the first five |
| PromptGenerator.FallbackWikiSection | generators/prompt_generator.py:287-292 | present iff Wikipedia was found, with the summary cut to the fallback limit |
| PromptGenerator.GenerateFallbackPrompt | generators/prompt_generator.py:261-353 | starts with the fixed role-play line and ends with the notice that the API was unavailable |
| PromptGenerator.Respond | generators/prompt_generator.py:28-86 | falls back exactly when the LLM call raises: then the fallback prompt, marked as used, with the error message; otherwise the stripped answer, recorded with the user prompt and as the response; the character name either way |
| PromptGenerator.GenerateVoicePrompt | generators/prompt_generator.py:28-86 | a fallback exchange carries the fallback prompt of the same information; the character name, or "unknown", either way |
| PromptGenerator.GenerateVoicePromptAnswer | generators/prompt_generator.py:38-86 | the call falls back exactly when the model call on the built user prompt raises; otherwise the prompt is that call's stripped answer |
| PromptGenerator.FailedCallFallsBack | generators/prompt_generator.py:74-86 | a failed call still yields a prompt with the fallback's first line and notice |
| ExecutionLogger.NewLog | utils/execution_logger.py:33-42 | a fresh log has empty lists and metrics, and no name, result or end |
| ExecutionLogger.SetCharacterName | utils/execution_logger.py:44-46 | only the name changes |
| ExecutionLogger.LogStep | utils/execution_logger.py:48-69 | one step appended with its name and status (missing details become {}); everything else unchanged |
| ExecutionLogger.CallStatus | utils/execution_logger.py:89-90 | "error" iff an error text is given and non-empty, else "success" |
| ExecutionLogger.LogApiCall | utils/execution_logger.py:71-96 | one call appended with its type, error and status; everything else unchanged |
| ExecutionLogger.LogError | utils/execution_logger.py:98-117 | one error appended with its type and message; everything else unchanged |
| ExecutionLogger.LogPerformanceMetric | utils/execution_logger.py:119-135 | the named metric is (over)written; every other metric is kept; only that key can be new |
| ExecutionLogger.SetFinalResult | utils/execution_logger.py:137-148 | the result and the session end are recorded; nothing else changes |
| ExecutionLogger.GetSummary | utils/execution_logger.py:174-198 | counts equal the list lengths; successful ≤ total, counted by status; a duration iff the session has ended |
| ExecutionLogger.StepCounted | utils/execution_logger.py:66 | a logged step adds one to the step count, and one to the successful count iff it succeeded |
| ExecutionLogger.ApiCallCounted | utils/execution_logger.py:89-93 | a logged call adds one to the call count, and one to the successful count iff no error was given |
| ExecutionLogger.DurationAfterFinalResult | utils/execution_logger.py:145 | the summary has a duration exactly after `set_final_result` |
| ExecutionLogger.Upsert | utils/execution_logger.py:280-292 | an existing key keeps its place; a new key goes at the end |
| ExecutionLogger.UpsertSum | utils/execution_logger.py:288-292 | bumping one counter by one raises the total by one |
| ExecutionLogger.ByApiType | utils/execution_logger.py:278-292 | one entry per API type that occurs, with no type twice; the counts of each type are given by `ByApiTypeLookup` |
| ExecutionLogger.Lookup | utils/execution_logger.py:280-292 | `d.get(k, default)`: the default for a missing key, otherwise the value paired with the key |
| ExecutionLogger.UpsertLookup | utils/execution_logger.py:280-292 | after `d[k] = f(d.get(k, init))`, key `k` holds `f` of its old value (or of `init`) and every other key reads as before |
| ExecutionLogger.StatsStep | utils/execution_logger.py:288-292 | counting one more call changes only its own type's entry: total plus one, and successful or failed plus one by its status |
| ExecutionLogger.ByApiTypeLookup | utils/execution_logger.py:278-292 | the entry of every type `t` is (number of calls of type `t`, those with status "success", the rest of that type); a type that never occurs reads as zeros |
| ExecutionLogger.BumpedBalanced | utils/execution_logger.py:288-292 | counting one more call keeps successful + failed = total for every type |
| ExecutionLogger.ByApiTypeCounts | utils/execution_logger.py:278-292 | the per-type totals add up to the number of calls, and each type is balanced |
| ExecutionLogger.AnalyzeApiPerformance | utils/execution_logger.py:253-302 | the total is the number of calls, `successful_calls` the number with status "success", `failed_calls` the number with status "error"; the per-type table sums to the total, with each type balanced and distinct |
| ExecutionLogger.AnalysisPerType | utils/execution_logger.py:278-292 | the analysis's entry for each type counts exactly that type's calls, its successes, and the rest as failures |
| ExecutionLogger.RecordedCallsBalance | utils/execution_logger.py:270-272 | for calls the logger recorded, successes and failures add up to the total |
| ExecutionLogger.ErrorTypeCounts | utils/execution_logger.py:422-425 | one entry per error type that occurs, a missing type counted as "unknown"; each type's count is given by `ErrorTypeCountsLookup` |
| ExecutionLogger.ErrorTypeCountsLookup | utils/execution_logger.py:422-425 | the tally of every type `t` is the number of errors whose type, or "unknown" when missing, is `t` |
| ExecutionLogger.ErrorTypeCountsSum | utils/execution_logger.py:422-425 | the tally adds up to the number of errors |
| ConsoleDisplay.NewDisplay | utils/console_display.py:24-36 | four rows: three waiting, the overall row initialising |
| ConsoleDisplay.Start | utils/console_display.py:38-43 | the name is set and the overall row says 情報収集中; other rows unchanged |
| ConsoleDisplay.UpdateStatus | utils/console_display.py:82-90 | an unknown component changes nothing; the status is always replaced, progress and time only by non-empty texts; other rows and the name unchanged; the name entry raises |
| ConsoleDisplay.UpdateStatusIdempotent | utils/console_display.py:82-90 | repeating an update changes nothing more |
| ConsoleDisplay.StatusIcon | utils/console_display.py:145-156 | the icon of a known status, ❓ for any other |
| ConsoleDisplay.StatusIconIdentifies | utils/console_display.py:145-156 | the seven known statuses have seven different icons, none of them ❓ |
| ConsoleDisplay.Pad2 | utils/console_display.py:179 | `{n:02d}`: at least two characters; digits with value n for n ≥ 0, exactly two below 100; a sign for n < 0 |
| ConsoleDisplay.FormatTime | utils/console_display.py:175-179 | at least `MM:SS`; the seconds are two digits below 60; exactly five characters below 100 minutes |
| ConsoleDisplay.FormatTimeRoundTrip | utils/console_display.py:175-179 | for s ≥ 0, minutes·60 + seconds read back from the text give s |
| ConsoleDisplay.StartComponent | utils/console_display.py:189-192 | the row goes to 実行中 and keeps its progress and time |
| ConsoleDisplay.ProgressTextRoundTrip | utils/console_display.py:196 | "current/total" splits at its slash into the two numbers again |
| ConsoleDisplay.UpdateProgress | utils/console_display.py:194-198 | the progress becomes "current/total"; 処理中 iff a detail is given, which becomes the time, else 実行中 |
| ConsoleDisplay.CompletionStatus | utils/console_display.py:202-207 | 完了 iff success; エラー iff failure with a message; スキップ iff failure without |
| ConsoleDisplay.CompleteComponent | utils/console_display.py:200-210 | the row gets the completion status and the time; its progress is unchanged |
| ConsoleDisplay.ErrorComponent | utils/console_display.py:212-216 | the row gets エラー and the time; its progress is unchanged |
| ConsoleDisplay.ReportingIsLocal | utils/console_display.py:200-210 | completing one component leaves every other row and the name alone |
| CommandLine.SearchFlagCount | main.py:69-70 | at most 3, and 0 iff none of the three alternative-engine flags is set |
| CommandLine.CheckLaunch | main.py:69-86 | exit 1 iff more than one alternative flag is set; then exit 1 iff no key from argument or environment; otherwise the argument's key, else the environment's |
| CommandLine.SelectedEngine | main.py:93-114 | ChatGPT over Bing over DuckDuckGo over Google, and none when Google is switched off |
| CommandLine.ConsoleEngineLine | main.py:93-115 | each console engine line is shown exactly when its engine is selected (ChatGPT before Bing before DuckDuckGo before Google, otherwise no web search) |
| CommandLine.FileEngineLabel | main.py:253-263 | each summary engine label is written exactly when its engine is selected |
| CommandLine.EngineLabelsAgree | main.py:253-263 | two runs get the same console line, and the same file label, iff they use the same engine |
| CommandLine.EngineOfValidFlags | main.py:69-114 | after the start-up checks, an alternative flag that is set is the engine shown |
| CommandLine.SafeName | main.py:203 | same length; every ' ' and '/' becomes '_', every other character is kept |
| CommandLine.SafeNameIdempotent | main.py:203 | making a safe name safe again changes nothing |
| CommandLine.PromptFileName | main.py:204 | `prompt_..._<name>.txt` |
| CommandLine.PromptFileNameFlat | main.py:202-204 | with a timestamp free of '/', the file name contains no '/' |
| CommandLine.Select | main.py:207-221 | the words whose flag is set, in their fixed order |
| CommandLine.SelectMember | main.py:207-221 | among distinct words, a word is selected iff its flag is set |
| CommandLine.OptionWordsDistinct | main.py:207-221 | the option words are pairwise different |
| CommandLine.CommandParts | main.py:207-221 | `python main.py` and the quoted name first, then the given options in fixed order, each present iff given; a key appears only as the placeholder |
| CommandLine.OtherWordNotOutput | main.py:209-221 | of the option parts only the output option starts with `--output ` |
| CommandLine.OutputWordOnlyWhenGiven | main.py:211-212 | without an output argument no selected part is an output option |
| CommandLine.ExecutedCommand | main.py:222 | the command starts with `python main.py` |
| CommandLine.CommandHidesKey | main.py:207-222 | the recorded command is the same whichever key was given |
| CommandLine.ErrorHint | main.py:317-331 | rate limiting iff 429 or Too Many Requests; else a missing module; else the API hint iff OpenAI or API; else none |
| CommandLine.ErrorHintExtended | main.py:317-331 | adding text to a message never lowers the priority of its hint |
| CommandLine.OpenAIFailureHinted | main.py:327-330 | a failed OpenAI call's message always gets a hint |
| Diagnose.Stars | diagnose_api_key_issue.py:54-56 | `'*' * n` is empty for n ≤ 0 |
| Diagnose.KeyPart | diagnose_api_key_issue.py:51 | the text before the first '=' |
| Diagnose.KeyValueRoundTrip | diagnose_api_key_issue.py:50-52 | the key part, '=' and the value part give the line back |
| Diagnose.MaskValue | diagnose_api_key_issue.py:53-56 | same length; longer than 8 keeps the first and last four with stars between; otherwise all stars |
| Diagnose.MaskValueHides | diagnose_api_key_issue.py:53-56 | at most eight characters of the value are shown |
| Diagnose.ShownLine | diagnose_api_key_issue.py:47-57 | only an uncommented line with the key name and a '=' is shown, as the indented key part and the masked value |
| Diagnose.ShownLineLength | diagnose_api_key_issue.py:50-57 | the shown line is the length of the original line plus the indent |
| Diagnose.ShellFileReport | diagnose_api_key_issue.py:43-57 | nothing iff the key name does not occur; otherwise at most one shown line per line of the file, every shown line comes from a line of the file, and every line the filter keeps is shown |
| Diagnose.CommentsNeverShown | diagnose_api_key_issue.py:48 | every shown line comes from an uncommented line |
| Diagnose.MaskKeyAsWritten | diagnose_api_key_issue.py:143-145 | the `re.sub` mask as written, with no length test: a key of at least 11 characters keeps its length, its first seven and last four characters and stars between; keys of 4 to 10 characters come out as `min(len, 7) + 4` characters, their first seven and last four shown |
| Diagnose.MaskKeyAsWrittenReveals | diagnose_api_key_issue.py:95-98 | as written, a key of 9 to 11 characters gets no star and an 11-character mask starting with its first seven characters; one of 11 is shown whole |
| Diagnose.MaskKeyAsWrittenExample | diagnose_api_key_issue.py:144 | "sk-abcdef" is masked as "sk-abcdcdef" |
| Diagnose.MaskKey | diagnose_api_key_issue.py:95-98 | intended mask: same length; above 11 keeps seven and four with stars between; otherwise all stars; always at least one star |
| Diagnose.MaskKeyAgreesWhenLong | diagnose_api_key_issue.py:95-98 | above 11 characters the intended mask and the written one agree |
| Diagnose.KeyTokenAt | diagnose_api_key_issue.py:143 | a token is "sk-" followed by the longest run of key characters, at least one |
| Diagnose.MaskKeys | diagnose_api_key_issue.py:143-145 | the substitution, with each key token put through the corrected mask `Diagnose.MaskKey` (see Findings), keeps the length of the text; the mask as written does not (`Diagnose.MaskKeyAsWritten`) |
| Diagnose.MaskKeysNoToken | diagnose_api_key_issue.py:143-145 | text without "sk-" passes through unchanged |
| Diagnose.KeyCallError | diagnose_api_key_issue.py:133-135 | an API call's error is reported iff it is present, non-empty and mentions api_key (ignoring case), and then as its own message |
| Diagnose.ApiKeyErrors | diagnose_api_key_issue.py:128-135 | every collected message mentions api_key (ignoring case), at most one per entry; every logged message that mentions it is collected, and so is every reported API-call error |
| Diagnose.ApiKeyErrorsMembers | diagnose_api_key_issue.py:128-135 | a message is collected iff it mentions api_key and is a logged error message or the non-empty error of some API call |
| Diagnose.ShownErrors | diagnose_api_key_issue.py:139-146 | at most three lines, the i-th numbered i+1 and built from the i-th error |
| Diagnose.ErrorLineBounded | diagnose_api_key_issue.py:146 | each shown message is a prefix of the masked message, at most 200 characters |

## Left out

- Network, HTML parsing, the OpenAI client, the `wikipedia` library and the
  transcript API are function-typed parameters. Parsed pages are given as
  records of links, titles and snippets. `urlparse(...).netloc` is a
  parameter (`domainOf`).
- collectors/wikipedia_collector.py is not part of this model; its result is
  an input of the service.
- The fetch-with-retry helper used by the Bing page reader is not part of this
  model; a page fetch either returns a page or fails.
- Every `time.sleep`, measured duration, timeout, the average durations of
  `analyze_api_performance`, the progress-bar percentage and utils/timing.py:
  floating-point timing carries no property worth stating here. Elapsed times
  and timestamps are parameters; the console's per-component start times are
  not modelled.
- Files and persistence: `_save_log`, `load_log`, `list_all_sessions`, the
  prompt and `--output` files, and `analyze_api_performance` returning `{}` for
  a missing log (the analysis is modelled on the loaded calls).
- Threads and terminal output: the console's render loop and screen clearing,
  and utils/output_suppressor.py. Printed messages are left out, except the
  first line of the console engine choice (`CommandLine.ConsoleEngineLine`);
  the engines' follow-up lines, including the Google lines that depend on
  environment variables, are left out.
- Logger side effects inside collectors, the service and the API client. They
  only append to the log, which is modelled on its own. One exception is the
  two `to_dict` calls in the service (Wikipedia and web search branches),
  which are the first finding below.
- Extra keyword arguments that the source passes to collectors that do not
  accept them (the YouTube branch of the service, the Google collector built by
  the factory). The constants imported from config but missing from config.py
  are parameters. The resulting TypeErrors are not modelled.
- The prompt generator takes a typed record of the collected sections rather
  than an arbitrary dict, so the generator's own type errors on malformed
  input are not modelled. The long system prompt is a parameter.
- main.py's logging around the pipeline call (main.py:336-400), the writing of
  the summary file other than its engine label, and the policy/introduction
  output.
- The environment, filesystem and process checks of the diagnosis script, and
  its loop that masks keys in project files with `str.replace`. Its
  `re.sub` display of logged errors is modelled.
- `random.sample` is modelled as some choice of `k` distinct elements.
- The regex engine in general: each regex used is written as a dedicated
  scanner, including backtracking where it matters (the optional quote after
  `\s*`).
- Python's `lower()` is modelled on ASCII letters only, and `strip()` on
  Python's whitespace set without Unicode categories beyond it.
- Config.FormatName: conversion fields (`{name!r}`, `{name!s}`), format specs
  (`{name:}`, `{name:>5}`) and index or attribute fields (`{name[0]}`,
  `{name.upper}`) are modelled as raising, where `str.format` accepts them.
  The program formats only the three default templates (config.py:55-60),
  which use plain `{name}` fields, so the difference never shows there.
- ConsoleDisplay.UpdateStatus: the overall row of a fresh table has
  progress and time texts, where the source's dict has no such keys until
  they are set; no update distinguishes the two.

## Findings

| source | as written | input that shows it | evidently intended | confidence | as-written member | corrected member |
|---|---|---|---|---|---|---|
| core/character_info_service.py:119-127 (also 198-205) | with a logger attached, the success paths of the Wikipedia and web search branches call `result.to_dict()` before checking whether the result is a plain dict | the Wikipedia collector returns a dict with `found: True`, and so do the Google, Bing and DuckDuckGo collectors; main.py always attaches a logger, so `to_dict` raises AttributeError and the branch returns its failure record | log the dict form and return it, for dict and record results alike | not executed | CharacterInfoService.UnwrapAsWritten | CharacterInfoService.Unwrap |
| diagnose_api_key_issue.py:143-145 (also 95-98) | the `re.sub` lambda masks every key as `key[:7] + '*' * (len(key) - 11) + key[-4:]` with no length test; the loop at 95-98 does the same for every key longer than 8 | "sk-abcdef" (9 characters) is shown as "sk-abcdcdef": every character revealed, no star | at least one star and the length kept: show seven and four characters only when the key is longer than 11, otherwise stars | not executed | Diagnose.MaskKeyAsWrittenReveals | Diagnose.MaskKey |

For the first finding:

- `CharacterInfoService.WikipediaFoundLostWhenLogged` shows the found article
  being lost with the written code.
- `CharacterInfoService.WebSearchInfoAsWritten` models the web search branch
  as written. `CharacterInfoService.WebFoundLostWhenLogged` shows a found
  Google, Bing or DuckDuckGo result being lost the same way.
- The rest of the model uses the corrected `CharacterInfoService.WikipediaInfo`
  and `CharacterInfoService.WebSearchInfo`.

For the second finding:

- `Diagnose.MaskKeyAsWrittenReveals` and `Diagnose.MaskKeyAsWrittenExample`
  exhibit the discrepancy.
- `Diagnose.MaskKeyAgreesWhenLong` shows the two masks agree above eleven
  characters.
- `Diagnose.MaskKeys` uses the corrected mask.

=== FILE: api_client.dfy ===
/**
 * utils/api_client.py: the shared OpenAI client. `chat_completion` fills
 * in defaults, strips the answer, builds the log preview of the prompts and
 * turns any failure into an `OpenAIError`; the two callers post-process the
 * answer. The completion endpoint is an oracle; the elapsed time is a
 * parameter.
 */
module ApiClient {
  import opened Prelude
  import opened Strings
  import opened Seqs
  import opened Json
  import Exceptions
  import Speech

  datatype Message = Message(role: string, content: string)

  /** OPENAI_MODEL, OPENAI_MAX_TOKENS and OPENAI_TEMPERATURE, which config.py does not define. */
  datatype Defaults = Defaults(model: string, maxTokens: int, temperature: real)

  /** What is sent to the completion endpoint. */
  datatype Request = Request(model: string, messages: seq<Message>, maxTokens: int, temperature: real)

  /** The `request_data` handed to `log_api_call`. */
  datatype RequestLog = RequestLog(model: string, messagesCount: nat, systemPrompt: string, userPrompt: string)

  /** The returned dict: the stripped answer, the request actually made, the elapsed time. */
  datatype Completion = Completion(result: string, request: Request, duration: real, log: RequestLog)

  datatype Completed = Done(completion: Completion) | Failed(error: Exceptions.AppError)

  /** `s[:n] + "..."` when `s` is longer than `n`, else `s` itself. */
  function Preview(s: string, n: nat): (r: string)
    ensures |s| <= n ==> r == s
    ensures |s| > n ==> |r| == n + 3 && r[..n] == s[..n] && r[n..] == "..."
  {
    if |s| > n then s[..n] + "..." else s
  }

  /** A preview never grows past the limit plus the ellipsis, and always starts like the text. */
  lemma PreviewBound(s: string, n: nat)
    ensures |Preview(s, n)| <= n + 3
    ensures IsPrefix(Take(s, n), Preview(s, n))
  {
  }

  /** `x or default` for the three optional arguments: a missing or falsy value takes the default. */
  function ModelOr(model: Option<string>, d: Defaults): (r: string)
    ensures model.Some? && model.value != "" ==> r == model.value
    ensures model.None? || model.value == "" ==> r == d.model
  {
    if model.Some? && model.value != "" then model.value else d.model
  }

  function TokensOr(maxTokens: Option<int>, d: Defaults): (r: int)
    ensures maxTokens.Some? && maxTokens.value != 0 ==> r == maxTokens.value
    ensures maxTokens.None? || maxTokens.value == 0 ==> r == d.maxTokens
  {
    if maxTokens.Some? && maxTokens.value != 0 then maxTokens.value else d.maxTokens
  }

  /** A temperature of 0.0 is falsy too, so it is replaced by the default. */
  function TemperatureOr(temperature: Option<real>, d: Defaults): (r: real)
    ensures temperature.Some? && temperature.value != 0.0 ==> r == temperature.value
    ensures temperature.None? || temperature.value == 0.0 ==> r == d.temperature
  {
    if temperature.Some? && temperature.value != 0.0 then temperature.value else d.temperature
  }

  /**
   * The two prompt previews of the log record: the first message, and the
   * last one only when there are at least two; "" when absent.
   */
  function LogOf(model: string, messages: seq<Message>, sliceLength: nat): (l: RequestLog)
    ensures l.model == model && l.messagesCount == |messages|
    ensures |messages| == 0 ==> l.systemPrompt == ""
    ensures |messages| > 0 ==> l.systemPrompt == Preview(messages[0].content, sliceLength)
    ensures |messages| <= 1 ==> l.userPrompt == ""
    ensures |messages| > 1 ==> l.userPrompt == Preview(messages[|messages| - 1].content, sliceLength)
  {
    RequestLog(model, |messages|,
      if |messages| > 0 then Preview(messages[0].content, sliceLength) else "",
      if |messages| > 1 then Preview(messages[|messages| - 1].content, sliceLength) else "")
  }

  const FailurePrefix := "OpenAI API呼び出し失敗: "

  /** The `OpenAIError` raised for a failed call: the message prefixed, `api_type` and the elapsed time in the details. */
  function FailureOf(message: string, apiType: string, elapsed: real): (e: Exceptions.AppError)
    ensures e.cls == Exceptions.OpenAIError
    ensures e.message == FailurePrefix + message && e.originalError == Some(message)
    ensures e.details.Keys == {"api_type", "duration"} && e.details["api_type"] == Str(apiType)
  {
    Exceptions.NewError(Exceptions.OpenAIError, FailurePrefix + message,
      Some(map["api_type" := Str(apiType), "duration" := Real(elapsed)]), Some(message))
  }

  /** `OpenAIClient.chat_completion` */
  function ChatCompletion(messages: seq<Message>, model: Option<string>, maxTokens: Option<int>,
                          temperature: Option<real>, apiType: string, d: Defaults, sliceLength: nat,
                          elapsed: real, create: Request -> Outcome<string>): (r: Completed)
    ensures var req := Request(ModelOr(model, d), messages, TokensOr(maxTokens, d), TemperatureOr(temperature, d));
      && (r.Failed? <==> create(req).Raised?)
      && (r.Failed? ==> r.error == FailureOf(create(req).message, apiType, elapsed))
      && (r.Done? ==> r.completion.request == req && r.completion.result == Strip(create(req).value))
    ensures r.Done? ==> r.completion.log == LogOf(r.completion.request.model, messages, sliceLength)
    ensures r.Done? ==> |r.completion.log.systemPrompt| <= sliceLength + 3 && |r.completion.log.userPrompt| <= sliceLength + 3
  {
    var req := Request(ModelOr(model, d), messages, TokensOr(maxTokens, d), TemperatureOr(temperature, d));
    match create(req)
    case Raised(msg) => Failed(FailureOf(msg, apiType, elapsed))
    case Returned(answer) =>
      var log := LogOf(req.model, messages, sliceLength);
      Done(Completion(Strip(answer), req, elapsed, log))
  }

  /** The context line of the extraction prompt; an empty name reads as unknown. */
  function ContextLine(name: string): (r: string)
    ensures name != "" ==> r == "キャラクター名: " + name
    ensures name == "" ==> r == "キャラクター名: 不明"
  {
    "キャラクター名: " + (if name != "" then name else "不明")
  }

  /**
   * `extract_speech_patterns`: nothing for an empty text; otherwise the text
   * cut to CHATGPT_FILTER_TEXT_LIMIT is sent with the context line, and the
   * answer's colon lines are kept, at most ten. Any failure gives nothing.
   * `llm` answers for (context line, text).
   */
  function ExtractSpeechPatterns(text: string, name: string, filterLimit: nat,
                                 llm: (string, string) -> Outcome<string>): (r: seq<string>)
    ensures text == "" ==> r == []
    ensures |r| <= Speech.MaxColonLines
    ensures forall i :: 0 <= i < |r| ==> Speech.ColonLineOk(r[i])
    ensures text != "" && llm(ContextLine(name), Take(text, filterLimit)).Raised? ==> r == []
    ensures text != "" && llm(ContextLine(name), Take(text, filterLimit)).Returned? ==>
      var answer := llm(ContextLine(name), Take(text, filterLimit)).value;
      |r| < Speech.MaxColonLines ==>
        forall l :: l in SplitOn(Strip(answer), "\n") && |Strip(l)| > 0 && ':' in Strip(l) ==> Strip(l) in r
  {
    if text == "" then []
    else
      match llm(ContextLine(name), Take(text, filterLimit))
      case Raised(_) => []
      case Returned(answer) => Speech.ColonLines(answer)
  }

  /** Cutting the text to the limit beforehand changes nothing. */
  lemma ExtractTruncated(text: string, name: string, filterLimit: nat, llm: (string, string) -> Outcome<string>)
    requires filterLimit > 0
    ensures ExtractSpeechPatterns(Take(text, filterLimit), name, filterLimit, llm)
         == ExtractSpeechPatterns(text, name, filterLimit, llm)
  {
    assert Take(Take(text, filterLimit), filterLimit) == Take(text, filterLimit);
  }

  /**
   * `search_character_info`: the stripped answer for (query, name), or
   * `None` when the call fails.
   */
  function SearchCharacterInfo(query: string, name: string, llm: (string, string) -> Outcome<string>): (r: Option<string>)
    ensures r.None? <==> llm(query, name).Raised?
    ensures r.Some? ==> |r.value| <= |llm(query, name).value|
    ensures r.Some? && |r.value| > 0 ==> !IsSpace(r.value[0]) && !IsSpace(r.value[|r.value| - 1])
    ensures r.Some? ==> (|r.value| == 0 <==> forall i :: 0 <= i < |llm(query, name).value| ==> IsSpace(llm(query, name).value[i]))
  {
    match llm(query, name)
    case Raised(_) => None
    case Returned(answer) => Some(Strip(answer))
  }
}

=== FILE: bing_collector.dfy ===
/**
 * collectors/bing_collector.py: the configured search patterns, the
 * 429-aware retry loop around one pattern, the reading of a Bing result
 * page into (title, url, description) hits, and the YouTube search over
 * those hits. The result page, the page fetch (`safe_http_get`) and the
 * LLM are oracles.
 */
module BingCollector {
  import opened Prelude
  import opened Strings
  import opened Seqs
  import TextProcessor
  import Config
  import WebSearch

  // ----- _perform_bing_search -----

  /** The title link of a result element: its text and its `href` ("" when absent). */
  datatype Link = Link(title: string, href: string)

  /** One result element of the page: its title link, if any, and its caption text. */
  datatype Element = Element(link: Option<Link>, description: string)

  /** A usable hit: the dict `_perform_bing_search` appends. */
  datatype Hit = Hit(title: string, url: string, description: string)

  const BingOrigin := "https://www.bing.com"

  /** The `count` parameter never asks Bing for more than this many results. */
  const MaxCount: int := 50

  /** `min(max_results, 50)` */
  function RequestCount(maxResults: int): (r: int)
    ensures r <= MaxCount && r <= maxResults
    ensures r == MaxCount || r == maxResults
  {
    if maxResults < MaxCount then maxResults else MaxCount
  }

  /** The elements of the first selector (`li.b_algo`, `.b_algo`, `ol#b_results li`) that matched anything. */
  function FirstNonEmpty(selected: seq<seq<Element>>): (r: seq<Element>)
    ensures r == [] <==> forall k :: 0 <= k < |selected| ==> selected[k] == []
    ensures r != [] ==> exists k :: 0 <= k < |selected| && r == selected[k] && forall m :: 0 <= m < k ==> selected[m] == []
  {
    if |selected| == 0 then []
    else if selected[0] != [] then selected[0]
    else
      var r := FirstNonEmpty(selected[1..]);
      assert forall k :: 1 <= k < |selected| ==> selected[k] == selected[1..][k - 1];
      r
  }

  /**
   * One element read as a hit: it needs a title link; an `href` starting
   * with `/` is made absolute on www.bing.com, any other `href` without an
   * http(s) scheme drops the element, and so does an empty title.
   */
  function HitOf(e: Element): (r: Option<Hit>)
    ensures r.Some? <==>
      (e.link.Some? && |e.link.value.title| > 0 &&
       (StartsWith(e.link.value.href, "/") || TextProcessor.HasHttpScheme(e.link.value.href)))
    ensures r.Some? ==> TextProcessor.HasHttpScheme(r.value.url) && EndsWith(r.value.url, e.link.value.href)
    ensures r.Some? ==> r.value.title == e.link.value.title && r.value.description == e.description
  {
    match e.link
    case None => None
    case Some(Link(title, href)) =>
      if StartsWith(href, "/") then
        assert (BingOrigin + href)[..8] == "https://";
        assert (BingOrigin + href)[|BingOrigin|..] == href;
        if |title| > 0 then Some(Hit(title, BingOrigin + href, e.description)) else None
      else if !TextProcessor.HasHttpScheme(href) then None
      else if |title| > 0 then
        assert href[|href| - |href|..] == href;
        Some(Hit(title, href, e.description))
      else None
  }

  function HitsOf(es: seq<Element>): (r: seq<Hit>)
    ensures |r| <= |es|
    ensures forall i :: 0 <= i < |r| ==> exists j :: 0 <= j < |es| && HitOf(es[j]) == Some(r[i])
    ensures forall j :: 0 <= j < |es| && HitOf(es[j]).Some? ==> HitOf(es[j]).value in r
  {
    if |es| == 0 then []
    else
      var rest := HitsOf(es[1..]);
      assert forall j :: 1 <= j < |es| ==> es[j] == es[1..][j - 1];
      match HitOf(es[0])
      case Some(h) => [h] + rest
      case None => rest
  }

  /**
   * The elements `_perform_bing_search` reads: it asks for
   * `min(max_results, 50)` results; the oracle `page(query, count)` gives
   * each selector's elements or raises; the first non-empty selector's
   * elements are cut to `max_results` (Python's slice, so a negative bound
   * drops elements from the end). A failure leaves nothing to read.
   */
  function UsedElements(query: string, maxResults: int, page: (string, int) -> Outcome<seq<seq<Element>>>): (r: seq<Element>)
    ensures page(query, RequestCount(maxResults)).Raised? ==> r == []
    ensures maxResults >= 0 ==> |r| <= maxResults
    ensures page(query, RequestCount(maxResults)).Returned? ==>
      IsPrefix(r, FirstNonEmpty(page(query, RequestCount(maxResults)).value))
  {
    match page(query, RequestCount(maxResults))
    case Raised(_) => []
    case Returned(selected) => SliceTo(FirstNonEmpty(selected), maxResults)
  }

  /** `_perform_bing_search`: the used elements read as hits; every failure ends in [], never in an exception. */
  function PerformBingSearch(query: string, maxResults: int, page: (string, int) -> Outcome<seq<seq<Element>>>): (r: seq<Hit>)
    ensures maxResults >= 0 ==> |r| <= maxResults
    ensures forall i :: 0 <= i < |r| ==> TextProcessor.HasHttpScheme(r[i].url) && |r[i].title| > 0
    ensures forall i :: 0 <= i < |r| ==>
      exists j :: 0 <= j < |UsedElements(query, maxResults, page)| && HitOf(UsedElements(query, maxResults, page)[j]) == Some(r[i])
    ensures forall e :: e in UsedElements(query, maxResults, page) && HitOf(e).Some? ==> HitOf(e).value in r
  {
    var used := UsedElements(query, maxResults, page);
    var r := HitsOf(used);
    forall i | 0 <= i < |r| ensures TextProcessor.HasHttpScheme(r[i].url) && |r[i].title| > 0 {
      var j :| 0 <= j < |used| && HitOf(used[j]) == Some(r[i]);
    }
    r
  }

  // ----- _search_single_pattern -----

  const MaxRetries: nat := 3
  const RetryDelay: int := 30

  /** The error texts the retry loop treats as rate limiting. */
  predicate RateLimited(error: string)
  {
    Contains(error, "429") || Contains(error, "Too Many Requests")
  }

  /** How a run of the retry loop ended: the results, the waits in seconds between attempts, the attempts made. */
  datatype RetryRun = RetryRun(results: seq<WebSearch.PageRecord>, waits: seq<int>, tries: nat)

  /**
   * The retry loop from attempt `retry` on: a returning attempt ends the
   * loop with its results; a rate-limited failure before the last attempt
   * waits `30 * (retry + 1)` seconds and tries again; any other failure, or
   * a rate-limited one on the last attempt, ends the loop with nothing.
   */
  function Attempts(attempt: nat -> Outcome<seq<WebSearch.PageRecord>>, retry: nat): (r: RetryRun)
    requires retry < MaxRetries
    ensures 1 <= r.tries <= MaxRetries - retry
    ensures |r.waits| == r.tries - 1
    ensures forall k :: 0 <= k < |r.waits| ==> r.waits[k] == RetryDelay * (retry + k + 1)
    ensures forall k :: retry <= k < retry + r.tries - 1 ==> attempt(k).Raised? && RateLimited(attempt(k).message)
    ensures attempt(retry + r.tries - 1).Returned? ==> r.results == attempt(retry + r.tries - 1).value
    ensures attempt(retry + r.tries - 1).Raised? ==> r.results == []
    ensures retry + r.tries < MaxRetries ==>
      attempt(retry + r.tries - 1).Returned? || !RateLimited(attempt(retry + r.tries - 1).message)
    decreases MaxRetries - retry
  {
    match attempt(retry)
    case Returned(rs) => RetryRun(rs, [], 1)
    case Raised(e) =>
      if RateLimited(e) && retry < MaxRetries - 1 then
        var rest := Attempts(attempt, retry + 1);
        RetryRun(rest.results, [RetryDelay * (retry + 1)] + rest.waits, rest.tries + 1)
      else RetryRun([], [], 1)
  }

  /** Rate limiting on every attempt costs three attempts and waits of 30 and 60 seconds, and yields nothing. */
  lemma AlwaysRateLimited(attempt: nat -> Outcome<seq<WebSearch.PageRecord>>)
    requires forall k :: attempt(k).Raised? && RateLimited(attempt(k).message)
    ensures Attempts(attempt, 0) == RetryRun([], [30, 60], 3)
  {
    var r := Attempts(attempt, 0);
    assert r.waits[0] == 30 && r.waits[1] == 60;
  }

  /** An attempt that cannot raise is made once, without waiting. */
  lemma NoRetryWithoutRaise(attempt: nat -> Outcome<seq<WebSearch.PageRecord>>)
    requires attempt(0).Returned?
    ensures Attempts(attempt, 0) == RetryRun(attempt(0).value, [], 1)
  {
  }

  /** A hit's page record carries the hit's own title and description. */
  function PageOfHit(h: Hit, name: string, apiKey: string, contentLimit: nat,
                     fetch: string -> Option<WebSearch.Page>, llm: (string, string) -> Outcome<string>): (r: Option<WebSearch.PageRecord>)
    requires TextProcessor.HasHttpScheme(h.url)
    ensures r.Some? ==> r.value.url == h.url && r.value.title == h.title && r.value.description == h.description
    ensures r.Some? ==> r.value.contentLength == |r.value.content| <= contentLimit
    ensures r.None? <==> fetch(h.url).None?
  {
    match WebSearch.ExtractPageContent(h.url, name, apiKey, contentLimit, fetch, llm)
    case Some(p) => Some(p.(title := h.title, description := h.description))
    case None => None
  }

  /**
   * `_search_single_pattern`: one Bing search and a page record per hit
   * whose page could be read, inside the retry loop. `_perform_bing_search`
   * does not raise, so the loop always ends after its first attempt.
   */
  function SearchSinglePattern(query: string, maxResults: int, name: string, apiKey: string, contentLimit: nat,
                               page: (string, int) -> Outcome<seq<seq<Element>>>,
                               fetch: string -> Option<WebSearch.Page>, llm: (string, string) -> Outcome<string>): (r: RetryRun)
    ensures r.tries == 1 && r.waits == []
    ensures maxResults >= 0 ==> |r.results| <= maxResults
    ensures forall x :: x in r.results ==> TextProcessor.HasHttpScheme(x.url) && |x.title| > 0
    ensures forall x :: x in r.results ==>
      exists h :: h in PerformBingSearch(query, maxResults, page) && x.url == h.url && x.title == h.title && x.description == h.description
  {
    var pages := HitPages(PerformBingSearch(query, maxResults, page), name, apiKey, contentLimit, fetch, llm);
    var attempt := (k: nat) => Returned(pages);
    NoRetryWithoutRaise(attempt);
    Attempts(attempt, 0)
  }

  /** The readable pages of the http(s) hits, in hit order, each carrying its hit's URL, title and snippet. */
  function HitPages(hits: seq<Hit>, name: string, apiKey: string, contentLimit: nat,
                    fetch: string -> Option<WebSearch.Page>, llm: (string, string) -> Outcome<string>): (pages: seq<WebSearch.PageRecord>)
    requires forall i :: 0 <= i < |hits| ==> |hits[i].title| > 0
    ensures |pages| <= |hits|
    ensures forall x :: x in pages ==> TextProcessor.HasHttpScheme(x.url) && |x.title| > 0
    ensures forall x :: x in pages ==>
      exists h :: h in hits && x.url == h.url && x.title == h.title && x.description == h.description
  {
    var extract := (h: Hit) => if TextProcessor.HasHttpScheme(h.url) then PageOfHit(h, name, apiKey, contentLimit, fetch, llm) else None;
    var pages := FilterMap(hits, extract);
    forall x | x in pages
      ensures TextProcessor.HasHttpScheme(x.url) && |x.title| > 0
      ensures exists h :: h in hits && x.url == h.url && x.title == h.title && x.description == h.description
    {
      var i :| 0 <= i < |pages| && pages[i] == x;
      var j :| 0 <= j < |hits| && extract(hits[j]) == Some(x);
      assert hits[j] in hits;
    }
    pages
  }

  // ----- collect_info -----

  const QueryLabel := "複数パターン検索（Bing）"
  const ErrorPrefix := "Bing検索エラー: "

  /**
   * `collect_info`: the configured patterns formatted with the name,
   * `max(1, num_results // len(patterns))` results per pattern, patterns in
   * order. A pattern that cannot be formatted, or an empty pattern list
   * (division by zero), ends in the error record.
   */
  function CollectInfo(name: string, numResults: int, apiKey: string, search: Config.SearchConfig,
                       page: (string, int) -> Outcome<seq<seq<Element>>>,
                       fetch: string -> Option<WebSearch.Page>, llm: (string, string) -> Outcome<string>): (r: WebSearch.Report)
    ensures r.found <==> |r.results| > 0
    ensures r.totalResults == |r.results| && r.query == Some(QueryLabel)
    ensures r.error.Some? <==> Config.GetSearchPatterns(search, name).Raised? || |search.searchPatterns| == 0
    ensures r.error.Some? ==> r.results == [] && StartsWith(r.error.value, ErrorPrefix)
    ensures r.error.None? ==>
      |r.results| <= |search.searchPatterns| * WebSearch.PerPattern(numResults, |search.searchPatterns|).value
    ensures forall x :: x in r.results ==> TextProcessor.HasHttpScheme(x.url) && |x.title| > 0
    ensures r.error.None? ==>
      forall x :: x in r.results ==>
        exists q :: q in Config.GetSearchPatterns(search, name).value &&
          x in SearchSinglePattern(q, WebSearch.PerPattern(numResults, |search.searchPatterns|).value, name, apiKey,
                                   search.googlePageLimit, page, fetch, llm).results
    ensures r.error.None? ==>
      forall q, x ::
        (q in Config.GetSearchPatterns(search, name).value &&
         x in SearchSinglePattern(q, WebSearch.PerPattern(numResults, |search.searchPatterns|).value, name, apiKey,
                                  search.googlePageLimit, page, fetch, llm).results) ==> x in r.results
  {
    match Config.GetSearchPatterns(search, name)
    case Raised(m) =>
      assert (ErrorPrefix + m)[..|ErrorPrefix|] == ErrorPrefix;
      WebSearch.Failed(Some(QueryLabel), ErrorPrefix, m)
    case Returned(patterns) =>
      match WebSearch.PerPattern(numResults, |patterns|)
      case Raised(m) =>
        assert (ErrorPrefix + m)[..|ErrorPrefix|] == ErrorPrefix;
        WebSearch.Failed(Some(QueryLabel), ErrorPrefix, m)
      case Returned(per) =>
        var run := (q: string) => SearchSinglePattern(q, per, name, apiKey, search.googlePageLimit, page, fetch, llm).results;
        var results := WebSearch.Flatten(patterns, run);
        WebSearch.FlattenBound(patterns, run, per);
        WebSearch.Succeeded(Some(QueryLabel), results)
  }

  // ----- search_youtube_videos -----

  /** The YouTube search reads up to 20 Bing hits. */
  const YouTubeHits: int := 20

  function UrlsOf(hits: seq<Hit>): (r: seq<string>)
    ensures |r| == |hits| && forall i :: 0 <= i < |r| ==> r[i] == hits[i].url
  {
    seq(|hits|, i requires 0 <= i < |hits| => hits[i].url)
  }

  /** `search_youtube_videos`: the shared watch-URL loop over the URLs of one Bing search. */
  method SearchYouTubeVideos(name: string, maxUrls: int, page: (string, int) -> Outcome<seq<seq<Element>>>) returns (r: seq<string>)
    ensures |name| < WebSearch.MinYouTubeName || maxUrls <= 0 ==> r == []
    ensures NoDup(r) && |r| <= (if maxUrls < 0 then 0 else maxUrls)
    ensures forall i :: 0 <= i < |r| ==>
      WebSearch.IsWatchUrl(r[i]) && HasHitWithUrl(PerformBingSearch(WebSearch.YouTubeQuery(name), YouTubeHits, page), r[i])
  {
    var hits := (q: string) => UrlsOf(PerformBingSearch(q, YouTubeHits, page));
    r := WebSearch.SearchYouTubeVideos(name, maxUrls, hits);
    assert hits(WebSearch.YouTubeQuery(name)) == UrlsOf(PerformBingSearch(WebSearch.YouTubeQuery(name), YouTubeHits, page));
    UrlsFromHits(PerformBingSearch(WebSearch.YouTubeQuery(name), YouTubeHits, page), r);
  }

  /** URLs drawn from the URLs of some hits are the URLs of some of those hits. */
  lemma UrlsFromHits(hs: seq<Hit>, r: seq<string>)
    requires forall i :: 0 <= i < |r| ==> r[i] in UrlsOf(hs)
    ensures forall i :: 0 <= i < |r| ==> HasHitWithUrl(hs, r[i])
  {
    forall i | 0 <= i < |r|
      ensures HasHitWithUrl(hs, r[i])
    {
      var us := UrlsOf(hs);
      assert r[i] in us;
      var j :| 0 <= j < |us| && us[j] == r[i];
      assert hs[j] in hs && hs[j].url == r[i];
    }
  }

  predicate HasHitWithUrl(hs: seq<Hit>, u: string)
  {
    exists h :: h in hs && h.url == u
  }
}

=== FILE: character_info_service.dfy ===
/**
 * core/character_info_service.py: the three collection branches run one
 * after the other and merged into one record with four keys. The
 * collectors themselves are oracles here: what a collector returns (or the
 * message of what it raises) is a parameter.
 */
module CharacterInfoService {
  import opened Prelude
  import opened Json
  import Interfaces
  import Config
  import CollectorFactory

  /** What a collector's `collect_info` hands back: a `CollectionResult` object or a plain dict. */
  datatype Returned = Record(result: Interfaces.CollectionResult) | Dict(d: Value)

  /** The branches of `collect_character_info`, for the order in which they run. */
  datatype Branch = WikipediaBranch | WebSearchBranch | YouTubeBranch

  datatype Collected = Collected(info: Value, order: seq<Branch>)

  const NoToDictMessage := "'dict' object has no attribute 'to_dict'"
  const WikipediaErrorPrefix := "Wikipedia情報収集エラー: "
  const WebErrorPrefix := "Web検索エラー: "
  const YouTubeErrorPrefix := "YouTube情報収集エラー: "
  const YouTubeDisabledMessage := "YouTube情報収集が無効化されています"

  /** Python's `not d.get("found", False)` on a branch record. */
  predicate NotFound(v: Value)
  {
    !Truthy(Get(v, "found", Bool(false)))
  }

  const WikipediaFailureKeys: set<string> := {"found", "error", "title", "summary", "content", "url", "categories"}
  const WebFailureKeys: set<string> := {"found", "error", "results", "total_results"}
  const YouTubeFailureKeys: set<string> := {"found", "error", "transcripts", "total_videos", "sample_phrases"}

  /** The record `_collect_wikipedia_info` returns when anything raises. */
  function WikipediaFailure(message: string): (r: Value)
    ensures r.Obj? && r.fields.Keys == WikipediaFailureKeys && NotFound(r)
    ensures r.fields["error"] == Str(message) && r.fields["categories"] == List([])
    ensures forall k :: k in {"title", "summary", "content", "url"} ==> r.fields[k] == Null
  {
    Obj(map["found" := Bool(false), "error" := Str(message), "title" := Null, "summary" := Null,
            "content" := Null, "url" := Null, "categories" := List([])])
  }

  /** The record `_collect_web_search_info` returns when anything raises. */
  function WebFailure(message: string): (r: Value)
    ensures r.Obj? && r.fields.Keys == WebFailureKeys && NotFound(r)
    ensures r.fields["error"] == Str(message) && r.fields["results"] == List([])
    ensures r.fields["total_results"] == Int(0)
  {
    Obj(map["found" := Bool(false), "error" := Str(message), "results" := List([]), "total_results" := Int(0)])
  }

  /** The record `_collect_youtube_info` returns when anything raises. */
  function YouTubeFailure(message: string): (r: Value)
    ensures r.Obj? && r.fields.Keys == YouTubeFailureKeys && NotFound(r)
    ensures r.fields["error"] == Str(message) && r.fields["transcripts"] == List([])
    ensures r.fields["total_videos"] == Int(0) && r.fields["sample_phrases"] == List([])
  {
    Obj(map["found" := Bool(false), "error" := Str(message), "transcripts" := List([]),
            "total_videos" := Int(0), "sample_phrases" := List([])])
  }

  /** The fixed record stored when the YouTube branch is switched off. */
  function YouTubeSkipped(): (r: Value)
    ensures r.Obj? && r.fields.Keys == YouTubeFailureKeys + {"skipped"} && NotFound(r)
    ensures r.fields["error"] == Str(YouTubeDisabledMessage) && r.fields["skipped"] == Bool(true)
    ensures r.fields["transcripts"] == List([]) && r.fields["total_videos"] == Int(0)
    ensures r.fields["sample_phrases"] == List([])
  {
    Obj(map["found" := Bool(false), "error" := Str(YouTubeDisabledMessage), "transcripts" := List([]),
            "total_videos" := Int(0), "sample_phrases" := List([]), "skipped" := Bool(true)])
  }

  /**
   * The code AS WRITTEN after a collector returns: with a logger it first
   * logs `result.to_dict()`, which raises on a plain dict; then it returns
   * `to_dict()` of an object or the dict itself.
   */
  function UnwrapAsWritten(r: Returned, logged: bool): (o: Outcome<Value>)
    ensures r.Record? ==> o == Returned(Interfaces.CollectionToDict(r.result))
    ensures r.Dict? && logged ==> o == Raised(NoToDictMessage)
    ensures r.Dict? && !logged ==> o == Returned(r.d)
  {
    match r
    case Record(c) => Returned(Interfaces.CollectionToDict(c))
    case Dict(d) => if logged then Raised(NoToDictMessage) else Returned(d)
  }

  /** The evident intent: the dict form of the result, whether or not a logger is attached. */
  function Unwrap(r: Returned): (v: Value)
    ensures r.Record? ==> Interfaces.CollectionFromDict(v) == Some(r.result)
    ensures r.Dict? ==> v == r.d
  {
    match r
    case Record(c) =>
      Interfaces.CollectionDictRoundTrip(c);
      Interfaces.CollectionToDict(c)
    case Dict(d) => d
  }

  /** Without a logger the code as written already behaves as intended; with one, dict results are lost. */
  lemma UnwrapAgreesWithoutLogger(r: Returned)
    ensures UnwrapAsWritten(r, false) == Returned(Unwrap(r))
    ensures r.Record? ==> UnwrapAsWritten(r, true) == Returned(Unwrap(r))
  {
  }

  /** `_collect_wikipedia_info` as written: the collector's outcome and whether a logger is attached. */
  function WikipediaInfoAsWritten(wiki: Outcome<Returned>, logged: bool): (r: Value)
    ensures wiki.Raised? ==> r == WikipediaFailure(WikipediaErrorPrefix + wiki.message)
  {
    match wiki
    case Raised(m) => WikipediaFailure(WikipediaErrorPrefix + m)
    case Returned(x) =>
      match UnwrapAsWritten(x, logged)
      case Raised(m) => WikipediaFailure(WikipediaErrorPrefix + m)
      case Returned(v) => v
  }

  /**
   * The Wikipedia collector returns dicts, so with a logger even a found
   * article is replaced by the failure record.
   */
  lemma WikipediaFoundLostWhenLogged(d: Value)
    requires d.Obj? && "found" in d.fields && d.fields["found"] == Bool(true)
    ensures WikipediaInfoAsWritten(Returned(Dict(d)), true) == WikipediaFailure(WikipediaErrorPrefix + NoToDictMessage)
    ensures NotFound(WikipediaInfoAsWritten(Returned(Dict(d)), true))
    ensures WikipediaInfo(Returned(Dict(d))) == d && !NotFound(WikipediaInfo(Returned(Dict(d))))
  {
  }

  /** `_collect_wikipedia_info`, corrected: the collector's record, or the failure record when it raises. */
  function WikipediaInfo(wiki: Outcome<Returned>): (r: Value)
    ensures wiki.Raised? ==> r == WikipediaFailure(WikipediaErrorPrefix + wiki.message)
    ensures wiki.Returned? && wiki.value.Dict? ==> r == wiki.value.d
    ensures wiki.Returned? && wiki.value.Record? ==> Interfaces.CollectionFromDict(r) == Some(wiki.value.result)
  {
    match wiki
    case Raised(m) => WikipediaFailure(WikipediaErrorPrefix + m)
    case Returned(x) => Unwrap(x)
  }

  /** The flags of the command line that pick the collectors. */
  datatype Flags = Flags(useYoutube: bool, useGoogle: bool, useDuckduckgo: bool, useBing: bool, useChatgpt: bool)

  function WebEngine(f: Flags): CollectorFactory.EngineType
  {
    CollectorFactory.DetermineBestSearchEngine(f.useChatgpt, f.useBing, f.useDuckduckgo, f.useGoogle)
  }

  /**
   * `_collect_web_search_info` (corrected as above): the engine chosen from
   * the flags is built by the factory and asked; a refusal of the factory or
   * a raise of the collector gives the failure record.
   */
  function WebSearchInfo(c: Config.AppConfig, f: Flags, apiKey: string,
                         collect: CollectorFactory.EngineType -> Outcome<Returned>): (r: Value)
    ensures var e := WebEngine(f);
      CollectorFactory.CreateSearchEngineCollector(c, e, apiKey).Refused? ==>
        r == WebFailure(WebErrorPrefix + CollectorFactory.MissingKeyMessage)
    ensures var e := WebEngine(f);
      CollectorFactory.CreateSearchEngineCollector(c, e, apiKey).Made? && collect(e).Raised? ==>
        r == WebFailure(WebErrorPrefix + collect(e).message)
    ensures var e := WebEngine(f);
      CollectorFactory.CreateSearchEngineCollector(c, e, apiKey).Made? && collect(e).Returned? ==>
        r == Unwrap(collect(e).value)
  {
    var e := WebEngine(f);
    match CollectorFactory.CreateSearchEngineCollector(c, e, apiKey)
    case Refused(err) => WebFailure(WebErrorPrefix + err.message)
    case Made(_) =>
      match collect(e)
      case Raised(m) => WebFailure(WebErrorPrefix + m)
      case Returned(x) => Unwrap(x)
  }

  /**
   * `_collect_web_search_info` as written: like `WebSearchInfo`, but the
   * collector's result goes through `UnwrapAsWritten`, so a plain dict
   * raises when a logger is attached.
   */
  function WebSearchInfoAsWritten(c: Config.AppConfig, f: Flags, apiKey: string,
                                  collect: CollectorFactory.EngineType -> Outcome<Returned>, logged: bool): (r: Value)
    ensures var e := WebEngine(f);
      CollectorFactory.CreateSearchEngineCollector(c, e, apiKey).Refused? ==>
        r == WebFailure(WebErrorPrefix + CollectorFactory.MissingKeyMessage)
    ensures var e := WebEngine(f);
      CollectorFactory.CreateSearchEngineCollector(c, e, apiKey).Made? && collect(e).Raised? ==>
        r == WebFailure(WebErrorPrefix + collect(e).message)
    ensures var e := WebEngine(f);
      CollectorFactory.CreateSearchEngineCollector(c, e, apiKey).Made? && collect(e).Returned? &&
      collect(e).value.Dict? && logged ==>
        r == WebFailure(WebErrorPrefix + NoToDictMessage)
  {
    var e := WebEngine(f);
    match CollectorFactory.CreateSearchEngineCollector(c, e, apiKey)
    case Refused(err) => WebFailure(WebErrorPrefix + err.message)
    case Made(_) =>
      match collect(e)
      case Raised(m) => WebFailure(WebErrorPrefix + m)
      case Returned(x) =>
        match UnwrapAsWritten(x, logged)
        case Raised(m) => WebFailure(WebErrorPrefix + m)
        case Returned(v) => v
  }

  /**
   * Without a logger, or when the collector hands back a record (the ChatGPT
   * collector), the web branch as written is the corrected one.
   */
  lemma WebSearchAgreesWithoutLogger(c: Config.AppConfig, f: Flags, apiKey: string,
                                     collect: CollectorFactory.EngineType -> Outcome<Returned>)
    ensures WebSearchInfoAsWritten(c, f, apiKey, collect, false) == WebSearchInfo(c, f, apiKey, collect)
    ensures collect(WebEngine(f)).Returned? && collect(WebEngine(f)).value.Record? ==>
      WebSearchInfoAsWritten(c, f, apiKey, collect, true) == WebSearchInfo(c, f, apiKey, collect)
  {
  }

  /**
   * The Google, Bing and DuckDuckGo collectors return dicts, so with a
   * logger even a search that found results is replaced by the web failure
   * record; the corrected branch keeps the dict.
   */
  lemma WebFoundLostWhenLogged(c: Config.AppConfig, f: Flags, apiKey: string,
                               collect: CollectorFactory.EngineType -> Outcome<Returned>, d: Value)
    requires CollectorFactory.CreateSearchEngineCollector(c, WebEngine(f), apiKey).Made?
    requires collect(WebEngine(f)) == Returned(Dict(d))
    requires d.Obj? && "found" in d.fields && d.fields["found"] == Bool(true)
    ensures WebSearchInfoAsWritten(c, f, apiKey, collect, true) == WebFailure(WebErrorPrefix + NoToDictMessage)
    ensures NotFound(WebSearchInfoAsWritten(c, f, apiKey, collect, true))
    ensures WebSearchInfo(c, f, apiKey, collect) == d && !NotFound(WebSearchInfo(c, f, apiKey, collect))
  {
  }

  /** A ChatGPT search without an API key never reaches a collector. */
  lemma ChatGPTWithoutKeyFails(c: Config.AppConfig, f: Flags, collect: CollectorFactory.EngineType -> Outcome<Returned>)
    requires f.useChatgpt
    ensures WebSearchInfo(c, f, "", collect) == WebFailure(WebErrorPrefix + "ChatGPT検索にはAPI Keyが必要です")
  {
  }

  /**
   * The search engine `_get_youtube_urls` asks for video URLs: none for
   * DuckDuckGo or when web search is off, Google or Bing for ChatGPT
   * depending on whether both Google credentials are set.
   */
  function YouTubeUrlSource(f: Flags, googleKeysSet: bool): (r: Option<CollectorFactory.EngineType>)
    ensures f.useChatgpt ==> r == Some(if googleKeysSet then CollectorFactory.Google else CollectorFactory.Bing)
    ensures !f.useChatgpt && f.useBing ==> r == Some(CollectorFactory.Bing)
    ensures !f.useChatgpt && !f.useBing && f.useDuckduckgo ==> r == None
    ensures !f.useChatgpt && !f.useBing && !f.useDuckduckgo ==> r == (if f.useGoogle then Some(CollectorFactory.Google) else None)
  {
    if f.useChatgpt then Some(if googleKeysSet then CollectorFactory.Google else CollectorFactory.Bing)
    else if f.useBing then Some(CollectorFactory.Bing)
    else if f.useDuckduckgo then None
    else if f.useGoogle then Some(CollectorFactory.Google)
    else None
  }

  /** The video search follows the web engine, except that ChatGPT delegates and DuckDuckGo and the default skip it. */
  lemma {:induction false} YouTubeSourceFollowsWebEngine(f: Flags, googleKeysSet: bool)
    ensures WebEngine(f) == CollectorFactory.Bing ==> YouTubeUrlSource(f, googleKeysSet) == Some(CollectorFactory.Bing)
    ensures WebEngine(f) == CollectorFactory.Google ==> YouTubeUrlSource(f, googleKeysSet) == Some(CollectorFactory.Google)
    ensures WebEngine(f) == CollectorFactory.DuckDuckGo ==> YouTubeUrlSource(f, googleKeysSet).None?
    ensures WebEngine(f) == CollectorFactory.ChatGPT ==>
      (YouTubeUrlSource(f, googleKeysSet).Some? <==> f.useChatgpt)
    ensures YouTubeUrlSource(f, googleKeysSet) != Some(CollectorFactory.DuckDuckGo)
    ensures YouTubeUrlSource(f, googleKeysSet) != Some(CollectorFactory.ChatGPT)
  {
    var e := WebEngine(f);
    var s := YouTubeUrlSource(f, googleKeysSet);
    if f.useChatgpt {
      assert e == CollectorFactory.ChatGPT;
    } else if f.useBing {
      assert e == CollectorFactory.Bing;
    } else if f.useDuckduckgo {
      assert e == CollectorFactory.DuckDuckGo;
    } else if f.useGoogle {
      assert e == CollectorFactory.Google;
    } else {
      assert e == CollectorFactory.ChatGPT && s.None?;
    }
  }

  /** `_get_youtube_urls`: what the chosen engine's `search_youtube_videos` finds, and [] when it raises or none is chosen. */
  function YouTubeUrls(f: Flags, googleKeysSet: bool, search: CollectorFactory.EngineType -> Outcome<seq<string>>): (r: seq<string>)
    ensures YouTubeUrlSource(f, googleKeysSet).None? ==> r == []
    ensures var s := YouTubeUrlSource(f, googleKeysSet);
      s.Some? && search(s.value).Returned? ==> r == search(s.value).value
    ensures var s := YouTubeUrlSource(f, googleKeysSet);
      s.Some? && search(s.value).Raised? ==> r == []
  {
    match YouTubeUrlSource(f, googleKeysSet)
    case None => []
    case Some(e) =>
      match search(e)
      case Returned(urls) => urls
      case Raised(_) => []
  }

  /** `_collect_youtube_info`: the YouTube collector's record for the URLs found, or the failure record. */
  function YouTubeInfo(urls: seq<string>, youtube: seq<string> -> Outcome<Value>): (r: Value)
    ensures youtube(urls).Returned? ==> r == youtube(urls).value
    ensures youtube(urls).Raised? ==> r == YouTubeFailure(YouTubeErrorPrefix + youtube(urls).message)
  {
    match youtube(urls)
    case Returned(v) => v
    case Raised(m) => YouTubeFailure(YouTubeErrorPrefix + m)
  }

  const InfoKeys: set<string> := {"name", "wikipedia_info", "google_search_results", "youtube_transcripts"}

  /**
   * `collect_character_info`: Wikipedia, then web search, then (when
   * enabled) YouTube, merged under four fixed keys.
   */
  function CollectCharacterInfo(
    name: string, f: Flags, c: Config.AppConfig, apiKey: string, googleKeysSet: bool,
    wiki: Outcome<Returned>,
    collect: CollectorFactory.EngineType -> Outcome<Returned>,
    search: CollectorFactory.EngineType -> Outcome<seq<string>>,
    youtube: seq<string> -> Outcome<Value>): (r: Collected)
    ensures r.info.Obj? && r.info.fields.Keys == InfoKeys
    ensures r.info.fields["name"] == Str(name)
    ensures |r.order| >= 2 && r.order[0] == WikipediaBranch && r.order[1] == WebSearchBranch
    ensures YouTubeBranch in r.order <==> f.useYoutube
    ensures |r.order| <= 3 && (|r.order| == 3 ==> r.order[2] == YouTubeBranch)
  {
    Collected(InfoDict(name, WikipediaInfo(wiki), WebSearchInfo(c, f, apiKey, collect), YouTubeValue(f, googleKeysSet, search, youtube)),
              BranchOrder(f.useYoutube))
  }

  /** The YouTube branch's result: collected when enabled, the skip record otherwise. */
  function YouTubeValue(f: Flags, googleKeysSet: bool,
    search: CollectorFactory.EngineType -> Outcome<seq<string>>,
    youtube: seq<string> -> Outcome<Value>): Value
  {
    if f.useYoutube then YouTubeInfo(YouTubeUrls(f, googleKeysSet, search), youtube) else YouTubeSkipped()
  }

  /** The branches run: Wikipedia, web search, and YouTube last when enabled. */
  function BranchOrder(useYoutube: bool): (order: seq<Branch>)
    ensures |order| >= 2 && order[0] == WikipediaBranch && order[1] == WebSearchBranch
    ensures YouTubeBranch in order <==> useYoutube
    ensures |order| <= 3 && (|order| == 3 ==> order[2] == YouTubeBranch)
  {
    [WikipediaBranch, WebSearchBranch] + (if useYoutube then [YouTubeBranch] else [])
  }

  /** Each branch's result lands under its own key; YouTube's is the skip record when disabled. */
  lemma CollectedFields(
    name: string, f: Flags, c: Config.AppConfig, apiKey: string, googleKeysSet: bool,
    wiki: Outcome<Returned>,
    collect: CollectorFactory.EngineType -> Outcome<Returned>,
    search: CollectorFactory.EngineType -> Outcome<seq<string>>,
    youtube: seq<string> -> Outcome<Value>)
    ensures var info := CollectCharacterInfo(name, f, c, apiKey, googleKeysSet, wiki, collect, search, youtube).info;
      info.Obj? && info.fields.Keys == InfoKeys
      && info.fields["wikipedia_info"] == WikipediaInfo(wiki)
      && info.fields["google_search_results"] == WebSearchInfo(c, f, apiKey, collect)
      && (!f.useYoutube ==> info.fields["youtube_transcripts"] == YouTubeSkipped())
      && (f.useYoutube ==> info.fields["youtube_transcripts"] == YouTubeInfo(YouTubeUrls(f, googleKeysSet, search), youtube))
  {
  }

  /** The merged info dict: the name and the three branch results under their fixed keys. */
  function InfoDict(name: string, w: Value, g: Value, y: Value): (d: Value)
    ensures d.Obj? && d.fields.Keys == InfoKeys
    ensures d.fields["name"] == Str(name) && d.fields["wikipedia_info"] == w
    ensures d.fields["google_search_results"] == g && d.fields["youtube_transcripts"] == y
  {
    Obj(map["name" := Str(name), "wikipedia_info" := w, "google_search_results" := g, "youtube_transcripts" := y])
  }
}

=== FILE: chatgpt_collector.dfy ===
/**
 * collectors/chatgpt_collector.py: one knowledge-base question to the LLM
 * per configured search pattern, at most one result per question, and the
 * two answer parsers (speech patterns, YouTube keywords). The LLM is an
 * oracle from (query, name) to the raw answer text, or an exception.
 */
module ChatGPTCollector {
  import opened Prelude
  import opened Strings
  import opened Seqs
  import Config
  import Interfaces
  import Speech

  /** `source_name` of `ChatGPTCollector`. */
  const SourceName := "chatgpt"
  const NoKeyMessage := "ChatGPT検索にはOpenAI API Keyが必要です"
  const QueryLabel := "ChatGPT知識ベース検索"
  const ErrorPrefix := "ChatGPT検索エラー: "
  const UrlScheme := "chatgpt://knowledge-base/"
  const Domain := "chatgpt.knowledge-base"

  /** The pseudo-URL every answer about `name` is filed under. */
  function KnowledgeUrl(name: string): string
  {
    UrlScheme + name
  }

  /** The name can be read back from the pseudo-URL. */
  function NameOfUrl(url: string): (name: Option<string>)
    ensures name.Some? ==> KnowledgeUrl(name.value) == url
  {
    if StartsWith(url, UrlScheme) then Some(url[|UrlScheme|..]) else None
  }

  lemma KnowledgeUrlRoundTrip(name: string)
    ensures NameOfUrl(KnowledgeUrl(name)) == Some(name)
  {
    assert KnowledgeUrl(name)[..|UrlScheme|] == UrlScheme;
    assert KnowledgeUrl(name)[|UrlScheme|..] == name;
  }

  /** `_extract_speech_patterns_from_result`, with the CHATGPT_* limits taken from `lim`. */
  function ResultPatterns(text: string, name: string, lim: Config.Limits): (r: seq<string>)
    ensures |text| == 0 ==> r == []
    ensures |r| <= lim.chatgptMaxPatterns
    ensures forall i :: 0 <= i < |r| ==>
      Speech.ParseEntry(r[i]).Some? &&
      Speech.EntryOk(Speech.ParseEntry(r[i]).value, text, name, lim.chatgptMaxQuotes, lim.chatgptMinQuoteLength)
    ensures forall i, j :: 0 <= i < j < |r| ==>
      Speech.Kind(Speech.ParseEntry(r[i]).value) <= Speech.Kind(Speech.ParseEntry(r[j]).value)
  {
    Speech.AnswerPatterns(text, name, lim.chatgptMaxQuotes, lim.chatgptMinQuoteLength, lim.chatgptMaxPatterns)
  }

  /**
   * `_search_with_chatgpt` followed by the `SearchResult` conversion of
   * `collect_info`: a raising call gives nothing; an answer gives one
   * record holding the stripped answer, filed under the name's pseudo-URL.
   * The measured duration is not modelled.
   */
  function SearchWithChatGPT(query: string, name: string, lim: Config.Limits,
                             ask: (string, string) -> Outcome<string>): (r: Option<Interfaces.SearchResult>)
    ensures r.None? <==> ask(query, name).Raised?
    ensures r.Some? ==>
      var x := r.value;
      && NameOfUrl(x.url) == Some(name)
      && x.domain == Domain
      && x.content == Strip(ask(query, name).value)
      && x.contentLength == |x.content|
      && |x.speechPatterns| <= lim.chatgptMaxPatterns
      && (x.content == "" ==> x.speechPatterns == [])
      && x.source == Some(SourceName)
      && x.searchQuery == Some(query)
      && x.characterQuotes.None?
  {
    match ask(query, name)
    case Raised(_) => None
    case Returned(answer) =>
      var text := Strip(answer);
      KnowledgeUrlRoundTrip(name);
      Some(Interfaces.SearchResult(
        KnowledgeUrl(name),
        name + "に関するChatGPT知識ベース情報",
        "ChatGPTの知識ベースから取得した" + name + "の詳細情報",
        text,
        Domain,
        |text|,
        ResultPatterns(text, name, lim),
        None,
        Some(SourceName),
        Some(query),
        None))
  }

  /**
   * The question loop of `collect_info`: the answers in query order, a
   * failed question contributing nothing.
   */
  function Answers(queries: seq<string>, name: string, lim: Config.Limits,
                   ask: (string, string) -> Outcome<string>): (r: seq<Interfaces.SearchResult>)
    ensures |r| <= |queries|
    ensures |r| == 0 <==> forall q :: q in queries ==> ask(q, name).Raised?
    ensures forall x :: x in r ==> exists q :: q in queries && SearchWithChatGPT(q, name, lim, ask) == Some(x)
    ensures forall q :: q in queries && ask(q, name).Returned? ==> SearchWithChatGPT(q, name, lim, ask).value in r
  {
    var f := (q: string) => SearchWithChatGPT(q, name, lim, ask);
    var r := FilterMap(queries, f);
    forall x | x in r ensures exists q :: q in queries && f(q) == Some(x) {
      var i :| 0 <= i < |r| && r[i] == x;
      var j :| 0 <= j < |queries| && f(queries[j]) == Some(r[i]);
      assert queries[j] in queries;
    }
    forall q | q in queries && ask(q, name).Returned? ensures f(q).value in r {
      var j :| 0 <= j < |queries| && queries[j] == q;
    }
    assert |r| > 0 ==> exists q :: q in queries && ask(q, name).Returned? by {
      if |r| > 0 {
        var j :| 0 <= j < |queries| && f(queries[j]) == Some(r[0]);
        assert queries[j] in queries;
      }
    }
    r
  }

  /** Questions asked in two runs give the answers of the two runs, one after the other. */
  lemma AnswersAppend(a: seq<string>, b: seq<string>, name: string, lim: Config.Limits,
                      ask: (string, string) -> Outcome<string>)
    ensures Answers(a + b, name, lim, ask) == Answers(a, name, lim, ask) + Answers(b, name, lim, ask)
  {
    FilterMapAppend(a, b, (q: string) => SearchWithChatGPT(q, name, lim, ask));
  }

  /** Every record the loop keeps has the collector's fixed shape. */
  lemma AnswersShape(queries: seq<string>, name: string, lim: Config.Limits, ask: (string, string) -> Outcome<string>)
    ensures forall x :: x in Answers(queries, name, lim, ask) ==>
      x.source == Some(SourceName) && x.url == KnowledgeUrl(name) && x.contentLength == |x.content|
  {
    forall x | x in Answers(queries, name, lim, ask)
      ensures x.source == Some(SourceName) && x.url == KnowledgeUrl(name) && x.contentLength == |x.content|
    {
      var q :| q in queries && SearchWithChatGPT(q, name, lim, ask) == Some(x);
      assert NameOfUrl(x.url) == Some(name);
    }
  }

  /** The record of a run whose questions were built: the answers, `found` exactly when at least one question was answered. */
  function Collected(queries: seq<string>, name: string, lim: Config.Limits,
                     ask: (string, string) -> Outcome<string>): (r: Interfaces.CollectionResult)
    ensures Interfaces.WellFormed(r) && r.source == Some(SourceName)
    ensures r.error.None? && r.query == Some(QueryLabel)
    ensures |r.results| == |Answers(queries, name, lim, ask)| <= |queries|
    ensures r.found <==> exists q :: q in queries && ask(q, name).Returned?
    ensures forall i :: 0 <= i < |r.results| ==> r.results[i] == Interfaces.SearchResultToDict(Answers(queries, name, lim, ask)[i])
  {
    Interfaces.CreateSuccessResult(SourceName, Answers(queries, name, lim, ask), Some(QueryLabel), None)
  }

  /**
   * `collect_info`: without a key the fixed error record; a failure to build
   * the queries ends in the error record of the outer handler; otherwise the
   * answers, `found` exactly when at least one question was answered.
   */
  function CollectInfo(name: string, apiKey: string, search: Config.SearchConfig, lim: Config.Limits,
                       ask: (string, string) -> Outcome<string>): (r: Interfaces.CollectionResult)
    ensures Interfaces.WellFormed(r) && r.source == Some(SourceName)
    ensures apiKey == "" ==> r.error == Some(NoKeyMessage) && r.results == [] && r.query.None?
    ensures apiKey != "" && Config.GetSearchPatterns(search, name).Raised? ==>
      !r.found && r.error == Some(ErrorPrefix + Config.GetSearchPatterns(search, name).message) && r.query == Some(QueryLabel)
    ensures r.error.None? <==> apiKey != "" && Config.GetSearchPatterns(search, name).Returned?
    ensures r.error.None? ==> r == Collected(Config.GetSearchPatterns(search, name).value, name, lim, ask)
  {
    if apiKey == "" then Interfaces.CreateErrorResult(SourceName, NoKeyMessage, None)
    else
      match Config.GetSearchPatterns(search, name)
      case Raised(msg) => Interfaces.CreateErrorResult(SourceName, ErrorPrefix + msg, Some(QueryLabel))
      case Returned(queries) => Collected(queries, name, lim, ask)
  }

  /** `_get_youtube_keywords_from_chatgpt`: the parsed keywords, or none when the call raises. */
  function YouTubeKeywords(name: string, lim: Config.Limits, askKeywords: string -> Outcome<string>): (r: seq<string>)
    ensures askKeywords(name).Raised? ==> r == []
    ensures |r| <= lim.chatgptMaxKeywords
    ensures forall i :: 0 <= i < |r| ==>
      exists line :: line in SplitOn(Strip(askKeywords(name).value), "\n") && Speech.KeywordOf(line) == Some(r[i])
  {
    match askKeywords(name)
    case Raised(_) => []
    case Returned(answer) => Speech.AnswerKeywords(answer, lim.chatgptMaxKeywords)
  }

  /** What `search_youtube_videos` produces: its URL list and the keywords it announces. */
  datatype VideoSearch = VideoSearch(urls: seq<string>, shownKeywords: seq<string>)

  /**
   * `search_youtube_videos`: no key means no question; otherwise at most
   * CHATGPT_TOP_KEYWORDS of the keywords are shown, and no URL is ever
   * returned.
   */
  function SearchYouTubeVideos(name: string, apiKey: string, topKeywords: nat, lim: Config.Limits,
                               askKeywords: string -> Outcome<string>): (r: VideoSearch)
    ensures r.urls == []
    ensures apiKey == "" ==> r.shownKeywords == []
    ensures |r.shownKeywords| <= topKeywords && |r.shownKeywords| <= lim.chatgptMaxKeywords
    ensures IsPrefix(r.shownKeywords, YouTubeKeywords(name, lim, askKeywords))
  {
    if apiKey == "" then VideoSearch([], [])
    else VideoSearch([], Take(YouTubeKeywords(name, lim, askKeywords), topKeywords))
  }
}

=== FILE: collector_factory.dfy ===
/**
 * core/collector_factory.py: the search-engine enumeration, the choice of
 * an engine from the command-line flags, and which collector class each
 * engine is built as.
 */
module CollectorFactory {
  import opened Prelude
  import Config
  import Exceptions

  datatype EngineType = Google | Bing | DuckDuckGo | ChatGPT

  /** `SearchEngineType.<member>.value` */
  function EngineValue(e: EngineType): string
  {
    match e
    case Google => "google"
    case Bing => "bing"
    case DuckDuckGo => "duckduckgo"
    case ChatGPT => "chatgpt"
  }

  /** `SearchEngineType(value)`, `None` where Python raises `ValueError`. */
  function EngineFromValue(v: string): (r: Option<EngineType>)
    ensures r.Some? ==> EngineValue(r.value) == v
  {
    if v == "google" then Some(Google)
    else if v == "bing" then Some(Bing)
    else if v == "duckduckgo" then Some(DuckDuckGo)
    else if v == "chatgpt" then Some(ChatGPT)
    else None
  }

  /** Each member is found again from its value, so the four values are distinct. */
  lemma EngineValueRoundTrip(e: EngineType)
    ensures EngineFromValue(EngineValue(e)) == Some(e)
  {
  }

  /**
   * `determine_best_search_engine`: ChatGPT, then Bing, then DuckDuckGo,
   * then Google by precedence, and ChatGPT when no flag is set.
   */
  function DetermineBestSearchEngine(useChatgpt: bool, useBing: bool, useDuckduckgo: bool, useGoogle: bool): (r: EngineType)
    ensures r == ChatGPT <==> useChatgpt || (!useBing && !useDuckduckgo && !useGoogle)
    ensures r == Bing <==> !useChatgpt && useBing
    ensures r == DuckDuckGo <==> !useChatgpt && !useBing && useDuckduckgo
    ensures r == Google <==> !useChatgpt && !useBing && !useDuckduckgo && useGoogle
  {
    if useChatgpt then ChatGPT
    else if useBing then Bing
    else if useDuckduckgo then DuckDuckGo
    else if useGoogle then Google
    else ChatGPT
  }

  /** The collector classes the factory can build. */
  datatype CollectorClass =
    | GoogleCollector
    | BingCollector
    | DuckDuckGoCollector
    | ChatGPTCollector
    | WikipediaCollector
    | YouTubeCollector

  /** A constructed collector: its class, its delay and, for Google, the API credentials it was given. */
  datatype Collector = Collector(cls: CollectorClass, delay: real, googleApiKey: string, googleCx: string)

  datatype Creation = Made(collector: Collector) | Refused(error: Exceptions.AppError)

  function ClassOf(e: EngineType): CollectorClass
  {
    match e
    case Google => GoogleCollector
    case Bing => BingCollector
    case DuckDuckGo => DuckDuckGoCollector
    case ChatGPT => ChatGPTCollector
  }

  const MissingKeyMessage := "ChatGPT検索にはAPI Keyが必要です"

  /**
   * `create_search_engine_collector`: Google gets the search delay and the
   * configured Google credentials, the others the common delay; ChatGPT
   * without an API key raises `ConfigurationError`.
   */
  function CreateSearchEngineCollector(c: Config.AppConfig, e: EngineType, apiKey: string): (r: Creation)
    ensures r.Refused? <==> e == ChatGPT && apiKey == ""
    ensures r.Refused? ==> r.error.cls == Exceptions.ConfigurationError && r.error.message == MissingKeyMessage
    ensures r.Made? ==> r.collector.cls == ClassOf(e)
    ensures r.Made? ==> r.collector.delay == (if e == Google then c.search.googleDelay else c.collector.defaultDelay)
    ensures r.Made? && e == Google ==> r.collector.googleApiKey == c.api.googleApiKey && r.collector.googleCx == c.api.googleCx
  {
    match e
    case Google => Made(Collector(GoogleCollector, c.search.googleDelay, c.api.googleApiKey, c.api.googleCx))
    case Bing => Made(Collector(BingCollector, c.collector.defaultDelay, "", ""))
    case DuckDuckGo => Made(Collector(DuckDuckGoCollector, c.collector.defaultDelay, "", ""))
    case ChatGPT =>
      if apiKey == "" then Refused(Exceptions.NewError(Exceptions.ConfigurationError, MissingKeyMessage, None, None))
      else Made(Collector(ChatGPTCollector, c.collector.defaultDelay, "", ""))
  }

  /** Different engines give collectors of different classes. */
  lemma DispatchDistinct(c: Config.AppConfig, e1: EngineType, e2: EngineType, k1: string, k2: string)
    requires CreateSearchEngineCollector(c, e1, k1).Made? && CreateSearchEngineCollector(c, e2, k2).Made?
    ensures CreateSearchEngineCollector(c, e1, k1).collector.cls == CreateSearchEngineCollector(c, e2, k2).collector.cls <==> e1 == e2
  {
  }
}

=== FILE: config.dfy ===
/**
 * Application settings (config.py): the API, search, collector and
 * processing records with their defaults, the search-query templates, and
 * the limits the collectors import by name.
 */
module Config {
  import opened Prelude
  import opened Strings

  /** One piece of a `str.format` template: literal text or the `{name}` field. */
  datatype TPart = Lit(text: string) | NameField

  type Template = seq<TPart>

  /**
   * Parses a format string that may use only the `{name}` field and the
   * `{{` / `}}` escapes. `None` is the case where `str.format(name=...)`
   * raises (an unknown field, a stray brace).
   */
  function ParseTemplate(p: string): (t: Option<Template>)
    decreases |p|
  {
    if |p| == 0 then Some([])
    else if p[0] == '{' then
      if |p| >= 2 && p[1] == '{' then Prepend(Lit("{"), ParseTemplate(p[2..]))
      else if StartsWith(p, "{name}") then Prepend(NameField, ParseTemplate(p[6..]))
      else None
    else if p[0] == '}' then
      if |p| >= 2 && p[1] == '}' then Prepend(Lit("}"), ParseTemplate(p[2..]))
      else None
    else Prepend(Lit([p[0]]), ParseTemplate(p[1..]))
  }

  function Prepend(part: TPart, rest: Option<Template>): (t: Option<Template>)
    ensures t.Some? <==> rest.Some?
    ensures t.Some? ==> t.value == [part] + rest.value
  {
    match rest
    case None => None
    case Some(r) => Some([part] + r)
  }

  /** Fills every `{name}` field with `name`. */
  function Render(t: Template, name: string): (r: string)
  {
    if |t| == 0 then ""
    else
      (match t[0] case Lit(s) => s case NameField => name) + Render(t[1..], name)
  }

  /** `pattern.format(name=name)` */
  function FormatName(pattern: string, name: string): (r: Outcome<string>)
    ensures r.Raised? <==> ParseTemplate(pattern).None?
  {
    match ParseTemplate(pattern)
    case None => Raised("format string uses a field other than {name}")
    case Some(t) => Returned(Render(t, name))
  }

  predicate BraceFree(s: string)
  {
    forall i :: 0 <= i < |s| ==> s[i] != '{' && s[i] != '}'
  }

  lemma {:induction false} RenderAppend(a: Template, b: Template, name: string)
    ensures Render(a + b, name) == Render(a, name) + Render(b, name)
    decreases |a|
  {
    if |a| > 0 {
      assert (a + b)[0] == a[0];
      assert (a + b)[1..] == a[1..] + b;
      RenderAppend(a[1..], b, name);
    } else {
      assert a + b == b;
    }
  }

  /** The template of brace-free text: one literal per character. */
  function Lits(a: string): (t: Template)
    ensures |t| == |a|
  {
    seq(|a|, i requires 0 <= i < |a| => Lit([a[i]]))
  }

  lemma {:induction false} RenderLits(a: string, name: string)
    ensures Render(Lits(a), name) == a
    decreases |a|
  {
    if |a| > 0 {
      assert Lits(a)[1..] == Lits(a[1..]);
      RenderLits(a[1..], name);
    }
  }

  /** Brace-free text in front of a template parses to its literals followed by the rest. */
  lemma {:induction false} ParseLiteralPrefix(a: string, rest: string)
    requires BraceFree(a)
    ensures ParseTemplate(a + rest) ==
      (if ParseTemplate(rest).Some? then Some(Lits(a) + ParseTemplate(rest).value) else None)
    decreases |a|
  {
    if |a| > 0 {
      assert (a + rest)[1..] == a[1..] + rest;
      assert (a + rest)[0] == a[0] && a[0] != '{' && a[0] != '}';
      ParseLiteralPrefix(a[1..], rest);
      assert ParseTemplate(a + rest) == Prepend(Lit([a[0]]), ParseTemplate(a[1..] + rest));
      assert Lits(a) == [Lit([a[0]])] + Lits(a[1..]);
      if ParseTemplate(rest).Some? {
        var t := ParseTemplate(rest).value;
        assert [Lit([a[0]])] + (Lits(a[1..]) + t) == ([Lit([a[0]])] + Lits(a[1..])) + t;
      }
    } else {
      assert a + rest == rest;
      assert Lits(a) == [];
      if ParseTemplate(rest).Some? {
        assert [] + ParseTemplate(rest).value == ParseTemplate(rest).value;
      }
    }
  }

  /** A `{name}` field followed by brace-free text parses to the field and the text's literals. */
  lemma ParseNameTail(after: string)
    requires BraceFree(after)
    ensures ParseTemplate("{name}" + after) == Some([NameField] + Lits(after))
  {
    var tail := "{name}" + after;
    ParseLiteralPrefix(after, "");
    assert after + "" == after;
    assert Lits(after) + [] == Lits(after);
    assert tail[6..] == after;
    assert StartsWith(tail, "{name}");
  }

  /** The literals of two texts around the field render as the texts around the name. */
  lemma RenderSplice(before: string, after: string, name: string)
    ensures Render(Lits(before) + ([NameField] + Lits(after)), name) == before + name + after
  {
    RenderAppend(Lits(before), [NameField] + Lits(after), name);
    RenderAppend([NameField], Lits(after), name);
    RenderLits(before, name);
    RenderLits(after, name);
    assert Render([NameField], name) == name;
  }

  /**
   * A template whose only braces are one `{name}` field between brace-free
   * text renders as that text with the name spliced in.
   */
  lemma FormatNameSplices(before: string, after: string, name: string)
    requires BraceFree(before) && BraceFree(after)
    ensures FormatName(before + "{name}" + after, name) == Returned(before + name + after)
  {
    var tail := "{name}" + after;
    assert before + "{name}" + after == before + tail;
    ParseNameTail(after);
    ParseLiteralPrefix(before, tail);
    RenderSplice(before, after, name);
  }

  /** The Google Custom Search credentials and the OpenAI call settings. */
  datatype APIConfig = APIConfig(
    openaiModel: string,
    openaiMaxTokens: nat,
    openaiTemperature: real,
    openaiFilterMaxTokens: nat,
    openaiFilterTemperature: real,
    openaiSearchMaxTokens: nat,
    openaiSearchTemperature: real,
    googleApiKey: string,
    googleCx: string)

  function DefaultAPIConfig(): APIConfig
  {
    APIConfig("gpt-4o", 4000, 0.7, 1000, 0.3, 2000, 0.1, "", "")
  }

  /** `os.environ.get(key, "")` */
  function EnvOr(env: map<string, string>, key: string): string
  {
    if key in env then env[key] else ""
  }

  /** `APIConfig.from_env()`: only the two Google credentials come from the environment. */
  function FromEnv(env: map<string, string>): (c: APIConfig)
    ensures c.(googleApiKey := "", googleCx := "") == DefaultAPIConfig()
    ensures "GOOGLE_API_KEY" in env ==> c.googleApiKey == env["GOOGLE_API_KEY"]
    ensures "GOOGLE_API_KEY" !in env ==> c.googleApiKey == ""
    ensures "GOOGLE_CX" in env ==> c.googleCx == env["GOOGLE_CX"]
    ensures "GOOGLE_CX" !in env ==> c.googleCx == ""
  {
    DefaultAPIConfig().(googleApiKey := EnvOr(env, "GOOGLE_API_KEY"), googleCx := EnvOr(env, "GOOGLE_CX"))
  }

  const DefaultTemplates: seq<string> := [
    "\"{name}\" 口癖 語尾",
    "\"{name}\" 話し方 特徴",
    "\"{name}\" 口調 喋り方"
  ]

  datatype SearchConfig = SearchConfig(
    googleResults: nat,
    googleApiResults: nat,
    googleDelay: real,
    googlePageLimit: nat,
    youtubeMaxUrls: nat,
    youtubeMaxVideos: nat,
    youtubeMaxTranscripts: nat,
    youtubeTranscriptLimit: nat,
    youtubeSearchDelay: real,
    searchPatterns: seq<string>)

  /** `SearchConfig(search_patterns=patterns)` followed by `__post_init__`. */
  function NewSearchConfig(patterns: Option<seq<string>>): (c: SearchConfig)
    ensures patterns.Some? ==> c.searchPatterns == patterns.value
    ensures patterns.None? ==> c.searchPatterns == DefaultTemplates
    ensures c.googleResults == 20 && c.googleApiResults == 8 && c.googlePageLimit == 1000
    ensures c.youtubeMaxUrls == 20 && c.youtubeMaxVideos == 15
    ensures c.youtubeMaxTranscripts == 10 && c.youtubeTranscriptLimit == 3000
  {
    SearchConfig(20, 8, 8.0, 1000, 20, 15, 10, 3000, 1.0,
      match patterns case Some(ps) => ps case None => DefaultTemplates)
  }

  /** `get_search_patterns(name)`: each template formatted with the name; the first template that cannot be formatted raises. */
  function SearchPatterns(templates: seq<string>, name: string): (r: Outcome<seq<string>>)
    ensures r.Returned? ==> |r.value| == |templates|
    ensures r.Returned? ==> forall i :: 0 <= i < |templates| ==> FormatName(templates[i], name) == Returned(r.value[i])
    ensures r.Raised? ==> exists i :: 0 <= i < |templates| && FormatName(templates[i], name).Raised?
  {
    if |templates| == 0 then Returned([])
    else
      match FormatName(templates[0], name)
      case Raised(m) => Raised(m)
      case Returned(q) =>
        match SearchPatterns(templates[1..], name)
        case Raised(m) => Raised(m)
        case Returned(qs) => Returned([q] + qs)
  }

  function GetSearchPatterns(c: SearchConfig, name: string): (r: Outcome<seq<string>>)
  {
    SearchPatterns(c.searchPatterns, name)
  }

  /** The default template `"{name}" <suffix>` formatted with a name. */
  lemma DefaultTemplateFormats(i: nat, name: string)
    requires i < |DefaultTemplates|
    ensures FormatName(DefaultTemplates[i], name) == Returned("\"" + name + DefaultTemplates[i][7..])
  {
    var suffix := DefaultTemplates[i][7..];
    assert DefaultTemplates[i] == "\"" + "{name}" + suffix;
    assert BraceFree("\"") && BraceFree(suffix);
    FormatNameSplices("\"", suffix, name);
  }

  /** Templates that each format successfully give their formatted texts, in order. */
  lemma {:induction false} SearchPatternsAllFormat(ts: seq<string>, name: string, qs: seq<string>)
    requires |qs| == |ts|
    requires forall i :: 0 <= i < |ts| ==> FormatName(ts[i], name) == Returned(qs[i])
    ensures SearchPatterns(ts, name) == Returned(qs)
    decreases |ts|
  {
    if |ts| > 0 {
      SearchPatternsAllFormat(ts[1..], name, qs[1..]);
      assert [qs[0]] + qs[1..] == qs;
    }
  }

  /** The `i`-th default query: the quoted name and the template's suffix. */
  function DefaultQuery(name: string, i: nat): string
    requires i < |DefaultTemplates|
  {
    "\"" + name + DefaultTemplates[i][7..]
  }

  /** The default templates format to the default queries. */
  lemma DefaultQueries(name: string)
    ensures GetSearchPatterns(NewSearchConfig(None), name) ==
      Returned([DefaultQuery(name, 0), DefaultQuery(name, 1), DefaultQuery(name, 2)])
  {
    var qs := [DefaultQuery(name, 0), DefaultQuery(name, 1), DefaultQuery(name, 2)];
    forall i | 0 <= i < 3 ensures FormatName(DefaultTemplates[i], name) == Returned(qs[i]) {
      DefaultTemplateFormats(i, name);
    }
    SearchPatternsAllFormat(DefaultTemplates, name, qs);
  }

  /** The default queries spelled out. */
  lemma DefaultQueryTexts(name: string)
    ensures DefaultQuery(name, 0) == "\"" + name + "\" 口癖 語尾"
    ensures DefaultQuery(name, 1) == "\"" + name + "\" 話し方 特徴"
    ensures DefaultQuery(name, 2) == "\"" + name + "\" 口調 喋り方"
  {
    assert DefaultTemplates[0][7..] == "\" 口癖 語尾";
    assert DefaultTemplates[1][7..] == "\" 話し方 特徴";
    assert DefaultTemplates[2][7..] == "\" 口調 喋り方";
  }

  /** With the default templates there are three queries, each quoting the name. */
  lemma DefaultQueriesQuoteName(name: string)
    ensures GetSearchPatterns(NewSearchConfig(None), name) == Returned([
      "\"" + name + "\" 口癖 語尾",
      "\"" + name + "\" 話し方 特徴",
      "\"" + name + "\" 口調 喋り方"])
  {
    DefaultQueries(name);
    DefaultQueryTexts(name);
  }

  /** Each default query starts with the name between double quotes. */
  lemma DefaultQueryQuoted(name: string, i: nat)
    requires i < |DefaultTemplates|
    ensures Contains(DefaultQuery(name, i), "\"" + name + "\"")
  {
    var quoted := "\"" + name + "\"";
    var q := DefaultQuery(name, i);
    assert DefaultTemplates[i][7] == '"';
    assert q[..|quoted|] == quoted;
    ContainsAt(q, quoted, 0);
  }

  /** Every default query contains the name between double quotes. */
  lemma DefaultQueriesContainQuotedName(name: string)
    ensures GetSearchPatterns(NewSearchConfig(None), name).Returned?
    ensures forall q :: q in GetSearchPatterns(NewSearchConfig(None), name).value ==> Contains(q, "\"" + name + "\"")
  {
    DefaultQueries(name);
    DefaultQueryQuoted(name, 0);
    DefaultQueryQuoted(name, 1);
    DefaultQueryQuoted(name, 2);
  }

  datatype CollectorConfig = CollectorConfig(
    wikipediaSummaryLimit: nat,
    wikipediaFallbackLimit: nat,
    defaultDelay: real,
    requestTimeout: nat,
    maxRetries: nat,
    retryDelay: real)

  function DefaultCollectorConfig(): CollectorConfig
  {
    CollectorConfig(1000, 500, 2.0, 15, 3, 30.0)
  }

  datatype ProcessingConfig = ProcessingConfig(
    samplePhrasesMax: nat,
    samplePhraseMinLength: nat,
    samplePhraseMaxLength: nat,
    sampleQualityMinLength: nat,
    sampleQualityMaxLength: nat,
    maxKeyInformation: nat,
    maxSamplePhrasesDisplay: nat,
    chatgptFilterTextLimit: nat)

  /** The processing defaults keep every length window non-empty. */
  function DefaultProcessingConfig(): (c: ProcessingConfig)
    ensures 0 < c.samplePhraseMinLength <= c.samplePhraseMaxLength
    ensures 0 < c.sampleQualityMinLength <= c.sampleQualityMaxLength
    ensures c.samplePhraseMaxLength <= c.sampleQualityMaxLength
    ensures c.maxSamplePhrasesDisplay <= c.samplePhrasesMax
  {
    ProcessingConfig(20, 3, 60, 3, 100, 5, 15, 3000)
  }

  datatype AppConfig = AppConfig(
    api: APIConfig,
    search: SearchConfig,
    collector: CollectorConfig,
    processing: ProcessingConfig)

  /** `AppConfig.load()` */
  function Load(env: map<string, string>): (c: AppConfig)
    ensures c.api == FromEnv(env)
    ensures c.search.searchPatterns == DefaultTemplates
  {
    AppConfig(FromEnv(env), NewSearchConfig(None), DefaultCollectorConfig(), DefaultProcessingConfig())
  }

  /**
   * The upper-case constants the collectors import from `config` by name.
   * They are not defined in config.py, so the model takes them as a record
   * of parameters; `ConfigLimits` fills them from the matching fields above.
   */
  datatype Limits = Limits(
    youtubeMaxVideos: nat,
    youtubeMaxTranscripts: nat,
    youtubeMaxUrls: nat,
    samplePhrasesMax: nat,
    samplePhraseMinLength: nat,
    samplePhraseMaxLength: nat,
    sampleQualityMinLength: nat,
    sampleQualityMaxLength: nat,
    googleSearchResults: nat,
    googlePageContentLimit: nat,
    chatgptMaxQuotes: nat,
    chatgptMinQuoteLength: nat,
    chatgptMaxPatterns: nat,
    chatgptMaxKeywords: nat,
    chatgptFilterTextLimit: nat,
    apiPromptSliceLength: nat,
    maxKeyInformation: nat,
    maxSamplePhrasesDisplay: nat,
    wikipediaSummaryLimit: nat,
    wikipediaFallbackLimit: nat)

  function ConfigLimits(c: AppConfig, chatgptMaxQuotes: nat, chatgptMinQuoteLength: nat,
                        chatgptMaxPatterns: nat, chatgptMaxKeywords: nat, apiPromptSliceLength: nat): Limits
  {
    Limits(
      c.search.youtubeMaxVideos, c.search.youtubeMaxTranscripts, c.search.youtubeMaxUrls,
      c.processing.samplePhrasesMax, c.processing.samplePhraseMinLength, c.processing.samplePhraseMaxLength,
      c.processing.sampleQualityMinLength, c.processing.sampleQualityMaxLength,
      c.search.googleResults, c.search.googlePageLimit,
      chatgptMaxQuotes, chatgptMinQuoteLength, chatgptMaxPatterns, chatgptMaxKeywords,
      c.processing.chatgptFilterTextLimit, apiPromptSliceLength,
      c.processing.maxKeyInformation, c.processing.maxSamplePhrasesDisplay,
      c.collector.wikipediaSummaryLimit, c.collector.wikipediaFallbackLimit)
  }
}

=== FILE: console_display.dfy ===
/**
 * utils/console_display.py: the status table behind the live console view,
 * and the reporter that drives it. The table is a value and every update a
 * pure function of it; the rendering thread, the terminal escape codes, the
 * progress-bar percentage and the clock are not modelled.
 */
module ConsoleDisplay {
  import opened Prelude
  import opened Strings

  /** One row of the table: its status word, progress text and time text. */
  datatype Row = Row(status: string, progress: string, time: string)

  /** `self.status`: the character name plus the rows keyed by component. */
  datatype Display = Display(characterName: string, rows: map<string, Row>, elapsed: int)

  const Wikipedia := "wikipedia"
  const WebSearch := "web_search"
  const YouTube := "youtube"
  const Overall := "overall"
  /** The one key of `self.status` that is not a row: updating it raises a TypeError. */
  const CharacterNameKey := "character_name"

  const Waiting := "待機中"
  const Running := "実行中"
  const Processing := "処理中"
  const Done := "完了"
  const Failure := "エラー"
  const TimedOut := "タイムアウト"
  const Skipped := "スキップ"
  const Initializing := "初期化中"
  const Collecting := "情報収集中"

  const Components: set<string> := {Wikipedia, WebSearch, YouTube, Overall}

  /** The table a new `ConsoleDisplay` starts with. */
  function NewDisplay(): (d: Display)
    ensures d.rows.Keys == Components && d.characterName == "" && d.elapsed == 0
    ensures forall c :: c in d.rows && c != Overall ==> d.rows[c] == Row(Waiting, "", "")
    ensures d.rows[Overall].status == Initializing
  {
    Display("", map[Wikipedia := Row(Waiting, "", ""), WebSearch := Row(Waiting, "", ""),
                   YouTube := Row(Waiting, "", ""), Overall := Row(Initializing, "", "")], 0)
  }

  /** `start`: the name is shown and the overall row says information is being collected. */
  function Start(d: Display, name: string): (r: Display)
    requires Overall in d.rows
    ensures r.rows.Keys == d.rows.Keys
    ensures r.characterName == name && r.rows[Overall].status == Collecting
    ensures forall c :: c in d.rows && c != Overall ==> r.rows[c] == d.rows[c]
  {
    d.(characterName := name, rows := d.rows[Overall := d.rows[Overall].(status := Collecting)])
  }

  /**
   * `update_status`: an unknown component changes nothing; for a row the
   * status is always replaced, the progress and the time only by non-empty
   * texts. The name entry is not a dict, so the assignment raises.
   */
  function UpdateStatus(d: Display, component: string, status: string, progress: string, timeInfo: string): (r: Outcome<Display>)
    requires CharacterNameKey !in d.rows
    ensures r.Raised? <==> component == CharacterNameKey
    ensures component !in d.rows && component != CharacterNameKey ==> r == Returned(d)
    ensures r.Returned? ==> r.value.characterName == d.characterName && r.value.rows.Keys == d.rows.Keys
    ensures r.Returned? ==> forall c :: c in d.rows && c != component ==> r.value.rows[c] == d.rows[c]
    ensures component in d.rows ==>
      r.Returned? && component in r.value.rows && r.value.rows[component].status == status
      && (progress != "" ==> r.value.rows[component].progress == progress)
      && (progress == "" ==> r.value.rows[component].progress == d.rows[component].progress)
      && (timeInfo != "" ==> r.value.rows[component].time == timeInfo)
      && (timeInfo == "" ==> r.value.rows[component].time == d.rows[component].time)
  {
    if component == CharacterNameKey then Raised("'str' object does not support item assignment")
    else if component !in d.rows then Returned(d)
    else
      var prev := d.rows[component];
      var row := Row(status,
        if progress != "" then progress else prev.progress,
        if timeInfo != "" then timeInfo else prev.time);
      Returned(d.(rows := d.rows[component := row]))
  }

  /** Repeating an update changes nothing more. */
  lemma UpdateStatusIdempotent(d: Display, component: string, status: string, progress: string, timeInfo: string)
    requires CharacterNameKey !in d.rows
    requires UpdateStatus(d, component, status, progress, timeInfo).Returned?
    ensures var once := UpdateStatus(d, component, status, progress, timeInfo).value;
      UpdateStatus(once, component, status, progress, timeInfo) == Returned(once)
  {
    var once := UpdateStatus(d, component, status, progress, timeInfo).value;
    if component in d.rows {
      assert once.rows[component := once.rows[component]] == once.rows;
    }
  }

  /** The icons of `_get_status_icon`, keyed by status word. */
  const Icons: map<string, string> := map[
    Waiting := "⏸️",
    Running := "\U{1f504}",
    Processing := "⚙️",
    Done := "✅",
    Failure := "❌",
    TimedOut := "⏱️",
    Skipped := "⏭️"]

  const UnknownIcon := "❓"

  /** `_get_status_icon`: the icon of a known status word, a question mark for any other. */
  function StatusIcon(status: string): (icon: string)
    ensures status in Icons ==> icon == Icons[status]
    ensures status !in Icons ==> icon == UnknownIcon
  {
    if status in Icons then Icons[status] else UnknownIcon
  }

  /** The seven known statuses show seven different icons, none of them the question mark, so the icon tells the status. */
  lemma StatusIconIdentifies(a: string, b: string)
    requires a in Icons
    ensures StatusIcon(a) != UnknownIcon
    ensures StatusIcon(a) == StatusIcon(b) ==> a == b
  {
  }

  /** `f"{n:02d}"`: at least two characters, zero-padded; a negative number keeps its sign instead. */
  function Pad2(n: int): (r: string)
    ensures |r| >= 2
    ensures n >= 0 ==> (forall i :: 0 <= i < |r| ==> IsDigit(r[i])) && DigitsValue(r) == n
    ensures n < 0 ==> r[0] == '-'
    ensures 0 <= n < 100 ==> |r| == 2
  {
    NatToStringRoundTrip(if n < 0 then -n else n);
    assert 0 <= n < 10 ==> DigitsValue("0" + NatToString(n)) == n by {
      if 0 <= n < 10 {
        DigitsLeadingZero(NatToString(n));
      }
    }
    if n < 0 then "-" + NatToString(-n)
    else if n < 10 then "0" + NatToString(n)
    else NatToString(n)
  }

  /** `_format_time`: minutes and seconds (floor division by 60), each zero-padded, joined by a colon. */
  function FormatTime(seconds: int): (r: string)
    ensures |r| >= 5 && r[|r| - 3] == ':'
    ensures var secs := r[|r| - 2..];
      (forall i :: 0 <= i < 2 ==> IsDigit(secs[i])) && DigitsValue(secs) < 60
    ensures seconds >= 60 * 100 ==> |r| > 5
    ensures 0 <= seconds < 60 * 100 ==> |r| == 5
  {
    var m := Pad2(seconds / 60);
    var s := Pad2(seconds % 60);
    assert (m + ":" + s)[|m + ":" + s| - 2..] == s;
    m + ":" + s
  }

  /** Reads "MM:SS" back: the digits before the last colon are minutes, the two after it seconds. */
  function ReadClock(t: string): (r: Option<int>)
  {
    if |t| >= 4 && t[|t| - 3] == ':' && AllDigits(t[..|t| - 3]) && AllDigits(t[|t| - 2..])
    then Some(DigitsValue(t[..|t| - 3]) * 60 + DigitsValue(t[|t| - 2..]))
    else None
  }

  /** A non-negative number of seconds is read back exactly from its clock text. */
  lemma FormatTimeRoundTrip(seconds: nat)
    ensures ReadClock(FormatTime(seconds)) == Some(seconds)
  {
    ReadClockOf(Pad2(seconds / 60), Pad2(seconds % 60));
  }

  /** Minute and second digits joined by a colon read back as their values. */
  lemma ReadClockOf(m: string, s: string)
    requires |m| >= 1 && AllDigits(m)
    requires |s| == 2 && AllDigits(s)
    ensures ReadClock(m + ":" + s) == Some(DigitsValue(m) * 60 + DigitsValue(s))
  {
    var t := m + ":" + s;
    var minutes, secs := t[..|t| - 3], t[|t| - 2..];
    assert minutes == m;
    assert secs == s;
    assert t[|t| - 3] == ':' && AllDigits(minutes) && AllDigits(secs);
  }

  // ----- ProgressReporter -----

  /** `start_component`: the row goes to "running"; its progress and time stay. */
  function StartComponent(d: Display, component: string): (r: Outcome<Display>)
    requires CharacterNameKey !in d.rows
    ensures component in d.rows ==>
      r.Returned? && component in r.value.rows && r.value.rows[component] == d.rows[component].(status := Running)
  {
    UpdateStatus(d, component, Running, "", "")
  }

  /** The progress text "current/total". */
  function ProgressText(current: int, total: int): string
  {
    IntToString(current) + "/" + IntToString(total)
  }

  /** The progress text splits at its slash into the two numbers again, as the progress bar reads it. */
  lemma ProgressTextRoundTrip(current: int, total: int)
    ensures var parts := SplitOn(ProgressText(current, total), "/");
      |parts| == 2 && IntValue(parts[0]) == Some(current) && IntValue(parts[1]) == Some(total)
  {
    SplitAtSingle(IntToString(current), IntToString(total), '/');
    assert ProgressText(current, total) == IntToString(current) + ['/'] + IntToString(total);
    IntToStringRoundTrip(current);
    IntToStringRoundTrip(total);
  }

  /** `update_progress`: the counts become the progress; the row is "processing" exactly when a detail is given, which then becomes its time text. */
  function UpdateProgress(d: Display, component: string, current: int, total: int, detail: string): (r: Outcome<Display>)
    requires CharacterNameKey !in d.rows
    ensures component in d.rows ==>
      r.Returned? && component in r.value.rows && r.value.rows[component].progress == ProgressText(current, total)
      && (r.value.rows[component].status == Processing <==> detail != "")
      && (r.value.rows[component].status == Running <==> detail == "")
      && (detail != "" ==> r.value.rows[component].time == detail)
  {
    UpdateStatus(d, component, if detail != "" then Processing else Running, ProgressText(current, total), detail)
  }

  /** The status word `complete_component` reports. */
  function CompletionStatus(success: bool, message: string): (status: string)
    ensures status == Done <==> success
    ensures status == Failure <==> !success && message != ""
    ensures status == Skipped <==> !success && message == ""
  {
    if success then Done else if message != "" then Failure else Skipped
  }

  /**
   * `complete_component`: done, failed or skipped; the elapsed-time text
   * (formatted from the clock, a parameter here) replaces the time, and the
   * progress is left as it was.
   */
  function CompleteComponent(d: Display, component: string, success: bool, message: string, timeText: string): (r: Outcome<Display>)
    requires CharacterNameKey !in d.rows
    requires timeText != ""
    ensures component in d.rows ==>
      r.Returned? && component in r.value.rows && r.value.rows[component] == Row(CompletionStatus(success, message), d.rows[component].progress, timeText)
  {
    UpdateStatus(d, component, CompletionStatus(success, message), "", timeText)
  }

  /** `error_component`: the row shows the error status and the time; the progress is kept. */
  function ErrorComponent(d: Display, component: string, timeText: string): (r: Outcome<Display>)
    requires CharacterNameKey !in d.rows
    requires timeText != ""
    ensures component in d.rows ==>
      r.Returned? && component in r.value.rows && r.value.rows[component] == Row(Failure, d.rows[component].progress, timeText)
  {
    UpdateStatus(d, component, Failure, "", timeText)
  }

  /** Reporting on one component never touches another row nor the name. */
  lemma ReportingIsLocal(d: Display, component: string, other: string, success: bool, message: string, timeText: string)
    requires CharacterNameKey !in d.rows
    requires timeText != "" && component in d.rows && other in d.rows && other != component
    ensures CompleteComponent(d, component, success, message, timeText).value.rows[other] == d.rows[other]
    ensures CompleteComponent(d, component, success, message, timeText).value.characterName == d.characterName
  {
  }
}

=== FILE: diagnose.dfy ===
/**
 * diagnose_api_key_issue.py: the parts of the key diagnosis that decide
 * what is shown. A shell line assigning OPENAI_API_KEY is split at its
 * first '=' and shown with the value masked; key-like tokens ("sk-"
 * followed by key characters) in logged errors are masked before at most
 * three of them are shown. Reading files, the environment and the system
 * is not modelled: file contents and log entries are inputs.
 */
module Diagnose {
  import opened Prelude
  import opened Strings
  import opened Seqs

  /** `'*' * n`, which is empty for a negative count. */
  function Stars(n: int): (r: string)
    ensures n <= 0 ==> r == ""
    ensures n > 0 ==> r == Repeat('*', n)
  {
    if n > 0 then Repeat('*', n) else ""
  }

  // ----- shell configuration lines -----

  /** `line.split('=')[0]`: the text before the first '='. */
  function KeyPart(line: string): (r: string)
    requires Contains(line, "=")
    ensures r == line[..IndexOf(line, "=").value]
    ensures '=' !in r
  {
    var parts := SplitOn(line, "=");
    assert parts[0] == line[..IndexOf(line, "=").value];
    ContainsCharIff(parts[0], '=');
    parts[0]
  }

  /** `line.split('=', 1)[1]`: the text after the first '='. */
  function ValuePart(line: string): (r: string)
    requires Contains(line, "=")
  {
    line[IndexOf(line, "=").value + 1..]
  }

  /** The key part, the '=' and the value part give the line back. */
  lemma KeyValueRoundTrip(line: string)
    requires Contains(line, "=")
    ensures KeyPart(line) + "=" + ValuePart(line) == line
  {
    Reassemble(line, "=", IndexOf(line, "=").value);
  }

  /** `hidden_value`: a long value keeps its first and last four characters, a short one is all stars. */
  function MaskValue(v: string): (r: string)
    ensures |r| == |v|
    ensures |v| > 8 ==> r[..4] == v[..4] && r[|r| - 4..] == v[|v| - 4..]
    ensures |v| > 8 ==> forall i :: 4 <= i < |v| - 4 ==> r[i] == '*'
    ensures |v| <= 8 ==> forall i :: 0 <= i < |r| ==> r[i] == '*'
  {
    if |v| > 8 then
      var r := v[..4] + Stars(|v| - 8) + v[|v| - 4..];
      assert r[|r| - 4..] == v[|v| - 4..];
      r
    else Stars(|v|)
  }

  /** A masked value shows at most eight of its characters. */
  lemma MaskValueHides(v: string)
    ensures CountChar(MaskValue(v), '*') >= |v| - 8
  {
    var r := MaskValue(v);
    if |v| > 8 {
      StarsCounted(r, 4, |v| - 4);
    } else {
      StarsCounted(r, 0, |v|);
    }
  }

  /** A run of stars at positions `lo..hi` counts towards the stars of the text. */
  lemma {:induction false} StarsCounted(s: string, lo: nat, hi: nat)
    requires lo <= hi <= |s|
    requires forall i :: lo <= i < hi ==> s[i] == '*'
    ensures CountChar(s, '*') >= hi - lo
    decreases |s|
  {
    if lo < hi {
      if lo == 0 {
        StarsCounted(s[1..], 0, hi - 1);
      } else {
        StarsCounted(s[1..], lo - 1, hi - 1);
      }
    }
  }

  predicate IsComment(line: string)
  {
    StartsWith(Strip(line), "#")
  }

  /** What is printed for one line of a shell file: an uncommented assignment of the key, with its value masked. */
  function ShownLine(line: string): (r: Option<string>)
    ensures r.Some? ==> Contains(line, "OPENAI_API_KEY") && !IsComment(line) && Contains(line, "=")
    ensures r.Some? ==> r.value == "    " + KeyPart(line) + "=" + MaskValue(ValuePart(line))
  {
    if Contains(line, "OPENAI_API_KEY") && !IsComment(line) && Contains(line, "=") then
      Some("    " + KeyPart(line) + "=" + MaskValue(ValuePart(line)))
    else None
  }

  /** The shown line is as long as the line it masks, after the indent. */
  lemma ShownLineLength(line: string)
    requires ShownLine(line).Some?
    ensures |ShownLine(line).value| == 4 + |line|
  {
    KeyValueRoundTrip(line);
  }

  datatype ShellReport = NoSetting | Setting(shown: seq<string>)

  /**
   * The report for one shell file: nothing when the key name does not
   * occur; otherwise the shown lines, in file order, each from an
   * uncommented line of the file.
   */
  function ShellFileReport(content: string): (r: ShellReport)
    ensures r.NoSetting? <==> !Contains(content, "OPENAI_API_KEY")
    ensures r.Setting? ==> |r.shown| <= |SplitOn(content, "\n")|
    ensures r.Setting? ==> forall i :: 0 <= i < |r.shown| ==>
      exists j :: 0 <= j < |SplitOn(content, "\n")| && ShownLine(SplitOn(content, "\n")[j]) == Some(r.shown[i])
    ensures r.Setting? ==> forall j :: 0 <= j < |SplitOn(content, "\n")| && ShownLine(SplitOn(content, "\n")[j]).Some? ==>
      ShownLine(SplitOn(content, "\n")[j]).value in r.shown
  {
    if !Contains(content, "OPENAI_API_KEY") then NoSetting
    else Setting(FilterMap(SplitOn(content, "\n"), ShownLine))
  }

  /** A commented-out line never reaches the output: every shown line comes from an uncommented one. */
  lemma CommentsNeverShown(content: string, i: nat)
    ensures ShellFileReport(content).Setting? && i < |ShellFileReport(content).shown| ==>
      exists j :: (0 <= j < |SplitOn(content, "\n")|
        && ShownLine(SplitOn(content, "\n")[j]) == Some(ShellFileReport(content).shown[i])
        && !IsComment(SplitOn(content, "\n")[j]))
  {
    var report := ShellFileReport(content);
    if report.Setting? && i < |report.shown| {
      var lines := SplitOn(content, "\n");
      var j :| 0 <= j < |lines| && ShownLine(lines[j]) == Some(report.shown[i]);
      assert !IsComment(lines[j]);
    }
  }

  // ----- key tokens -----

  predicate IsKeyChar(c: char)
  {
    ('A' <= c <= 'Z') || ('a' <= c <= 'z') || ('0' <= c <= '9') || c == '-' || c == '_'
  }

  /** The key mask as written: the first seven and last four characters around `len - 11` stars. */
  function MaskKeyAsWritten(k: string): (r: string)
    ensures |k| >= 11 ==> |r| == |k|
    ensures 4 <= |k| < 11 ==> |r| == (if |k| < 7 then |k| else 7) + 4
    ensures |k| >= 7 ==> r[..7] == k[..7]
    ensures |k| >= 4 ==> r[|r| - 4..] == k[|k| - 4..]
    ensures forall i :: 7 <= i < |k| - 4 ==> r[i] == '*'
  {
    SliceTo(k, 7) + Stars(|k| - 11) + SliceFrom(k, -4)
  }

  /** For keys of nine to eleven characters the written mask hides nothing: no star appears, and the length changes below eleven. */
  lemma MaskKeyAsWrittenReveals(k: string)
    requires 9 <= |k| <= 11
    ensures '*' !in k ==> '*' !in MaskKeyAsWritten(k)
    ensures |MaskKeyAsWritten(k)| == 11
    ensures k[..7] + k[7..] == k && IsPrefix(k[..7], MaskKeyAsWritten(k))
    ensures |k| == 11 ==> MaskKeyAsWritten(k) == k
  {
    assert SliceFrom(k, -4) == k[|k| - 4..];
    if |k| == 11 {
      assert k[..7] + k[7..] == k;
    }
  }

  /** The concrete nine-character key the written mask shows in full. */
  lemma MaskKeyAsWrittenExample()
    ensures MaskKeyAsWritten("sk-abcdef") == "sk-abcdcdef"
  {
    assert SliceTo("sk-abcdef", 7) == "sk-abcd";
    assert SliceFrom("sk-abcdef", -4) == "cdef";
  }

  /** The key mask as intended: at least one star always, and the length kept; short keys are all stars. */
  function MaskKey(k: string): (r: string)
    ensures |r| == |k|
    ensures |k| > 11 ==> r[..7] == k[..7] && r[|r| - 4..] == k[|k| - 4..]
    ensures |k| > 11 ==> forall i :: 7 <= i < |k| - 4 ==> r[i] == '*'
    ensures |k| <= 11 ==> forall i :: 0 <= i < |r| ==> r[i] == '*'
    ensures |k| > 0 ==> '*' in r
  {
    if |k| > 11 then
      var r := k[..7] + Stars(|k| - 11) + k[|k| - 4..];
      assert r[|r| - 4..] == k[|k| - 4..];
      assert r[7] == '*';
      r
    else
      assert |k| > 0 ==> Stars(|k|)[0] == '*';
      Stars(|k|)
  }

  /** Where the written and the intended masks agree: on every key longer than eleven characters. */
  lemma MaskKeyAgreesWhenLong(k: string)
    requires |k| > 11
    ensures MaskKey(k) == MaskKeyAsWritten(k)
  {
    assert SliceTo(k, 7) == k[..7];
    assert SliceFrom(k, -4) == k[|k| - 4..];
  }

  /** Length of the key token starting at `i`: "sk-" and then at least one key character, greedily; 0 when none starts there. */
  function KeyTokenAt(s: string, i: nat): (n: nat)
    requires i <= |s|
    ensures n == 0 || (n >= 4 && i + n <= |s| && s[i..i + 3] == "sk-")
    ensures n > 0 ==> forall k :: i + 3 <= k < i + n ==> IsKeyChar(s[k])
    ensures n > 0 && i + n < |s| ==> !IsKeyChar(s[i + n])
  {
    if i + 3 < |s| && s[i..i + 3] == "sk-" && IsKeyChar(s[i + 3]) then 3 + RunWhile(s, i + 3, IsKeyChar)
    else 0
  }

  /**
   * `re.sub(r'sk-[A-Za-z0-9\-_]+', mask, s)`: tokens found left to right,
   * never overlapping, each replaced by its mask.
   */
  function MaskKeys(s: string): (r: string)
    ensures |r| == |s|
    decreases |s|
  {
    if |s| == 0 then ""
    else
      var n := KeyTokenAt(s, 0);
      if n == 0 then [s[0]] + MaskKeys(s[1..])
      else MaskKey(s[..n]) + MaskKeys(s[n..])
  }

  /** Text without any key token passes through unchanged. */
  lemma {:induction false} MaskKeysNoToken(s: string)
    requires !Contains(s, "sk-")
    ensures MaskKeys(s) == s
    decreases |s|
  {
    if |s| > 0 {
      assert KeyTokenAt(s, 0) == 0;
      assert !Contains(s[1..], "sk-");
      MaskKeysNoToken(s[1..]);
    }
  }

  // ----- errors from the latest log -----

  /** Python's ASCII `lower()` containment test for the marker of a key problem. */
  predicate MentionsApiKey(message: string)
  {
    Contains(Lower(message), "api_key")
  }

  /** An API call's error that is reported: present, non-empty and about the key. */
  function KeyCallError(e: Option<string>): (r: Option<string>)
    ensures r.Some? <==> e.Some? && e.value != "" && MentionsApiKey(e.value)
    ensures r.Some? ==> r == e
  {
    if e.Some? && e.value != "" && MentionsApiKey(e.value) then e else None
  }

  /**
   * `api_errors`: the logged error messages that mention the key, then the
   * truthy API-call errors that do, each contributing its message.
   */
  function ApiKeyErrors(errorMessages: seq<string>, callErrors: seq<Option<string>>): (r: seq<string>)
    ensures forall i :: 0 <= i < |r| ==> MentionsApiKey(r[i])
    ensures |r| <= |errorMessages| + |callErrors|
    ensures forall m :: m in errorMessages && MentionsApiKey(m) ==> m in r
    ensures forall j :: 0 <= j < |callErrors| && KeyCallError(callErrors[j]).Some? ==> callErrors[j].value in r
  {
    Filter(MentionsApiKey, errorMessages) + FilterMap(callErrors, KeyCallError)
  }

  /**
   * The reported errors are exactly the key-related logged messages and the
   * non-empty key-related call errors.
   */
  lemma ApiKeyErrorsMembers(errorMessages: seq<string>, callErrors: seq<Option<string>>, m: string)
    ensures m in ApiKeyErrors(errorMessages, callErrors) <==>
      MentionsApiKey(m) && (m in errorMessages || (m != "" && Some(m) in callErrors))
  {
    var logged := Filter(MentionsApiKey, errorMessages);
    var called := FilterMap(callErrors, KeyCallError);
    assert ApiKeyErrors(errorMessages, callErrors) == logged + called;
    if m in called {
      var i :| 0 <= i < |called| && called[i] == m;
      var j :| 0 <= j < |callErrors| && KeyCallError(callErrors[j]) == Some(called[i]);
      assert callErrors[j] == Some(m);
    }
    if MentionsApiKey(m) && m != "" && Some(m) in callErrors {
      var j :| 0 <= j < |callErrors| && callErrors[j] == Some(m);
      assert KeyCallError(callErrors[j]).Some?;
    }
  }

  const MaxShownErrors := 3
  const ShownErrorLimit := 200

  /** One printed error: its number, and the masked message cut to 200 characters. */
  function ErrorLine(n: nat, message: string): string
  {
    "  エラー" + NatToString(n) + ": " + Take(MaskKeys(message), ShownErrorLimit) + "..."
  }

  /** The printed errors: the first three at most, numbered from one. */
  function ShownErrors(errors: seq<string>): (r: seq<string>)
    ensures |r| == if |errors| < MaxShownErrors then |errors| else MaxShownErrors
    ensures forall i :: 0 <= i < |r| ==> r[i] == ErrorLine(i + 1, errors[i])
  {
    var shown := Take(errors, MaxShownErrors);
    seq(|shown|, i requires 0 <= i < |shown| => ErrorLine(i + 1, shown[i]))
  }

  /** Each printed message is at most 200 characters and starts like the masked message. */
  lemma ErrorLineBounded(n: nat, message: string)
    ensures var body := Take(MaskKeys(message), ShownErrorLimit);
      |body| <= ShownErrorLimit && IsPrefix(body, MaskKeys(message))
      && ErrorLine(n, message) == "  エラー" + NatToString(n) + ": " + body + "..."
  {
  }
}

=== FILE: duckduckgo_collector.dfy ===
/**
 * collectors/duckduckgo_collector.py: per search pattern, the HTML, Lite
 * and plain endpoints are tried in that order and the first non-empty
 * list of records wins; each endpoint's page is read by its own link
 * filter. The HTTP responses, the HTML parser and `urlparse` are oracles.
 */
module DuckDuckGoCollector {
  import opened Prelude
  import opened Strings
  import opened Seqs
  import TextProcessor
  import Interfaces
  import Config
  import WebSearch

  /** An `<a>` element: its `href` attribute, if present, and its text stripped. */
  datatype Anchor = Anchor(href: Option<string>, title: string)

  /** A result container of a selector set: its title link (`select_one(title_sel)`) and its snippet text, if any. */
  datatype Container = Container(link: Option<Anchor>, snippet: Option<string>)

  /**
   * A parsed response: the containers matched by each of the four selector
   * sets (`div.result`, `div.web-result`, `div.results_links`, `.result`),
   * in that order, and every `<a>` element in document order.
   */
  datatype Html = Html(selections: seq<seq<Container>>, anchors: seq<Anchor>)

  /** `link.get('href', '')` */
  function Href(a: Anchor): string
  {
    match a.href
    case Some(h) => h
    case None => ""
  }

  predicate HasHref(a: Anchor)
  {
    a.href.Some?
  }

  /** `soup.find_all('a', href=True)` */
  function WithHref(anchors: seq<Anchor>): (r: seq<Anchor>)
    ensures forall a :: a in r <==> a in anchors && HasHref(a)
  {
    Filter(HasHref, anchors)
  }

  // ----- records -----

  /** The record of an accepted link: its text stands in for description and content. */
  function AnchorRecord(a: Anchor, name: string, domainOf: string -> string): WebSearch.PageRecord
  {
    WebSearch.PageRecord(Href(a), domainOf(Href(a)), a.title, a.title, a.title, |a.title|,
      Interfaces.ExtractBasicPatterns(a.title, name))
  }

  function Records(anchors: seq<Anchor>, name: string, domainOf: string -> string): (r: seq<WebSearch.PageRecord>)
    ensures |r| == |anchors| && forall i :: 0 <= i < |r| ==> r[i] == AnchorRecord(anchors[i], name, domainOf)
  {
    seq(|anchors|, i requires 0 <= i < |anchors| => AnchorRecord(anchors[i], name, domainOf))
  }

  /**
   * The loop shared by the three link filters: walk the anchors, append the
   * record of each accepted one, and stop once `cap` records are held.
   */
  function Accepted(anchors: seq<Anchor>, ok: Anchor -> bool, cap: nat, name: string, domainOf: string -> string): (r: seq<WebSearch.PageRecord>)
    ensures |r| <= cap
    ensures forall x :: x in r ==> exists a :: a in anchors && ok(a) && x == AnchorRecord(a, name, domainOf)
    ensures |r| < cap ==> forall a :: a in anchors && ok(a) ==> AnchorRecord(a, name, domainOf) in r
  {
    var kept := Filter(ok, anchors);
    var all := Records(kept, name, domainOf);
    var r := Take(all, cap);
    forall x | x in r
      ensures exists a :: a in anchors && ok(a) && x == AnchorRecord(a, name, domainOf)
    {
      var i :| 0 <= i < |r| && r[i] == x;
      assert kept[i] in kept;
    }
    forall a | |r| < cap && a in anchors && ok(a) ensures AnchorRecord(a, name, domainOf) in r {
      var i :| 0 <= i < |kept| && kept[i] == a;
      assert all[i] == AnchorRecord(a, name, domainOf);
    }
    r
  }

  /** The rule of the fallback and of the Lite parser: an `http` link whose text is longer than five characters. */
  predicate LinkText(a: Anchor, minExclusive: nat)
  {
    StartsWith(Href(a), "http") && |a.title| > minExclusive
  }

  predicate FallbackOk(a: Anchor)
  {
    LinkText(a, 5) && !Contains(Href(a), "duckduckgo")
  }

  predicate LiteOk(a: Anchor)
  {
    LinkText(a, 5)
  }

  predicate SimpleOk(a: Anchor, name: string)
  {
    LinkText(a, 10) && !Contains(Href(a), "duckduckgo") && Contains(Lower(a.title), Lower(name))
  }

  const FallbackScan: nat := 20
  const FallbackCap: nat := 5
  const LiteCap: nat := 10
  const SimpleCap: nat := 5
  const ContainerScan: nat := 10

  /** The fallback of `_parse_duckduckgo_results`: the first 20 links with an `href`, at most five accepted. */
  function Fallback(anchors: seq<Anchor>, name: string, domainOf: string -> string): (r: seq<WebSearch.PageRecord>)
    ensures |r| <= FallbackCap
    ensures forall x :: x in r ==> StartsWith(x.url, "http") && !Contains(x.url, "duckduckgo") && |x.title| > 5
    ensures forall x :: x in r ==> x.content == x.title && x.contentLength == |x.content|
    ensures forall x :: x in r ==> exists a :: a in Take(WithHref(anchors), FallbackScan) && x == AnchorRecord(a, name, domainOf)
  {
    Accepted(Take(WithHref(anchors), FallbackScan), FallbackOk, FallbackCap, name, domainOf)
  }

  /** `_parse_lite_results` */
  function ParseLite(anchors: seq<Anchor>, name: string, domainOf: string -> string): (r: seq<WebSearch.PageRecord>)
    ensures |r| <= LiteCap
    ensures forall x :: x in r ==> StartsWith(x.url, "http") && |x.title| > 5
    ensures forall x :: x in r ==> x.content == x.title && x.contentLength == |x.content|
    ensures forall x :: x in r ==> exists a :: a in anchors && LiteOk(a) && x == AnchorRecord(a, name, domainOf)
    ensures |r| < LiteCap ==> forall a :: a in anchors && LiteOk(a) ==> AnchorRecord(a, name, domainOf) in r
  {
    Accepted(anchors, LiteOk, LiteCap, name, domainOf)
  }

  /** `_parse_simple_results`: the link text must also name the character, ignoring case. */
  function ParseSimple(anchors: seq<Anchor>, name: string, domainOf: string -> string): (r: seq<WebSearch.PageRecord>)
    ensures |r| <= SimpleCap
    ensures forall x :: x in r ==>
      StartsWith(x.url, "http") && !Contains(x.url, "duckduckgo") && |x.title| > 10 && Contains(Lower(x.title), Lower(name))
    ensures forall x :: x in r ==> x.content == x.title && x.contentLength == |x.content|
    ensures |r| < SimpleCap ==>
      forall a :: a in anchors && HasHref(a) && SimpleOk(a, name) ==> AnchorRecord(a, name, domainOf) in r
  {
    Accepted(WithHref(anchors), a => SimpleOk(a, name), SimpleCap, name, domainOf)
  }

  /**
   * A container read as a record: it needs a title link; a redirect link
   * is unwrapped to its target; the snippet (or "") is description and
   * content; the title and URL must both be non-empty.
   */
  function ContainerRecord(c: Container, name: string, domainOf: string -> string): (r: Option<WebSearch.PageRecord>)
    ensures r.Some? <==> c.link.Some? && |c.link.value.title| > 0 && |TextProcessor.ExtractDuckDuckGoUrl(Href(c.link.value))| > 0
    ensures r.Some? ==> r.value.url == TextProcessor.ExtractDuckDuckGoUrl(Href(c.link.value)) && r.value.title == c.link.value.title
    ensures r.Some? ==> r.value.content == r.value.description && r.value.contentLength == |r.value.content|
    ensures r.Some? ==> r.value.speechPatterns == Interfaces.ExtractBasicPatterns(r.value.description + " " + r.value.title, name)
  {
    match c.link
    case None => None
    case Some(a) =>
      var url := TextProcessor.ExtractDuckDuckGoUrl(Href(a));
      var description := match c.snippet case Some(d) => d case None => "";
      if |a.title| > 0 && |url| > 0 then
        Some(WebSearch.PageRecord(url, domainOf(url), a.title, description, description, |description|,
          Interfaces.ExtractBasicPatterns(description + " " + a.title, name)))
      else None
  }

  /** A record with a title and a URL whose content length is that of its content. */
  predicate RecordOk(x: WebSearch.PageRecord)
  {
    |x.title| > 0 && |x.url| > 0 && x.contentLength == |x.content|
  }

  /** The records of one selector set: its first ten containers that read as records. */
  function SetRecords(containers: seq<Container>, name: string, domainOf: string -> string): (r: seq<WebSearch.PageRecord>)
    ensures |r| <= ContainerScan
    ensures forall x :: x in r ==> exists c :: c in containers && ContainerRecord(c, name, domainOf) == Some(x)
    ensures forall x :: x in r ==> RecordOk(x)
  {
    var used := Take(containers, ContainerScan);
    var extract := (c: Container) => ContainerRecord(c, name, domainOf);
    var r := FilterMap(used, extract);
    forall x | x in r ensures RecordOk(x) && exists c :: c in containers && ContainerRecord(c, name, domainOf) == Some(x) {
      var i :| 0 <= i < |r| && r[i] == x;
      var j :| 0 <= j < |used| && extract(used[j]) == Some(x);
      assert used[j] in containers;
    }
    r
  }

  /** The selector sets in order; the first whose records are non-empty wins. */
  function FirstSelector(selections: seq<seq<Container>>, name: string, domainOf: string -> string): (r: seq<WebSearch.PageRecord>)
    ensures |r| <= ContainerScan
    ensures r == [] <==> forall k :: 0 <= k < |selections| ==> SetRecords(selections[k], name, domainOf) == []
    ensures forall x :: x in r ==> RecordOk(x)
  {
    if |selections| == 0 then []
    else
      var first := SetRecords(selections[0], name, domainOf);
      if first != [] then first
      else
        var r := FirstSelector(selections[1..], name, domainOf);
        assert forall k :: 1 <= k < |selections| ==> selections[k] == selections[1..][k - 1];
        r
  }

  /** Selector set `k` is the first one that yields records. */
  predicate FirstProductiveAt(selections: seq<seq<Container>>, name: string, domainOf: string -> string, k: nat)
    requires k < |selections|
  {
    SetRecords(selections[k], name, domainOf) != []
    && forall m :: 0 <= m < k ==> SetRecords(selections[m], name, domainOf) == []
  }

  /** The winner is the first selector set with records: all before it yield none. */
  lemma {:induction false} FirstSelectorWins(selections: seq<seq<Container>>, name: string, domainOf: string -> string, k: nat)
    requires k < |selections|
    ensures FirstProductiveAt(selections, name, domainOf, k) ==>
      FirstSelector(selections, name, domainOf) == SetRecords(selections[k], name, domainOf)
    decreases k
  {
    if FirstProductiveAt(selections, name, domainOf, k) {
      if k == 0 {
        assert SetRecords(selections[0], name, domainOf) != [];
      } else {
        var rest := selections[1..];
        assert rest[k - 1] == selections[k];
        forall m | 0 <= m < k - 1 ensures SetRecords(rest[m], name, domainOf) == [] {
          var before := SetRecords(selections[m + 1], name, domainOf);
          assert before == [];
          assert rest[m] == selections[m + 1];
        }
        FirstSelectorWins(rest, name, domainOf, k - 1);
        assert SetRecords(selections[0], name, domainOf) == [];
      }
    }
  }

  /** `_parse_duckduckgo_results`: the first productive selector set, or else the fallback over plain links. */
  function ParseHtml(html: Html, name: string, domainOf: string -> string): (r: seq<WebSearch.PageRecord>)
    ensures |r| <= ContainerScan
    ensures FirstSelector(html.selections, name, domainOf) != [] ==> r == FirstSelector(html.selections, name, domainOf)
    ensures FirstSelector(html.selections, name, domainOf) == [] ==> r == Fallback(html.anchors, name, domainOf)
    ensures forall x :: x in r ==> RecordOk(x)
  {
    var selected := FirstSelector(html.selections, name, domainOf);
    if selected != [] then selected
    else
      var r := Fallback(html.anchors, name, domainOf);
      assert forall x :: x in r ==> |x.url| >= 4;
      r
  }

  // ----- the three endpoints -----

  datatype Endpoint = HtmlSearch | LiteSearch | SimpleSearch

  /** The endpoints in the order `_search_pattern` tries them. */
  const Endpoints: seq<Endpoint> := [HtmlSearch, LiteSearch, SimpleSearch]

  /** A response: its status code and what the parser finds in its text. */
  datatype Response = Response(status: int, html: Html)

  function Parse(e: Endpoint, html: Html, name: string, domainOf: string -> string): (r: seq<WebSearch.PageRecord>)
    ensures |r| <= ContainerScan
  {
    match e
    case HtmlSearch => ParseHtml(html, name, domainOf)
    case LiteSearch => ParseLite(html.anchors, name, domainOf)
    case SimpleSearch => ParseSimple(html.anchors, name, domainOf)
  }

  /**
   * `_try_html_search` / `_try_lite_search` / `_try_simple_search`: the
   * request may raise; any status but 200 (202 included) gives [].
   */
  function TrySearch(e: Endpoint, query: string, name: string, fetch: (Endpoint, string) -> Outcome<Response>,
                     domainOf: string -> string): (r: Outcome<seq<WebSearch.PageRecord>>)
    ensures r.Raised? <==> fetch(e, query).Raised?
    ensures r.Returned? && fetch(e, query).value.status != 200 ==> r.value == []
    ensures r.Returned? && fetch(e, query).value.status == 200 ==> r.value == Parse(e, fetch(e, query).value.html, name, domainOf)
    ensures r.Returned? ==> |r.value| <= ContainerScan
  {
    match fetch(e, query)
    case Raised(m) => Raised(m)
    case Returned(resp) => if resp.status == 200 then Returned(Parse(e, resp.html, name, domainOf)) else Returned([])
  }

  predicate Unproductive(o: Outcome<seq<WebSearch.PageRecord>>)
  {
    o.Raised? || o.value == []
  }

  /** The first attempt that returned something non-empty; a raising attempt is skipped. */
  function FirstProductive(attempts: seq<Outcome<seq<WebSearch.PageRecord>>>): (r: seq<WebSearch.PageRecord>)
    ensures r == [] <==> forall k :: 0 <= k < |attempts| ==> Unproductive(attempts[k])
    ensures r != [] ==>
      exists k :: 0 <= k < |attempts| && attempts[k] == Returned(r) &&
        forall m :: 0 <= m < k ==> Unproductive(attempts[m])
  {
    if |attempts| == 0 then []
    else if !Unproductive(attempts[0]) then attempts[0].value
    else
      var r := FirstProductive(attempts[1..]);
      assert forall k :: 1 <= k < |attempts| ==> attempts[k] == attempts[1..][k - 1];
      r
  }

  lemma FirstOfThree(a: Outcome<seq<WebSearch.PageRecord>>, b: Outcome<seq<WebSearch.PageRecord>>, c: Outcome<seq<WebSearch.PageRecord>>)
    ensures FirstProductive([a, b, c]) ==
      if !Unproductive(a) then a.value else if !Unproductive(b) then b.value else if !Unproductive(c) then c.value else []
  {
    assert [a, b, c][1..] == [b, c];
    assert [b, c][1..] == [c];
    assert [c][1..] == [];
    assert FirstProductive([c]) == if !Unproductive(c) then c.value else [];
    assert FirstProductive([b, c]) == if !Unproductive(b) then b.value else FirstProductive([c]);
  }

  /** `_search_pattern`: the endpoints in order, the first non-empty result winning, a raising endpoint skipped. */
  function SearchPattern(query: string, name: string, fetch: (Endpoint, string) -> Outcome<Response>,
                         domainOf: string -> string): (r: seq<WebSearch.PageRecord>)
    ensures |r| <= ContainerScan
    ensures var h := TrySearch(HtmlSearch, query, name, fetch, domainOf);
      !Unproductive(h) ==> r == h.value
    ensures var h := TrySearch(HtmlSearch, query, name, fetch, domainOf);
      var l := TrySearch(LiteSearch, query, name, fetch, domainOf);
      Unproductive(h) && !Unproductive(l) ==> r == l.value
    ensures var h := TrySearch(HtmlSearch, query, name, fetch, domainOf);
      var l := TrySearch(LiteSearch, query, name, fetch, domainOf);
      var s := TrySearch(SimpleSearch, query, name, fetch, domainOf);
      Unproductive(h) && Unproductive(l) ==> r == (if Unproductive(s) then [] else s.value)
  {
    var h := TrySearch(HtmlSearch, query, name, fetch, domainOf);
    var l := TrySearch(LiteSearch, query, name, fetch, domainOf);
    var s := TrySearch(SimpleSearch, query, name, fetch, domainOf);
    FirstOfThree(h, l, s);
    FirstProductive([h, l, s])
  }

  // ----- collect_info -----

  const QueryLabel := "複数パターン検索（DuckDuckGo）"
  const ErrorPrefix := "DuckDuckGo検索エラー: "

  /**
   * `collect_info`: every configured pattern searched in order and the
   * results concatenated. A pattern that cannot be formatted ends in the
   * error record, which has no `query` key.
   */
  function CollectInfo(name: string, search: Config.SearchConfig, fetch: (Endpoint, string) -> Outcome<Response>,
                       domainOf: string -> string): (r: WebSearch.Report)
    ensures r.found <==> |r.results| > 0
    ensures r.totalResults == |r.results|
    ensures r.error.Some? <==> Config.GetSearchPatterns(search, name).Raised?
    ensures r.error.Some? ==> r.results == [] && r.query.None? && StartsWith(r.error.value, ErrorPrefix)
    ensures r.error.None? ==> r.query == Some(QueryLabel) && |r.results| <= |search.searchPatterns| * ContainerScan
    ensures forall x :: x in r.results ==> x.contentLength == |x.content|
  {
    match Config.GetSearchPatterns(search, name)
    case Raised(m) =>
      assert (ErrorPrefix + m)[..|ErrorPrefix|] == ErrorPrefix;
      WebSearch.Failed(None, ErrorPrefix, m)
    case Returned(patterns) =>
      var run := (q: string) => SearchPattern(q, name, fetch, domainOf);
      var results := WebSearch.Flatten(patterns, run);
      WebSearch.FlattenBound(patterns, run, ContainerScan);
      forall x | x in results ensures x.contentLength == |x.content| {
        var q :| q in patterns && x in run(q);
        ContentLengths(q, name, fetch, domainOf);
      }
      WebSearch.Succeeded(Some(QueryLabel), results)
  }

  /** Every record any endpoint produces reports its content's length. */
  lemma ContentLengths(query: string, name: string, fetch: (Endpoint, string) -> Outcome<Response>, domainOf: string -> string)
    ensures forall x :: x in SearchPattern(query, name, fetch, domainOf) ==> x.contentLength == |x.content|
  {
    var r := SearchPattern(query, name, fetch, domainOf);
    forall x | x in r ensures x.contentLength == |x.content| {
      var e := if !Unproductive(TrySearch(HtmlSearch, query, name, fetch, domainOf)) then HtmlSearch
               else if !Unproductive(TrySearch(LiteSearch, query, name, fetch, domainOf)) then LiteSearch
               else SimpleSearch;
      assert r == TrySearch(e, query, name, fetch, domainOf).value;
      assert fetch(e, query).value.status == 200;
    }
  }
}

=== FILE: exceptions.dfy ===
/**
 * The application's exception hierarchy (core/exceptions.py) and the dict
 * form `CharacterPromptError.to_dict` reports.
 */
module Exceptions {
  import opened Prelude
  import opened Json

  datatype ErrorClass =
    | CharacterPromptError
    | CollectorError
    | APIError
    | SearchEngineError
    | RateLimitError
    | WikipediaError
    | YouTubeError
    | OpenAIError
    | ConfigurationError
    | ValidationError

  /** The direct base class inside the hierarchy; the root's base is Python's `Exception`. */
  function Parent(c: ErrorClass): Option<ErrorClass>
  {
    match c
    case CharacterPromptError => None
    case CollectorError => Some(CharacterPromptError)
    case APIError => Some(CharacterPromptError)
    case SearchEngineError => Some(CollectorError)
    case RateLimitError => Some(SearchEngineError)
    case WikipediaError => Some(CollectorError)
    case YouTubeError => Some(CollectorError)
    case OpenAIError => Some(APIError)
    case ConfigurationError => Some(CharacterPromptError)
    case ValidationError => Some(CharacterPromptError)
  }

  /** Distance to the root class. */
  function Depth(c: ErrorClass): nat
  {
    match c
    case CharacterPromptError => 0
    case CollectorError | APIError | ConfigurationError | ValidationError => 1
    case SearchEngineError | WikipediaError | YouTubeError | OpenAIError => 2
    case RateLimitError => 3
  }

  /** The class and its bases up to the root, most derived first (the hierarchy part of the MRO). */
  function Ancestors(c: ErrorClass): (r: seq<ErrorClass>)
    ensures |r| == Depth(c) + 1
    ensures r[0] == c && r[|r| - 1] == CharacterPromptError
    ensures forall i :: 0 <= i < |r| - 1 ==> Parent(r[i]) == Some(r[i + 1])
    ensures Parent(r[|r| - 1]).None?
    decreases Depth(c)
  {
    match Parent(c)
    case None => [c]
    case Some(p) =>
      assert Depth(p) < Depth(c);
      [c] + Ancestors(p)
  }

  /** `issubclass(c, d)` */
  predicate IsSubclass(c: ErrorClass, d: ErrorClass)
  {
    d in Ancestors(c)
  }

  /** Every application error is a `CharacterPromptError`; the two chains named in the module hold. */
  lemma HierarchyChains()
    ensures forall c :: IsSubclass(c, CharacterPromptError)
    ensures Ancestors(RateLimitError) == [RateLimitError, SearchEngineError, CollectorError, CharacterPromptError]
    ensures Ancestors(OpenAIError) == [OpenAIError, APIError, CharacterPromptError]
  {
    forall c ensures IsSubclass(c, CharacterPromptError) {
      var a := Ancestors(c);
      assert a[|a| - 1] == CharacterPromptError;
    }
  }

  /** `self.__class__.__name__` */
  function ClassName(c: ErrorClass): (r: string)
    ensures ClassFromName(r) == Some(c)
  {
    match c
    case CharacterPromptError => "CharacterPromptError"
    case CollectorError => "CollectorError"
    case APIError => "APIError"
    case SearchEngineError => "SearchEngineError"
    case RateLimitError => "RateLimitError"
    case WikipediaError => "WikipediaError"
    case YouTubeError => "YouTubeError"
    case OpenAIError => "OpenAIError"
    case ConfigurationError => "ConfigurationError"
    case ValidationError => "ValidationError"
  }

  function ClassFromName(name: string): (r: Option<ErrorClass>)
  {
    if name == "CharacterPromptError" then Some(CharacterPromptError)
    else if name == "CollectorError" then Some(CollectorError)
    else if name == "APIError" then Some(APIError)
    else if name == "SearchEngineError" then Some(SearchEngineError)
    else if name == "RateLimitError" then Some(RateLimitError)
    else if name == "WikipediaError" then Some(WikipediaError)
    else if name == "YouTubeError" then Some(YouTubeError)
    else if name == "OpenAIError" then Some(OpenAIError)
    else if name == "ConfigurationError" then Some(ConfigurationError)
    else if name == "ValidationError" then Some(ValidationError)
    else None
  }

  /** The reported `error_type` identifies the concrete class. */
  lemma ClassNameIdentifies(c: ErrorClass)
    ensures ClassFromName(ClassName(c)) == Some(c)
  {
  }

  /** A raised application error. `retryAfter` is only ever set on a `RateLimitError`. */
  datatype AppError = AppError(
    cls: ErrorClass,
    message: string,
    details: map<string, Value>,
    originalError: Option<string>,
    retryAfter: Option<int>)

  /**
   * `cls(message, details, original_error)`: `details or {}` and the string
   * of the original exception (an exception object is always truthy).
   */
  function NewError(cls: ErrorClass, message: string, details: Option<map<string, Value>>, originalError: Option<string>): (e: AppError)
    requires cls != RateLimitError
    ensures e.cls == cls && e.message == message && e.originalError == originalError
    ensures details.None? ==> e.details == map[]
    ensures details.Some? ==> e.details == details.value
    ensures e.retryAfter.None?
  {
    AppError(cls, message, match details case Some(d) => d case None => map[], originalError, None)
  }

  /** `RateLimitError(message, retry_after, **kwargs)` keeps `retry_after` besides the base fields. */
  function NewRateLimitError(message: string, retryAfter: Option<int>, details: Option<map<string, Value>>, originalError: Option<string>): (e: AppError)
    ensures e.cls == RateLimitError && e.retryAfter == retryAfter
    ensures e.message == message && e.originalError == originalError
    ensures e.details == (if details.Some? then details.value else map[])
  {
    AppError(RateLimitError, message, match details case Some(d) => d case None => map[], originalError, retryAfter)
  }

  const ErrorDictKeys: set<string> := {"error_type", "message", "details", "original_error"}

  /** `CharacterPromptError.to_dict()` */
  function ErrorToDict(e: AppError): (d: Value)
    ensures d.Obj? && d.fields.Keys == ErrorDictKeys
  {
    Obj(map[
      "error_type" := Str(ClassName(e.cls)),
      "message" := Str(e.message),
      "details" := Obj(e.details),
      "original_error" := StrOr(e.originalError)])
  }

  /** Reads the class, message, details and original error back from the dict form. */
  function ErrorFromDict(d: Value): Option<AppError>
  {
    if d.Obj? && ErrorDictKeys <= d.fields.Keys
       && d.fields["error_type"].Str? && ClassFromName(d.fields["error_type"].s).Some?
       && d.fields["message"].Str? && d.fields["details"].Obj?
       && (d.fields["original_error"].Str? || d.fields["original_error"].Null?)
    then
      Some(AppError(ClassFromName(d.fields["error_type"].s).value, d.fields["message"].s,
        d.fields["details"].fields,
        if d.fields["original_error"].Str? then Some(d.fields["original_error"].s) else None,
        None))
    else None
  }

  /** `to_dict` reports everything except `retry_after`. */
  lemma ErrorDictRoundTrip(e: AppError)
    ensures ErrorFromDict(ErrorToDict(e)) == Some(e.(retryAfter := None))
  {
    ClassNameIdentifies(e.cls);
  }
}

=== FILE: execution_logger.dfy ===
/**
 * utils/execution_logger.py: the session log as a value. Every `log_*`
 * call is a pure update of the log record; the summary and the analyser's
 * counters are functions of it. Timestamps and the clock are parameters;
 * writing the log to disk is not modelled.
 */
module ExecutionLogger {
  import opened Prelude
  import opened Seqs
  import opened Json

  datatype Step = Step(stepName: string, status: string, details: map<string, Value>, duration: Option<real>, timestamp: string)

  datatype ApiCall = ApiCall(
    apiType: string, request: Value, response: Value, duration: Option<real>,
    error: Option<string>, status: string, timestamp: string)

  datatype ErrorEntry = ErrorEntry(errorType: string, errorMessage: string, context: map<string, Value>, timestamp: string)

  datatype Metric = Metric(value: Value, unit: Option<string>, timestamp: string)

  /** `execution_log`; `sessionEnd` is the key `set_final_result` adds. */
  datatype Log = Log(
    sessionId: string,
    sessionStart: string,
    characterName: Option<string>,
    steps: seq<Step>,
    apiCalls: seq<ApiCall>,
    errors: seq<ErrorEntry>,
    performance: map<string, Metric>,
    finalResult: Option<Value>,
    sessionEnd: Option<string>)

  /** The log of a fresh `ExecutionLogger`. */
  function NewLog(sessionId: string, sessionStart: string): (l: Log)
    ensures l.steps == [] && l.apiCalls == [] && l.errors == [] && l.performance == map[]
    ensures l.characterName.None? && l.finalResult.None? && l.sessionEnd.None?
  {
    Log(sessionId, sessionStart, None, [], [], [], map[], None, None)
  }

  /** `details or {}` */
  function DictOr(d: Option<map<string, Value>>): map<string, Value>
  {
    match d
    case Some(m) => m
    case None => map[]
  }

  function SetCharacterName(l: Log, name: string): (r: Log)
    ensures r == l.(characterName := Some(name))
  {
    l.(characterName := Some(name))
  }

  /** `log_step`: one more step at the end; nothing else changes. */
  function LogStep(l: Log, stepName: string, status: string, details: Option<map<string, Value>>,
                   duration: Option<real>, now: string): (r: Log)
    ensures |r.steps| == |l.steps| + 1 && r.steps[..|l.steps|] == l.steps
    ensures r.steps[|l.steps|].stepName == stepName && r.steps[|l.steps|].status == status
    ensures details.None? ==> r.steps[|l.steps|].details == map[]
    ensures r == l.(steps := r.steps)
  {
    l.(steps := l.steps + [Step(stepName, status, DictOr(details), duration, now)])
  }

  /** The status recorded for an API call: "error" exactly when an error text is given and non-empty. */
  function CallStatus(error: Option<string>): (s: string)
    ensures s == "error" <==> error.Some? && error.value != ""
    ensures s == "success" <==> !(error.Some? && error.value != "")
  {
    if error.Some? && error.value != "" then "error" else "success"
  }

  /** `log_api_call`: one more call at the end; nothing else changes. */
  function LogApiCall(l: Log, apiType: string, request: Value, response: Value, duration: Option<real>,
                      error: Option<string>, now: string): (r: Log)
    ensures |r.apiCalls| == |l.apiCalls| + 1 && r.apiCalls[..|l.apiCalls|] == l.apiCalls
    ensures r.apiCalls[|l.apiCalls|].apiType == apiType && r.apiCalls[|l.apiCalls|].error == error
    ensures r.apiCalls[|l.apiCalls|].status == "error" <==> error.Some? && error.value != ""
    ensures r == l.(apiCalls := r.apiCalls)
  {
    l.(apiCalls := l.apiCalls + [ApiCall(apiType, request, response, duration, error, CallStatus(error), now)])
  }

  /** `log_error`: one more error at the end; nothing else changes. */
  function LogError(l: Log, errorType: string, message: string, context: Option<map<string, Value>>, now: string): (r: Log)
    ensures |r.errors| == |l.errors| + 1 && r.errors[..|l.errors|] == l.errors
    ensures r.errors[|l.errors|].errorType == errorType && r.errors[|l.errors|].errorMessage == message
    ensures r == l.(errors := r.errors)
  {
    l.(errors := l.errors + [ErrorEntry(errorType, message, DictOr(context), now)])
  }

  /** `log_performance_metric`: the named metric is (over)written; every other metric is kept. */
  function LogPerformanceMetric(l: Log, name: string, value: Value, unit: Option<string>, now: string): (r: Log)
    ensures name in r.performance && r.performance[name].value == value && r.performance[name].unit == unit
    ensures r.performance.Keys == l.performance.Keys + {name}
    ensures forall m :: m in l.performance && m != name ==> r.performance[m] == l.performance[m]
    ensures r == l.(performance := r.performance)
  {
    l.(performance := l.performance[name := Metric(value, unit, now)])
  }

  /** `set_final_result`: the result and the end of the session are recorded. */
  function SetFinalResult(l: Log, result: Value, now: string): (r: Log)
    ensures r.finalResult == Some(result) && r.sessionEnd == Some(now)
    ensures r == l.(finalResult := r.finalResult, sessionEnd := r.sessionEnd)
  {
    l.(finalResult := Some(result), sessionEnd := Some(now))
  }

  // ----- get_summary -----

  datatype Summary = Summary(
    sessionId: string,
    characterName: Option<string>,
    totalSteps: nat,
    successfulSteps: nat,
    totalApiCalls: nat,
    successfulApiCalls: nat,
    totalErrors: nat,
    sessionDuration: Option<real>,
    performance: map<string, Metric>)

  predicate StepSucceeded(s: Step)
  {
    s.status == "success"
  }

  predicate CallSucceeded(c: ApiCall)
  {
    c.status == "success"
  }

  /**
   * `get_summary`: the counts of the three lists, the successful ones among
   * them, and a duration only once the session has ended. `elapsed` gives
   * the seconds between two ISO timestamps.
   */
  function GetSummary(l: Log, elapsed: (string, string) -> real): (s: Summary)
    ensures s.totalSteps == |l.steps| && s.totalApiCalls == |l.apiCalls| && s.totalErrors == |l.errors|
    ensures s.successfulSteps <= s.totalSteps && s.successfulApiCalls <= s.totalApiCalls
    ensures s.successfulSteps == Count(StepSucceeded, l.steps) && s.successfulApiCalls == Count(CallSucceeded, l.apiCalls)
    ensures s.sessionDuration.Some? <==> l.sessionEnd.Some?
    ensures s.sessionId == l.sessionId && s.characterName == l.characterName && s.performance == l.performance
  {
    Summary(l.sessionId, l.characterName,
      |l.steps|, Count(StepSucceeded, l.steps),
      |l.apiCalls|, Count(CallSucceeded, l.apiCalls),
      |l.errors|,
      if l.sessionEnd.Some? then Some(elapsed(l.sessionStart, l.sessionEnd.value)) else None,
      l.performance)
  }

  lemma {:induction false} CountAppend<T>(p: T -> bool, a: seq<T>, x: T)
    ensures Count(p, a + [x]) == Count(p, a) + (if p(x) then 1 else 0)
    decreases |a|
  {
    if |a| > 0 {
      CountAppend(p, a[1..], x);
      assert (a + [x])[1..] == a[1..] + [x];
    } else {
      assert (a + [x])[1..] == [];
    }
  }

  /** A logged step adds one to the step count, and one to the successful count exactly when it succeeded. */
  lemma StepCounted(l: Log, stepName: string, status: string, details: Option<map<string, Value>>,
                    duration: Option<real>, now: string, elapsed: (string, string) -> real)
    ensures var before := GetSummary(l, elapsed);
      var after := GetSummary(LogStep(l, stepName, status, details, duration, now), elapsed);
      && after.totalSteps == before.totalSteps + 1
      && after.successfulSteps == before.successfulSteps + (if status == "success" then 1 else 0)
      && after.totalApiCalls == before.totalApiCalls && after.totalErrors == before.totalErrors
  {
    var r := LogStep(l, stepName, status, details, duration, now);
    assert r.steps == l.steps + [r.steps[|l.steps|]];
    CountAppend(StepSucceeded, l.steps, r.steps[|l.steps|]);
  }

  /** A logged API call adds one to the call count, and one to the successful count exactly when no error was given. */
  lemma ApiCallCounted(l: Log, apiType: string, request: Value, response: Value, duration: Option<real>,
                       error: Option<string>, now: string, elapsed: (string, string) -> real)
    ensures var before := GetSummary(l, elapsed);
      var after := GetSummary(LogApiCall(l, apiType, request, response, duration, error, now), elapsed);
      && after.totalApiCalls == before.totalApiCalls + 1
      && after.successfulApiCalls == before.successfulApiCalls + (if error.Some? && error.value != "" then 0 else 1)
      && after.totalSteps == before.totalSteps && after.totalErrors == before.totalErrors
  {
    var r := LogApiCall(l, apiType, request, response, duration, error, now);
    assert r.apiCalls == l.apiCalls + [r.apiCalls[|l.apiCalls|]];
    CountAppend(CallSucceeded, l.apiCalls, r.apiCalls[|l.apiCalls|]);
  }

  /** The summary has a duration exactly after `set_final_result`. */
  lemma DurationAfterFinalResult(l: Log, result: Value, now: string, elapsed: (string, string) -> real)
    ensures GetSummary(SetFinalResult(l, result, now), elapsed).sessionDuration == Some(elapsed(l.sessionStart, now))
    ensures GetSummary(NewLog(l.sessionId, l.sessionStart), elapsed).sessionDuration.None?
  {
  }

  // ----- counters of the analyser -----

  /**
   * An insertion-ordered dict as a list of (key, value) pairs. `Upsert`
   * is `d[k] = f(d.get(k, init))`: an existing key keeps its place, a new
   * key goes at the end.
   */
  function Upsert<V>(d: seq<(string, V)>, k: string, init: V, f: V -> V): (r: seq<(string, V)>)
    ensures Keys(r) == if k in Keys(d) then Keys(d) else Keys(d) + [k]
  {
    if |d| == 0 then [(k, f(init))]
    else if d[0].0 == k then [(k, f(d[0].1))] + d[1..]
    else [d[0]] + Upsert(d[1..], k, init, f)
  }

  function Keys<V>(d: seq<(string, V)>): (r: seq<string>)
    ensures |r| == |d|
    ensures forall i :: 0 <= i < |d| ==> r[i] == d[i].0
  {
    seq(|d|, i requires 0 <= i < |d| => d[i].0)
  }

  /** `d.get(k, dflt)`: the value of the first pair with key `k`. */
  function Lookup<V>(d: seq<(string, V)>, k: string, dflt: V): (r: V)
    ensures k !in Keys(d) ==> r == dflt
    ensures k in Keys(d) ==> (k, r) in d
  {
    if |d| == 0 then dflt
    else if d[0].0 == k then d[0].1
    else Lookup(d[1..], k, dflt)
  }

  /** After an update, the touched key holds `f` of its old value (or of `init`), and every other key is unchanged. */
  lemma {:induction false} UpsertLookup<V>(d: seq<(string, V)>, k: string, init: V, f: V -> V, j: string, dflt: V)
    ensures Lookup(Upsert(d, k, init, f), j, dflt) == if j == k then f(Lookup(d, k, init)) else Lookup(d, j, dflt)
  {
    if |d| > 0 && d[0].0 != k {
      UpsertLookup(d[1..], k, init, f, j, dflt);
      assert Upsert(d, k, init, f)[1..] == Upsert(d[1..], k, init, f);
    } else if |d| > 0 {
      assert Upsert(d, k, init, f)[1..] == d[1..];
    }
  }

  /** The sum of a weight over the values. */
  function Sum<V>(d: seq<(string, V)>, w: V -> nat): nat
  {
    if |d| == 0 then 0 else w(d[0].1) + Sum(d[1..], w)
  }

  /** An update that adds one to the weight of the touched value adds one to the sum. */
  lemma {:induction false} UpsertSum<V>(d: seq<(string, V)>, k: string, init: V, f: V -> V, w: V -> nat)
    requires w(init) == 0
    requires forall v {:trigger f(v)} :: w(f(v)) == w(v) + 1
    ensures Sum(Upsert(d, k, init, f), w) == Sum(d, w) + 1
  {
    if |d| > 0 && d[0].0 != k {
      UpsertSum(d[1..], k, init, f, w);
      assert Upsert(d, k, init, f)[1..] == Upsert(d[1..], k, init, f);
    } else if |d| > 0 {
      assert Upsert(d, k, init, f)[1..] == d[1..];
    }
  }

  /** `by_api_type[t]` without the durations. */
  datatype TypeStats = TypeStats(total: nat, successful: nat, failed: nat)

  function Bump(succeeded: bool): TypeStats -> TypeStats
  {
    (s: TypeStats) => if succeeded then TypeStats(s.total + 1, s.successful + 1, s.failed)
                      else TypeStats(s.total + 1, s.successful, s.failed + 1)
  }

  function TotalOf(s: TypeStats): nat
  {
    s.total
  }

  predicate Balanced(s: TypeStats)
  {
    s.successful + s.failed == s.total
  }

  const Zero := TypeStats(0, 0, 0)

  /** The per-type loop of `analyze_api_performance`. */
  function ByApiType(calls: seq<ApiCall>): (r: seq<(string, TypeStats)>)
    ensures NoDup(Keys(r))
    ensures forall t :: t in Keys(r) <==> exists c :: c in calls && c.apiType == t
  {
    if |calls| == 0 then []
    else
      var prev := ByApiType(calls[..|calls| - 1]);
      var c := calls[|calls| - 1];
      assert forall x :: x in calls <==> x in calls[..|calls| - 1] || x == c;
      Upsert(prev, c.apiType, Zero, Bump(CallSucceeded(c)))
  }

  /** One more call of a type keeps every record balanced. */
  lemma {:induction false} BumpedBalanced(prev: seq<(string, TypeStats)>, apiType: string, succeeded: bool)
    requires forall i :: 0 <= i < |prev| ==> Balanced(prev[i].1)
    ensures forall i :: 0 <= i < |Upsert(prev, apiType, Zero, Bump(succeeded))| ==>
      Balanced(Upsert(prev, apiType, Zero, Bump(succeeded))[i].1)
  {
    if |prev| > 0 && prev[0].0 != apiType {
      BumpedBalanced(prev[1..], apiType, succeeded);
      assert Upsert(prev, apiType, Zero, Bump(succeeded))[1..] == Upsert(prev[1..], apiType, Zero, Bump(succeeded));
    }
  }

  /** The per-type totals add up to the number of calls, and every type's successes and failures add up to its total. */
  lemma {:induction false} ByApiTypeCounts(calls: seq<ApiCall>)
    ensures Sum(ByApiType(calls), TotalOf) == |calls|
    ensures forall i :: 0 <= i < |ByApiType(calls)| ==> Balanced(ByApiType(calls)[i].1)
    decreases |calls|
  {
    if |calls| > 0 {
      var c := calls[|calls| - 1];
      ByApiTypeCounts(calls[..|calls| - 1]);
      UpsertSum(ByApiType(calls[..|calls| - 1]), c.apiType, Zero, Bump(CallSucceeded(c)), TotalOf);
      BumpedBalanced(ByApiType(calls[..|calls| - 1]), c.apiType, CallSucceeded(c));
    }
  }

  function OfType(t: string): ApiCall -> bool
  {
    (c: ApiCall) => c.apiType == t
  }

  function SucceededOfType(t: string): ApiCall -> bool
  {
    (c: ApiCall) => c.apiType == t && CallSucceeded(c)
  }

  function FailedOfType(t: string): ApiCall -> bool
  {
    (c: ApiCall) => c.apiType == t && !CallSucceeded(c)
  }

  /** Counting one more call updates the entry of its own type only. */
  lemma StatsStep(calls: seq<ApiCall>, t: string, before: TypeStats)
    requires |calls| > 0
    requires before == TypeStats(Count(OfType(t), calls[..|calls| - 1]), Count(SucceededOfType(t), calls[..|calls| - 1]),
                                 Count(FailedOfType(t), calls[..|calls| - 1]))
    ensures (if calls[|calls| - 1].apiType == t then Bump(CallSucceeded(calls[|calls| - 1]))(before) else before) ==
      TypeStats(Count(OfType(t), calls), Count(SucceededOfType(t), calls), Count(FailedOfType(t), calls))
  {
    var front := calls[..|calls| - 1];
    var c := calls[|calls| - 1];
    assert calls == front + [c];
    CountAppend(OfType(t), front, c);
    CountAppend(SucceededOfType(t), front, c);
    CountAppend(FailedOfType(t), front, c);
  }

  /**
   * The entry of type `t` counts the calls of that type, the successful
   * ones among them, and the rest as failed; a type that never occurs reads
   * as all zeros.
   */
  lemma {:induction false} ByApiTypeLookup(calls: seq<ApiCall>, t: string)
    ensures Lookup(ByApiType(calls), t, Zero) ==
      TypeStats(Count(OfType(t), calls), Count(SucceededOfType(t), calls), Count(FailedOfType(t), calls))
    decreases |calls|
  {
    if |calls| > 0 {
      var front := calls[..|calls| - 1];
      var c := calls[|calls| - 1];
      var prev := ByApiType(front);
      ByApiTypeLookup(front, t);
      UpsertLookup(prev, c.apiType, Zero, Bump(CallSucceeded(c)), t, Zero);
      StatsStep(calls, t, Lookup(prev, t, Zero));
    }
  }

  datatype ApiAnalysis = ApiAnalysis(totalCalls: nat, successfulCalls: nat, failedCalls: nat, byApiType: seq<(string, TypeStats)>)

  predicate CallFailed(c: ApiCall)
  {
    c.status == "error"
  }

  /** `analyze_api_performance` on a loaded log, without the average durations. */
  function AnalyzeApiPerformance(calls: seq<ApiCall>): (a: ApiAnalysis)
    ensures a.totalCalls == |calls| && a.successfulCalls <= a.totalCalls && a.failedCalls <= a.totalCalls
    ensures Sum(a.byApiType, TotalOf) == a.totalCalls
    ensures forall i :: 0 <= i < |a.byApiType| ==> Balanced(a.byApiType[i].1)
    ensures NoDup(Keys(a.byApiType))
    ensures a.successfulCalls == Count(CallSucceeded, calls) && a.failedCalls == Count(CallFailed, calls)
  {
    ByApiTypeCounts(calls);
    ApiAnalysis(|calls|, Count(CallSucceeded, calls), Count(CallFailed, calls), ByApiType(calls))
  }

  /** The analysis's entry for each type counts exactly that type's calls, successes and failures. */
  lemma AnalysisPerType(calls: seq<ApiCall>, t: string)
    ensures Lookup(AnalyzeApiPerformance(calls).byApiType, t, Zero) ==
      TypeStats(Count(OfType(t), calls), Count(SucceededOfType(t), calls), Count(FailedOfType(t), calls))
  {
    ByApiTypeLookup(calls, t);
  }

  /** For calls the logger recorded, successes and failures add up to the total. */
  lemma {:induction false} RecordedCallsBalance(calls: seq<ApiCall>)
    requires forall i :: 0 <= i < |calls| ==> calls[i].status == "success" || calls[i].status == "error"
    ensures Count(CallSucceeded, calls) + Count(CallFailed, calls) == |calls|
  {
    if |calls| > 0 {
      RecordedCallsBalance(calls[1..]);
    }
  }

  // ----- error tally of generate_analysis_report -----

  function AddOne(n: nat): nat
  {
    n + 1
  }

  function Ident(n: nat): nat
  {
    n
  }

  /**
   * `error_types[t] = error_types.get(t, 0) + 1` over the loaded errors,
   * where an entry without a type counts as "unknown".
   */
  function ErrorTypeCounts(types: seq<Option<string>>): (r: seq<(string, nat)>)
    ensures NoDup(Keys(r))
    ensures forall t :: t in Keys(r) <==> (exists i :: 0 <= i < |types| && types[i].GetOr("unknown") == t)
  {
    if |types| == 0 then []
    else
      var prev := ErrorTypeCounts(types[..|types| - 1]);
      var t := types[|types| - 1].GetOr("unknown");
      assert forall i :: 0 <= i < |types| - 1 ==> types[..|types| - 1][i] == types[i];
      Upsert(prev, t, 0, AddOne)
  }

  function ErrorOfType(t: string): Option<string> -> bool
  {
    (o: Option<string>) => o.GetOr("unknown") == t
  }

  /** The tally of `t` is the number of errors whose type, or "unknown" when missing, is `t`. */
  lemma {:induction false} ErrorTypeCountsLookup(types: seq<Option<string>>, t: string)
    ensures Lookup(ErrorTypeCounts(types), t, 0) == Count(ErrorOfType(t), types)
    decreases |types|
  {
    if |types| > 0 {
      var front := types[..|types| - 1];
      var o := types[|types| - 1];
      assert types == front + [o];
      ErrorTypeCountsLookup(front, t);
      UpsertLookup(ErrorTypeCounts(front), o.GetOr("unknown"), 0, AddOne, t, 0);
      CountAppend(ErrorOfType(t), front, o);
    }
  }

  /** The tally adds up to the number of errors. */
  lemma {:induction false} ErrorTypeCountsSum(types: seq<Option<string>>)
    ensures Sum(ErrorTypeCounts(types), Ident) == |types|
    decreases |types|
  {
    if |types| > 0 {
      var prev := ErrorTypeCounts(types[..|types| - 1]);
      ErrorTypeCountsSum(types[..|types| - 1]);
      UpsertSum(prev, types[|types| - 1].GetOr("unknown"), 0, AddOne, Ident);
    }
  }
}

=== FILE: google_collector.dfy ===
/**
 * collectors/google_collector.py: ten fixed queries per name, a result
 * budget per query, and each hit read through the shared page extractor.
 * The search engine (`googlesearch.search`), the page fetch and the LLM
 * are oracles.
 */
module GoogleCollector {
  import opened Prelude
  import opened Strings
  import opened Seqs
  import TextProcessor
  import WebSearch

  /** What follows the quoted name in each of the ten queries, in order. */
  const QuerySuffixes: seq<string> := [
    " 人物 プロフィール",
    " 名台詞集",
    " セリフ一覧",
    " 口癖 語尾",
    " 話し方 特徴",
    " キャラクター 性格",
    " 一人称 呼び方",
    " 決まり文句",
    " とは 特徴",
    " 解説 まとめ"]

  const QueryCount: nat := 10

  /** The name in double quotes, as every query starts. */
  function Quoted(name: string): string
  {
    "\"" + name + "\""
  }

  /** The `search_patterns` of `collect_info`. */
  function Queries(name: string): (r: seq<string>)
    ensures |r| == QueryCount
    ensures forall i :: 0 <= i < |r| ==> StartsWith(r[i], Quoted(name)) && r[i][|Quoted(name)|..] == QuerySuffixes[i]
  {
    seq(|QuerySuffixes|, i requires 0 <= i < |QuerySuffixes| => Quoted(name) + QuerySuffixes[i])
  }

  /** Every query contains the name in double quotes. */
  lemma QueriesQuoteName(name: string)
    ensures forall q :: q in Queries(name) ==> Contains(q, Quoted(name))
  {
    forall q | q in Queries(name) ensures Contains(q, Quoted(name)) {
      ContainsAt(q, Quoted(name), 0);
    }
  }

  lemma SuffixesDistinct()
    ensures NoDup(QuerySuffixes)
  {
  }

  /** The ten queries are ten different searches. */
  lemma QueriesDistinct(name: string)
    ensures NoDup(Queries(name))
  {
    var qs := Queries(name);
    SuffixesDistinct();
    forall i, j | 0 <= i < j < |qs| ensures qs[i] != qs[j] {
      assert qs[i][|Quoted(name)|..] != qs[j][|Quoted(name)|..];
    }
  }

  /** The `query` of the returned record. */
  const QueryLabel := "複数パターン検索"

  /**
   * The URL loop of `_search_single_pattern`: a hit is appended before the
   * bound is checked, so at least one hit is taken even for a bound below one.
   */
  function TakenUrls(hits: seq<string>, maxResults: int): (r: seq<string>)
    ensures IsPrefix(r, hits)
    ensures maxResults >= 1 ==> |r| <= maxResults
    ensures |r| < |hits| ==> |r| == (if maxResults < 1 then 1 else maxResults)
  {
    Take(hits, if maxResults < 1 then 1 else maxResults)
  }

  /** The readable pages among the taken hits, in order: the page loop of `_search_single_pattern`. */
  function Pages(urls: seq<string>, name: string, apiKey: string, contentLimit: nat,
                 fetch: string -> Option<WebSearch.Page>, llm: (string, string) -> Outcome<string>): (r: seq<WebSearch.PageRecord>)
    ensures |r| <= |urls|
    ensures forall x :: x in r ==>
      exists u :: u in urls && WebSearch.ExtractPageContent(u, name, apiKey, contentLimit, fetch, llm) == Some(x)
    ensures forall x :: x in r ==> TextProcessor.HasHttpScheme(x.url) && x.contentLength == |x.content| <= contentLimit
  {
    var extract := (u: string) => WebSearch.ExtractPageContent(u, name, apiKey, contentLimit, fetch, llm);
    var r := FilterMap(urls, extract);
    forall x | x in r
      ensures exists u :: u in urls && extract(u) == Some(x)
    {
      var i :| 0 <= i < |r| && r[i] == x;
      var j :| 0 <= j < |urls| && extract(urls[j]) == Some(r[i]);
      assert urls[j] in urls;
    }
    r
  }

  /**
   * `_search_single_pattern`: the engine's hits for the query (`search`
   * raising before the bound is reached loses them all), cut to the
   * bound, then every hit whose page could be read, in order.
   */
  function SearchSinglePattern(query: string, maxResults: int, name: string, apiKey: string, contentLimit: nat,
                               search: string -> Outcome<seq<string>>, fetch: string -> Option<WebSearch.Page>,
                               llm: (string, string) -> Outcome<string>): (r: seq<WebSearch.PageRecord>)
    ensures search(query).Raised? ==> r == []
    ensures maxResults >= 1 ==> |r| <= maxResults
    ensures forall x :: x in r ==>
      search(query).Returned? &&
      exists u :: u in search(query).value && WebSearch.ExtractPageContent(u, name, apiKey, contentLimit, fetch, llm) == Some(x)
    ensures forall x :: x in r ==> TextProcessor.HasHttpScheme(x.url) && x.contentLength == |x.content| <= contentLimit
  {
    match search(query)
    case Raised(_) => []
    case Returned(hits) =>
      var urls := TakenUrls(hits, maxResults);
      var r := Pages(urls, name, apiKey, contentLimit, fetch, llm);
      assert forall u :: u in urls ==> u in hits;
      r
  }

  /**
   * `collect_info`: `max(1, num_results // 10)` results per query, the ten
   * queries in order, and the record with `found` exactly when something
   * was collected.
   */
  function CollectInfo(name: string, numResults: int, apiKey: string, contentLimit: nat,
                       search: string -> Outcome<seq<string>>, fetch: string -> Option<WebSearch.Page>,
                       llm: (string, string) -> Outcome<string>): (r: WebSearch.Report)
    ensures r.found <==> |r.results| > 0
    ensures r.totalResults == |r.results| && r.error.None? && r.query == Some(QueryLabel)
    ensures |r.results| <= QueryCount * WebSearch.PerPattern(numResults, QueryCount).value
    ensures forall x :: x in r.results ==>
      exists q :: q in Queries(name) && x in SearchSinglePattern(q, WebSearch.PerPattern(numResults, QueryCount).value, name, apiKey, contentLimit, search, fetch, llm)
    ensures forall x :: x in r.results ==> TextProcessor.HasHttpScheme(x.url) && x.contentLength == |x.content| <= contentLimit
  {
    var per := WebSearch.PerPattern(numResults, QueryCount).value;
    var run := (q: string) => SearchSinglePattern(q, per, name, apiKey, contentLimit, search, fetch, llm);
    var results := WebSearch.Flatten(Queries(name), run);
    WebSearch.FlattenBound(Queries(name), run, per);
    WebSearch.Succeeded(Some(QueryLabel), results)
  }
}

=== FILE: http_client.dfy ===
/**
 * utils/http_client.py: the module-level `validate_url`, a second copy of
 * the URL repair rule next to the HTTP session helpers.
 */
module HttpClient {
  import opened Strings
  import TextProcessor

  /** `validate_url` */
  function ValidateUrl(url: string): (r: string)
    ensures |url| == 0 ==> r == ""
    ensures TextProcessor.HasHttpScheme(url) ==> r == url
    ensures !TextProcessor.HasHttpScheme(url) && StartsWith(url, "//") ==> r == "https:" + url
    ensures !TextProcessor.HasHttpScheme(url) && StartsWith(url, "/") && !StartsWith(url, "//") ==> r == ""
    ensures |url| > 0 && !TextProcessor.HasHttpScheme(url) && !StartsWith(url, "/") ==> r == "https://" + url
  {
    if |url| == 0 then ""
    else if !TextProcessor.HasHttpScheme(url) then
      if StartsWith(url, "//") then "https:" + url
      else if StartsWith(url, "/") then ""
      else "https://" + url
    else url
  }

  /** Both copies repair every input the same way. */
  lemma ValidateUrlAgrees(url: string)
    ensures ValidateUrl(url) == TextProcessor.ValidateUrl(url)
  {
  }
}

=== FILE: interfaces.dfy ===
/**
 * The shared result records of core/interfaces.py, their dict forms, and the
 * helpers every collector inherits from `BaseCollector` and
 * `SearchEngineCollector`.
 */
module Interfaces {
  import opened Prelude
  import opened Strings
  import opened Json
  import Seqs

  /** A quoted line of a character, with where it came from. */
  datatype CharacterQuote = CharacterQuote(
    text: string,
    source: string,
    sourceUrl: Option<string>,
    confidenceScore: real,
    context: Option<string>)

  /** `CharacterQuote(text, source)` with every optional field left at its default. */
  function NewCharacterQuote(text: string, source: string): (q: CharacterQuote)
    ensures q.text == text && q.source == source
    ensures q.sourceUrl.None? && q.context.None? && q.confidenceScore == 0.5
  {
    CharacterQuote(text, source, None, 0.5, None)
  }

  const QuoteKeys: set<string> := {"text", "source", "source_url", "confidence_score", "context"}

  function QuoteToDict(q: CharacterQuote): (d: Value)
    ensures d.Obj? && d.fields.Keys == QuoteKeys
    ensures QuoteFromDict(d) == Some(q)
  {
    Obj(map[
      "text" := Str(q.text),
      "source" := Str(q.source),
      "source_url" := StrOr(q.sourceUrl),
      "confidence_score" := Real(q.confidenceScore),
      "context" := StrOr(q.context)])
  }

  /** Reads back an optional string field: a string or `None`. */
  function OptStr(v: Value): Option<Option<string>>
  {
    match v
    case Str(s) => Some(Some(s))
    case Null => Some(None)
    case _ => None
  }

  function OptReal(v: Value): Option<Option<real>>
  {
    match v
    case Real(x) => Some(Some(x))
    case Null => Some(None)
    case _ => None
  }

  function QuoteFromDict(d: Value): (q: Option<CharacterQuote>)
  {
    if d.Obj? && QuoteKeys <= d.fields.Keys
       && d.fields["text"].Str? && d.fields["source"].Str? && d.fields["confidence_score"].Real?
       && OptStr(d.fields["source_url"]).Some? && OptStr(d.fields["context"]).Some?
    then
      Some(CharacterQuote(d.fields["text"].s, d.fields["source"].s,
        OptStr(d.fields["source_url"]).value, d.fields["confidence_score"].r,
        OptStr(d.fields["context"]).value))
    else None
  }

  /** `to_dict` loses nothing: the quote can be read back from its dict. */
  lemma QuoteDictRoundTrip(q: CharacterQuote)
    ensures QuoteFromDict(QuoteToDict(q)) == Some(q)
  {
  }

  /** One search hit as the collectors produce it. */
  datatype SearchResult = SearchResult(
    url: string,
    title: string,
    description: string,
    content: string,
    domain: string,
    contentLength: int,
    speechPatterns: seq<string>,
    characterQuotes: Option<seq<CharacterQuote>>,
    source: Option<string>,
    searchQuery: Option<string>,
    apiDuration: Option<real>)

  const SearchResultKeys: set<string> := {
    "url", "title", "description", "content", "domain", "content_length",
    "speech_patterns", "source", "search_query", "api_duration"}

  /** Python's `if self.character_quotes:` */
  predicate HasQuotes(r: SearchResult)
  {
    r.characterQuotes.Some? && |r.characterQuotes.value| > 0
  }

  function QuotesToList(qs: seq<CharacterQuote>): (v: Value)
    ensures v.List? && |v.items| == |qs|
    ensures forall i :: 0 <= i < |qs| ==> v.items[i] == QuoteToDict(qs[i])
  {
    List(seq(|qs|, i requires 0 <= i < |qs| => QuoteToDict(qs[i])))
  }

  /** `SearchResult.to_dict()`: ten fixed keys, plus "character_quotes" exactly when there are quotes. */
  function SearchResultToDict(r: SearchResult): (d: Value)
    ensures d.Obj?
    ensures HasQuotes(r) ==> d.fields.Keys == SearchResultKeys + {"character_quotes"}
    ensures !HasQuotes(r) ==> d.fields.Keys == SearchResultKeys
  {
    var base := BaseFields(r);
    if HasQuotes(r) then Obj(base["character_quotes" := QuotesToList(r.characterQuotes.value)])
    else Obj(base)
  }

  /** The ten fields every search-result dict has. */
  function BaseFields(r: SearchResult): (m: map<string, Value>)
    ensures m.Keys == SearchResultKeys
  {
    map[
      "url" := Str(r.url),
      "title" := Str(r.title),
      "description" := Str(r.description),
      "content" := Str(r.content),
      "domain" := Str(r.domain),
      "content_length" := Int(r.contentLength),
      "speech_patterns" := Strs(r.speechPatterns),
      "source" := StrOr(r.source),
      "search_query" := StrOr(r.searchQuery),
      "api_duration" := RealOr(r.apiDuration)]
  }

  function QuotesFromList(v: Value): (r: Option<seq<CharacterQuote>>)
    ensures r.Some? ==> v.List? && |r.value| == |v.items|
  {
    if v.List? && forall i :: 0 <= i < |v.items| ==> QuoteFromDict(v.items[i]).Some? then
      Some(seq(|v.items|, i requires 0 <= i < |v.items| => QuoteFromDict(v.items[i]).value))
    else None
  }

  function SearchResultFromDict(d: Value): (r: Option<SearchResult>)
  {
    if d.Obj? && SearchResultKeys <= d.fields.Keys
       && d.fields["url"].Str? && d.fields["title"].Str? && d.fields["description"].Str?
       && d.fields["content"].Str? && d.fields["domain"].Str? && d.fields["content_length"].Int?
       && AsStrs(d.fields["speech_patterns"]).Some?
       && OptStr(d.fields["source"]).Some? && OptStr(d.fields["search_query"]).Some?
       && OptReal(d.fields["api_duration"]).Some?
       && ("character_quotes" in d.fields ==> QuotesFromList(d.fields["character_quotes"]).Some?)
    then
      Some(SearchResult(
        d.fields["url"].s, d.fields["title"].s, d.fields["description"].s,
        d.fields["content"].s, d.fields["domain"].s, d.fields["content_length"].i,
        AsStrs(d.fields["speech_patterns"]).value,
        if "character_quotes" in d.fields then Some(QuotesFromList(d.fields["character_quotes"]).value) else None,
        OptStr(d.fields["source"]).value, OptStr(d.fields["search_query"]).value,
        OptReal(d.fields["api_duration"]).value))
    else None
  }

  /** The dict form identifies "no quotes" with "an empty quote list" and keeps everything else. */
  function NormalizeQuotes(r: SearchResult): (n: SearchResult)
    ensures HasQuotes(n) == HasQuotes(r)
    ensures n.characterQuotes.Some? ==> |n.characterQuotes.value| > 0
  {
    if HasQuotes(r) then r else r.(characterQuotes := None)
  }

  lemma SearchResultDictFields(r: SearchResult)
    ensures var d := SearchResultToDict(r).fields;
      SearchResultKeys <= d.Keys
      && d["url"] == Str(r.url) && d["title"] == Str(r.title)
      && d["description"] == Str(r.description) && d["content"] == Str(r.content)
      && d["domain"] == Str(r.domain) && d["content_length"] == Int(r.contentLength)
      && d["speech_patterns"] == Strs(r.speechPatterns)
      && d["source"] == StrOr(r.source) && d["search_query"] == StrOr(r.searchQuery)
      && d["api_duration"] == RealOr(r.apiDuration)
      && ("character_quotes" in d <==> HasQuotes(r))
      && (HasQuotes(r) ==> d["character_quotes"] == QuotesToList(r.characterQuotes.value))
  {
    var b := BaseFields(r);
    BaseFieldValues(r);
    assert "character_quotes" !in b;
  }

  lemma BaseFieldValues(r: SearchResult)
    ensures var b := BaseFields(r);
      b["url"] == Str(r.url) && b["title"] == Str(r.title)
      && b["description"] == Str(r.description) && b["content"] == Str(r.content)
      && b["domain"] == Str(r.domain) && b["content_length"] == Int(r.contentLength)
      && b["speech_patterns"] == Strs(r.speechPatterns)
      && b["source"] == StrOr(r.source) && b["search_query"] == StrOr(r.searchQuery)
      && b["api_duration"] == RealOr(r.apiDuration)
  {
  }

  lemma QuotesRoundTrip(qs: seq<CharacterQuote>)
    ensures QuotesFromList(QuotesToList(qs)) == Some(qs)
  {
    var v := QuotesToList(qs);
    forall i | 0 <= i < |qs| ensures QuoteFromDict(v.items[i]) == Some(qs[i]) {
      QuoteDictRoundTrip(qs[i]);
    }
    assert QuotesFromList(v).value == qs;
  }

  /** Reading back the dict of a search result gives it again, up to an empty quote list. */
  lemma SearchResultDictRoundTrip(r: SearchResult)
    ensures SearchResultFromDict(SearchResultToDict(r)) == Some(NormalizeQuotes(r))
  {
    SearchResultDictFields(r);
    AsStrsOfStrs(r.speechPatterns);
    if HasQuotes(r) {
      QuotesRoundTrip(r.characterQuotes.value);
    }
    ReadFields(SearchResultToDict(r), r);
  }

  /** A dict holding the fields of `r`, and the quotes exactly when `r` has some, reads back as `r`. */
  lemma ReadFields(d: Value, r: SearchResult)
    requires d.Obj? && SearchResultKeys <= d.fields.Keys
    requires var f := d.fields;
      f["url"] == Str(r.url) && f["title"] == Str(r.title)
      && f["description"] == Str(r.description) && f["content"] == Str(r.content)
      && f["domain"] == Str(r.domain) && f["content_length"] == Int(r.contentLength)
      && AsStrs(f["speech_patterns"]) == Some(r.speechPatterns)
      && f["source"] == StrOr(r.source) && f["search_query"] == StrOr(r.searchQuery)
      && f["api_duration"] == RealOr(r.apiDuration)
    requires "character_quotes" in d.fields <==> HasQuotes(r)
    requires HasQuotes(r) ==> QuotesFromList(d.fields["character_quotes"]) == Some(r.characterQuotes.value)
    ensures SearchResultFromDict(d) == Some(NormalizeQuotes(r))
  {
  }

  /** What every collector returns. */
  datatype CollectionResult = CollectionResult(
    found: bool,
    error: Option<string>,
    results: seq<Value>,
    totalResults: int,
    query: Option<string>,
    source: Option<string>,
    duration: Option<real>)

  /** The invariant both constructors establish: `found` exactly when there are results, and the count is right. */
  predicate WellFormed(c: CollectionResult)
  {
    c.totalResults == |c.results| && (c.found <==> c.totalResults > 0)
  }

  const CollectionKeys: set<string> := {"found", "error", "results", "total_results", "query", "source", "duration"}

  /** `CollectionResult.to_dict()` */
  function CollectionToDict(c: CollectionResult): (d: Value)
    ensures d.Obj? && d.fields.Keys == CollectionKeys
  {
    Obj(map[
      "found" := Bool(c.found),
      "error" := StrOr(c.error),
      "results" := List(c.results),
      "total_results" := Int(c.totalResults),
      "query" := StrOr(c.query),
      "source" := StrOr(c.source),
      "duration" := RealOr(c.duration)])
  }

  function CollectionFromDict(d: Value): (c: Option<CollectionResult>)
  {
    if d.Obj? && CollectionKeys <= d.fields.Keys
       && d.fields["found"].Bool? && d.fields["results"].List? && d.fields["total_results"].Int?
       && OptStr(d.fields["error"]).Some? && OptStr(d.fields["query"]).Some?
       && OptStr(d.fields["source"]).Some? && OptReal(d.fields["duration"]).Some?
    then
      Some(CollectionResult(d.fields["found"].b, OptStr(d.fields["error"]).value,
        d.fields["results"].items, d.fields["total_results"].i,
        OptStr(d.fields["query"]).value, OptStr(d.fields["source"]).value,
        OptReal(d.fields["duration"]).value))
    else None
  }

  /** The seven keys carry the seven fields unchanged. */
  lemma CollectionDictRoundTrip(c: CollectionResult)
    ensures CollectionFromDict(CollectionToDict(c)) == Some(c)
  {
  }

  /** `BaseCollector.source_name`: the class name without "Collector", lower-cased. */
  function SourceName(className: string): (r: string)
    ensures |r| <= |className|
  {
    JoinSplitOn(className, "Collector");
    JoinShorter(SplitOn(className, "Collector"), "Collector");
    Lower(Join(SplitOn(className, "Collector"), ""))
  }

  lemma {:induction false} JoinShorter(parts: seq<string>, sep: string)
    ensures |Join(parts, "")| <= |Join(parts, sep)|
    decreases |parts|
  {
    if |parts| > 1 {
      JoinShorter(parts[1..], sep);
    }
  }

  /** No "Co" inside the name and no trailing "C": "Collector" can only occur where it is appended. */
  predicate NoCollectorStart(base: string)
  {
    (forall j :: 0 <= j < |base| - 1 ==> !(base[j] == 'C' && base[j + 1] == 'o'))
    && (|base| > 0 ==> base[|base| - 1] != 'C')
  }

  lemma CollectorFoundAtEnd(base: string)
    requires NoCollectorStart(base)
    ensures IndexOf(base + "Collector", "Collector") == Some(|base|)
  {
    AppendedAt(base, "Collector");
    NoEarlierCollectors(base);
    FirstAt(base + "Collector", "Collector", |base|);
  }

  lemma NoEarlierCollectors(base: string)
    requires NoCollectorStart(base)
    ensures forall j :: 0 <= j < |base| ==> !StartsWith((base + "Collector")[j..], "Collector")
  {
    forall j | 0 <= j < |base| ensures !StartsWith((base + "Collector")[j..], "Collector") {
      NoEarlierCollector(base, j);
    }
  }

  lemma AppendedAt(base: string, t: string)
    ensures (base + t)[|base|..|base| + |t|] == t
  {
  }

  /** A separator found at `k` and starting nowhere before is first found there. */
  lemma FirstAt(s: string, sep: string, k: nat)
    requires |sep| > 0 && k + |sep| <= |s| && s[k..k + |sep|] == sep
    requires forall j :: 0 <= j < k ==> !StartsWith(s[j..], sep)
    ensures IndexOf(s, sep) == Some(k)
  {
    ContainsAt(s, sep, k);
    var v := IndexOf(s, sep).value;
    StartsAt(s, sep, k);
    StartsAt(s, sep, v);
  }

  lemma StartsAt(s: string, sep: string, i: nat)
    requires i + |sep| <= |s| && s[i..i + |sep|] == sep
    ensures StartsWith(s[i..], sep)
  {
    assert s[i..][..|sep|] == s[i..i + |sep|];
  }

  lemma NoEarlierCollector(base: string, j: nat)
    requires NoCollectorStart(base)
    requires j < |base|
    ensures !StartsWith((base + "Collector")[j..], "Collector")
  {
    var t := (base + "Collector")[j..];
    assert t[0] == base[j];
    if j + 1 < |base| {
      assert t[1] == base[j + 1];
    }
    assert t[..9][0] == t[0] && t[..9][1] == t[1];
    assert "Collector"[0] == 'C' && "Collector"[1] == 'o';
  }

  /** A collector class named `<Base>Collector` has source name `base.lower()`. */
  lemma SourceNameOf(base: string)
    requires NoCollectorStart(base)
    ensures SourceName(base + "Collector") == Lower(base)
  {
    var s := base + "Collector";
    CollectorFoundAtEnd(base);
    assert s[..|base|] == base;
    assert s[|base| + 9..] == "";
    assert IndexOf("", "Collector") == None;
    assert SplitOn("", "Collector") == [""];
    assert SplitOn(s, "Collector") == [base] + SplitOn("", "Collector");
    assert Join([base, ""], "") == base;
  }

  /** The collector class names satisfy `SourceNameOf`, so their sources are the lower-cased stems. */
  lemma CollectorStems()
    ensures NoCollectorStart("Google") && Lower("Google") == "google"
    ensures NoCollectorStart("Bing") && Lower("Bing") == "bing"
    ensures NoCollectorStart("DuckDuckGo") && Lower("DuckDuckGo") == "duckduckgo"
    ensures NoCollectorStart("ChatGPT") && Lower("ChatGPT") == "chatgpt"
    ensures NoCollectorStart("YouTube") && Lower("YouTube") == "youtube"
  {
  }

  /** `_create_error_result` */
  function CreateErrorResult(sourceName: string, message: string, query: Option<string>): (c: CollectionResult)
    ensures WellFormed(c) && !c.found
    ensures c.error == Some(message) && c.results == [] && c.totalResults == 0
    ensures c.query == query && c.source == Some(sourceName) && c.duration.None?
  {
    CollectionResult(false, Some(message), [], 0, query, Some(sourceName), None)
  }

  /** `_create_success_result`: the hits as dicts, in order. */
  function CreateSuccessResult(sourceName: string, results: seq<SearchResult>, query: Option<string>, duration: Option<real>): (c: CollectionResult)
    ensures WellFormed(c) && c.error.None?
    ensures c.found <==> |results| > 0
    ensures |c.results| == |results|
    ensures forall i :: 0 <= i < |results| ==> c.results[i] == SearchResultToDict(results[i])
    ensures c.query == query && c.source == Some(sourceName) && c.duration == duration
  {
    CollectionResult(|results| > 0, None,
      seq(|results|, i requires 0 <= i < |results| => SearchResultToDict(results[i])),
      |results|, query, Some(sourceName), duration)
  }

  const NameMentionPrefix := "呼び方: "
  const ToneEntry := "表現: 口調・語尾に関する情報"
  const SpeechEntry := "表現: 話し方に関する情報"

  /** The three facts `_extract_basic_patterns` looks for. */
  predicate MentionsName(text: string, name: string)
  {
    |name| > 0 && Contains(Lower(text), Lower(name))
  }

  predicate MentionsTone(text: string)
  {
    Contains(text, "口調") || Contains(text, "語尾")
  }

  predicate MentionsSpeech(text: string)
  {
    Contains(text, "一人称") || Contains(text, "話し方")
  }

  /** `SearchEngineCollector._extract_basic_patterns` (also `TextProcessor.extract_basic_patterns`). */
  function ExtractBasicPatterns(text: string, name: string): (r: seq<string>)
    ensures |text| == 0 ==> r == []
    ensures |r| <= 3
    ensures Seqs.Subseq(r, [NameMentionPrefix + name, ToneEntry, SpeechEntry])
    ensures (NameMentionPrefix + name in r) <==> |text| > 0 && MentionsName(text, name)
    ensures ToneEntry in r <==> |text| > 0 && MentionsTone(text)
    ensures SpeechEntry in r <==> |text| > 0 && MentionsSpeech(text)
  {
    if |text| == 0 then []
    else
      var a := if MentionsName(text, name) then [NameMentionPrefix + name] else [];
      var b := if MentionsTone(text) then [ToneEntry] else [];
      var c := if MentionsSpeech(text) then [SpeechEntry] else [];
      BasicPatternsShape(name, a, b, c);
      a + b + c
  }

  lemma BasicPatternsShape(name: string, a: seq<string>, b: seq<string>, c: seq<string>)
    requires a == [] || a == [NameMentionPrefix + name]
    requires b == [] || b == [ToneEntry]
    requires c == [] || c == [SpeechEntry]
    ensures Seqs.Subseq(a + b + c, [NameMentionPrefix + name, ToneEntry, SpeechEntry])
    ensures NameMentionPrefix + name in a + b + c <==> a != []
    ensures ToneEntry in a + b + c <==> b != []
    ensures SpeechEntry in a + b + c <==> c != []
  {
    var s2 := [SpeechEntry];
    Seqs.SubseqRefl(s2);
    assert Seqs.Subseq(c, s2);
    var s1 := [ToneEntry] + s2;
    Seqs.SubseqCons(c, s2, ToneEntry);
    if b == [] {
      assert b + c == c;
    } else {
      assert b + c == [ToneEntry] + c;
    }
    assert Seqs.Subseq(b + c, s1);
    var s0 := [NameMentionPrefix + name] + s1;
    Seqs.SubseqCons(b + c, s1, NameMentionPrefix + name);
    if a == [] {
      assert a + b + c == b + c;
    } else {
      assert a + b + c == [NameMentionPrefix + name] + (b + c);
    }
    assert s0 == [NameMentionPrefix + name, ToneEntry, SpeechEntry];
    assert (NameMentionPrefix + name)[0] == '呼';
    assert ToneEntry[4] != SpeechEntry[4];
  }
}

=== FILE: json.dfy ===
/**
 * The JSON-like values the program passes around as Python dicts and lists,
 * with Python's truthiness and the `dict.get` forms the code uses.
 */
module Json {
  import opened Prelude

  datatype Value =
    | Null
    | Bool(b: bool)
    | Int(i: int)
    | Real(r: real)
    | Str(s: string)
    | List(items: seq<Value>)
    | Obj(fields: map<string, Value>)

  /** Python's `bool(v)`. */
  predicate Truthy(v: Value)
  {
    match v
    case Null => false
    case Bool(b) => b
    case Int(i) => i != 0
    case Real(r) => r != 0.0
    case Str(s) => |s| > 0
    case List(xs) => |xs| > 0
    case Obj(m) => |m| > 0
  }

  /** `d.get(key, default)` on a dict; anything that is not a dict is treated as empty. */
  function Get(d: Value, key: string, default: Value): (r: Value)
    ensures d.Obj? && key in d.fields ==> r == d.fields[key]
    ensures !(d.Obj? && key in d.fields) ==> r == default
  {
    if d.Obj? && key in d.fields then d.fields[key] else default
  }

  function StrOr(v: Option<string>): (r: Value)
    ensures v.None? <==> r == Null
  {
    match v
    case Some(s) => Str(s)
    case None => Null
  }

  function RealOr(v: Option<real>): (r: Value)
    ensures v.None? <==> r == Null
  {
    match v
    case Some(x) => Real(x)
    case None => Null
  }

  function Strs(xs: seq<string>): (r: Value)
    ensures r.List? && |r.items| == |xs|
    ensures forall i :: 0 <= i < |xs| ==> r.items[i] == Str(xs[i])
  {
    List(seq(|xs|, i requires 0 <= i < |xs| => Str(xs[i])))
  }

  /** The strings of a JSON list of strings; `None` when some element is not a string. */
  function AsStrs(v: Value): (r: Option<seq<string>>)
    ensures r.Some? ==> v.List? && |r.value| == |v.items|
    ensures r.Some? ==> forall i :: 0 <= i < |v.items| ==> v.items[i] == Str(r.value[i])
  {
    if v.List? && forall i :: 0 <= i < |v.items| ==> v.items[i].Str? then
      Some(seq(|v.items|, i requires 0 <= i < |v.items| => v.items[i].s))
    else None
  }

  lemma AsStrsOfStrs(xs: seq<string>)
    ensures AsStrs(Strs(xs)) == Some(xs)
  {
    var v := Strs(xs);
    assert forall i :: 0 <= i < |v.items| ==> v.items[i].Str?;
    assert AsStrs(v).value == xs;
  }
}

=== FILE: main.dfy ===
/**
 * main.py: the command-line entry. What is modelled is the decision logic
 * around the pipeline: the start-up checks that end the program with exit
 * code 1, the search-engine label shown on the console and written to the
 * file summary, the output file name, the command line recorded in that
 * file, and the hint chosen for an error message. Printing, file writing,
 * the clock and the pipeline call itself are not modelled.
 */
module CommandLine {
  import opened Prelude
  import opened Strings
  import opened Seqs

  /** The parsed arguments; an option that was not given is `None`. */
  datatype Args = Args(
    name: string,
    apiKey: Option<string>,
    output: Option<string>,
    noYoutube: bool,
    noGoogle: bool,
    useDuckDuckGo: bool,
    useBing: bool,
    useChatGPTSearch: bool)

  /** Python truthiness of an optional string argument. */
  predicate Given(o: Option<string>)
  {
    o.Some? && o.value != ""
  }

  function B2I(b: bool): nat
  {
    if b then 1 else 0
  }

  /** `sum(search_flags)` */
  function SearchFlagCount(a: Args): (n: nat)
    ensures n <= 3
    ensures n == 0 <==> !a.useDuckDuckGo && !a.useBing && !a.useChatGPTSearch
  {
    B2I(a.useDuckDuckGo) + B2I(a.useBing) + B2I(a.useChatGPTSearch)
  }

  datatype ExitReason = ConflictingSearchFlags | MissingApiKey

  /** How start-up ends: the run goes on with a key (and where it came from), or the program exits. */
  datatype Launch = Proceed(apiKey: string, keyFromArgs: bool) | Exit(code: int, reason: ExitReason)

  /**
   * The two start-up checks, in order: more than one alternative search
   * engine exits first; then a key must come from the argument or, failing
   * that, from OPENAI_API_KEY (`envKey`), an empty text counting as none.
   */
  function CheckLaunch(a: Args, envKey: Option<string>): (r: Launch)
    ensures r.Exit? ==> r.code == 1
    ensures r == Exit(1, ConflictingSearchFlags) <==>
      (a.useDuckDuckGo && a.useBing) || (a.useDuckDuckGo && a.useChatGPTSearch) || (a.useBing && a.useChatGPTSearch)
    ensures r == Exit(1, MissingApiKey) <==> SearchFlagCount(a) <= 1 && !Given(a.apiKey) && !Given(envKey)
    ensures r.Proceed? ==> r.apiKey != "" && (r.keyFromArgs <==> Given(a.apiKey))
    ensures r.Proceed? && Given(a.apiKey) ==> r.apiKey == a.apiKey.value
    ensures r.Proceed? && !Given(a.apiKey) ==> Given(envKey) && r.apiKey == envKey.value
  {
    if SearchFlagCount(a) > 1 then Exit(1, ConflictingSearchFlags)
    else if Given(a.apiKey) then Proceed(a.apiKey.value, true)
    else if Given(envKey) then Proceed(envKey.value, false)
    else Exit(1, MissingApiKey)
  }

  // ----- the search-engine label -----

  datatype Engine = ChatGPTEngine | BingEngine | DuckDuckGoEngine | GoogleEngine | NoWebSearch

  /** The engine the run uses: ChatGPT over Bing over DuckDuckGo over Google, and none when Google is switched off. */
  function SelectedEngine(a: Args): (e: Engine)
    ensures e == ChatGPTEngine <==> a.useChatGPTSearch
    ensures e == BingEngine <==> !a.useChatGPTSearch && a.useBing
    ensures e == DuckDuckGoEngine <==> !a.useChatGPTSearch && !a.useBing && a.useDuckDuckGo
    ensures e == GoogleEngine <==> !a.useChatGPTSearch && !a.useBing && !a.useDuckDuckGo && !a.noGoogle
  {
    if a.useChatGPTSearch then ChatGPTEngine
    else if a.useBing then BingEngine
    else if a.useDuckDuckGo then DuckDuckGoEngine
    else if !a.noGoogle then GoogleEngine
    else NoWebSearch
  }

  /** The first line of the engine announcement on the console. */
  function ConsoleEngineLine(a: Args): (r: string)
    ensures SelectedEngine(a) == ChatGPTEngine <==> r == "🤖 検索エンジン: ChatGPT知識ベース（完全AI検索）"
    ensures SelectedEngine(a) == BingEngine <==> r == "🔍 検索エンジン: Bing（Google制限回避）"
    ensures SelectedEngine(a) == DuckDuckGoEngine <==> r == "🦆 検索エンジン: DuckDuckGo（実験的）"
    ensures SelectedEngine(a) == GoogleEngine <==> r == "🔍 検索エンジン: Google"
    ensures SelectedEngine(a) == NoWebSearch <==> r == "🚫 Web検索: 無効"
  {
    if a.useChatGPTSearch then "🤖 検索エンジン: ChatGPT知識ベース（完全AI検索）"
    else if a.useBing then "🔍 検索エンジン: Bing（Google制限回避）"
    else if a.useDuckDuckGo then "🦆 検索エンジン: DuckDuckGo（実験的）"
    else if !a.noGoogle then "🔍 検索エンジン: Google"
    else "🚫 Web検索: 無効"
  }

  /** The engine entry of the file summary. */
  function FileEngineLabel(a: Args): (r: string)
    ensures SelectedEngine(a) == ChatGPTEngine <==> r == "ChatGPT知識ベース"
    ensures SelectedEngine(a) == BingEngine <==> r == "Bing"
    ensures SelectedEngine(a) == DuckDuckGoEngine <==> r == "DuckDuckGo"
    ensures SelectedEngine(a) == GoogleEngine <==> r == "Google"
    ensures SelectedEngine(a) == NoWebSearch <==> r == "なし（Web検索無効）"
  {
    if a.useChatGPTSearch then "ChatGPT知識ベース"
    else if a.useBing then "Bing"
    else if a.useDuckDuckGo then "DuckDuckGo"
    else if !a.noGoogle then "Google"
    else "なし（Web検索無効）"
  }

  /** The console and the file name the same engine: each label determines the engine, and the other label with it. */
  lemma EngineLabelsAgree(a: Args, b: Args)
    ensures ConsoleEngineLine(a) == ConsoleEngineLine(b) <==> SelectedEngine(a) == SelectedEngine(b)
    ensures FileEngineLabel(a) == FileEngineLabel(b) <==> SelectedEngine(a) == SelectedEngine(b)
  {
  }

  /** Once start-up has passed, at most one alternative flag is set, and it is the one the engine shows. */
  lemma EngineOfValidFlags(a: Args, envKey: Option<string>)
    requires CheckLaunch(a, envKey).Proceed?
    ensures a.useDuckDuckGo ==> SelectedEngine(a) == DuckDuckGoEngine
    ensures a.useBing ==> SelectedEngine(a) == BingEngine
  {
  }

  // ----- output file name -----

  function Underscored(c: char): char
  {
    if c == ' ' || c == '/' then '_' else c
  }

  /** `name.replace(' ', '_').replace('/', '_')` */
  function SafeName(name: string): (r: string)
    ensures |r| == |name|
    ensures forall i :: 0 <= i < |r| ==> r[i] != ' ' && r[i] != '/'
    ensures forall i :: 0 <= i < |r| ==> (name[i] == ' ' || name[i] == '/' ==> r[i] == '_')
    ensures forall i :: 0 <= i < |r| ==> (name[i] != ' ' && name[i] != '/' ==> r[i] == name[i])
  {
    seq(|name|, i requires 0 <= i < |name| => Underscored(name[i]))
  }

  lemma SafeNameIdempotent(name: string)
    ensures SafeName(SafeName(name)) == SafeName(name)
  {
  }

  /** `f"prompt_{timestamp}_{safe_name}.txt"` */
  function PromptFileName(timestamp: string, name: string): (r: string)
    ensures StartsWith(r, "prompt_") && EndsWith(r, ".txt")
  {
    var r := "prompt_" + timestamp + "_" + SafeName(name) + ".txt";
    assert r[..7] == "prompt_";
    assert r[|r| - 4..] == ".txt";
    r
  }

  /** The file name takes no directory separator from the name: with a timestamp free of '/', it has none at all. */
  lemma PromptFileNameFlat(timestamp: string, name: string)
    requires '/' !in timestamp
    ensures '/' !in PromptFileName(timestamp, name)
  {
    var s := SafeName(name);
    assert forall i :: 0 <= i < |s| ==> s[i] != '/';
  }

  // ----- the recorded command -----

  /** The words whose mask entry is set, in their original order. */
  function Select(mask: seq<bool>, words: seq<string>): (r: seq<string>)
    requires |mask| == |words|
    ensures Subseq(r, words)
    ensures forall i :: 0 <= i < |words| && mask[i] ==> words[i] in r
    ensures forall w :: w in r ==> exists i :: 0 <= i < |words| && mask[i] && words[i] == w
  {
    if |mask| == 0 then []
    else
      var rest := Select(mask[1..], words[1..]);
      SubseqCons(rest, words[1..], words[0]);
      assert words == [words[0]] + words[1..];
      assert forall i :: 1 <= i < |words| ==> words[i] == words[1..][i - 1] && mask[i] == mask[1..][i - 1];
      if mask[0] then [words[0]] + rest else rest
  }

  /** With distinct words, a word is selected exactly when its mask entry is set. */
  lemma SelectMember(mask: seq<bool>, words: seq<string>, i: nat)
    requires |mask| == |words| && i < |words| && NoDup(words)
    ensures words[i] in Select(mask, words) <==> mask[i]
  {
  }

  const ApiKeyPlaceholder := "--api-key \"YOUR_API_KEY\""

  /** Every option part the command can hold, in the order they are appended. */
  function OptionWords(a: Args): seq<string>
  {
    [ApiKeyPlaceholder,
     "--output \"" + a.output.GetOr("") + "\"",
     "--no-youtube", "--no-google", "--use-duckduckgo", "--use-bing", "--use-chatgpt-search"]
  }

  lemma OptionWordsDistinct(a: Args)
    ensures NoDup(OptionWords(a))
  {
    var w := OptionWords(a);
    assert w[1][2] == 'o';
    assert w[1][..9] == "--output ";
  }

  /** Which of them were given. */
  function OptionMask(a: Args): seq<bool>
  {
    [Given(a.apiKey), Given(a.output), a.noYoutube, a.noGoogle, a.useDuckDuckGo, a.useBing, a.useChatGPTSearch]
  }

  /**
   * `command_parts`: the script and the quoted name, then the given options
   * in their fixed order. A given key is recorded as the placeholder only.
   */
  function CommandParts(a: Args): (r: seq<string>)
    ensures |r| >= 2 && r[0] == "python main.py" && r[1] == "\"" + a.name + "\""
    ensures Subseq(r[2..], OptionWords(a))
    ensures ApiKeyPlaceholder in r[2..] <==> Given(a.apiKey)
    ensures "--no-youtube" in r[2..] <==> a.noYoutube
    ensures "--no-google" in r[2..] <==> a.noGoogle
    ensures "--use-duckduckgo" in r[2..] <==> a.useDuckDuckGo
    ensures "--use-bing" in r[2..] <==> a.useBing
    ensures "--use-chatgpt-search" in r[2..] <==> a.useChatGPTSearch
    ensures Given(a.output) ==> "--output \"" + a.output.value + "\"" in r[2..]
    ensures !Given(a.output) ==> forall w :: w in r[2..] ==> !StartsWith(w, "--output ")
  {
    var words := OptionWords(a);
    var opts := Select(OptionMask(a), words);
    var r := ["python main.py", "\"" + a.name + "\""] + opts;
    assert r[2..] == opts;
    OptionWordsDistinct(a);
    SelectMember(OptionMask(a), words, 0);
    SelectMember(OptionMask(a), words, 1);
    SelectMember(OptionMask(a), words, 2);
    SelectMember(OptionMask(a), words, 3);
    SelectMember(OptionMask(a), words, 4);
    SelectMember(OptionMask(a), words, 5);
    SelectMember(OptionMask(a), words, 6);
    OutputWordOnlyWhenGiven(a);
    r
  }

  /** Of the option words, only the output option starts with `--output `. */
  lemma OtherWordNotOutput(a: Args, i: nat)
    requires i < |OptionWords(a)| && i != 1
    ensures !StartsWith(OptionWords(a)[i], "--output ")
  {
    var w := OptionWords(a)[i];
    if i == 0 {
      assert w[2] == 'a';
    } else {
      assert w[2] == 'n' || w[2] == 'u';
    }
  }

  /** Without an output the selected words hold no output option. */
  lemma OutputWordOnlyWhenGiven(a: Args)
    ensures !Given(a.output) ==>
      forall w :: w in Select(OptionMask(a), OptionWords(a)) ==> !StartsWith(w, "--output ")
  {
    var words := OptionWords(a);
    if !Given(a.output) {
      forall w | w in Select(OptionMask(a), words)
        ensures !StartsWith(w, "--output ")
      {
        var i :| 0 <= i < |words| && OptionMask(a)[i] && words[i] == w;
        OtherWordNotOutput(a, i);
      }
    }
  }

  /** `executed_command`: the parts joined by single spaces. */
  function ExecutedCommand(a: Args): (r: string)
    ensures StartsWith(r, "python main.py")
  {
    JoinStarts(CommandParts(a), " ");
    Join(CommandParts(a), " ")
  }

  /** The recorded command never depends on which key was given, only on whether one was. */
  lemma CommandHidesKey(a: Args, k1: string, k2: string)
    requires k1 != "" && k2 != ""
    ensures ExecutedCommand(a.(apiKey := Some(k1))) == ExecutedCommand(a.(apiKey := Some(k2)))
  {
  }

  // ----- error hints -----

  datatype Hint = RateLimitHint | DependencyHint | ApiHint | NoHint

  /** The order in which the hints are tried. */
  function Priority(h: Hint): nat
  {
    match h
    case RateLimitHint => 0
    case DependencyHint => 1
    case ApiHint => 2
    case NoHint => 3
  }

  /** The advice shown after a failed run: rate limiting first, then a missing module, then the API. */
  function ErrorHint(message: string): (h: Hint)
    ensures h == RateLimitHint <==> Contains(message, "429") || Contains(message, "Too Many Requests")
    ensures h == DependencyHint <==>
      !Contains(message, "429") && !Contains(message, "Too Many Requests") && Contains(message, "No module named")
    ensures h == NoHint <==>
      !Contains(message, "429") && !Contains(message, "Too Many Requests") && !Contains(message, "No module named")
      && !Contains(message, "OpenAI") && !Contains(message, "API")
  {
    if Contains(message, "429") || Contains(message, "Too Many Requests") then RateLimitHint
    else if Contains(message, "No module named") then DependencyHint
    else if Contains(message, "OpenAI") || Contains(message, "API") then ApiHint
    else NoHint
  }

  /** More text never lowers the hint: any extension of a message gets a hint of equal or higher priority. */
  lemma ErrorHintExtended(m: string, before: string, after: string)
    ensures Priority(ErrorHint(before + m + after)) <= Priority(ErrorHint(m))
  {
    forall sub | Contains(m, sub) ensures Contains(before + m + after, sub) {
      ContainsPrefixOf(m, after, sub);
      ContainsSuffixOf(before, m + after, sub);
      assert before + (m + after) == before + m + after;
    }
  }

  /** A failed OpenAI call, whose message starts with the client's prefix, always gets a hint. */
  lemma OpenAIFailureHinted(message: string)
    ensures ErrorHint("OpenAI API呼び出し失敗: " + message) != NoHint
  {
    var s := "OpenAI API呼び出し失敗: " + message;
    assert s[0..|"OpenAI"|] == "OpenAI";
    ContainsAt(s, "OpenAI", 0);
  }
}

=== FILE: prelude.dfy ===
/**
 * Optional values and the two ways a Python call can end: it returns a value
 * or it raises an exception, whose message is kept as text.
 */
module Prelude {

  datatype Option<T> = None | Some(value: T)
  {
    predicate IsSome() { this.Some? }

    function GetOr(default: T): (r: T)
      ensures this.Some? ==> r == value
      ensures this.None? ==> r == default
    {
      match this
      case Some(v) => v
      case None => default
    }
  }

  /** The outcome of a call into code that may raise. */
  datatype Outcome<T> = Returned(value: T) | Raised(message: string)
  {
    predicate Failed() { this.Raised? }
  }
}

=== FILE: prompt_generator.dfy ===
/**
 * generators/prompt_generator.py: the collected information is organised
 * into one record, rendered as the user prompt for the LLM, and, when the
 * LLM call fails, rendered instead as a fixed fallback prompt. The LLM is
 * an oracle; the long system prompt is a parameter.
 */
module PromptGenerator {
  import opened Prelude
  import opened Strings
  import opened Seqs
  import Config

  // ----- the collected information, as the service hands it over -----

  /** The fields of `wikipedia_info` the generator reads; "" stands for a missing or empty title. */
  datatype WikiInfo = WikiInfo(found: bool, title: string, summary: string, categories: seq<string>)

  /** One web search result: its title and its speech patterns. */
  datatype WebHit = WebHit(title: string, speechPatterns: seq<string>)
  datatype WebInfo = WebInfo(found: bool, results: seq<WebHit>)
  datatype VideoInfo = VideoInfo(found: bool, samplePhrases: seq<string>)

  /** `character_info`; a missing section reads as `{}`, whose `found` is falsy. */
  datatype CharacterInfo = CharacterInfo(
    name: Option<string>,
    wikipedia: Option<WikiInfo>,
    web: Option<WebInfo>,
    youtube: Option<VideoInfo>)

  predicate WikiFound(info: CharacterInfo)
  {
    info.wikipedia.Some? && info.wikipedia.value.found
  }

  /** `google_info.get("found") and google_info.get("results")` */
  predicate WebFound(info: CharacterInfo)
  {
    info.web.Some? && info.web.value.found && |info.web.value.results| > 0
  }

  predicate VideoFound(info: CharacterInfo)
  {
    info.youtube.Some? && info.youtube.value.found
  }

  // ----- _organize_information -----

  datatype Organized = Organized(
    name: string,
    wikipediaFound: bool,
    wikipediaSummary: string,
    googleResultsCount: nat,
    keyInformation: seq<string>,
    webSpeechPatterns: Option<seq<string>>,
    youtubeFound: bool,
    samplePhrases: seq<string>)

  const TitleKey := "正式名称: "
  const CategoryKey := "カテゴリ: "
  const RelatedKey := "関連情報: "
  const MaxWebPatterns: nat := 10
  const RelatedTitleLimit: nat := 100

  /** The key entries a found Wikipedia section contributes: the title, then the first categories. */
  function WikiKeys(w: WikiInfo, maxKey: nat): (r: seq<string>)
    ensures |r| <= 2
    ensures (w.title != "" ==> |r| >= 1 && r[0] == TitleKey + w.title)
    ensures (|w.categories| > 0 <==> |r| > 0 && StartsWith(r[|r| - 1], CategoryKey))
    ensures |r| == (if w.title != "" then 1 else 0) + (if |w.categories| > 0 then 1 else 0)
  {
    (if w.title != "" then [TitleKey + w.title] else [])
    + (if |w.categories| > 0 then [CategoryKey + Join(Take(w.categories, maxKey), ", ")] else [])
  }

  /** The `関連情報` entry of one hit: the first 100 characters of a non-empty title. */
  function RelatedEntry(h: WebHit): (e: Option<string>)
    ensures e.Some? <==> h.title != ""
    ensures e.Some? ==> StartsWith(e.value, RelatedKey) && |e.value| <= |RelatedKey| + RelatedTitleLimit
  {
    if h.title != "" then Some(RelatedKey + Take(h.title, RelatedTitleLimit)) else None
  }

  /** All speech patterns of the hits, hit by hit. */
  function HitPatterns(hits: seq<WebHit>): (r: seq<string>)
    ensures forall p :: p in r <==> exists h :: h in hits && p in h.speechPatterns
  {
    if |hits| == 0 then []
    else
      var rest := HitPatterns(hits[1..]);
      assert forall h :: h in hits <==> h == hits[0] || h in hits[1..];
      hits[0].speechPatterns + rest
  }

  /** The results the generator looks at: the first MAX_KEY_INFORMATION of a found web section. */
  function ReadHits(info: CharacterInfo, maxKey: nat): (r: seq<WebHit>)
    ensures |r| <= maxKey
    ensures WebFound(info) ==> r == Take(info.web.value.results, maxKey)
    ensures !WebFound(info) ==> r == []
  {
    if WebFound(info) then Take(info.web.value.results, maxKey) else []
  }

  /** `key_information`: the Wikipedia entries of a found article, then one entry per titled result read. */
  function KeyInformation(info: CharacterInfo, maxKey: nat): (r: seq<string>)
    ensures WikiFound(info) ==> IsPrefix(WikiKeys(info.wikipedia.value, maxKey), r)
    ensures |r| <= 2 + maxKey
    ensures forall k :: k in r ==> StartsWith(k, TitleKey) || StartsWith(k, CategoryKey) || StartsWith(k, RelatedKey)
    ensures forall k :: k in r && StartsWith(k, RelatedKey) ==>
      exists h :: h in ReadHits(info, maxKey) && RelatedEntry(h) == Some(k)
  {
    var wikiKeys := if WikiFound(info) then WikiKeys(info.wikipedia.value, maxKey) else [];
    var hits := ReadHits(info, maxKey);
    var webKeys := FilterMap(hits, RelatedEntry);
    forall k | k in webKeys
      ensures StartsWith(k, RelatedKey) && exists h :: h in hits && RelatedEntry(h) == Some(k)
    {
      var i :| 0 <= i < |webKeys| && webKeys[i] == k;
      var j :| 0 <= j < |hits| && RelatedEntry(hits[j]) == Some(webKeys[i]);
      assert hits[j] in hits;
    }
    forall k | k in wikiKeys ensures !StartsWith(k, RelatedKey) {
      assert k[0] != RelatedKey[0];
    }
    assert forall k :: k in wikiKeys + webKeys <==> k in wikiKeys || k in webKeys;
    wikiKeys + webKeys
  }

  /** `web_speech_patterns`: present only for a found web section with results, at most ten. */
  function WebPatterns(info: CharacterInfo, maxKey: nat): (r: Option<seq<string>>)
    ensures r.Some? <==> WebFound(info)
    ensures r.Some? ==> |r.value| <= MaxWebPatterns && IsPrefix(r.value, HitPatterns(ReadHits(info, maxKey)))
    ensures r.Some? ==> forall p :: p in r.value ==> exists h :: h in ReadHits(info, maxKey) && p in h.speechPatterns
  {
    if WebFound(info) then
      var all := HitPatterns(ReadHits(info, maxKey));
      var r := Take(all, MaxWebPatterns);
      assert forall p :: p in r ==> p in all;
      Some(r)
    else None
  }

  /** `_organize_information` */
  function Organize(info: CharacterInfo, maxKey: nat): (r: Organized)
    ensures r.name == info.name.GetOr("不明")
    ensures r.wikipediaFound <==> WikiFound(info)
    ensures r.wikipediaSummary == (if WikiFound(info) then info.wikipedia.value.summary else "")
    ensures r.googleResultsCount == (if WebFound(info) then |info.web.value.results| else 0)
    ensures r.keyInformation == KeyInformation(info, maxKey) && r.webSpeechPatterns == WebPatterns(info, maxKey)
    ensures r.youtubeFound <==> VideoFound(info)
    ensures r.samplePhrases == (if VideoFound(info) then info.youtube.value.samplePhrases else [])
  {
    Organized(
      info.name.GetOr("不明"),
      WikiFound(info),
      if WikiFound(info) then info.wikipedia.value.summary else "",
      if WebFound(info) then |info.web.value.results| else 0,
      KeyInformation(info, maxKey),
      WebPatterns(info, maxKey),
      VideoFound(info),
      if VideoFound(info) then info.youtube.value.samplePhrases else [])
  }

  /** With every section missing, only the defaults are left. */
  lemma OrganizeDefaults(name: Option<string>, maxKey: nat)
    ensures Organize(CharacterInfo(name, None, None, None), maxKey)
         == Organized(name.GetOr("不明"), false, "", 0, [], None, false, [])
  {
  }

  // ----- _build_user_prompt -----

  /** The lines of `items` that are not blank after stripping, each rendered by `line`. */
  function NonBlankLines(items: seq<string>, line: string -> string): (r: seq<string>)
    ensures |r| <= |items|
    ensures forall i :: 0 <= i < |r| ==> exists j :: 0 <= j < |items| && NonBlank(line, items[j]) == Some(r[i])
    ensures forall j :: 0 <= j < |items| && Strip(items[j]) != "" ==> line(items[j]) in r
  {
    FilterMap(items, (p: string) => NonBlank(line, p))
  }

  function NonBlank(line: string -> string, p: string): (e: Option<string>)
    ensures e.Some? <==> Strip(p) != ""
    ensures e.Some? ==> e.value == line(p)
  {
    if Strip(p) != "" then Some(line(p)) else None
  }

  function Dash(s: string): string
  {
    "- " + s
  }

  function Bracketed(s: string): string
  {
    "「" + s + "」"
  }

  /** An optional block of a prompt: heading lines, then body lines, then one empty line. */
  datatype Section = Section(heading: seq<string>, body: seq<string>)

  function SectionLines(s: Option<Section>): (r: seq<string>)
    ensures s.None? ==> r == []
    ensures s.Some? ==> |r| == |s.value.heading| + |s.value.body| + 1 && r[|r| - 1] == ""
  {
    match s
    case None => []
    case Some(sec) => sec.heading + sec.body + [""]
  }

  /** The four optional sections of `_build_user_prompt`, in the order they are appended. */
  datatype UserSections = UserSections(wiki: Option<Section>, keys: Option<Section>, web: Option<Section>, samples: Option<Section>)

  function UserOpening(name: string): seq<string>
  {
    ["「" + name + "」の口調・話し方を完全に再現するChatGPT用プロンプトを作成してください。", "", "【分析対象情報】"]
  }

  const UserFinalLine := "出力は「以下の情報をもとに、ロールプレイを行います」で始めてください。"

  function UserClosing(name: string): (r: seq<string>)
    ensures |r| > 0 && r[|r| - 1] == UserFinalLine
  {
    [ "【詳細分析要求】",
      "上記の全ての情報を総合的に分析し、" + name + "の完全なロールプレイ用プロンプトを作成してください。",
      "",
      "【必須要素】",
      "1. **【あなたの役割】**: キャラクターの詳細な設定（年齢、立場、基本性格）",
      "2. **言語的特徴**: 一人称、語尾（絵文字含む）、口調の詳細",
      "3. **話し方のパターン**: 敬語の使用、方言、特徴的な表現",
      "4. **対人関係**: 相手の呼び方、接し方、距離感",
      "5. **性格・価値観**: 思考パターン、行動原理、根底にある特徴",
      "6. **具体的表現例**: 特徴的な決まり文句を10個以上",
      "7. **【キャラクターガイドライン】**: 一貫性を保つための詳細指示",
      "8. **【私の役割】**: 相手役の設定も明確に定義",
      "9. **注意事項**: キャラクター崩れを防ぐための指示",
      "",
      "【分析観点】",
      "- 収集データから" + name + "の最も特徴的な語尾や表現パターンは何か？",
      "- 実際のデータで" + name + "が使用している一人称と相手の呼び方は？",
      "- データから読み取れる" + name + "の基本的な性格や対人関係は？",
      "- 収集したデータに基づき、" + name + "らしくない表現は何か？",
      "",
      "【重要な原則】",
      "- 収集されたデータを最優先に分析し、推測や一般論は避ける",
      "- 実際に抽出された語尾・一人称・表現を正確に反映させる",
      "- 特定の一人称や表現様式を排除せず、データに忠実に従う",
      "",
      "Web検索とYouTube動画から得られた実際のデータを最大限活用し、" + name + "の本質を完全に捉えた",
      "実用的で詳細なロールプレイプロンプトを生成してください。",
      "",
      UserFinalLine ]
  }

  /** The Wikipedia section: present exactly for a found article, with the summary cut to the limit. */
  function WikiSection(o: Organized, limit: nat): (s: Option<Section>)
    ensures s.Some? <==> o.wikipediaFound
    ensures s.Some? ==> |s.value.body| == 1 && s.value.body[0] == Take(o.wikipediaSummary, limit) + "..."
  {
    if o.wikipediaFound then Some(Section(["■ " + o.name + "の基本情報（Wikipedia）"], [Take(o.wikipediaSummary, limit) + "..."]))
    else None
  }

  /** The key information section: at most MAX_KEY_INFORMATION entries, each as a list item. */
  function KeySection(o: Organized, maxKey: nat): (s: Option<Section>)
    ensures s.Some? <==> |o.keyInformation| > 0
    ensures s.Some? ==> |s.value.body| == Min(|o.keyInformation|, maxKey)
    ensures s.Some? ==> forall i :: 0 <= i < |s.value.body| ==> s.value.body[i] == Dash(o.keyInformation[i])
  {
    if |o.keyInformation| > 0 then
      var items := Take(o.keyInformation, maxKey);
      Some(Section(["■ 追加の基本情報"], seq(|items|, i requires 0 <= i < |items| => Dash(items[i]))))
    else None
  }

  /** The web pattern section: every non-blank pattern as a list item. */
  function WebSection(o: Organized): (s: Option<Section>)
    ensures s.Some? <==> o.webSpeechPatterns.Some? && |o.webSpeechPatterns.value| > 0
    ensures s.Some? ==> s.value.body == NonBlankLines(o.webSpeechPatterns.value, Dash)
  {
    if o.webSpeechPatterns.Some? && |o.webSpeechPatterns.value| > 0 then
      Some(Section(["■ " + o.name + "の口調・語尾情報（Web検索より）", "以下はWebページから抽出された話し方の特徴です："],
                   NonBlankLines(o.webSpeechPatterns.value, Dash)))
    else None
  }

  /** The sample section: non-blank phrases among the first `shown`, each in corner brackets. */
  function SampleSection(o: Organized, shown: nat): (s: Option<Section>)
    ensures s.Some? <==> o.youtubeFound && |o.samplePhrases| > 0
    ensures s.Some? ==> |s.value.body| <= shown
    ensures s.Some? ==> forall i :: 0 <= i < |s.value.body| ==> IsShownPhrase(s.value.body[i], o.samplePhrases, shown)
  {
    if o.youtubeFound && |o.samplePhrases| > 0 then
      var body := SampleLines(o.samplePhrases, shown);
      Some(Section(["■ " + o.name + "の実際の発言サンプル（YouTube動画より）", "以下は動画から抽出された実際の話し方です："], body))
    else None
  }

  /** `line` is a non-blank phrase among the first `shown`, in corner brackets. */
  predicate IsShownPhrase(line: string, phrases: seq<string>, shown: nat)
  {
    exists j :: 0 <= j < Min(|phrases|, shown) && Strip(phrases[j]) != "" && line == Bracketed(phrases[j])
  }

  /** The bracketed non-blank phrases among the first `shown`. */
  function SampleLines(phrases: seq<string>, shown: nat): (body: seq<string>)
    ensures |body| <= shown
    ensures forall i :: 0 <= i < |body| ==> IsShownPhrase(body[i], phrases, shown)
  {
    var items := Take(phrases, shown);
    var body := NonBlankLines(items, Bracketed);
    ShownFromItems(phrases, shown, items, body);
    body
  }

  /** Lines made from a prefix of the phrases, at most `shown` long, are shown phrases. */
  lemma ShownFromItems(phrases: seq<string>, shown: nat, items: seq<string>, body: seq<string>)
    requires |items| <= |phrases| && |items| <= shown
    requires forall j :: 0 <= j < |items| ==> items[j] == phrases[j]
    requires forall i :: 0 <= i < |body| ==> exists j :: 0 <= j < |items| && NonBlank(Bracketed, items[j]) == Some(body[i])
    ensures forall i :: 0 <= i < |body| ==> IsShownPhrase(body[i], phrases, shown)
  {
    forall i | 0 <= i < |body| ensures IsShownPhrase(body[i], phrases, shown) {
      var j :| 0 <= j < |items| && NonBlank(Bracketed, items[j]) == Some(body[i]);
      assert items[j] == phrases[j];
    }
  }

  function Min(a: int, b: int): int
  {
    if a < b then a else b
  }

  /** The lines of the present sections, in prompt order. */
  function UserSectionLines(o: Organized, lim: Config.Limits): seq<string>
  {
    SectionLines(WikiSection(o, lim.wikipediaSummaryLimit))
    + SectionLines(KeySection(o, lim.maxKeyInformation))
    + SectionLines(WebSection(o))
    + SectionLines(SampleSection(o, lim.maxSamplePhrasesDisplay))
  }

  function UserPromptLines(o: Organized, lim: Config.Limits): seq<string>
  {
    UserOpening(o.name) + UserSectionLines(o, lim) + UserClosing(o.name)
  }

  /** Every line of every present section occurs in the user prompt. */
  lemma UserPromptHasSectionLines(o: Organized, lim: Config.Limits, user: string)
    requires user == BuildUserPrompt(o, lim)
    ensures forall l :: l in UserSectionLines(o, lim) ==> Contains(user, l)
  {
    JoinContainsMiddle(UserOpening(o.name), UserSectionLines(o, lim), UserClosing(o.name), "\n");
  }

  /**
   * The sections carry the collected data: the cut Wikipedia summary for a
   * found article, each of the first MAX_KEY_INFORMATION key facts as a list
   * item, each non-blank web pattern as a list item, and each shown sample
   * phrase in corner brackets.
   */
  lemma SectionLinesShowData(o: Organized, lim: Config.Limits)
    ensures o.wikipediaFound ==> Take(o.wikipediaSummary, lim.wikipediaSummaryLimit) + "..." in UserSectionLines(o, lim)
    ensures forall i :: 0 <= i < Min(|o.keyInformation|, lim.maxKeyInformation) ==> Dash(o.keyInformation[i]) in UserSectionLines(o, lim)
    ensures o.webSpeechPatterns.Some? && |o.webSpeechPatterns.value| > 0 ==>
      forall l :: l in NonBlankLines(o.webSpeechPatterns.value, Dash) ==> l in UserSectionLines(o, lim)
    ensures o.youtubeFound && |o.samplePhrases| > 0 ==>
      forall l :: l in SampleLines(o.samplePhrases, lim.maxSamplePhrasesDisplay) ==> l in UserSectionLines(o, lim)
  {
    var w := SectionLines(WikiSection(o, lim.wikipediaSummaryLimit));
    var k := SectionLines(KeySection(o, lim.maxKeyInformation));
    if o.wikipediaFound {
      assert WikiSection(o, lim.wikipediaSummaryLimit).value.body[0] in w;
    }
    if |o.keyInformation| > 0 {
      var sec := KeySection(o, lim.maxKeyInformation).value;
      assert forall i :: 0 <= i < |sec.body| ==> sec.body[i] in k;
    }
  }

  /** The user prompt shows the collected data of every present section. */
  lemma UserPromptShowsSections(o: Organized, lim: Config.Limits, user: string)
    requires user == BuildUserPrompt(o, lim)
    ensures o.wikipediaFound ==> Contains(user, Take(o.wikipediaSummary, lim.wikipediaSummaryLimit) + "...")
    ensures forall i :: 0 <= i < Min(|o.keyInformation|, lim.maxKeyInformation) ==> Contains(user, Dash(o.keyInformation[i]))
    ensures o.webSpeechPatterns.Some? && |o.webSpeechPatterns.value| > 0 ==>
      forall l :: l in NonBlankLines(o.webSpeechPatterns.value, Dash) ==> Contains(user, l)
    ensures o.youtubeFound && |o.samplePhrases| > 0 ==>
      forall l :: l in SampleLines(o.samplePhrases, lim.maxSamplePhrasesDisplay) ==> Contains(user, l)
  {
    UserPromptHasSectionLines(o, lim, user);
    SectionLinesShowData(o, lim);
  }

  /** `_build_user_prompt`: the opening request, the sections, and the fixed closing request, one per line. */
  function BuildUserPrompt(o: Organized, lim: Config.Limits): (r: string)
    ensures StartsWith(r, "「" + o.name + "」の口調・話し方を完全に再現するChatGPT用プロンプトを作成してください。")
    ensures EndsWith(r, UserFinalLine)
  {
    var lines := UserPromptLines(o, lim);
    JoinStarts(lines, "\n");
    JoinEnds(lines, "\n");
    Join(lines, "\n")
  }

  // ----- _generate_fallback_prompt -----

  const FallbackFirstLine := "以下の情報をもとに、ロールプレイを行います。"
  const FallbackNotice := "※ ChatGPT APIが利用できないため、基本的なプロンプト形式で提供しています。"
  const FallbackShown: nat := 5

  function FallbackOpening(name: string): (r: seq<string>)
    ensures |r| > 0 && r[0] == FallbackFirstLine
  {
    [ FallbackFirstLine,
      "会話形式のやりとりで進行し、キャラクター性を保ちながら自由に発言してください。",
      "",
      "【あなたの役割】",
      "・" + name + "として一貫したキャラクターを演じる",
      "・収集された情報に基づいて適切な口調・語尾・性格を再現する",
      "" ]
  }

  function FallbackGuidelines(name: string): seq<string>
  {
    [ "【キャラクターガイドライン】",
      "・" + name + "の特徴的な一人称・語尾・口調を一貫して使用する",
      "・" + name + "らしい性格や価値観を常に保つ",
      "・どんな話題でもキャラクター性を崩さない",
      "・相手との関係性に応じた適切な距離感を保つ",
      "",
      "【話し方の詳細指示】",
      "1. **一人称**: 収集データから" + name + "の一人称を特定し一貫使用",
      "2. **語尾・口調**: " + name + "特有の語尾や表現パターンを活用",
      "3. **敬語使用**: " + name + "の敬語使用パターンに従う",
      "4. **特徴的表現**: " + name + "らしい決まり文句や表現を適切に使用",
      "5. **性格反映**: " + name + "の基本的な性格や価値観を発言に反映",
      "",
      "【注意事項】",
      "・" + name + "らしくない表現や態度は避ける",
      "・話題が変わってもキャラクター性を維持する",
      "・収集された情報と矛盾する設定は使用しない",
      "" ]
  }

  /** The sources the fallback acknowledges, in a fixed order. */
  function InfoSources(o: Organized): (r: seq<string>)
    ensures "Wikipedia" in r <==> o.wikipediaFound
    ensures "YouTube動画" in r <==> o.youtubeFound
    ensures |r| > 0 <==> o.wikipediaFound || o.googleResultsCount > 0 || o.youtubeFound
  {
    var google := "Google検索(" + NatToString(o.googleResultsCount) + "件)";
    assert google[0] != 'W' && google[0] != 'Y';
    (if o.wikipediaFound then ["Wikipedia"] else [])
    + (if o.googleResultsCount > 0 then [google] else [])
    + (if o.youtubeFound then ["YouTube動画"] else [])
  }

  /** The acknowledgement line, when there is anything to acknowledge. */
  function SourcesLine(o: Organized): (r: seq<string>)
    ensures |r| <= 1
    ensures |r| == 1 <==> o.wikipediaFound || o.googleResultsCount > 0 || o.youtubeFound
  {
    var src := InfoSources(o);
    if |src| > 0 then ["※ " + Join(src, ", ") + "から収集した情報を基に作成されています。"] else []
  }

  function Quoted(s: string): string
  {
    "- " + Bracketed(s)
  }

  /** The fallback's web pattern section: non-blank patterns among the first five. */
  function FallbackWebSection(o: Organized): (s: Option<Section>)
    ensures s.Some? <==> o.webSpeechPatterns.Some? && |o.webSpeechPatterns.value| > 0
    ensures s.Some? ==> |s.value.body| <= FallbackShown
    ensures s.Some? ==> s.value.body == NonBlankLines(Take(o.webSpeechPatterns.value, FallbackShown), Dash)
  {
    if o.webSpeechPatterns.Some? && |o.webSpeechPatterns.value| > 0 then
      Some(Section(["## 口調・語尾特徴（Web検索より）", "以下の特徴を参考にしてください："],
                   NonBlankLines(Take(o.webSpeechPatterns.value, FallbackShown), Dash)))
    else None
  }

  /** The fallback's sample section: non-blank phrases among the first five. */
  function FallbackSampleSection(o: Organized): (s: Option<Section>)
    ensures s.Some? <==> o.youtubeFound && |o.samplePhrases| > 0
    ensures s.Some? ==> |s.value.body| <= FallbackShown
    ensures s.Some? ==> s.value.body == NonBlankLines(Take(o.samplePhrases, FallbackShown), Quoted)
  {
    if o.youtubeFound && |o.samplePhrases| > 0 then
      Some(Section(["## 実際の発言例（YouTube動画より）", "以下の話し方を参考にしてください："],
                   NonBlankLines(Take(o.samplePhrases, FallbackShown), Quoted)))
    else None
  }

  function FallbackWikiSection(o: Organized, limit: nat): (s: Option<Section>)
    ensures s.Some? <==> o.wikipediaFound
    ensures s.Some? ==> s.value.body == [Take(o.wikipediaSummary, limit) + "..."]
  {
    if o.wikipediaFound then Some(Section(["## 基本情報"], [Take(o.wikipediaSummary, limit) + "..."])) else None
  }

  function FallbackPromptLines(name: string, o: Organized, lim: Config.Limits): seq<string>
  {
    FallbackOpening(name)
    + SectionLines(FallbackWikiSection(o, lim.wikipediaFallbackLimit))
    + SectionLines(FallbackWebSection(o))
    + SectionLines(FallbackSampleSection(o))
    + FallbackGuidelines(name)
    + SourcesLine(o)
    + [FallbackNotice]
  }

  /**
   * `_generate_fallback_prompt`: it names the character by `name` (default
   * "不明なキャラクター"), starts with the fixed role-play line and ends with
   * the notice that the LLM was unavailable.
   */
  function GenerateFallbackPrompt(info: CharacterInfo, lim: Config.Limits): (r: string)
    ensures StartsWith(r, FallbackFirstLine)
    ensures EndsWith(r, FallbackNotice)
  {
    var lines := FallbackPromptLines(info.name.GetOr("不明なキャラクター"), Organize(info, lim.maxKeyInformation), lim);
    JoinStarts(lines, "\n");
    JoinEnds(lines, "\n");
    Join(lines, "\n")
  }

  // ----- generate_voice_prompt -----

  /** `api_interaction`: what was exchanged with the LLM, or the error that led to the fallback. */
  datatype Interaction =
    | Exchanged(systemPrompt: string, userPrompt: string, response: string, model: string, characterName: string)
    | FellBack(error: string, fallbackUsed: bool, characterName: string)

  datatype VoicePrompt = VoicePrompt(generatedPrompt: string, interaction: Interaction)

  /**
   * The exchange of `generate_voice_prompt` for a built user prompt: the
   * stripped answer, or the given fallback text when the call raises.
   */
  function Respond(user: string, fallback: string, name: string, model: string, systemPrompt: string,
                   create: (string, string, string) -> Outcome<string>): (r: VoicePrompt)
    ensures r.interaction.FellBack? <==> create(model, systemPrompt, user).Raised?
    ensures r.interaction.FellBack? ==>
      r.generatedPrompt == fallback && r.interaction.fallbackUsed &&
      r.interaction.error == create(model, systemPrompt, user).message
    ensures r.interaction.Exchanged? ==>
      r.generatedPrompt == Strip(create(model, systemPrompt, user).value) &&
      r.interaction.userPrompt == user && r.interaction.response == r.generatedPrompt
    ensures r.interaction.characterName == name
  {
    match create(model, systemPrompt, user)
    case Returned(answer) =>
      var p := Strip(answer);
      VoicePrompt(p, Exchanged(systemPrompt, user, p, model, name))
    case Raised(msg) =>
      VoicePrompt(fallback, FellBack(msg, true, name))
  }

  /**
   * `generate_voice_prompt`: the exchange for the user prompt built from the
   * organized information, with the fallback prompt of the same information.
   * `create` answers for (model, system prompt, user prompt).
   */
  function GenerateVoicePrompt(info: CharacterInfo, lim: Config.Limits, model: string, systemPrompt: string,
                               create: (string, string, string) -> Outcome<string>): (r: VoicePrompt)
    ensures r.interaction.FellBack? ==> r.generatedPrompt == GenerateFallbackPrompt(info, lim)
    ensures r.interaction.characterName == info.name.GetOr("unknown")
  {
    Respond(BuildUserPrompt(Organize(info, lim.maxKeyInformation), lim), GenerateFallbackPrompt(info, lim),
            info.name.GetOr("unknown"), model, systemPrompt, create)
  }

  /** The model's answer to the user prompt decides the outcome: the stripped answer, or the fallback when the call raises. */
  lemma GenerateVoicePromptAnswer(info: CharacterInfo, lim: Config.Limits, model: string, systemPrompt: string,
                                  create: (string, string, string) -> Outcome<string>, user: string)
    requires user == BuildUserPrompt(Organize(info, lim.maxKeyInformation), lim)
    ensures GenerateVoicePrompt(info, lim, model, systemPrompt, create).interaction.FellBack? <==>
      create(model, systemPrompt, user).Raised?
    ensures create(model, systemPrompt, user).Returned? ==>
      GenerateVoicePrompt(info, lim, model, systemPrompt, create).generatedPrompt == Strip(create(model, systemPrompt, user).value)
  {
  }

  /** A failed call still yields a usable prompt: the fallback's fixed first line and notice. */
  lemma FailedCallFallsBack(info: CharacterInfo, lim: Config.Limits, model: string, systemPrompt: string,
                            create: (string, string, string) -> Outcome<string>)
    requires create(model, systemPrompt, BuildUserPrompt(Organize(info, lim.maxKeyInformation), lim)).Raised?
    ensures StartsWith(GenerateVoicePrompt(info, lim, model, systemPrompt, create).generatedPrompt, FallbackFirstLine)
    ensures EndsWith(GenerateVoicePrompt(info, lim, model, systemPrompt, create).generatedPrompt, FallbackNotice)
  {
    var fallback := GenerateFallbackPrompt(info, lim);
    assert GenerateVoicePrompt(info, lim, model, systemPrompt, create).generatedPrompt == fallback;
  }
}

=== FILE: seqs.dfy ===
/**
 * Sequence vocabulary shared by every collector: Python's `xs[:n]`,
 * list-comprehension filtering, order-preserving sub-sequences and
 * duplicate-freedom.
 */
module Seqs {
  import opened Prelude

  /** Python's `xs[:n]` for a non-negative bound. */
  function Take<T>(s: seq<T>, n: nat): (r: seq<T>)
    ensures |r| <= n && |r| <= |s|
    ensures |r| == n || |r| == |s|
    ensures n < |s| ==> r == s[..n]
    ensures n >= |s| ==> r == s
  {
    if n < |s| then s[..n] else s
  }

  /** `a` can be obtained from `b` by deleting elements, keeping the order. */
  predicate Subseq<T(==)>(a: seq<T>, b: seq<T>)
    decreases |b|
  {
    if |a| == 0 then true
    else if |b| == 0 then false
    else (a[0] == b[0] && Subseq(a[1..], b[1..])) || Subseq(a, b[1..])
  }

  /** `[x for x in s if p(x)]` */
  function Filter<T(==)>(p: T -> bool, s: seq<T>): (r: seq<T>)
    ensures |r| <= |s|
    ensures forall i :: 0 <= i < |r| ==> p(r[i]) && r[i] in s
    ensures forall x :: x in s && p(x) ==> x in r
    ensures Subseq(r, s)
  {
    if |s| == 0 then []
    else
      var rest := Filter(p, s[1..]);
      SubseqCons(rest, s[1..], s[0]);
      if p(s[0]) then [s[0]] + rest else rest
  }

  /** The elements of `s` are pairwise distinct. */
  predicate NoDup<T(==)>(s: seq<T>)
  {
    forall i, j :: 0 <= i < j < |s| ==> s[i] != s[j]
  }

  /** Number of elements of `s` satisfying `p`. */
  function Count<T>(p: T -> bool, s: seq<T>): (r: nat)
    ensures r <= |s|
  {
    if |s| == 0 then 0 else (if p(s[0]) then 1 else 0) + Count(p, s[1..])
  }

  lemma {:induction false} SubseqCons<T>(a: seq<T>, b: seq<T>, x: T)
    requires Subseq(a, b)
    ensures Subseq(a, [x] + b)
    ensures Subseq([x] + a, [x] + b)
  {
    assert ([x] + b)[1..] == b;
    assert ([x] + a)[1..] == a;
  }

  lemma {:induction false} SubseqRefl<T>(a: seq<T>)
    ensures Subseq(a, a)
    decreases |a|
  {
    if |a| > 0 {
      SubseqRefl(a[1..]);
    }
  }

  lemma {:induction false} SubseqMembers<T>(a: seq<T>, b: seq<T>)
    requires Subseq(a, b)
    ensures forall x :: x in a ==> x in b
    ensures |a| <= |b|
    decreases |b|
  {
    if |a| > 0 && |b| > 0 {
      if a[0] == b[0] && Subseq(a[1..], b[1..]) {
        SubseqMembers(a[1..], b[1..]);
        forall x | x in a ensures x in b {
          if x != a[0] {
            assert x in a[1..];
          }
        }
      } else {
        SubseqMembers(a, b[1..]);
      }
    }
  }

  lemma {:induction false} SubseqPrefix<T>(a: seq<T>, n: nat)
    requires n <= |a|
    ensures Subseq(a[..n], a)
    decreases |a|
  {
    if n > 0 {
      SubseqPrefix(a[1..], n - 1);
      assert a[..n][1..] == a[1..][..n - 1];
    } else if |a| > 0 {
      SubseqPrefix(a[1..], 0);
    }
  }

  lemma {:induction false} SubseqTrans<T>(a: seq<T>, b: seq<T>, c: seq<T>)
    requires Subseq(a, b) && Subseq(b, c)
    ensures Subseq(a, c)
    decreases |c|
  {
    if |a| > 0 && |c| > 0 {
      if Subseq(b, c[1..]) {
        SubseqTrans(a, b, c[1..]);
      } else {
        if a[0] == b[0] && Subseq(a[1..], b[1..]) {
          SubseqTrans(a[1..], b[1..], c[1..]);
        } else {
          SubseqTrans(a, b[1..], c[1..]);
        }
      }
    }
  }

  /** `Take` keeps the order and only drops elements. */
  lemma TakeSubseq<T>(s: seq<T>, n: nat)
    ensures Subseq(Take(s, n), s)
  {
    if n < |s| {
      SubseqPrefix(s, n);
    } else {
      SubseqRefl(s);
    }
  }

  lemma NoDupPrefix<T>(s: seq<T>, n: nat)
    requires NoDup(s) && n <= |s|
    ensures NoDup(s[..n])
  {
  }

  /** Filtering a sequence whose elements all pass changes nothing. */
  lemma {:induction false} FilterAll<T>(p: T -> bool, s: seq<T>)
    requires forall i :: 0 <= i < |s| ==> p(s[i])
    ensures Filter(p, s) == s
    decreases |s|
  {
    if |s| > 0 {
      FilterAll(p, s[1..]);
    }
  }

  /** Python's slice `xs[:n]` with a possibly negative bound. */
  function SliceTo<T>(s: seq<T>, n: int): (r: seq<T>)
    ensures 0 <= n ==> r == s[..if n < |s| then n else |s|]
    ensures n < 0 ==> r == s[..if |s| + n > 0 then |s| + n else 0]
  {
    if n >= 0 then (if n < |s| then s[..n] else s)
    else if |s| + n > 0 then s[..|s| + n] else []
  }

  /** Python's slice `xs[n:]` with a possibly negative bound. */
  function SliceFrom<T>(s: seq<T>, n: int): (r: seq<T>)
    ensures 0 <= n ==> r == s[if n < |s| then n else |s|..]
    ensures n < 0 ==> r == s[if |s| + n > 0 then |s| + n else 0..]
  {
    if n >= 0 then (if n < |s| then s[n..] else [])
    else if |s| + n > 0 then s[|s| + n..] else s
  }

  /** `p` is `a[:len(p)]`. */
  predicate IsPrefix<T(==)>(p: seq<T>, a: seq<T>)
  {
    |p| <= |a| && p == a[..|p|]
  }

  lemma PrefixExtends<T>(p: seq<T>, a: seq<T>, c: seq<T>)
    requires IsPrefix(p, a)
    ensures IsPrefix(p, a + c)
  {
  }

  /** `[f(x) for x in items if f(x) is not None]`, in order. */
  function FilterMap<T, U(==)>(items: seq<T>, f: T -> Option<U>): (r: seq<U>)
    ensures |r| <= |items|
    ensures forall i :: 0 <= i < |r| ==> exists j :: 0 <= j < |items| && f(items[j]) == Some(r[i])
    ensures forall j :: 0 <= j < |items| && f(items[j]).Some? ==> f(items[j]).value in r
  {
    if |items| == 0 then []
    else
      var rest := FilterMap(items[1..], f);
      assert forall j :: 1 <= j < |items| ==> items[j] == items[1..][j - 1];
      match f(items[0])
      case Some(y) => [y] + rest
      case None => rest
  }

  /** Filter-mapping two runs one after the other is filter-mapping their concatenation. */
  lemma {:induction false} FilterMapAppend<T, U>(a: seq<T>, b: seq<T>, f: T -> Option<U>)
    ensures FilterMap(a + b, f) == FilterMap(a, f) + FilterMap(b, f)
  {
    if |a| > 0 {
      FilterMapAppend(a[1..], b, f);
      assert (a + b)[1..] == a[1..] + b;
      assert (a + b)[0] == a[0];
    } else {
      assert a + b == b;
    }
  }
}

=== FILE: speech.dfy ===
/**
 * The speech-pattern extractors shared by the text utilities and the
 * collectors: the key and quote scanners that stand for the two regular
 * expressions applied to an LLM answer, the entry list built from them, and
 * the line parsers applied to LLM answers (colon lines and keyword lines).
 */
module Speech {
  import opened Prelude
  import opened Strings
  import opened Seqs

  predicate IsOpenQuote(c: char)
  {
    c == '「' || c == '『' || c == '"'
  }

  predicate IsCloseQuote(c: char)
  {
    c == '」' || c == '』' || c == '"'
  }

  predicate IsColon(c: char)
  {
    c == '：' || c == ':'
  }

  /** The character class `[^」』"\n。、]` of a labelled value. */
  predicate InLabelValue(c: char)
  {
    !IsCloseQuote(c) && c != '\n' && c != '。' && c != '、'
  }

  /** The character class `[^」』"]` of a quoted span. */
  predicate InQuote(c: char)
  {
    !IsCloseQuote(c)
  }

  predicate AllLabelValue(v: string)
  {
    forall k :: 0 <= k < |v| ==> InLabelValue(v[k])
  }

  predicate AllInQuote(v: string)
  {
    forall k :: 0 <= k < |v| ==> InQuote(v[k])
  }

  /** A successful match: the captured group and the index just past the match. */
  datatype Match = Match(group: string, end: nat)

  /**
   * Where the captured value starts once `\s*` has stopped at `r`: the
   * optional opening quote is tried first and given up when the value
   * cannot start right after it.
   */
  function ValueStart(s: string, r: nat): (g: Option<nat>)
    requires r <= |s|
    ensures g.Some? ==> r <= g.value < |s| && InLabelValue(s[g.value])
    ensures g.Some? && g.value == r + 1 ==> IsOpenQuote(s[r])
    ensures g.None? ==> r == |s| || !InLabelValue(s[r])
  {
    if r + 1 < |s| && IsOpenQuote(s[r]) && InLabelValue(s[r + 1]) then Some(r + 1)
    else if r < |s| && InLabelValue(s[r]) then Some(r)
    else None
  }

  /** The greedy `\s*` giving back one character at a time, longest first. */
  function Backtrack(s: string, r0: nat, j: nat): (g: Option<nat>)
    requires r0 + j <= |s|
    ensures g.Some? ==> r0 <= g.value < |s| && InLabelValue(s[g.value])
    ensures g.None? ==> forall r :: r0 <= r <= r0 + j ==> ValueStart(s, r).None?
    decreases j
  {
    match ValueStart(s, r0 + j)
    case Some(g) => Some(g)
    case None => if j == 0 then None else Backtrack(s, r0, j - 1)
  }

  /** The label and a colon occur at `p`. */
  predicate LabelHead(s: string, key: string, p: nat)
  {
    p + |key| < |s| && s[p..p + |key|] == key && IsColon(s[p + |key|])
  }

  /** `v` occurs at `g` as a maximal run of value characters: the next character, if any, ends the class. */
  predicate MaximalRunAt(s: string, v: string, g: nat)
  {
    g + |v| <= |s| && s[g..g + |v|] == v && (g + |v| == |s| || !InLabelValue(s[g + |v|]))
  }

  /** Where the value of `LABEL[：:]\s*[「『"]?` tried at index `p` starts, if the pattern gets that far. */
  function LabelValueStart(s: string, key: string, p: nat): (g: Option<nat>)
    requires p <= |s|
    ensures g.Some? ==> LabelHead(s, key, p) && p + |key| < g.value < |s| && InLabelValue(s[g.value])
  {
    var c := p + |key|;
    if c < |s| && s[p..c] == key && IsColon(s[c]) then
      var r0 := c + 1;
      Backtrack(s, r0, RunWhile(s, r0, IsSpace))
    else None
  }

  /**
   * `LABEL[：:]\s*[「『"]?([^」』"\n。、]+)[」』"]?` tried at index `p`: it
   * matches exactly when a value start is found, and the capture is the
   * maximal run of value characters from there.
   */
  function LabelAt(s: string, key: string, p: nat): (m: Option<Match>)
    requires p <= |s|
    ensures m.Some? ==> p < m.value.end <= |s|
    ensures m.Some? ==> |m.value.group| > 0 && AllLabelValue(m.value.group) && Contains(s, m.value.group)
    ensures m.Some? ==> LabelHead(s, key, p)
    ensures m.Some? ==> LabelValueStart(s, key, p).Some? && MaximalRunAt(s, m.value.group, LabelValueStart(s, key, p).value)
  {
    match LabelValueStart(s, key, p)
    case None => None
    case Some(g) => Some(CaptureAt(s, g))
  }

  /** The value captured from `g` on, with the closing quote after it consumed when there is one. */
  function CaptureAt(s: string, g: nat): (m: Match)
    requires g < |s| && InLabelValue(s[g])
    ensures g < m.end <= |s|
    ensures |m.group| > 0 && AllLabelValue(m.group) && Contains(s, m.group)
    ensures m.group == s[g..ValueEnd(s, g)] && MaximalRunAt(s, m.group, g)
  {
    var e := ValueEnd(s, g);
    ContainsAt(s, s[g..e], g);
    Match(s[g..e], if e < |s| && IsCloseQuote(s[e]) then e + 1 else e)
  }

  /** The end of the captured value starting at `g`: the longest run of value characters. */
  function ValueEnd(s: string, g: nat): (e: nat)
    requires g < |s| && InLabelValue(s[g])
    ensures g < e <= |s| && AllLabelValue(s[g..e])
    ensures e < |s| ==> !InLabelValue(s[e])
  {
    var e := g + RunWhile(s, g, InLabelValue);
    assert forall k :: 0 <= k < e - g ==> s[g..e][k] == s[g + k];
    e
  }

  /**
   * When the label and colon occur at `p` but `LabelAt` finds nothing, no way
   * of giving back the spaces and the optional quote reaches a value character.
   */
  lemma LabelAtNoneComplete(s: string, key: string, p: nat)
    requires p <= |s| && LabelHead(s, key, p) && LabelAt(s, key, p).None?
    ensures LabelValueStart(s, key, p).None?
    ensures forall r :: p + |key| + 1 <= r <= p + |key| + 1 + RunWhile(s, p + |key| + 1, IsSpace) ==> ValueStart(s, r).None?
  {
    var r0 := p + |key| + 1;
    assert LabelValueStart(s, key, p) == Backtrack(s, r0, RunWhile(s, r0, IsSpace));
  }

  /** The scan finds nothing exactly when the pattern matches at no position. */
  lemma LabelScanEmpty(s: string, key: string, p: nat)
    requires p <= |s|
    ensures LabelScan(s, key, p) == [] <==> forall q :: p <= q < |s| ==> LabelAt(s, key, q).None?
  {
    if LabelScan(s, key, p) == [] {
      LabelScanEmptyNoMatch(s, key, p);
    } else {
      LabelScanNonEmptyMatch(s, key, p);
    }
  }

  /** An empty scan from `p` means no position from `p` on matches. */
  lemma {:induction false} LabelScanEmptyNoMatch(s: string, key: string, p: nat)
    requires p <= |s| && LabelScan(s, key, p) == []
    ensures forall q :: p <= q < |s| ==> LabelAt(s, key, q).None?
    decreases |s| - p
  {
    if p < |s| {
      LabelScanEmptyNoMatch(s, key, p + 1);
    }
  }

  /** A non-empty scan from `p` means some position from `p` on matches. */
  lemma {:induction false} LabelScanNonEmptyMatch(s: string, key: string, p: nat)
    requires p <= |s| && LabelScan(s, key, p) != []
    ensures exists q :: p <= q < |s| && LabelAt(s, key, q).Some?
    decreases |s| - p
  {
    if LabelAt(s, key, p).None? {
      LabelScanNonEmptyMatch(s, key, p + 1);
    }
  }

  /** The first capture comes from the leftmost position where the pattern matches, and scanning resumes after that match. */
  lemma {:induction false} LabelScanLeftmost(s: string, key: string, p: nat, q: nat)
    requires p <= q < |s| && LabelAt(s, key, q).Some?
    requires forall j :: p <= j < q ==> LabelAt(s, key, j).None?
    ensures LabelScan(s, key, p) == [LabelAt(s, key, q).value.group] + LabelScan(s, key, LabelAt(s, key, q).value.end)
    decreases q - p
  {
    if p < q {
      LabelScanLeftmost(s, key, p + 1, q);
    }
  }

  /**
   * A label, a full-width colon and a value that starts with neither a space
   * nor an opening quote: the first capture is the whole value, up to the
   * first character outside the value class.
   */
  lemma LabelLeading(key: string, v: string, rest: string)
    requires |v| > 0 && AllLabelValue(v) && !IsSpace(v[0]) && !IsOpenQuote(v[0])
    requires |rest| == 0 || !InLabelValue(rest[0])
    ensures |LabelMatches(key + "：" + v + rest, key)| > 0
    ensures LabelMatches(key + "：" + v + rest, key)[0] == v
  {
    var s := key + "：" + v + rest;
    var r0 := |key| + 1;
    assert s[..|key|] == key && s[|key|] == '：';
    assert forall k :: 0 <= k < |v| ==> s[r0 + k] == v[k];
    assert RunWhile(s, r0, IsSpace) == 0;
    assert ValueStart(s, r0) == Some(r0);
    var n := RunWhile(s, r0, InLabelValue);
    assert r0 + |v| < |s| ==> s[r0 + |v|] == rest[0];
    assert n == |v|;
    assert s[r0..r0 + |v|] == v;
    assert LabelAt(s, key, 0).value.group == v;
  }

  /** `re.findall` of the key pattern from index `p` on: every capture, left to right. */
  function LabelScan(s: string, key: string, p: nat): (r: seq<string>)
    requires p <= |s|
    ensures forall i :: 0 <= i < |r| ==> |r[i]| > 0 && AllLabelValue(r[i]) && Contains(s, r[i])
    ensures |r| > 0 ==> Contains(s, key)
    decreases |s| - p
  {
    if p == |s| then []
    else
      match LabelAt(s, key, p)
      case Some(m) =>
        ContainsAt(s, key, p);
        [m.group] + LabelScan(s, key, m.end)
      case None => LabelScan(s, key, p + 1)
  }

  function LabelMatches(s: string, key: string): (r: seq<string>)
    ensures forall i :: 0 <= i < |r| ==> |r[i]| > 0 && AllLabelValue(r[i]) && Contains(s, r[i])
    ensures !Contains(s, key) ==> r == []
  {
    LabelScan(s, key, 0)
  }

  /** `[「『"]([^」』"]+)[」』"]` tried at index `p`. */
  function QuoteAt(s: string, p: nat): (m: Option<Match>)
    requires p <= |s|
    ensures m.Some? ==> p < m.value.end <= |s|
    ensures m.Some? ==> IsOpenQuote(s[p]) && m.value.end == p + |m.value.group| + 2
    ensures m.Some? ==> s[p + 1..m.value.end - 1] == m.value.group && IsCloseQuote(s[m.value.end - 1])
    ensures m.Some? ==> |m.value.group| > 0 && AllInQuote(m.value.group)
  {
    if p < |s| && IsOpenQuote(s[p]) then
      var n := RunWhile(s, p + 1, InQuote);
      if n > 0 && p + 1 + n < |s| then Some(Match(s[p + 1..p + 1 + n], p + 2 + n)) else None
    else None
  }

  /** `re.findall` of the quote pattern from index `p` on. */
  function QuoteScan(s: string, p: nat): (r: seq<string>)
    requires p <= |s|
    ensures forall i :: 0 <= i < |r| ==> |r[i]| > 0 && AllInQuote(r[i]) && Contains(s, r[i])
    decreases |s| - p
  {
    if p == |s| then []
    else
      match QuoteAt(s, p)
      case Some(m) =>
        ContainsAt(s, m.group, p + 1);
        [m.group] + QuoteScan(s, m.end)
      case None => QuoteScan(s, p + 1)
  }

  function QuoteMatches(s: string): (r: seq<string>)
    ensures forall i :: 0 <= i < |r| ==> |r[i]| > 0 && AllInQuote(r[i]) && Contains(s, r[i])
  {
    QuoteScan(s, 0)
  }

  /** A text without an opening quote has no quoted span. */
  lemma {:induction false} NoOpenNoQuotes(s: string, p: nat)
    requires p <= |s|
    requires forall i :: p <= i < |s| ==> !IsOpenQuote(s[i])
    ensures QuoteScan(s, p) == []
    decreases |s| - p
  {
    if p < |s| {
      assert QuoteAt(s, p).None?;
      NoOpenNoQuotes(s, p + 1);
    }
  }

  /** A closed quote at the very start is the first span found, and scanning resumes after it. */
  lemma LeadingQuote(q: string, rest: string)
    requires |q| > 0 && AllInQuote(q)
    ensures QuoteMatches("「" + q + "」" + rest) == [q] + QuoteScan("「" + q + "」" + rest, |q| + 2)
  {
    var s := "「" + q + "」" + rest;
    assert forall k :: 0 <= k < |q| ==> s[1 + k] == q[k];
    assert s[|q| + 1] == '」';
    var n := RunWhile(s, 1, InQuote);
    assert forall k :: 1 <= k < 1 + |q| ==> InQuote(s[k]);
    assert !InQuote(s[1 + |q|]);
    assert n == |q|;
    assert s[1..1 + |q|] == q;
  }

  // ----- entries of an LLM answer -----

  const PronounLabel := "一人称"
  const EndingLabel := "語尾"
  const HabitLabel := "口癖"
  const FeatureText := "表現: 特徴的な話し方に関する情報"

  /** One entry the answer parser reports. */
  datatype Entry =
    | Pronoun(value: string)
    | Ending(value: string)
    | Habit(value: string)
    | Line(value: string)
    | Feature

  /** Position of the entry's kind in the reported order. */
  function Kind(e: Entry): nat
  {
    match e
    case Pronoun(_) => 0
    case Ending(_) => 1
    case Habit(_) => 2
    case Line(_) => 3
    case Feature => 4
  }

  /** The entry as the report writes it. */
  function Render(e: Entry): string
  {
    match e
    case Pronoun(v) => "一人称: " + v
    case Ending(v) => "語尾: " + v
    case Habit(v) => "口癖: " + v
    case Line(v) => "セリフ例: " + v
    case Feature => FeatureText
  }

  /** Reads a rendered entry back; each kind has a prefix with its own first character. */
  function ParseEntry(s: string): (e: Option<Entry>)
  {
    if StartsWith(s, "一人称: ") then Some(Pronoun(s[5..]))
    else if StartsWith(s, "語尾: ") then Some(Ending(s[4..]))
    else if StartsWith(s, "口癖: ") then Some(Habit(s[4..]))
    else if StartsWith(s, "セリフ例: ") then Some(Line(s[6..]))
    else if s == FeatureText then Some(Feature)
    else None
  }

  /** Rendering loses nothing: the report's strings determine the entries. */
  lemma ParseRender(e: Entry)
    ensures ParseEntry(Render(e)) == Some(e)
  {
    var s := Render(e);
    match e
    case Pronoun(v) => assert s[5..] == v;
    case Ending(v) =>
      assert s[0] == '語';
      assert s[4..] == v;
    case Habit(v) =>
      assert s[0] == '口';
      assert s[4..] == v;
    case Line(v) =>
      assert s[0] == 'セ';
      assert s[6..] == v;
    case Feature =>
      assert s[0] == '表';
  }

  predicate KindSorted(es: seq<Entry>)
  {
    forall i, j :: 0 <= i < j < |es| ==> Kind(es[i]) <= Kind(es[j])
  }

  /** What every entry of the answer `text` satisfies, by kind. */
  predicate EntryOk(e: Entry, text: string, name: string, maxQuotes: nat, minLen: int)
  {
    match e
    case Pronoun(v) => LabelValueOk(v) && Contains(text, PronounLabel)
    case Ending(v) => LabelValueOk(v) && Contains(text, EndingLabel)
    case Habit(v) => LabelValueOk(v) && Contains(text, HabitLabel)
    case Line(v) => v in Take(QuoteMatches(text), maxQuotes) && QuoteKept(v, name, minLen)
    case Feature => MentionsFeature(text)
  }

  /** A stripped capture: only value characters, no surrounding whitespace. */
  predicate LabelValueOk(v: string)
  {
    AllLabelValue(v) && (|v| > 0 ==> !IsSpace(v[0]) && !IsSpace(v[|v| - 1]))
  }

  /** `len(quote) > min_len and name.lower() not in quote.lower()` */
  predicate QuoteKept(q: string, name: string, minLen: int)
  {
    |q| > minLen && !Contains(Lower(q), Lower(name))
  }

  predicate MentionsFeature(text: string)
  {
    Contains(text, "特徴") || Contains(text, "表現")
  }

  /** The entry of kind `kind` (0, 1 or 2) holding a labelled value. */
  function Labelled(kind: nat, v: string): (e: Entry)
    requires kind < 3
    ensures Kind(e) == kind && !e.Line? && !e.Feature? && e.value == v
  {
    if kind == 0 then Pronoun(v) else if kind == 1 then Ending(v) else Habit(v)
  }

  /** Stripping a capture keeps it inside the value class. */
  lemma StripValue(m: string)
    requires AllLabelValue(m)
    ensures LabelValueOk(Strip(m))
  {
    var v := Strip(m);
    forall k | 0 <= k < |v| ensures InLabelValue(v[k]) {
      assert v[k] in m;
    }
  }

  /** The captures after `key`, stripped, as entries of kind `kind`. */
  function LabelEntries(text: string, key: string, kind: nat): (r: seq<Entry>)
    requires kind < 3
    ensures forall i :: 0 <= i < |r| ==> Kind(r[i]) == kind && !r[i].Line? && !r[i].Feature? && LabelValueOk(r[i].value)
    ensures |r| > 0 ==> Contains(text, key)
  {
    var ms := LabelMatches(text, key);
    var r := seq(|ms|, i requires 0 <= i < |ms| => Labelled(kind, Strip(ms[i])));
    forall i | 0 <= i < |r| ensures LabelValueOk(r[i].value) {
      StripValue(ms[i]);
    }
    r
  }

  /** Every capture, stripped, is an entry of its kind. */
  lemma LabelEntriesComplete(text: string, key: string, kind: nat, m: string)
    requires kind < 3 && m in LabelMatches(text, key)
    ensures Labelled(kind, Strip(m)) in LabelEntries(text, key, kind)
  {
    var ms := LabelMatches(text, key);
    var i :| 0 <= i < |ms| && ms[i] == m;
    assert LabelEntries(text, key, kind)[i] == Labelled(kind, Strip(m));
  }

  /** The kept spans among the first `maxQuotes` quoted spans, in order. */
  function QuoteEntries(text: string, name: string, maxQuotes: nat, minLen: int): (r: seq<Entry>)
    ensures forall i :: 0 <= i < |r| ==> r[i].Line? && r[i].value in Take(QuoteMatches(text), maxQuotes) && QuoteKept(r[i].value, name, minLen)
    ensures forall q :: q in Take(QuoteMatches(text), maxQuotes) && QuoteKept(q, name, minLen) ==> Line(q) in r
  {
    var kept := Filter(q => QuoteKept(q, name, minLen), Take(QuoteMatches(text), maxQuotes));
    var r := seq(|kept|, i requires 0 <= i < |kept| => Line(kept[i]));
    forall q | q in Take(QuoteMatches(text), maxQuotes) && QuoteKept(q, name, minLen) ensures Line(q) in r {
      var i :| 0 <= i < |kept| && kept[i] == q;
      assert r[i] == Line(q);
    }
    r
  }

  predicate AllOk(es: seq<Entry>, text: string, name: string, maxQuotes: nat, minLen: int)
  {
    forall i :: 0 <= i < |es| ==> EntryOk(es[i], text, name, maxQuotes, minLen)
  }

  lemma AllOkConcat(a: seq<Entry>, b: seq<Entry>, text: string, name: string, maxQuotes: nat, minLen: int)
    requires AllOk(a, text, name, maxQuotes, minLen) && AllOk(b, text, name, maxQuotes, minLen)
    ensures AllOk(a + b, text, name, maxQuotes, minLen)
  {
    forall i | 0 <= i < |a + b| ensures EntryOk((a + b)[i], text, name, maxQuotes, minLen) {
      if i >= |a| {
        assert (a + b)[i] == b[i - |a|];
      }
    }
  }

  lemma SortedConcat(a: seq<Entry>, b: seq<Entry>, k: nat)
    requires KindSorted(a) && KindSorted(b)
    requires forall i :: 0 <= i < |a| ==> Kind(a[i]) <= k
    requires forall i :: 0 <= i < |b| ==> k <= Kind(b[i])
    ensures KindSorted(a + b)
  {
  }

  /** The three labelled groups, pronouns then endings then habits. */
  function LabelledEntries(text: string): (r: seq<Entry>)
    ensures KindSorted(r)
    ensures forall i :: 0 <= i < |r| ==> Kind(r[i]) <= 2
    ensures forall name, maxQuotes, minLen :: AllOk(r, text, name, maxQuotes, minLen)
  {
    var p := LabelEntries(text, PronounLabel, 0);
    var e := LabelEntries(text, EndingLabel, 1);
    var h := LabelEntries(text, HabitLabel, 2);
    SortedConcat(p, e, 0);
    SortedConcat(p + e, h, 1);
    forall name, maxQuotes, minLen ensures AllOk(p + e + h, text, name, maxQuotes, minLen) {
      AllOkConcat(p, e, text, name, maxQuotes, minLen);
      AllOkConcat(p + e, h, text, name, maxQuotes, minLen);
    }
    p + e + h
  }

  /**
   * The entries of an LLM answer before the cap: the captures after 一人称,
   * 語尾 and 口癖, then the kept spans among the first `maxQuotes` quoted
   * spans, then the feature entry.
   */
  function AnswerEntries(text: string, name: string, maxQuotes: nat, minLen: int): (r: seq<Entry>)
    ensures KindSorted(r)
    ensures AllOk(r, text, name, maxQuotes, minLen)
    ensures Feature in r <==> MentionsFeature(text)
    ensures forall q :: q in Take(QuoteMatches(text), maxQuotes) && QuoteKept(q, name, minLen) ==> Line(q) in r
  {
    var a := LabelledEntries(text);
    var l := QuoteEntries(text, name, maxQuotes, minLen);
    var f := if MentionsFeature(text) then [Feature] else [];
    SortedConcat(a, l, 2);
    SortedConcat(a + l, f, 3);
    AllOkConcat(a, l, text, name, maxQuotes, minLen);
    AllOkConcat(a + l, f, text, name, maxQuotes, minLen);
    assert Feature !in a + l by {
      forall i | 0 <= i < |a + l| ensures (a + l)[i] != Feature {
        if i >= |a| {
          assert (a + l)[i] == l[i - |a|];
        }
      }
    }
    assert forall q :: Line(q) in l ==> Line(q) in a + l + f;
    a + l + f
  }

  /** The report strings of `es`; each one reads back as its entry. */
  function RenderAll(es: seq<Entry>): (r: seq<string>)
    ensures |r| == |es|
    ensures forall i :: 0 <= i < |r| ==> r[i] == Render(es[i]) && ParseEntry(r[i]) == Some(es[i])
  {
    var r := seq(|es|, i requires 0 <= i < |es| => Render(es[i]));
    forall i | 0 <= i < |r| ensures ParseEntry(r[i]) == Some(es[i]) {
      ParseRender(es[i]);
    }
    r
  }

  /**
   * `extract_speech_patterns_from_chatgpt_result` with its quote window,
   * minimum quote length and pattern cap as parameters.
   */
  function AnswerPatterns(text: string, name: string, maxQuotes: nat, minLen: int, maxPatterns: nat): (r: seq<string>)
    ensures |text| == 0 ==> r == []
    ensures |r| <= maxPatterns
    ensures forall i :: 0 <= i < |r| ==> ParseEntry(r[i]).Some? && EntryOk(ParseEntry(r[i]).value, text, name, maxQuotes, minLen)
    ensures forall i, j :: 0 <= i < j < |r| ==> Kind(ParseEntry(r[i]).value) <= Kind(ParseEntry(r[j]).value)
    ensures FeatureText in r ==> MentionsFeature(text)
  {
    if |text| == 0 then []
    else
      var all := AnswerEntries(text, name, maxQuotes, minLen);
      var es := Take(all, maxPatterns);
      assert forall i :: 0 <= i < |es| ==> es[i] == all[i];
      var r := RenderAll(es);
      ParseRender(Feature);
      r
  }

  /** Every capture after each of the three labels, stripped, is among the answer's entries. */
  lemma AnswerEntriesLabelled(text: string, name: string, maxQuotes: nat, minLen: int)
    ensures forall m :: m in LabelMatches(text, PronounLabel) ==> Pronoun(Strip(m)) in AnswerEntries(text, name, maxQuotes, minLen)
    ensures forall m :: m in LabelMatches(text, EndingLabel) ==> Ending(Strip(m)) in AnswerEntries(text, name, maxQuotes, minLen)
    ensures forall m :: m in LabelMatches(text, HabitLabel) ==> Habit(Strip(m)) in AnswerEntries(text, name, maxQuotes, minLen)
  {
    var p := LabelEntries(text, PronounLabel, 0);
    var e := LabelEntries(text, EndingLabel, 1);
    var h := LabelEntries(text, HabitLabel, 2);
    var rest := QuoteEntries(text, name, maxQuotes, minLen) + (if MentionsFeature(text) then [Feature] else []);
    assert AnswerEntries(text, name, maxQuotes, minLen) == p + e + h + rest;
    forall m | m in LabelMatches(text, PronounLabel) ensures Pronoun(Strip(m)) in p {
      LabelEntriesComplete(text, PronounLabel, 0, m);
    }
    forall m | m in LabelMatches(text, EndingLabel) ensures Ending(Strip(m)) in e {
      LabelEntriesComplete(text, EndingLabel, 1, m);
    }
    forall m | m in LabelMatches(text, HabitLabel) ensures Habit(Strip(m)) in h {
      LabelEntriesComplete(text, HabitLabel, 2, m);
    }
  }

  /** Below the cap every entry of the answer is reported, rendered. */
  lemma AnswerPatternsHasEntry(text: string, name: string, maxQuotes: nat, minLen: int, maxPatterns: nat, e: Entry)
    requires |text| > 0 && |AnswerEntries(text, name, maxQuotes, minLen)| <= maxPatterns
    requires e in AnswerEntries(text, name, maxQuotes, minLen)
    ensures Render(e) in AnswerPatterns(text, name, maxQuotes, minLen, maxPatterns)
  {
    var es := AnswerEntries(text, name, maxQuotes, minLen);
    var r := AnswerPatterns(text, name, maxQuotes, minLen, maxPatterns);
    assert Take(es, maxPatterns) == es;
    var i :| 0 <= i < |es| && es[i] == e;
    assert r[i] == Render(e);
  }

  /** Below the cap every capture after 一人称, 語尾 and 口癖 is reported, stripped, with its label. */
  lemma AnswerPatternsLabelsComplete(text: string, name: string, maxQuotes: nat, minLen: int, maxPatterns: nat)
    requires |text| > 0 && |AnswerEntries(text, name, maxQuotes, minLen)| <= maxPatterns
    ensures forall m :: m in LabelMatches(text, PronounLabel) ==> "一人称: " + Strip(m) in AnswerPatterns(text, name, maxQuotes, minLen, maxPatterns)
    ensures forall m :: m in LabelMatches(text, EndingLabel) ==> "語尾: " + Strip(m) in AnswerPatterns(text, name, maxQuotes, minLen, maxPatterns)
    ensures forall m :: m in LabelMatches(text, HabitLabel) ==> "口癖: " + Strip(m) in AnswerPatterns(text, name, maxQuotes, minLen, maxPatterns)
  {
    AnswerEntriesLabelled(text, name, maxQuotes, minLen);
    forall m | m in LabelMatches(text, PronounLabel)
      ensures "一人称: " + Strip(m) in AnswerPatterns(text, name, maxQuotes, minLen, maxPatterns)
    {
      AnswerPatternsHasEntry(text, name, maxQuotes, minLen, maxPatterns, Pronoun(Strip(m)));
    }
    forall m | m in LabelMatches(text, EndingLabel)
      ensures "語尾: " + Strip(m) in AnswerPatterns(text, name, maxQuotes, minLen, maxPatterns)
    {
      AnswerPatternsHasEntry(text, name, maxQuotes, minLen, maxPatterns, Ending(Strip(m)));
    }
    forall m | m in LabelMatches(text, HabitLabel)
      ensures "口癖: " + Strip(m) in AnswerPatterns(text, name, maxQuotes, minLen, maxPatterns)
    {
      AnswerPatternsHasEntry(text, name, maxQuotes, minLen, maxPatterns, Habit(Strip(m)));
    }
  }

  /** Below the cap nothing is cut: every kept quoted span and the feature entry are reported. */
  lemma AnswerPatternsComplete(text: string, name: string, maxQuotes: nat, minLen: int, maxPatterns: nat)
    requires |text| > 0
    ensures |AnswerEntries(text, name, maxQuotes, minLen)| <= maxPatterns && MentionsFeature(text) ==>
      FeatureText in AnswerPatterns(text, name, maxQuotes, minLen, maxPatterns)
    ensures |AnswerEntries(text, name, maxQuotes, minLen)| <= maxPatterns ==>
      forall q :: q in Take(QuoteMatches(text), maxQuotes) && QuoteKept(q, name, minLen) ==>
        "セリフ例: " + q in AnswerPatterns(text, name, maxQuotes, minLen, maxPatterns)
  {
    var es := AnswerEntries(text, name, maxQuotes, minLen);
    if |es| > maxPatterns {
      return;
    }
    var r := AnswerPatterns(text, name, maxQuotes, minLen, maxPatterns);
    assert Take(es, maxPatterns) == es;
    assert |r| == |es|;
    assert forall i :: 0 <= i < |r| ==> r[i] == Render(es[i]);
    if MentionsFeature(text) {
      var i :| 0 <= i < |es| && es[i] == Feature;
      assert r[i] == FeatureText;
    }
    forall q | q in Take(QuoteMatches(text), maxQuotes) && QuoteKept(q, name, minLen)
      ensures "セリフ例: " + q in r
    {
      var i :| 0 <= i < |es| && es[i] == Line(q);
      assert r[i] == "セリフ例: " + q;
    }
  }

  /** With an empty name every quoted span is dropped, since "" occurs in every text. */
  lemma EmptyNameDropsQuotes(q: string, minLen: int)
    ensures !QuoteKept(q, "", minLen)
  {
    assert StartsWith(Lower(q), Lower(""));
  }

  // ----- line parsers applied to LLM answers -----

  const MaxColonLines: nat := 10

  /** A line's contribution: the line stripped, when that is non-empty and contains `:`. */
  function ColonLineOf(line: string): (r: Option<string>)
    ensures r.Some? <==> |Strip(line)| > 0 && ':' in Strip(line)
    ensures r.Some? ==> r.value == Strip(line) && ColonLineOk(r.value)
  {
    var l := Strip(line);
    if |l| > 0 && ':' in l then Some(l) else None
  }

  /** Stripped non-empty lines containing `:`, in order. */
  function ColonLinesOf(lines: seq<string>): (r: seq<string>)
    ensures |r| <= |lines|
    ensures forall i :: 0 <= i < |r| ==> ColonLineOk(r[i])
    ensures forall i :: 0 <= i < |r| ==> IsStrippedLine(r[i], lines)
    ensures forall l :: l in lines && |Strip(l)| > 0 && ':' in Strip(l) ==> Strip(l) in r
  {
    var r := FilterMap(lines, ColonLineOf);
    ColonLinesSound(lines, r);
    ColonLinesComplete(lines, r);
    r
  }

  lemma ColonLinesSound(lines: seq<string>, r: seq<string>)
    requires forall i :: 0 <= i < |r| ==> exists j :: 0 <= j < |lines| && ColonLineOf(lines[j]) == Some(r[i])
    ensures forall i :: 0 <= i < |r| ==> ColonLineOk(r[i]) && IsStrippedLine(r[i], lines)
  {
    forall i | 0 <= i < |r| ensures ColonLineOk(r[i]) && IsStrippedLine(r[i], lines) {
      var j :| 0 <= j < |lines| && ColonLineOf(lines[j]) == Some(r[i]);
    }
  }

  lemma ColonLinesComplete(lines: seq<string>, r: seq<string>)
    requires forall j :: 0 <= j < |lines| && ColonLineOf(lines[j]).Some? ==> ColonLineOf(lines[j]).value in r
    ensures forall l :: l in lines && |Strip(l)| > 0 && ':' in Strip(l) ==> Strip(l) in r
  {
    forall l | l in lines && |Strip(l)| > 0 && ':' in Strip(l) ensures Strip(l) in r {
      var j :| 0 <= j < |lines| && lines[j] == l;
      assert ColonLineOf(lines[j]).Some?;
    }
  }

  /** `x` is one of `lines`, stripped. */
  predicate IsStrippedLine(x: string, lines: seq<string>)
  {
    exists j :: 0 <= j < |lines| && x == Strip(lines[j])
  }

  predicate ColonLineOk(l: string)
  {
    |l| > 0 && ':' in l && !IsSpace(l[0]) && !IsSpace(l[|l| - 1])
  }

  /**
   * The answer parser of the LLM speech-pattern extractors: split the
   * stripped answer on line feeds, strip each line, keep those that are
   * non-empty and contain `:`, at most ten.
   */
  function ColonLines(answer: string): (r: seq<string>)
    ensures |r| <= MaxColonLines
    ensures forall i :: 0 <= i < |r| ==> ColonLineOk(r[i]) && '\n' !in r[i]
    ensures |r| < MaxColonLines ==>
      forall l :: l in SplitOn(Strip(answer), "\n") && |Strip(l)| > 0 && ':' in Strip(l) ==> Strip(l) in r
  {
    var lines := SplitOn(Strip(answer), "\n");
    var all := ColonLinesOf(lines);
    NoLineFeedInColonLines(lines, all);
    var r := Take(all, MaxColonLines);
    CappedColonLines(lines, all, r);
    r
  }

  /** The capped colon lines of line-feed-free lines keep the properties of all of them. */
  lemma CappedColonLines(lines: seq<string>, all: seq<string>, r: seq<string>)
    requires forall i :: 0 <= i < |all| ==> ColonLineOk(all[i]) && '\n' !in all[i]
    requires forall l :: l in lines && |Strip(l)| > 0 && ':' in Strip(l) ==> Strip(l) in all
    requires r == Take(all, MaxColonLines)
    ensures |r| <= MaxColonLines
    ensures forall i :: 0 <= i < |r| ==> ColonLineOk(r[i]) && '\n' !in r[i]
    ensures |r| < MaxColonLines ==>
      forall l :: l in lines && |Strip(l)| > 0 && ':' in Strip(l) ==> Strip(l) in r
  {
    assert forall i :: 0 <= i < |r| ==> r[i] == all[i];
  }

  lemma NoLineFeedInColonLines(lines: seq<string>, all: seq<string>)
    requires forall j :: 0 <= j < |lines| ==> !Contains(lines[j], "\n")
    requires forall i :: 0 <= i < |all| ==> IsStrippedLine(all[i], lines)
    ensures forall i :: 0 <= i < |all| ==> '\n' !in all[i]
  {
    forall i | 0 <= i < |all| ensures '\n' !in all[i] {
      var j :| 0 <= j < |lines| && all[i] == Strip(lines[j]);
      NoCharInPiece(lines[j], '\n');
    }
  }

  lemma NoCharInPiece(piece: string, c: char)
    requires !Contains(piece, [c])
    ensures c !in Strip(piece)
  {
    ContainsCharIff(piece, c);
  }

  /** A line with a `:` splits into at least two pieces around it. */
  lemma SplitAtColon(line: string)
    requires ':' in line
    ensures |SplitOn(line, ":")| >= 2
  {
    var parts := SplitOn(line, ":");
    JoinSplitOn(line, ":");
    if |parts| == 1 {
      ContainsCharIff(parts[0], ':');
    }
  }

  const KeywordMarker := "キーワード"
  const KeywordPlaceholder := "[説明]"

  /** `line.split(':')[1].strip()` for a line that names a keyword, when it is usable. */
  function KeywordOf(line: string): (k: Option<string>)
    ensures k.Some? ==> Contains(line, KeywordMarker) && ':' in line
    ensures k.Some? ==> |k.value| > 0 && k.value != KeywordPlaceholder && ':' !in k.value
  {
    if Contains(line, KeywordMarker) && ':' in line then
      SplitAtColon(line);
      var piece := SplitOn(line, ":")[1];
      var kw := Strip(piece);
      NoCharInPiece(piece, ':');
      if |kw| > 0 && kw != KeywordPlaceholder then Some(kw) else None
    else None
  }

  /** The usable keywords of `lines`, in order. */
  function KeywordsOf(lines: seq<string>): (r: seq<string>)
    ensures |r| <= |lines|
    ensures forall i :: 0 <= i < |r| ==> exists j :: 0 <= j < |lines| && KeywordOf(lines[j]) == Some(r[i])
    ensures forall j :: 0 <= j < |lines| && KeywordOf(lines[j]).Some? ==> KeywordOf(lines[j]).value in r
  {
    FilterMap(lines, KeywordOf)
  }

  /** The keyword parser of the YouTube keyword question: at most `maxKeywords` keywords, in answer order. */
  function AnswerKeywords(answer: string, maxKeywords: nat): (r: seq<string>)
    ensures |r| <= maxKeywords
    ensures forall i :: 0 <= i < |r| ==> |r[i]| > 0 && r[i] != KeywordPlaceholder && ':' !in r[i]
    ensures forall i :: 0 <= i < |r| ==> exists line :: line in SplitOn(Strip(answer), "\n") && KeywordOf(line) == Some(r[i])
    ensures |r| < maxKeywords ==>
      forall line :: line in SplitOn(Strip(answer), "\n") && KeywordOf(line).Some? ==> KeywordOf(line).value in r
  {
    var lines := SplitOn(Strip(answer), "\n");
    KeywordsTake(lines, maxKeywords);
    Take(KeywordsOf(lines), maxKeywords)
  }

  lemma KeywordsTake(lines: seq<string>, n: nat)
    ensures forall i :: 0 <= i < |Take(KeywordsOf(lines), n)| ==>
      exists line :: line in lines && KeywordOf(line) == Some(Take(KeywordsOf(lines), n)[i])
    ensures |Take(KeywordsOf(lines), n)| < n ==> Take(KeywordsOf(lines), n) == KeywordsOf(lines)
  {
    var all := KeywordsOf(lines);
    var r := Take(all, n);
    forall i | 0 <= i < |r|
      ensures exists line :: line in lines && KeywordOf(line) == Some(r[i])
    {
      assert r[i] == all[i];
      var j :| 0 <= j < |lines| && KeywordOf(lines[j]) == Some(all[i]);
      assert lines[j] in lines;
    }
  }
}

=== FILE: strings.dfy ===
/**
 * The Python `str` operations the program relies on, over `seq<char>`
 * (one element per code point, as Python's `len` counts).
 */
module Strings {
  import opened Prelude

  /** Python's `str.isspace` for one character, which is also what `strip()` and the regex class `\s` use. */
  predicate IsSpace(c: char)
  {
    c == ' ' || ('\t' <= c <= '\r') || ('\U{1C}' <= c <= '\U{1F}')
    || c == '\U{85}' || c == '\U{A0}' || c == '\U{1680}'
    || ('\U{2000}' <= c <= '\U{200A}') || c == '\U{2028}' || c == '\U{2029}'
    || c == '\U{202F}' || c == '\U{205F}' || c == '\U{3000}'
  }

  /** The characters at which `str.splitlines` breaks a line. */
  predicate IsLineBreak(c: char)
  {
    ('\n' <= c <= '\r') || ('\U{1C}' <= c <= '\U{1E}')
    || c == '\U{85}' || c == '\U{2028}' || c == '\U{2029}'
  }

  lemma LineBreakIsSpace(c: char)
    requires IsLineBreak(c)
    ensures IsSpace(c)
  {
  }

  /** `s.lstrip()` */
  function LStrip(s: string): (r: string)
    ensures |r| <= |s| && r == s[|s| - |r|..]
    ensures |r| > 0 ==> !IsSpace(r[0])
    ensures forall i :: 0 <= i < |s| - |r| ==> IsSpace(s[i])
  {
    if |s| > 0 && IsSpace(s[0]) then LStrip(s[1..]) else s
  }

  /** `s.rstrip()` */
  function RStrip(s: string): (r: string)
    ensures |r| <= |s| && r == s[..|r|]
    ensures |r| > 0 ==> !IsSpace(r[|r| - 1])
    ensures forall i :: |r| <= i < |s| ==> IsSpace(s[i])
  {
    if |s| > 0 && IsSpace(s[|s| - 1]) then RStrip(s[..|s| - 1]) else s
  }

  /** `s.strip()`: the longest slice of `s` that neither starts nor ends with whitespace. */
  function Strip(s: string): (r: string)
    ensures |r| <= |s|
    ensures |r| > 0 ==> !IsSpace(r[0]) && !IsSpace(r[|r| - 1])
    ensures forall c :: c in r ==> c in s
  {
    var l := LStrip(s);
    var r := RStrip(l);
    assert forall i :: 0 <= i < |l| ==> l[i] == s[|s| - |l| + i];
    r
  }

  /** Stripping leaves something exactly when some character is not whitespace. */
  lemma StripEmptyIff(s: string)
    ensures (exists i :: 0 <= i < |s| && !IsSpace(s[i])) <==> |Strip(s)| > 0
  {
    var l := LStrip(s);
    assert forall i :: 0 <= i < |l| ==> l[i] == s[|s| - |l| + i];
  }

  lemma StripOfNonSpace(s: string)
    requires forall i :: 0 <= i < |s| ==> !IsSpace(s[i])
    ensures Strip(s) == s
  {
  }

  /** A string that neither starts nor ends with whitespace is its own strip. */
  lemma StripStripped(s: string)
    requires |s| > 0 ==> !IsSpace(s[0]) && !IsSpace(s[|s| - 1])
    ensures Strip(s) == s
  {
  }

  /** A string made only of whitespace strips to "". */
  lemma {:induction false} StripAllSpace(s: string)
    requires forall i :: 0 <= i < |s| ==> IsSpace(s[i])
    ensures Strip(s) == ""
  {
    if |s| > 0 {
      assert LStrip(s) == LStrip(s[1..]);
      StripAllSpace(s[1..]);
    }
  }

  /** ASCII case folding; every other character is kept. */
  function LowerChar(c: char): (r: char)
    ensures 'A' <= c <= 'Z' ==> 'a' <= r <= 'z'
    ensures !('A' <= c <= 'Z') ==> r == c
  {
    if 'A' <= c <= 'Z' then (c as int + 32) as char else c
  }

  /** `s.lower()` */
  function Lower(s: string): (r: string)
    ensures |r| == |s|
    ensures forall i :: 0 <= i < |s| ==> r[i] == LowerChar(s[i])
  {
    seq(|s|, i requires 0 <= i < |s| => LowerChar(s[i]))
  }

  /** Length of the longest run starting at `i` whose characters satisfy `p` (a greedy `p*`). */
  function RunWhile(s: string, i: nat, p: char -> bool): (n: nat)
    requires i <= |s|
    ensures i + n <= |s|
    ensures forall k :: i <= k < i + n ==> p(s[k])
    ensures i + n < |s| ==> !p(s[i + n])
    decreases |s| - i
  {
    if i == |s| || !p(s[i]) then 0 else 1 + RunWhile(s, i + 1, p)
  }

  predicate StartsWith(s: string, prefix: string)
  {
    |prefix| <= |s| && s[..|prefix|] == prefix
  }

  predicate EndsWith(s: string, suffix: string)
  {
    |suffix| <= |s| && s[|s| - |suffix|..] == suffix
  }

  /** `sub in s` */
  predicate Contains(s: string, sub: string)
    decreases |s|
  {
    StartsWith(s, sub) || (|s| > 0 && Contains(s[1..], sub))
  }

  /** An occurrence at a known position is found by `Contains`. */
  lemma {:induction false} ContainsAt(s: string, sub: string, i: nat)
    requires i + |sub| <= |s| && s[i..i + |sub|] == sub
    ensures Contains(s, sub)
    decreases i
  {
    if i > 0 {
      assert s[1..][i - 1..i - 1 + |sub|] == sub;
      ContainsAt(s[1..], sub, i - 1);
    }
  }

  /** `Contains` is witnessed by a position. */
  lemma {:induction false} ContainsWitness(s: string, sub: string) returns (i: nat)
    requires Contains(s, sub)
    ensures i + |sub| <= |s| && s[i..i + |sub|] == sub
    decreases |s|
  {
    if StartsWith(s, sub) {
      i := 0;
    } else {
      var j := ContainsWitness(s[1..], sub);
      i := j + 1;
      assert s[i..i + |sub|] == s[1..][j..j + |sub|];
    }
  }

  lemma ContainsPrefixOf(s: string, t: string, sub: string)
    requires Contains(s, sub)
    ensures Contains(s + t, sub)
  {
    var i := ContainsWitness(s, sub);
    assert (s + t)[i..i + |sub|] == s[i..i + |sub|];
    ContainsAt(s + t, sub, i);
  }

  lemma ContainsSuffixOf(s: string, t: string, sub: string)
    requires Contains(t, sub)
    ensures Contains(s + t, sub)
  {
    var i := ContainsWitness(t, sub);
    assert (s + t)[|s| + i..|s| + i + |sub|] == t[i..i + |sub|];
    ContainsAt(s + t, sub, |s| + i);
  }

  lemma ContainsWhole(s: string)
    ensures Contains(s, s)
  {
    ContainsAt(s, s, 0);
  }

  /** One-character needles: `c in s` as a string test is membership. */
  lemma ContainsCharIff(s: string, c: char)
    ensures Contains(s, [c]) <==> c in s
  {
    if Contains(s, [c]) {
      var i := ContainsWitness(s, [c]);
      assert s[i] == c;
    }
    if c in s {
      var i :| 0 <= i < |s| && s[i] == c;
      assert s[i..i + 1] == [c];
      ContainsAt(s, [c], i);
    }
  }

  /** Position of the leftmost occurrence of `sep` in `s`, as `str.find`. */
  function IndexOf(s: string, sep: string): (r: Option<nat>)
    requires |sep| > 0
    ensures r.Some? ==> r.value + |sep| <= |s| && s[r.value..r.value + |sep|] == sep
    ensures r.Some? ==> forall j :: 0 <= j < r.value ==> !StartsWith(s[j..], sep)
    ensures r.None? <==> !Contains(s, sep)
    decreases |s|
  {
    if |s| < |sep| then
      assert !Contains(s, sep) by { NotContainsShort(s, sep); }
      None
    else if s[..|sep|] == sep then
      assert StartsWith(s, sep);
      Some(0)
    else
      match IndexOf(s[1..], sep)
      case None => None
      case Some(i) =>
        assert s[i + 1..i + 1 + |sep|] == s[1..][i..i + |sep|];
        assert forall j :: 1 <= j <= i ==> s[j..] == s[1..][j - 1..];
        Some(i + 1)
  }

  lemma {:induction false} NotContainsShort(s: string, sub: string)
    requires |s| < |sub|
    ensures !Contains(s, sub)
    decreases |s|
  {
    if |s| > 0 {
      NotContainsShort(s[1..], sub);
    }
  }

  /** `sep.join(parts)` */
  function Join(parts: seq<string>, sep: string): (r: string)
    ensures |parts| == 0 ==> r == ""
    ensures |parts| == 1 ==> r == parts[0]
  {
    if |parts| == 0 then ""
    else if |parts| == 1 then parts[0]
    else parts[0] + sep + Join(parts[1..], sep)
  }

  /** `s.split(sep)` for a non-empty separator: the pieces between the leftmost non-overlapping occurrences. */
  function SplitOn(s: string, sep: string): (r: seq<string>)
    requires |sep| > 0
    ensures |r| >= 1
    ensures forall i :: 0 <= i < |r| ==> !Contains(r[i], sep)
    decreases |s|
  {
    match IndexOf(s, sep)
    case None => [s]
    case Some(i) =>
      assert !Contains(s[..i], sep) by { NoEarlyOccurrence(s, sep, i); }
      [s[..i]] + SplitOn(s[i + |sep|..], sep)
  }

  lemma NoEarlyOccurrence(s: string, sep: string, i: nat)
    requires |sep| > 0 && i <= |s|
    requires forall j :: 0 <= j < i ==> !StartsWith(s[j..], sep)
    ensures !Contains(s[..i], sep)
  {
    NoOccurrenceBetween(s, sep, 0, i);
    assert s[0..i] == s[..i];
  }

  lemma {:induction false} NoOccurrenceBetween(s: string, sep: string, lo: nat, hi: nat)
    requires |sep| > 0 && lo <= hi <= |s|
    requires forall j :: lo <= j < hi ==> !StartsWith(s[j..], sep)
    ensures !Contains(s[lo..hi], sep)
    decreases hi - lo
  {
    if lo < hi {
      NoOccurrenceBetween(s, sep, lo + 1, hi);
      assert s[lo..hi][1..] == s[lo + 1..hi];
      assert !StartsWith(s[lo..], sep);
      if |sep| <= hi - lo {
        assert s[lo..hi][..|sep|] == s[lo..][..|sep|];
      }
    } else {
      NotContainsShort(s[lo..hi], sep);
    }
  }

  /** Splitting and joining with the same separator gives the text back. */
  lemma {:induction false} JoinSplitOn(s: string, sep: string)
    requires |sep| > 0
    ensures Join(SplitOn(s, sep), sep) == s
    decreases |s|
  {
    var found := IndexOf(s, sep);
    if found.Some? {
      var i := found.value;
      var rest := s[i + |sep|..];
      JoinSplitOn(rest, sep);
      JoinCons(s[..i], SplitOn(rest, sep), sep);
      Reassemble(s, sep, i);
    }
  }

  lemma JoinCons(head: string, parts: seq<string>, sep: string)
    requires |parts| >= 1
    ensures Join([head] + parts, sep) == head + sep + Join(parts, sep)
  {
    assert ([head] + parts)[1..] == parts;
  }

  lemma Reassemble(s: string, sep: string, i: nat)
    requires i + |sep| <= |s| && s[i..i + |sep|] == sep
    ensures s == s[..i] + sep + s[i + |sep|..]
  {
    assert s == s[..i] + s[i..i + |sep|] + s[i + |sep|..];
  }

  /** Split at every character satisfying `isSep`, keeping empty pieces, as `re.split` with a one-character class. */
  function SplitWhere(s: string, isSep: char -> bool): (r: seq<string>)
    ensures |r| >= 1
    ensures forall i, j :: 0 <= i < |r| && 0 <= j < |r[i]| ==> !isSep(r[i][j])
    decreases |s|
  {
    if |s| == 0 then [""]
    else
      var rest := SplitWhere(s[1..], isSep);
      if isSep(s[0]) then [""] + rest
      else [[s[0]] + rest[0]] + rest[1..]
  }

  /** `s.count(c)` for a one-character needle. */
  function CountChar(s: string, c: char): (r: nat)
    ensures r <= |s|
    ensures r == 0 <==> c !in s
  {
    if |s| == 0 then 0 else (if s[0] == c then 1 else 0) + CountChar(s[1..], c)
  }

  /** `c * n` */
  function Repeat(c: char, n: nat): (r: string)
    ensures |r| == n
    ensures forall i :: 0 <= i < n ==> r[i] == c
  {
    seq(n, _ => c)
  }

  /** A joined text begins with its first part... */
  lemma JoinStarts(parts: seq<string>, sep: string)
    requires |parts| >= 1
    ensures StartsWith(Join(parts, sep), parts[0])
  {
    if |parts| > 1 {
      assert Join(parts, sep) == parts[0] + (sep + Join(parts[1..], sep));
    }
  }

  /** ... and ends with its last. */
  lemma {:induction false} JoinEnds(parts: seq<string>, sep: string)
    requires |parts| >= 1
    ensures EndsWith(Join(parts, sep), parts[|parts| - 1])
    decreases |parts|
  {
    if |parts| > 1 {
      var rest := Join(parts[1..], sep);
      JoinEnds(parts[1..], sep);
      assert parts[1..][|parts[1..]| - 1] == parts[|parts| - 1];
      var whole := parts[0] + sep + rest;
      assert whole[|whole| - |parts[|parts| - 1]|..] == rest[|rest| - |parts[|parts| - 1]|..];
    }
  }

  /** Every part occurs in the joined text. */
  lemma {:induction false} JoinContains(parts: seq<string>, sep: string, i: nat)
    requires i < |parts|
    ensures Contains(Join(parts, sep), parts[i])
    decreases |parts|
  {
    if |parts| == 1 {
      ContainsWhole(parts[0]);
    } else {
      var rest := Join(parts[1..], sep);
      assert Join(parts, sep) == parts[0] + sep + rest;
      if i == 0 {
        ContainsWhole(parts[0]);
        ContainsPrefixOf(parts[0], sep + rest, parts[0]);
        assert parts[0] + sep + rest == parts[0] + (sep + rest);
      } else {
        JoinContains(parts[1..], sep, i - 1);
        ContainsSuffixOf(parts[0] + sep, rest, parts[i]);
      }
    }
  }

  /** Every middle part occurs in the joined text. */
  lemma JoinContainsMiddle(a: seq<string>, mid: seq<string>, c: seq<string>, sep: string)
    ensures forall l :: l in mid ==> Contains(Join(a + mid + c, sep), l)
  {
    forall l | l in mid ensures Contains(Join(a + mid + c, sep), l) {
      var i :| 0 <= i < |mid| && mid[i] == l;
      assert (a + mid + c)[|a| + i] == l;
      JoinContains(a + mid + c, sep, |a| + i);
    }
  }

  predicate IsDigit(c: char)
  {
    '0' <= c <= '9'
  }

  predicate AllDigits(s: string)
  {
    forall i :: 0 <= i < |s| ==> IsDigit(s[i])
  }

  function DigitChar(d: nat): (c: char)
    requires d < 10
    ensures IsDigit(c) && c as int - '0' as int == d
  {
    ('0' as int + d) as char
  }

  /** `str(n)` for a non-negative integer: its decimal digits, without leading zeros. */
  function NatToString(n: nat): (r: string)
    ensures |r| >= 1
    ensures forall i :: 0 <= i < |r| ==> IsDigit(r[i])
    ensures |r| > 1 ==> r[0] != '0'
    ensures n < 10 <==> |r| == 1
  {
    if n < 10 then [DigitChar(n)] else NatToString(n / 10) + [DigitChar(n % 10)]
  }

  /** `int(s)` for a string of decimal digits. */
  function DigitsValue(s: string): (n: nat)
    requires forall i :: 0 <= i < |s| ==> IsDigit(s[i])
  {
    if |s| == 0 then 0
    else
      assert IsDigit(s[|s| - 1]);
      DigitsValue(s[..|s| - 1]) * 10 + (s[|s| - 1] as int - '0' as int)
  }

  /** `int(str(n)) == n` */
  lemma {:induction false} NatToStringRoundTrip(n: nat)
    ensures DigitsValue(NatToString(n)) == n
  {
    if n >= 10 {
      NatToStringRoundTrip(n / 10);
      var r := NatToString(n);
      assert r[..|r| - 1] == NatToString(n / 10);
    }
  }

  /** A leading zero does not change the value of a digit string. */
  lemma {:induction false} DigitsLeadingZero(s: string)
    requires forall i :: 0 <= i < |s| ==> IsDigit(s[i])
    ensures DigitsValue("0" + s) == DigitsValue(s)
    decreases |s|
  {
    if |s| > 0 {
      DigitsLeadingZero(s[..|s| - 1]);
      assert ("0" + s)[..|"0" + s| - 1] == "0" + s[..|s| - 1];
    }
  }

  /** `str(n)` for any integer: a minus sign before the digits of a negative one. */
  function IntToString(n: int): (r: string)
    ensures n >= 0 ==> r == NatToString(n)
    ensures n < 0 ==> r == "-" + NatToString(-n)
    ensures '/' !in r && ':' !in r
  {
    if n < 0 then "-" + NatToString(-n) else NatToString(n)
  }

  /** `int(s)` for an optional minus sign followed by digits. */
  function IntValue(s: string): (r: Option<int>)
  {
    if |s| > 0 && s[0] == '-' && |s| > 1 && forall i :: 1 <= i < |s| ==> IsDigit(s[i]) then Some(0 - DigitsValue(s[1..]) as int)
    else if |s| > 0 && forall i :: 0 <= i < |s| ==> IsDigit(s[i]) then Some(DigitsValue(s))
    else None
  }

  /** `int(str(n)) == n` for any integer. */
  lemma IntToStringRoundTrip(n: int)
    ensures IntValue(IntToString(n)) == Some(n)
  {
    NatToStringRoundTrip(if n < 0 then -n else n);
    if n < 0 {
      assert IntToString(n)[1..] == NatToString(-n);
    }
  }

  /** Splitting `a + c + b` at the one-character separator `c`, found in neither part, gives the two parts back. */
  lemma SplitAtSingle(a: string, b: string, c: char)
    requires c !in a && c !in b
    ensures SplitOn(a + [c] + b, [c]) == [a, b]
  {
    var s := a + [c] + b;
    assert s[|a|..|a| + 1] == [c];
    ContainsAt(s, [c], |a|);
    var i := IndexOf(s, [c]).value;
    assert s[i] == c by { assert s[i..i + 1] == [c]; }
    assert forall j :: 0 <= j < |a| ==> s[j] == a[j];
    assert StartsWith(s[|a|..], [c]);
    assert i == |a|;
    assert s[..i] == a && s[i + 1..] == b;
    ContainsCharIff(b, c);
  }
}

=== FILE: text_processor.dfy ===
/**
 * utils/text_processor.py: whitespace collapsing (`clean_text`), the basic
 * and LLM-answer pattern extractors, and the URL helpers (redirect
 * unwrapping, repair of schemeless references, filtering).
 */
module TextProcessor {
  import opened Prelude
  import opened Strings
  import opened Seqs
  import Interfaces
  import Speech
  import Unquote

  // ----- clean_text -----

  predicate NoLineBreak(s: string)
  {
    forall k :: 0 <= k < |s| ==> !IsLineBreak(s[k])
  }

  /** No two adjacent ASCII spaces. */
  predicate NoDoubleSpace(s: string)
  {
    forall k :: 0 <= k < |s| - 1 ==> !(s[k] == ' ' && s[k + 1] == ' ')
  }

  /** A chunk `clean_text` keeps: non-empty, stripped, one line, no double space. */
  predicate ChunkOk(c: string)
  {
    |c| > 0 && !IsSpace(c[0]) && !IsSpace(c[|c| - 1]) && NoDoubleSpace(c) && NoLineBreak(c)
  }

  /** The text with every whitespace character removed: what `clean_text` must not change. */
  function Squeeze(s: string): (r: string)
    ensures |r| <= |s|
  {
    if |s| == 0 then "" else (if IsSpace(s[0]) then "" else [s[0]]) + Squeeze(s[1..])
  }

  function SqueezeAll(parts: seq<string>): string
  {
    if |parts| == 0 then "" else Squeeze(parts[0]) + SqueezeAll(parts[1..])
  }

  lemma {:induction false} SqueezeAppend(a: string, b: string)
    ensures Squeeze(a + b) == Squeeze(a) + Squeeze(b)
    decreases |a|
  {
    if |a| > 0 {
      SqueezeAppend(a[1..], b);
      assert (a + b)[0] == a[0];
      assert (a + b)[1..] == a[1..] + b;
    } else {
      assert a + b == b;
    }
  }

  lemma {:induction false} SqueezeAllAppend(a: seq<string>, b: seq<string>)
    ensures SqueezeAll(a + b) == SqueezeAll(a) + SqueezeAll(b)
    decreases |a|
  {
    if |a| > 0 {
      SqueezeAllAppend(a[1..], b);
      assert (a + b)[0] == a[0];
      assert (a + b)[1..] == a[1..] + b;
    } else {
      assert a + b == b;
    }
  }

  lemma {:induction false} SqueezeSpaces(s: string)
    requires forall k :: 0 <= k < |s| ==> IsSpace(s[k])
    ensures Squeeze(s) == ""
    decreases |s|
  {
    if |s| > 0 {
      SqueezeSpaces(s[1..]);
    }
  }

  lemma {:induction false} SqueezeLStrip(s: string)
    ensures Squeeze(LStrip(s)) == Squeeze(s)
    decreases |s|
  {
    if |s| > 0 && IsSpace(s[0]) {
      SqueezeLStrip(s[1..]);
    }
  }

  lemma {:induction false} SqueezeRStrip(s: string)
    ensures Squeeze(RStrip(s)) == Squeeze(s)
    decreases |s|
  {
    if |s| > 0 && IsSpace(s[|s| - 1]) {
      var init := s[..|s| - 1];
      SqueezeRStrip(init);
      assert s == init + [s[|s| - 1]];
      SqueezeAppend(init, [s[|s| - 1]]);
      SqueezeSpaces([s[|s| - 1]]);
    }
  }

  /** Stripping removes only whitespace. */
  lemma SqueezeStrip(s: string)
    ensures Squeeze(Strip(s)) == Squeeze(s)
  {
    SqueezeLStrip(s);
    SqueezeRStrip(LStrip(s));
  }

  /** Joining with a whitespace separator adds no visible character. */
  lemma {:induction false} SqueezeJoin(parts: seq<string>, sep: string)
    requires forall k :: 0 <= k < |sep| ==> IsSpace(sep[k])
    ensures Squeeze(Join(parts, sep)) == SqueezeAll(parts)
    decreases |parts|
  {
    if |parts| == 1 {
      assert SqueezeAll(parts) == Squeeze(parts[0]) + SqueezeAll([]);
    } else if |parts| > 1 {
      SqueezeJoin(parts[1..], sep);
      SqueezeAppend(parts[0] + sep, Join(parts[1..], sep));
      SqueezeAppend(parts[0], sep);
      SqueezeSpaces(sep);
    }
  }

  /** Splitting into lines drops only the line breaks, which are whitespace. */
  lemma {:induction false} SqueezeLines(s: string)
    ensures SqueezeAll(SplitWhere(s, IsLineBreak)) == Squeeze(s)
    decreases |s|
  {
    if |s| > 0 {
      var rest := SplitWhere(s[1..], IsLineBreak);
      SqueezeLines(s[1..]);
      if IsLineBreak(s[0]) {
        LineBreakIsSpace(s[0]);
        assert ([""] + rest)[1..] == rest;
      } else {
        var parts := [[s[0]] + rest[0]] + rest[1..];
        assert parts[1..] == rest[1..];
        SqueezeAppend([s[0]], rest[0]);
        assert s == [s[0]] + s[1..];
        SqueezeAppend([s[0]], s[1..]);
        assert SqueezeAll(rest) == Squeeze(rest[0]) + SqueezeAll(rest[1..]);
      }
    }
  }

  lemma {:induction false} NoLineBreakPieces(s: string, sep: string)
    requires |sep| > 0 && NoLineBreak(s)
    ensures forall i :: 0 <= i < |SplitOn(s, sep)| ==> NoLineBreak(SplitOn(s, sep)[i])
    decreases |s|
  {
    match IndexOf(s, sep)
    case None =>
    case Some(i) =>
      var rest := s[i + |sep|..];
      NoLineBreakPieces(rest, sep);
      assert SplitOn(s, sep) == [s[..i]] + SplitOn(rest, sep);
  }

  /** `Strip(s)` is the slice of `s` starting at `a`. */
  lemma StripSlice(s: string) returns (a: nat, n: nat)
    ensures n == |Strip(s)| && a + n <= |s| && Strip(s) == s[a..a + n]
  {
    var l := LStrip(s);
    a, n := |s| - |l|, |Strip(s)|;
    assert Strip(s) == RStrip(l) == l[..|RStrip(l)|];
  }

  lemma NotDoubleAt(p: string, i: nat)
    requires !Contains(p, "  ") && i + 2 <= |p|
    ensures !(p[i] == ' ' && p[i + 1] == ' ')
  {
    if p[i] == ' ' && p[i + 1] == ' ' {
      assert p[i..i + 2] == "  ";
      ContainsAt(p, "  ", i);
    }
  }

  /** A stripped non-empty piece of a line split on double spaces is a chunk. */
  lemma PieceChunk(p: string)
    requires NoLineBreak(p) && !Contains(p, "  ") && |Strip(p)| > 0
    ensures ChunkOk(Strip(p))
  {
    var a, n := StripSlice(p);
    SliceNoDouble(p, a, n);
    SliceNoLineBreak(p, a, n);
  }

  lemma SliceNoDouble(p: string, a: nat, n: nat)
    requires a + n <= |p| && !Contains(p, "  ")
    ensures NoDoubleSpace(p[a..a + n])
  {
    var c := p[a..a + n];
    forall k | 0 <= k < n - 1 ensures !(c[k] == ' ' && c[k + 1] == ' ') {
      NotDoubleAt(p, a + k);
    }
  }

  lemma SliceNoLineBreak(p: string, a: nat, n: nat)
    requires a + n <= |p| && NoLineBreak(p)
    ensures NoLineBreak(p[a..a + n])
  {
    var c := p[a..a + n];
    forall k | 0 <= k < n ensures !IsLineBreak(c[k]) {
      assert c[k] == p[a + k];
    }
  }

  /** The kept chunks among the pieces of one line, stripped, in order. */
  function PieceChunks(pieces: seq<string>): (r: seq<string>)
    requires forall i :: 0 <= i < |pieces| ==> NoLineBreak(pieces[i]) && !Contains(pieces[i], "  ")
    ensures forall i :: 0 <= i < |r| ==> ChunkOk(r[i])
    ensures SqueezeAll(r) == SqueezeAll(pieces)
  {
    if |pieces| == 0 then []
    else
      var c := Strip(pieces[0]);
      var rest := PieceChunks(pieces[1..]);
      SqueezeStrip(pieces[0]);
      if |c| > 0 then
        PieceChunk(pieces[0]);
        assert ([c] + rest)[1..] == rest;
        [c] + rest
      else rest
  }

  /** `(phrase.strip() for phrase in line.strip().split("  "))`, empty ones dropped. */
  function LineChunks(line: string): (r: seq<string>)
    requires NoLineBreak(line)
    ensures forall i :: 0 <= i < |r| ==> ChunkOk(r[i])
    ensures SqueezeAll(r) == Squeeze(line)
  {
    var s := Strip(line);
    var pieces := SplitOn(s, "  ");
    assert NoLineBreak(s) by {
      forall k | 0 <= k < |s| ensures !IsLineBreak(s[k]) {
        assert s[k] in line;
      }
    }
    NoLineBreakPieces(s, "  ");
    JoinSplitOn(s, "  ");
    SqueezeJoin(pieces, "  ");
    SqueezeStrip(line);
    PieceChunks(pieces)
  }

  /** The chunks of all lines, in order. */
  function AllChunks(lines: seq<string>): (r: seq<string>)
    requires forall i :: 0 <= i < |lines| ==> NoLineBreak(lines[i])
    ensures forall i :: 0 <= i < |r| ==> ChunkOk(r[i])
    ensures SqueezeAll(r) == SqueezeAll(lines)
  {
    if |lines| == 0 then []
    else
      var h := LineChunks(lines[0]);
      assert forall i :: 0 <= i < |lines| - 1 ==> lines[1..][i] == lines[i + 1];
      var rest := AllChunks(lines[1..]);
      SqueezeAllAppend(h, rest);
      ChunksAppend(h, rest);
      h + rest
  }

  lemma ChunksAppend(a: seq<string>, b: seq<string>)
    requires forall i :: 0 <= i < |a| ==> ChunkOk(a[i])
    requires forall i :: 0 <= i < |b| ==> ChunkOk(b[i])
    ensures forall i :: 0 <= i < |a + b| ==> ChunkOk((a + b)[i])
  {
    forall i | 0 <= i < |a + b| ensures ChunkOk((a + b)[i]) {
      if i >= |a| {
        assert (a + b)[i] == b[i - |a|];
      }
    }
  }

  /** Joining chunks with single spaces keeps every property of a chunk. */
  lemma {:induction false} JoinChunks(cs: seq<string>)
    requires forall i :: 0 <= i < |cs| ==> ChunkOk(cs[i])
    ensures |cs| > 0 ==> ChunkOk(Join(cs, " "))
    decreases |cs|
  {
    if |cs| > 1 {
      JoinChunks(cs[1..]);
      var a, b := cs[0], Join(cs[1..], " ");
      var s := a + " " + b;
      forall k | 0 <= k < |s| - 1 ensures !(s[k] == ' ' && s[k + 1] == ' ') {
        if k < |a| - 1 {
          assert s[k] == a[k] && s[k + 1] == a[k + 1];
        } else if k == |a| - 1 {
          assert s[k] == a[|a| - 1];
        } else if k == |a| {
          assert s[k + 1] == b[0];
        } else {
          assert s[k] == b[k - |a| - 1] && s[k + 1] == b[k - |a|];
        }
      }
      forall k | 0 <= k < |s| ensures !IsLineBreak(s[k]) {
        if k < |a| {
          assert s[k] == a[k];
        } else if k > |a| {
          assert s[k] == b[k - |a| - 1];
        }
      }
    }
  }

  /** `' '.join(chunks)` before any length limit. */
  function Collapse(text: string): (r: string)
    ensures |r| == 0 || ChunkOk(r)
    ensures Squeeze(r) == Squeeze(text)
  {
    var lines := SplitWhere(text, IsLineBreak);
    var cs := AllChunks(lines);
    JoinChunks(cs);
    SqueezeJoin(cs, " ");
    SqueezeLines(text);
    Join(cs, " ")
  }

  /**
   * `TextProcessor.clean_text`: lines stripped, split on double spaces,
   * the non-empty stripped pieces joined with one space; then cut to
   * `max_length` when that is truthy (a negative limit drops characters
   * from the end, as Python's slice does).
   */
  function CleanText(text: string, maxLength: Option<int>): (r: string)
    ensures |text| == 0 ==> r == ""
    ensures NoLineBreak(r) && NoDoubleSpace(r)
    ensures |r| > 0 ==> !IsSpace(r[0])
    ensures maxLength.Some? && maxLength.value > 0 ==> |r| <= maxLength.value
    ensures |r| <= |Collapse(text)| && r == Collapse(text)[..|r|]
    ensures maxLength.None? || maxLength.value == 0 ==> r == Collapse(text)
  {
    if |text| == 0 then ""
    else Cut(Collapse(text), maxLength)
  }

  /** The length cut of `clean_text` on a collapsed text: a prefix, within the limit, still one clean line. */
  function Cut(c: string, maxLength: Option<int>): (r: string)
    requires |c| == 0 || ChunkOk(c)
    ensures |r| <= |c| && r == c[..|r|]
    ensures NoLineBreak(r) && NoDoubleSpace(r)
    ensures |r| > 0 ==> !IsSpace(r[0])
    ensures maxLength.Some? && maxLength.value > 0 ==> |r| <= maxLength.value
    ensures maxLength.None? || maxLength.value == 0 ==> r == c
  {
    CutChunk(c, maxLength);
    match maxLength
    case Some(n) => if n != 0 && |c| > n then SliceTo(c, n) else c
    case None => c
  }

  /** Any prefix of a collapsed text is still one line without double spaces. */
  lemma CutChunk(c: string, maxLength: Option<int>)
    requires |c| == 0 || ChunkOk(c)
    ensures forall n: nat :: n <= |c| ==> NoLineBreak(c[..n]) && NoDoubleSpace(c[..n])
  {
  }

  /** Without a limit the output is stripped and keeps exactly the visible characters of the input. */
  lemma CleanTextKeepsText(text: string)
    ensures Squeeze(CleanText(text, None)) == Squeeze(text)
    ensures |CleanText(text, None)| > 0 ==> ChunkOk(CleanText(text, None))
  {
  }

  lemma {:induction false} SplitWhereNone(s: string, isSep: char -> bool)
    requires forall k :: 0 <= k < |s| ==> !isSep(s[k])
    ensures SplitWhere(s, isSep) == [s]
    decreases |s|
  {
    if |s| > 0 {
      SplitWhereNone(s[1..], isSep);
      assert [s[0]] + s[1..] == s;
    }
  }

  lemma {:induction false} NoDoubleNotContains(s: string)
    requires NoDoubleSpace(s)
    ensures !Contains(s, "  ")
    decreases |s|
  {
    if |s| > 0 {
      NoDoubleNotContains(s[1..]);
      if |s| >= 2 {
        assert s[..2] == [s[0], s[1]];
      }
    }
  }

  lemma StripChunk(c: string)
    requires |c| == 0 || (!IsSpace(c[0]) && !IsSpace(c[|c| - 1]))
    ensures Strip(c) == c
  {
    LStripKeeps(c);
    RStripKeeps(c);
  }

  lemma LStripKeeps(c: string)
    requires |c| == 0 || !IsSpace(c[0])
    ensures LStrip(c) == c
  {
  }

  lemma RStripKeeps(c: string)
    requires |c| == 0 || !IsSpace(c[|c| - 1])
    ensures RStrip(c) == c
  {
  }

  /** Cleaning a cleaned text changes nothing. */
  lemma CleanTextIdempotent(text: string)
    ensures CleanText(CleanText(text, None), None) == CleanText(text, None)
  {
    var r := CleanText(text, None);
    if |r| > 0 {
      SplitWhereNone(r, IsLineBreak);
      StripChunk(r);
      NoDoubleNotContains(r);
      assert IndexOf(r, "  ").None?;
      assert SplitOn(r, "  ") == [r];
      assert PieceChunks([r]) == [r];
      assert LineChunks(r) == [r];
      assert AllChunks([r]) == [r];
    }
  }

  /** A limit only ever cuts the unlimited result short. */
  lemma CleanTextLimit(text: string, n: int)
    ensures CleanText(text, Some(n)) == CleanText(text, None)[..|CleanText(text, Some(n))|]
    ensures n == 0 || (n > 0 && n >= |CleanText(text, None)|) ==> CleanText(text, Some(n)) == CleanText(text, None)
  {
  }

  // ----- pattern extractors -----

  /** `TextProcessor.extract_basic_patterns`: the same three rules as the collectors' base class. */
  function BasicPatterns(text: string, name: string): (r: seq<string>)
    ensures |text| == 0 ==> r == []
    ensures |r| <= 3
    ensures Subseq(r, [Interfaces.NameMentionPrefix + name, Interfaces.ToneEntry, Interfaces.SpeechEntry])
    ensures (Interfaces.NameMentionPrefix + name in r) <==> |text| > 0 && Interfaces.MentionsName(text, name)
    ensures Interfaces.ToneEntry in r <==> |text| > 0 && Interfaces.MentionsTone(text)
    ensures Interfaces.SpeechEntry in r <==> |text| > 0 && Interfaces.MentionsSpeech(text)
  {
    Interfaces.ExtractBasicPatterns(text, name)
  }

  /** The fixed quote window, minimum quote length and pattern cap of this copy of the answer parser. */
  const MaxQuotes: nat := 5
  const MinQuoteLength: int := 3
  const MaxPatterns: nat := 10

  /** `TextProcessor.extract_speech_patterns_from_chatgpt_result` */
  function ChatAnswerPatterns(text: string, name: string): (r: seq<string>)
    ensures |text| == 0 ==> r == []
    ensures |r| <= 10
    ensures forall i :: 0 <= i < |r| ==>
      Speech.ParseEntry(r[i]).Some? && Speech.EntryOk(Speech.ParseEntry(r[i]).value, text, name, 5, 3)
    ensures forall i, j :: 0 <= i < j < |r| ==>
      Speech.Kind(Speech.ParseEntry(r[i]).value) <= Speech.Kind(Speech.ParseEntry(r[j]).value)
  {
    Speech.AnswerPatterns(text, name, MaxQuotes, MinQuoteLength, MaxPatterns)
  }

  // ----- URLs -----

  predicate HasHttpScheme(url: string)
  {
    StartsWith(url, "http://") || StartsWith(url, "https://")
  }

  /**
   * `URLProcessor.validate_url`: a network-path reference `//host...`
   * (section 4.2 of RFC 3986) gets the `https:` scheme, an absolute path
   * `/...` is rejected as "", and anything else without an http(s) scheme
   * gets `https://` in front.
   */
  function ValidateUrl(url: string): (r: string)
    ensures r == "" || HasHttpScheme(r)
    ensures r == "" <==> |url| == 0 || (StartsWith(url, "/") && !StartsWith(url, "//"))
    ensures r != "" ==> EndsWith(r, url)
    ensures HasHttpScheme(url) ==> r == url
  {
    if |url| == 0 then ""
    else if HasHttpScheme(url) then
      assert url[0] == 'h' by {
        if StartsWith(url, "http://") {
          assert url[..7] == "http://";
        } else {
          assert url[..8] == "https://";
        }
      }
      assert url[..1] != "/";
      url
    else if StartsWith(url, "//") then
      assert ("https:" + url)[..8] == "https:" + url[..2];
      assert ("https:" + url)[6..] == url;
      "https:" + url
    else if StartsWith(url, "/") then ""
    else
      assert ("https://" + url)[..8] == "https://";
      assert ("https://" + url)[8..] == url;
      "https://" + url
  }

  /** Repairing a repaired URL changes nothing. */
  lemma ValidateUrlIdempotent(url: string)
    ensures ValidateUrl(ValidateUrl(url)) == ValidateUrl(url)
  {
  }

  /** The marker of a YouTube watch URL. */
  const WatchMarker := "youtube.com/watch?v="

  /** `URLProcessor.is_youtube_url` */
  predicate IsYoutubeUrl(url: string)
  {
    Contains(url, WatchMarker)
  }

  predicate WatchMarkerAt(url: string, i: nat)
  {
    i + |WatchMarker| <= |url| && url[i..i + |WatchMarker|] == WatchMarker
  }

  /** A URL is a YouTube URL exactly when the watch marker occurs in it at some position. */
  lemma YoutubeUrlMarkerAt(url: string)
    ensures IsYoutubeUrl(url) <==> exists i :: WatchMarkerAt(url, i)
  {
    if IsYoutubeUrl(url) {
      var i := ContainsWitness(url, WatchMarker);
      assert WatchMarkerAt(url, i);
    }
    if exists i :: WatchMarkerAt(url, i) {
      var i :| WatchMarkerAt(url, i);
      ContainsAt(url, WatchMarker, i);
    }
  }

  /** `any(domain in url for domain in exclude_domains)` */
  predicate Excluded(url: string, domains: seq<string>)
  {
    exists i :: 0 <= i < |domains| && Contains(url, domains[i])
  }

  function ValidateAll(urls: seq<string>): (r: seq<string>)
    ensures |r| == |urls|
    ensures forall i :: 0 <= i < |r| ==> r[i] == ValidateUrl(urls[i])
  {
    seq(|urls|, i requires 0 <= i < |urls| => ValidateUrl(urls[i]))
  }

  function FilterUrls(urls: seq<string>, domains: seq<string>): (r: seq<string>)
    ensures |r| <= |urls|
    ensures forall i :: 0 <= i < |r| ==> |r[i]| > 0 && HasHttpScheme(r[i]) && !Excluded(r[i], domains)
    ensures Subseq(r, ValidateAll(urls))
    ensures forall j :: 0 <= j < |urls| && ValidateUrl(urls[j]) != "" && !Excluded(ValidateUrl(urls[j]), domains) ==>
      ValidateUrl(urls[j]) in r
  {
    if |urls| == 0 then []
    else
      var v := ValidateUrl(urls[0]);
      var rest := FilterUrls(urls[1..], domains);
      assert ValidateAll(urls) == [v] + ValidateAll(urls[1..]);
      assert forall j :: 1 <= j < |urls| ==> urls[j] == urls[1..][j - 1];
      SubseqCons(rest, ValidateAll(urls[1..]), v);
      if v != "" && !Excluded(v, domains) then [v] + rest else rest
  }

  /**
   * `URLProcessor.filter_valid_urls`: every URL repaired, the empty results
   * and those containing an excluded domain dropped, order kept. A missing
   * exclusion list is the empty one.
   */
  function FilterValidUrls(urls: seq<string>, excludeDomains: Option<seq<string>>): (r: seq<string>)
    ensures |r| <= |urls|
    ensures forall i :: 0 <= i < |r| ==> |r[i]| > 0 && HasHttpScheme(r[i]) && !Excluded(r[i], excludeDomains.GetOr([]))
    ensures Subseq(r, ValidateAll(urls))
    ensures forall j :: 0 <= j < |urls| && ValidateUrl(urls[j]) != "" && !Excluded(ValidateUrl(urls[j]), excludeDomains.GetOr([])) ==>
      ValidateUrl(urls[j]) in r
  {
    FilterUrls(urls, excludeDomains.GetOr([]))
  }

  /** An empty domain in the exclusion list excludes every URL. */
  lemma {:induction false} EmptyDomainExcludesAll(urls: seq<string>, domains: seq<string>)
    requires "" in domains
    ensures FilterUrls(urls, domains) == []
    decreases |urls|
  {
    if |urls| > 0 {
      EmptyDomainExcludesAll(urls[1..], domains);
      var v := ValidateUrl(urls[0]);
      var i :| 0 <= i < |domains| && domains[i] == "";
      assert StartsWith(v, domains[i]);
      assert Excluded(v, domains);
    }
  }

  const DuckDuckGoRedirect := "//duckduckgo.com/l/?uddg="

  /**
   * `URLProcessor.extract_duckduckgo_url`: for a redirect link, the text
   * between the first `uddg=` and the next `&`, percent-decoded. A failure
   * inside returns the input.
   */
  function ExtractDuckDuckGoUrl(url: string): (r: string)
    ensures !StartsWith(url, DuckDuckGoRedirect) ==> r == url
  {
    if StartsWith(url, DuckDuckGoRedirect) then
      var parts := SplitOn(url, "uddg=");
      if |parts| >= 2 then Unquote.Unquote(SplitOn(parts[1], "&")[0]) else url
    else url
  }

  /** Splitting at a first occurrence that nothing before it overlaps. */
  lemma SplitOnFirst(a: string, sep: string, b: string)
    requires |sep| > 0
    requires forall j :: 0 <= j < |a| ==> !StartsWith((a + sep + b)[j..], sep)
    ensures SplitOn(a + sep + b, sep) == [a] + SplitOn(b, sep)
  {
    var s := a + sep + b;
    assert s[|a|..][..|sep|] == sep;
    assert StartsWith(s[|a|..], sep);
    ContainsAt(s, sep, |a|);
    var i := IndexOf(s, sep).value;
    assert s[i..][..|sep|] == s[i..i + |sep|];
    assert i == |a|;
    assert s[..|a|] == a && s[|a| + |sep|..] == b;
  }

  /** The first piece reaches at least as far as the first `n` characters when no separator starts there. */
  lemma SplitOnHead(s: string, sep: string, n: nat)
    requires |sep| > 0 && n <= |s|
    requires forall j :: 0 <= j < n ==> !StartsWith(s[j..], sep)
    ensures n <= |SplitOn(s, sep)[0]| && SplitOn(s, sep)[0][..n] == s[..n]
  {
    match IndexOf(s, sep)
    case None =>
    case Some(i) =>
      assert s[i..][..|sep|] == s[i..i + |sep|];
      assert i >= n;
  }

  /** No occurrence of `sep` starts at a character that differs from its first. */
  lemma NoStartAt(s: string, sep: string, j: nat)
    requires |sep| > 0 && j < |s| && s[j] != sep[0]
    ensures !StartsWith(s[j..], sep)
  {
    if |sep| <= |s[j..]| {
      assert s[j..][..|sep|][0] == s[j];
    }
  }

  /** Nor at a character whose successor differs from the second. */
  lemma NoStartAt2(s: string, sep: string, j: nat)
    requires |sep| > 1 && j + 1 < |s| && s[j + 1] != sep[1]
    ensures !StartsWith(s[j..], sep)
  {
    if |sep| <= |s[j..]| {
      assert s[j..][..|sep|][1] == s[j + 1];
    }
  }

  predicate IsPercentText(q: string)
  {
    forall k :: 0 <= k < |q| ==> q[k] == '%' || Unquote.IsHexDigit(q[k])
  }

  lemma {:induction false} PercentEncodeText(bs: seq<Unquote.Byte>)
    ensures IsPercentText(Unquote.PercentEncode(bs))
    decreases |bs|
  {
    if |bs| > 0 {
      PercentEncodeText(bs[1..]);
      var q := Unquote.PercentEncode(bs);
      assert q == ['%', Unquote.HexDigit(bs[0] / 16), Unquote.HexDigit(bs[0] % 16)] + Unquote.PercentEncode(bs[1..]);
    }
  }

  /** `uddg=` does not start inside `//duckduckgo.com/l/?`. */
  lemma PrefixNoUddg(url: string, j: nat)
    requires StartsWith(url, DuckDuckGoRedirect) && j < 20
    ensures !StartsWith(url[j..], "uddg=")
  {
    assert url[..25] == DuckDuckGoRedirect;
    assert forall k :: 0 <= k < 25 ==> url[k] == DuckDuckGoRedirect[k];
    if j == 3 || j == 7 {
      NoStartAt2(url, "uddg=", j);
    } else {
      NoStartAt(url, "uddg=", j);
    }
  }

  /** The second piece of a redirect link split on `uddg=` is the head of what follows the prefix. */
  lemma RedirectParam(url: string)
    requires StartsWith(url, DuckDuckGoRedirect)
    ensures |SplitOn(url, "uddg=")| >= 2
    ensures SplitOn(url, "uddg=")[1] == SplitOn(url[25..], "uddg=")[0]
  {
    var pre := "//duckduckgo.com/l/?";
    assert url == pre + "uddg=" + url[25..] by {
      assert url[..25] == DuckDuckGoRedirect;
    }
    forall j | 0 <= j < |pre| ensures !StartsWith((pre + "uddg=" + url[25..])[j..], "uddg=") {
      PrefixNoUddg(url, j);
    }
    SplitOnFirst(pre, "uddg=", url[25..]);
  }

  /** A percent-encoded parameter followed by `&` is cut out exactly. */
  lemma ParamValue(q: string, tail: string)
    requires IsPercentText(q)
    ensures SplitOn(SplitOn(q + "&" + tail, "uddg=")[0], "&")[0] == q
  {
    var rest := q + "&" + tail;
    forall j | 0 <= j < |q| + 1 ensures !StartsWith(rest[j..], "uddg=") {
      assert rest[j] == (if j < |q| then q[j] else '&');
      NoStartAt(rest, "uddg=", j);
    }
    SplitOnHead(rest, "uddg=", |q| + 1);
    var p1 := SplitOn(rest, "uddg=")[0];
    var w := q + "&" + p1[|q| + 1..];
    assert p1 == w by {
      assert p1[..|q| + 1] == rest[..|q| + 1] == q + "&";
    }
    forall j | 0 <= j < |q| ensures !StartsWith(w[j..], "&") {
      assert w[j] == q[j];
      NoStartAt(w, "&", j);
    }
    SplitOnFirst(q, "&", p1[|q| + 1..]);
  }

  /**
   * Unwrapping a redirect link whose `uddg` parameter is the percent-encoded
   * UTF-8 of a target gives the target back, whatever parameters follow.
   */
  lemma DuckDuckGoRoundTrip(target: string, tail: string)
    ensures ExtractDuckDuckGoUrl(DuckDuckGoRedirect + Unquote.PercentEncode(Unquote.EncodeUtf8(target)) + "&" + tail) == target
  {
    var q := Unquote.PercentEncode(Unquote.EncodeUtf8(target));
    PercentEncodeText(Unquote.EncodeUtf8(target));
    var url := DuckDuckGoRedirect + q + "&" + tail;
    assert url[..25] == DuckDuckGoRedirect && url[25..] == q + "&" + tail;
    RedirectParam(url);
    ParamValue(q, tail);
    Unquote.UnquoteQuote(target);
  }
}

=== FILE: unquote.dfy ===
/**
 * `urllib.parse.unquote` as the DuckDuckGo redirect unwrapping uses it:
 * percent-decoding (section 2.1 of RFC 3986) of each ASCII run into bytes,
 * which are then decoded as UTF-8 with U+FFFD for every maximal ill-formed
 * subpart (section 3.9 of the Unicode Standard); non-ASCII text passes
 * through unchanged.
 */
module Unquote {
  import opened Strings

  type Byte = b: int | 0 <= b < 256

  predicate IsHexDigit(c: char)
  {
    ('0' <= c <= '9') || ('a' <= c <= 'f') || ('A' <= c <= 'F')
  }

  function HexValue(c: char): (v: nat)
    requires IsHexDigit(c)
    ensures v < 16
  {
    if '0' <= c <= '9' then c as int - '0' as int
    else if 'a' <= c <= 'f' then c as int - 'a' as int + 10
    else c as int - 'A' as int + 10
  }

  function HexDigit(v: nat): (c: char)
    requires v < 16
    ensures IsHexDigit(c) && HexValue(c) == v
  {
    if v < 10 then ('0' as int + v) as char else ('A' as int + v - 10) as char
  }

  predicate IsAscii(c: char)
  {
    c as int < 0x80
  }

  /** `unquote_to_bytes` on ASCII text: `%` and two hex digits become one byte, everything else is its own code. */
  function PercentBytes(s: string): (bs: seq<Byte>)
    requires forall i :: 0 <= i < |s| ==> IsAscii(s[i])
    decreases |s|
  {
    if |s| == 0 then []
    else if s[0] == '%' && |s| >= 3 && IsHexDigit(s[1]) && IsHexDigit(s[2]) then
      [HexValue(s[1]) * 16 + HexValue(s[2])] + PercentBytes(s[3..])
    else
      assert IsAscii(s[0]);
      [s[0] as int] + PercentBytes(s[1..])
  }

  /** Text without `%` is its own byte string. */
  lemma {:induction false} PercentBytesPlain(s: string)
    requires forall i :: 0 <= i < |s| ==> IsAscii(s[i]) && s[i] != '%'
    ensures |PercentBytes(s)| == |s|
    ensures forall i :: 0 <= i < |s| ==> PercentBytes(s)[i] == s[i] as int
    decreases |s|
  {
    if |s| > 0 {
      PercentBytesPlain(s[1..]);
    }
  }

  predicate IsCont(b: Byte)
  {
    0x80 <= b < 0xC0
  }

  /** Length of a well-formed sequence starting with lead byte `b`, or 0 when `b` cannot start one. */
  function SeqLength(b: Byte): nat
  {
    if b < 0x80 then 1
    else if 0xC2 <= b < 0xE0 then 2
    else if 0xE0 <= b < 0xF0 then 3
    else if 0xF0 <= b < 0xF5 then 4
    else 0
  }

  /** The allowed range of the second byte (Table 3-7 of the Unicode Standard). */
  predicate SecondOk(lead: Byte, b: Byte)
  {
    if lead == 0xE0 then 0xA0 <= b < 0xC0
    else if lead == 0xED then 0x80 <= b < 0xA0
    else if lead == 0xF0 then 0x90 <= b < 0xC0
    else if lead == 0xF4 then 0x80 <= b < 0x90
    else IsCont(b)
  }

  /** How many bytes after the lead continue a well-formed sequence (at most `SeqLength - 1`). */
  function ValidTail(bs: seq<Byte>): (m: nat)
    requires |bs| > 0 && SeqLength(bs[0]) >= 2
    ensures m <= SeqLength(bs[0]) - 1 && m < |bs|
  {
    var n := SeqLength(bs[0]);
    if |bs| < 2 || !SecondOk(bs[0], bs[1]) then 0
    else if n == 2 || |bs| < 3 || !IsCont(bs[2]) then 1
    else if n == 3 || |bs| < 4 || !IsCont(bs[3]) then 2
    else 3
  }

  function Scalar2(b0: Byte, b1: Byte): (c: char)
    requires 0xC2 <= b0 < 0xE0 && IsCont(b1)
  {
    ((b0 - 0xC0) * 64 + (b1 - 0x80)) as char
  }

  function Scalar3(b0: Byte, b1: Byte, b2: Byte): (c: char)
    requires 0xE0 <= b0 < 0xF0 && SecondOk(b0, b1) && IsCont(b2)
  {
    ((b0 - 0xE0) * 4096 + (b1 - 0x80) * 64 + (b2 - 0x80)) as char
  }

  function Scalar4(b0: Byte, b1: Byte, b2: Byte, b3: Byte): (c: char)
    requires 0xF0 <= b0 < 0xF5 && SecondOk(b0, b1) && IsCont(b2) && IsCont(b3)
  {
    ((b0 - 0xF0) * 262144 + (b1 - 0x80) * 4096 + (b2 - 0x80) * 64 + (b3 - 0x80)) as char
  }

  const Replacement: char := '\U{FFFD}'

  /** `bytes.decode("utf-8", "replace")` */
  function DecodeUtf8(bs: seq<Byte>): (s: string)
    ensures |s| <= |bs|
    decreases |bs|
  {
    if |bs| == 0 then ""
    else
      var n := SeqLength(bs[0]);
      if n == 1 then [bs[0] as char] + DecodeUtf8(bs[1..])
      else if n == 0 then [Replacement] + DecodeUtf8(bs[1..])
      else
        var m := ValidTail(bs);
        if m == n - 1 then
          var c := if n == 2 then Scalar2(bs[0], bs[1])
                   else if n == 3 then Scalar3(bs[0], bs[1], bs[2])
                   else Scalar4(bs[0], bs[1], bs[2], bs[3]);
          [c] + DecodeUtf8(bs[n..])
        else [Replacement] + DecodeUtf8(bs[m + 1..])
  }

  /** `str.encode("utf-8")` for one character. */
  function EncodeChar(c: char): (bs: seq<Byte>)
    ensures 1 <= |bs| <= 4 && SeqLength(bs[0]) == |bs|
  {
    var v := c as int;
    if v < 0x80 then [v]
    else if v < 0x800 then [0xC0 + v / 64, 0x80 + v % 64]
    else if v < 0x10000 then [0xE0 + v / 4096, 0x80 + (v / 64) % 64, 0x80 + v % 64]
    else [0xF0 + v / 262144, 0x80 + (v / 4096) % 64, 0x80 + (v / 64) % 64, 0x80 + v % 64]
  }

  function EncodeUtf8(s: string): (bs: seq<Byte>)
  {
    if |s| == 0 then [] else EncodeChar(s[0]) + EncodeUtf8(s[1..])
  }

  /** Decoding the encoding of one character yields that character and leaves the rest alone. */
  lemma DecodeEncodeChar(c: char, rest: seq<Byte>)
    ensures DecodeUtf8(EncodeChar(c) + rest) == [c] + DecodeUtf8(rest)
  {
    var v := c as int;
    if v < 0x80 {
      assert (EncodeChar(c) + rest)[1..] == rest;
    } else if v < 0x800 {
      DecodeTwo(c, rest);
    } else if v < 0x10000 {
      DecodeThree(c, rest);
    } else {
      DecodeFour(c, rest);
    }
  }

  lemma DecodeTwo(c: char, rest: seq<Byte>)
    requires 0x80 <= c as int < 0x800
    ensures DecodeUtf8(EncodeChar(c) + rest) == [c] + DecodeUtf8(rest)
  {
    var v := c as int;
    var b0: Byte, b1: Byte := 0xC0 + v / 64, 0x80 + v % 64;
    assert EncodeChar(c) == [b0, b1];
    var bs := [b0, b1] + rest;
    assert bs[2..] == rest;
    assert ValidTail(bs) == 1;
    assert Scalar2(b0, b1) as int == v;
  }

  lemma DecodeThree(c: char, rest: seq<Byte>)
    requires 0x800 <= c as int < 0x10000
    ensures DecodeUtf8(EncodeChar(c) + rest) == [c] + DecodeUtf8(rest)
  {
    var v := c as int;
    var hi, mid, lo := v / 4096, (v / 64) % 64, v % 64;
    assert v == hi * 4096 + mid * 64 + lo;
    var b0: Byte, b1: Byte, b2: Byte := 0xE0 + hi, 0x80 + mid, 0x80 + lo;
    assert EncodeChar(c) == [b0, b1, b2];
    var bs := [b0, b1, b2] + rest;
    assert bs[3..] == rest;
    assert hi == 0 ==> mid >= 32;
    assert hi == 13 ==> mid < 32;
    assert SecondOk(b0, b1);
    assert ValidTail(bs) == 2;
    assert Scalar3(b0, b1, b2) as int == v;
  }

  lemma DecodeFour(c: char, rest: seq<Byte>)
    requires 0x10000 <= c as int
    ensures DecodeUtf8(EncodeChar(c) + rest) == [c] + DecodeUtf8(rest)
  {
    var v := c as int;
    var top, hi, mid, lo := v / 262144, (v / 4096) % 64, (v / 64) % 64, v % 64;
    FourDigits(v);
    var b0: Byte, b1: Byte, b2: Byte, b3: Byte := 0xF0 + top, 0x80 + hi, 0x80 + mid, 0x80 + lo;
    assert EncodeChar(c) == [b0, b1, b2, b3];
    DecodeFourBytes(b0, b1, b2, b3, rest);
    assert Scalar4(b0, b1, b2, b3) as int == v;
  }

  /** The four base-64 digits of a supplementary code point recompose it, and its first two satisfy the second-byte ranges. */
  lemma FourDigits(v: int)
    requires 0x10000 <= v < 0x110000
    ensures var top, hi, mid, lo := v / 262144, (v / 4096) % 64, (v / 64) % 64, v % 64;
      v == top * 262144 + hi * 4096 + mid * 64 + lo && top <= 4
      && (top == 0 ==> hi >= 16) && (top == 4 ==> hi < 16)
  {
  }

  /** Four bytes forming a well-formed sequence decode to their scalar, and decoding goes on after them. */
  lemma DecodeFourBytes(b0: Byte, b1: Byte, b2: Byte, b3: Byte, rest: seq<Byte>)
    requires 0xF0 <= b0 < 0xF5 && SecondOk(b0, b1) && IsCont(b2) && IsCont(b3)
    ensures DecodeUtf8([b0, b1, b2, b3] + rest) == [Scalar4(b0, b1, b2, b3)] + DecodeUtf8(rest)
  {
    var bs := [b0, b1, b2, b3] + rest;
    assert bs[4..] == rest;
    assert ValidTail(bs) == 3;
  }

  /** UTF-8 decoding inverts UTF-8 encoding. */
  lemma {:induction false} DecodeEncode(s: string)
    ensures DecodeUtf8(EncodeUtf8(s)) == s
    decreases |s|
  {
    if |s| > 0 {
      DecodeEncode(s[1..]);
      DecodeEncodeChar(s[0], EncodeUtf8(s[1..]));
      assert s == [s[0]] + s[1..];
    }
  }

  /** `%XX` for every byte, upper-case hex as `urllib.parse.quote` writes it. */
  function PercentEncode(bs: seq<Byte>): (s: string)
    ensures |s| == 3 * |bs|
    ensures forall i :: 0 <= i < |s| ==> IsAscii(s[i])
  {
    if |bs| == 0 then ""
    else ['%', HexDigit(bs[0] / 16), HexDigit(bs[0] % 16)] + PercentEncode(bs[1..])
  }

  lemma {:induction false} PercentBytesEncode(bs: seq<Byte>)
    ensures PercentBytes(PercentEncode(bs)) == bs
    decreases |bs|
  {
    if |bs| > 0 {
      PercentBytesEncode(bs[1..]);
      var s := PercentEncode(bs);
      assert s[3..] == PercentEncode(bs[1..]);
    }
  }

  /** Length of the run at the start of `s` whose characters are (or are not) ASCII. */
  function RunLen(s: string, ascii: bool): (n: nat)
    ensures n <= |s|
    ensures forall i :: 0 <= i < n ==> IsAscii(s[i]) == ascii
    ensures n < |s| ==> IsAscii(s[n]) != ascii
    decreases |s|
  {
    if |s| == 0 || IsAscii(s[0]) != ascii then 0 else 1 + RunLen(s[1..], ascii)
  }

  /** Decodes ASCII runs and copies non-ASCII runs, left to right. */
  function UnquoteRuns(s: string): (r: string)
    decreases |s|
  {
    if |s| == 0 then ""
    else if IsAscii(s[0]) then
      var n := RunLen(s, true);
      DecodeUtf8(PercentBytes(s[..n])) + UnquoteRuns(s[n..])
    else
      var n := RunLen(s, false);
      s[..n] + UnquoteRuns(s[n..])
  }

  /** `urllib.parse.unquote(s)` */
  function Unquote(s: string): (r: string)
    ensures '%' !in s ==> r == s
  {
    if '%' !in s then s else UnquoteRuns(s)
  }

  /** Percent-encoding the UTF-8 bytes of any text and unquoting gives the text back. */
  lemma UnquoteQuote(s: string)
    ensures Unquote(PercentEncode(EncodeUtf8(s))) == s
  {
    var bs := EncodeUtf8(s);
    var q := PercentEncode(bs);
    EncodeLength(s);
    if |s| > 0 {
      assert q[0] == '%';
      UnquoteAscii(q);
      PercentBytesEncode(bs);
    }
    DecodeEncode(s);
  }

  lemma {:induction false} EncodeLength(s: string)
    ensures |EncodeUtf8(s)| >= |s|
    decreases |s|
  {
    if |s| > 0 {
      EncodeLength(s[1..]);
    }
  }

  /** Unquoting ASCII text with a `%` decodes it as one run. */
  lemma UnquoteAscii(q: string)
    requires forall i :: 0 <= i < |q| ==> IsAscii(q[i])
    requires |q| > 0 && q[0] == '%'
    ensures Unquote(q) == DecodeUtf8(PercentBytes(q))
  {
    AllAsciiRun(q);
    assert q[..|q|] == q && q[|q|..] == "";
    assert UnquoteRuns(q) == DecodeUtf8(PercentBytes(q)) + UnquoteRuns("");
  }

  lemma {:induction false} AllAsciiRun(s: string)
    requires forall i :: 0 <= i < |s| ==> IsAscii(s[i])
    ensures RunLen(s, true) == |s|
    decreases |s|
  {
    if |s| > 0 {
      AllAsciiRun(s[1..]);
    }
  }
}

=== FILE: web_search.dfy ===
/**
 * The page-fetching half that collectors/google_collector.py and
 * collectors/bing_collector.py share almost line for line: the URL repair
 * and record of `_extract_page_content`, the LLM line parser of
 * `_extract_speech_patterns`, the per-pattern result budget and result
 * record of `collect_info`, and the watch-URL gathering of
 * `search_youtube_videos`.
 */
module WebSearch {
  import opened Prelude
  import opened Strings
  import opened Seqs
  import TextProcessor
  import Speech

  // ----- URL repair -----

  /**
   * The URL repair at the top of `_extract_page_content`: a network-path
   * reference `//host...` (section 4.2 of RFC 3986) gets the `https:`
   * scheme, an absolute path `/...` is rejected, and anything else without
   * an http(s) scheme, the empty string included, gets `https://` in front.
   */
  function RepairUrl(url: string): (r: Option<string>)
    ensures r.None? <==> StartsWith(url, "/") && !StartsWith(url, "//")
    ensures r.Some? ==> TextProcessor.HasHttpScheme(r.value) && EndsWith(r.value, url)
    ensures TextProcessor.HasHttpScheme(url) ==> r == Some(url)
  {
    if TextProcessor.HasHttpScheme(url) then
      assert url[0] == 'h' by {
        if StartsWith(url, "http://") {
          assert url[..7] == "http://";
        } else {
          assert url[..8] == "https://";
        }
      }
      assert url[..1] != "/";
      Some(url)
    else if StartsWith(url, "//") then
      assert ("https:" + url)[..8] == "https:" + url[..2];
      assert ("https:" + url)[6..] == url;
      Some("https:" + url)
    else if StartsWith(url, "/") then None
    else
      assert ("https://" + url)[..8] == "https://";
      assert ("https://" + url)[8..] == url;
      Some("https://" + url)
  }

  /**
   * The collectors' repair is `URLProcessor.validate_url` with "" read as
   * "rejected", except on the empty string, which the collectors turn into
   * the bare scheme.
   */
  lemma RepairAgreesWithValidateUrl(url: string)
    ensures |url| > 0 ==> RepairUrl(url) == (if TextProcessor.ValidateUrl(url) == "" then None else Some(TextProcessor.ValidateUrl(url)))
    ensures RepairUrl("") == Some("https://")
  {
    assert "https://" + "" == "https://";
  }

  /** A repaired URL is left alone by a second repair. */
  lemma RepairIdempotent(url: string)
    requires RepairUrl(url).Some?
    ensures RepairUrl(RepairUrl(url).value) == RepairUrl(url)
  {
  }

  // ----- speech patterns from the LLM -----

  /** `_extract_speech_patterns` sends at most this many characters of page text. */
  const SpeechInputLimit: nat := 2000

  /** The page text must be longer than this, once stripped, before the LLM is asked. */
  const MinSpeechBody: nat := 50

  /**
   * `_extract_speech_patterns` (both copies): nothing for an empty text or a
   * missing key; otherwise the text, cut to 2000 characters, goes to the
   * LLM, which is the oracle `llm(name, text)`; its answer is read by the
   * colon-line parser, and a failure anywhere gives [].
   */
  function SpeechPatterns(text: string, name: string, apiKey: string, llm: (string, string) -> Outcome<string>): (r: seq<string>)
    ensures |text| == 0 || |apiKey| == 0 ==> r == []
    ensures |r| <= Speech.MaxColonLines
    ensures forall i :: 0 <= i < |r| ==> Speech.ColonLineOk(r[i]) && '\n' !in r[i]
    ensures |text| > 0 && |apiKey| > 0 && llm(name, Take(text, SpeechInputLimit)).Raised? ==> r == []
    ensures |text| > 0 && |apiKey| > 0 && llm(name, Take(text, SpeechInputLimit)).Returned? ==>
      r == Speech.ColonLines(llm(name, Take(text, SpeechInputLimit)).value)
  {
    if |text| == 0 || |apiKey| == 0 then []
    else
      match llm(name, Take(text, SpeechInputLimit))
      case Returned(answer) => Speech.ColonLines(answer)
      case Raised(_) => []
  }

  // ----- page records -----

  /** What the HTML parser makes of a fetched page; `domain` is `urlparse(url).netloc`. */
  datatype Page = Page(title: Option<string>, description: string, bodyText: string, domain: string)

  const UnknownTitle := "不明"

  /** The dict `_extract_page_content` returns for a page it could read. */
  datatype PageRecord = PageRecord(
    url: string,
    domain: string,
    title: string,
    description: string,
    content: string,
    contentLength: int,
    speechPatterns: seq<string>)

  /** The body text of a record: the page's visible text collapsed as `clean_text` does, cut to the limit. */
  function PageContent(bodyText: string, contentLimit: nat): (r: string)
    ensures |r| <= contentLimit
    ensures IsPrefix(r, TextProcessor.Collapse(bodyText))
    ensures |r| < contentLimit ==> r == TextProcessor.Collapse(bodyText)
    ensures TextProcessor.NoLineBreak(r) && TextProcessor.NoDoubleSpace(r)
  {
    var c := TextProcessor.Collapse(bodyText);
    TextProcessor.CutChunk(c, None);
    Take(c, contentLimit)
  }

  /**
   * `_extract_page_content`: repair the URL, fetch and parse it (`fetch`
   * returns None for a failed request or parse), take the stripped title
   * or "不明", the meta description, the cleaned and cut body, and ask the
   * LLM for speech patterns only when a key is set and the stripped body
   * is longer than 50 characters.
   */
  function ExtractPageContent(url: string, name: string, apiKey: string, contentLimit: nat,
                              fetch: string -> Option<Page>, llm: (string, string) -> Outcome<string>): (r: Option<PageRecord>)
    ensures r.None? <==> RepairUrl(url).None? || fetch(RepairUrl(url).value).None?
    ensures r.Some? ==> RepairUrl(url) == Some(r.value.url) && TextProcessor.HasHttpScheme(r.value.url)
    ensures r.Some? ==> r.value.contentLength == |r.value.content| && |r.value.content| <= contentLimit
    ensures r.Some? ==> r.value.content == PageContent(fetch(r.value.url).value.bodyText, contentLimit)
    ensures r.Some? ==> r.value.title == (match fetch(r.value.url).value.title case Some(t) => Strip(t) case None => UnknownTitle)
    ensures r.Some? && r.value.speechPatterns != [] ==> |apiKey| > 0 && |Strip(r.value.content)| > MinSpeechBody
    ensures r.Some? && |apiKey| > 0 && |Strip(r.value.content)| > MinSpeechBody ==>
      r.value.speechPatterns == SpeechPatterns(r.value.content, name, apiKey, llm)
    ensures r.Some? ==> |r.value.speechPatterns| <= Speech.MaxColonLines
  {
    match RepairUrl(url)
    case None => None
    case Some(u) =>
      match fetch(u)
      case None => None
      case Some(page) =>
        var body := PageContent(page.bodyText, contentLimit);
        var patterns := if |apiKey| > 0 && |Strip(body)| > MinSpeechBody then SpeechPatterns(body, name, apiKey, llm) else [];
        var title := match page.title case Some(t) => Strip(t) case None => UnknownTitle;
        Some(PageRecord(u, page.domain, title, page.description, body, |body|, patterns))
  }

  // ----- collect_info -----

  /** `max(1, num_results // len(patterns))`; Python raises `ZeroDivisionError` for an empty pattern list. */
  function PerPattern(numResults: int, patternCount: nat): (r: Outcome<int>)
    ensures r.Raised? <==> patternCount == 0
    ensures r.Returned? ==> r.value >= 1
    ensures r.Returned? && numResults >= patternCount ==>
      r.value * patternCount <= numResults < (r.value + 1) * patternCount
    ensures r.Returned? && numResults < 2 * patternCount ==> r.value == 1
  {
    if patternCount == 0 then Raised("integer division or modulo by zero")
    else
      var q := numResults / patternCount;
      assert q * patternCount <= numResults < (q + 1) * patternCount;
      Returned(if q < 1 then 1 else q)
  }

  /** The results of all patterns, pattern after pattern (`all_search_results.extend(...)`). */
  function Flatten(queries: seq<string>, run: string -> seq<PageRecord>): (r: seq<PageRecord>)
    ensures forall x :: x in r ==> exists q :: q in queries && x in run(q)
    ensures forall q :: q in queries ==> forall x :: x in run(q) ==> x in r
  {
    if |queries| == 0 then []
    else run(queries[0]) + Flatten(queries[1..], run)
  }

  /** When no pattern yields more than `k` results, all of them together yield at most `|queries| * k`. */
  lemma {:induction false} FlattenBound(queries: seq<string>, run: string -> seq<PageRecord>, k: nat)
    requires forall q :: q in queries ==> |run(q)| <= k
    ensures |Flatten(queries, run)| <= |queries| * k
  {
    if |queries| > 0 {
      assert forall q :: q in queries[1..] ==> q in queries;
      FlattenBound(queries[1..], run, k);
      assert |queries| * k == k + (|queries| - 1) * k;
    }
  }

  /** The dict `collect_info` returns; `query` is None when the dict has no such key. */
  datatype Report = Report(found: bool, error: Option<string>, query: Option<string>, results: seq<PageRecord>, totalResults: int)

  /** The record of a run that got through the pattern loop. */
  function Succeeded(query: Option<string>, results: seq<PageRecord>): (r: Report)
    ensures r.found <==> r.totalResults > 0
    ensures r.totalResults == |r.results| && r.results == results
    ensures r.error.None? && r.query == query
  {
    Report(|results| > 0, None, query, results, |results|)
  }

  /** The record of a run that raised: `prefix` and the exception text. */
  function Failed(query: Option<string>, prefix: string, message: string): (r: Report)
    ensures !r.found && r.results == [] && r.totalResults == 0
    ensures r.error == Some(prefix + message) && r.query == query
  {
    Report(false, Some(prefix + message), query, [], 0)
  }

  // ----- search_youtube_videos -----

  /** The inline `'youtube.com/watch?v=' in url` of both collectors is `is_youtube_url`. */
  predicate IsWatchUrl(url: string)
  {
    TextProcessor.IsYoutubeUrl(url)
  }

  /** `f'"{name}" site:youtube.com'`, the one query both collectors send. */
  function YouTubeQuery(name: string): string
  {
    "\"" + name + "\" site:youtube.com"
  }

  /** The shortest name the YouTube search accepts is three characters. */
  const MinYouTubeName: nat := 3

  /** Reference: the watch URLs of `urls`, each at its first occurrence, in order. */
  function WatchUrls(urls: seq<string>): (r: seq<string>)
    ensures NoDup(r)
    ensures forall i :: 0 <= i < |r| ==> IsWatchUrl(r[i]) && r[i] in urls
    ensures forall u :: u in urls && IsWatchUrl(u) ==> u in r
    ensures |r| <= |urls|
  {
    if |urls| == 0 then []
    else
      var front := urls[..|urls| - 1];
      var prev := WatchUrls(front);
      var u := urls[|urls| - 1];
      assert urls == front + [u];
      if IsWatchUrl(u) && u !in prev then prev + [u] else prev
  }

  /** Fewer search hits give a prefix of the watch URLs. */
  lemma {:induction false} WatchUrlsPrefix(urls: seq<string>, n: nat)
    requires n <= |urls|
    ensures IsPrefix(WatchUrls(urls[..n]), WatchUrls(urls))
    decreases |urls|
  {
    if n == |urls| {
      assert urls[..n] == urls;
    } else {
      var front := urls[..|urls| - 1];
      assert front[..n] == urls[..n];
      WatchUrlsPrefix(front, n);
      var u := urls[|urls| - 1];
      if IsWatchUrl(u) && u !in WatchUrls(front) {
        PrefixExtends(WatchUrls(urls[..n]), WatchUrls(front), [u]);
      }
    }
  }

  lemma WatchUrlsStep(hits: seq<string>, i: nat, prev: seq<string>)
    requires i < |hits| && prev == WatchUrls(hits[..i])
    ensures IsWatchUrl(hits[i]) && hits[i] !in prev ==> WatchUrls(hits[..i + 1]) == prev + [hits[i]]
    ensures !(IsWatchUrl(hits[i]) && hits[i] !in prev) ==> WatchUrls(hits[..i + 1]) == prev
  {
    assert hits[..i + 1][..i] == hits[..i];
  }

  /** A loop that stopped at the end of the hits or with `maxUrls` kept holds the first `maxUrls` watch URLs. */
  lemma GatheredIsTake(hits: seq<string>, i: nat, r: seq<string>, maxUrls: int)
    requires i <= |hits| && r == WatchUrls(hits[..i]) && 0 < maxUrls
    requires |r| <= maxUrls && (i == |hits| || |r| == maxUrls)
    ensures r == Take(WatchUrls(hits), maxUrls)
  {
    WatchUrlsPrefix(hits, i);
    if i == |hits| {
      assert hits[..i] == hits;
    }
  }

  /** The first watch URLs are distinct watch URLs taken from the hits. */
  lemma TakenWatchUrls(hits: seq<string>, n: nat)
    ensures NoDup(Take(WatchUrls(hits), n))
    ensures forall i :: 0 <= i < |Take(WatchUrls(hits), n)| ==>
      IsWatchUrl(Take(WatchUrls(hits), n)[i]) && Take(WatchUrls(hits), n)[i] in hits
  {
    var w := WatchUrls(hits);
    NoDupPrefix(w, |Take(w, n)|);
  }

  /**
   * The loop of `search_youtube_videos` over one query's hits: keep a hit
   * that contains `youtube.com/watch?v=` and is new, and stop as soon as
   * `maxUrls` are kept (at once when `maxUrls` is not positive).
   */
  method GatherWatchUrls(hits: seq<string>, maxUrls: int) returns (r: seq<string>)
    ensures maxUrls <= 0 ==> r == []
    ensures maxUrls > 0 ==> r == Take(WatchUrls(hits), maxUrls)
    ensures NoDup(r) && forall i :: 0 <= i < |r| ==> IsWatchUrl(r[i]) && r[i] in hits
  {
    r := [];
    if maxUrls <= 0 {
      return;
    }
    var i := 0;
    while i < |hits| && |r| < maxUrls
      invariant 0 <= i <= |hits|
      invariant r == WatchUrls(hits[..i])
      invariant |r| <= maxUrls
    {
      var u := hits[i];
      WatchUrlsStep(hits, i, r);
      if IsWatchUrl(u) && u !in r {
        r := r + [u];
      }
      i := i + 1;
    }
    GatheredIsTake(hits, i, r, maxUrls);
    TakenWatchUrls(hits, maxUrls);
  }

  /**
   * `search_youtube_videos` of the Google and Bing collectors: a name of two
   * characters or fewer sends no query; otherwise the hits of the one query
   * (`search`, the hits the engine yielded before it finished or failed)
   * go through the watch-URL loop.
   */
  method SearchYouTubeVideos(name: string, maxUrls: int, search: string -> seq<string>) returns (r: seq<string>)
    ensures |name| < MinYouTubeName ==> r == []
    ensures |name| >= MinYouTubeName && maxUrls > 0 ==> r == Take(WatchUrls(search(YouTubeQuery(name))), maxUrls)
    ensures maxUrls <= 0 ==> r == []
    ensures NoDup(r)
    ensures forall i :: 0 <= i < |r| ==> IsWatchUrl(r[i]) && r[i] in search(YouTubeQuery(name))
  {
    if |name| < MinYouTubeName {
      return [];
    }
    r := GatherWatchUrls(search(YouTubeQuery(name)), maxUrls);
  }
}

=== FILE: youtube_collector.dfy ===
/**
 * collectors/youtube_collector.py: video ids from URLs, the subtitle loop
 * of `collect_info`, the sample-phrase pipeline and its quality filter, and
 * the speech filter with its fallback. The transcript API and the LLM are
 * oracles passed in as functions.
 */
module YouTubeCollector {
  import opened Prelude
  import opened Strings
  import opened Seqs
  import TextProcessor

  // ----- video ids -----

  /** The character class `[^&\n?#]` of a video id. */
  predicate IdChar(c: char)
  {
    c != '&' && c != '\n' && c != '?' && c != '#'
  }

  predicate AllIdChars(id: string)
  {
    forall k :: 0 <= k < |id| ==> IdChar(id[k])
  }

  const WatchMarker := TextProcessor.WatchMarker
  const ShortMarker := "youtu.be/"
  const EmbedMarker := "youtube.com/embed/"
  const WatchQuery := "youtube.com/watch?"

  /** Where the id starts when an alternative of `(?:youtube\.com/watch\?v=|youtu\.be/|youtube\.com/embed/)` matches at `i`. */
  function MarkerEnd(s: string, i: nat): (e: Option<nat>)
    requires i <= |s|
    ensures e.Some? ==> i < e.value <= |s|
    ensures e.Some? ==> s[i..e.value] in {WatchMarker, ShortMarker, EmbedMarker}
  {
    var t := s[i..];
    if StartsWith(t, WatchMarker) then
      assert s[i..i + |WatchMarker|] == t[..|WatchMarker|];
      Some(i + |WatchMarker|)
    else if StartsWith(t, ShortMarker) then
      assert s[i..i + |ShortMarker|] == t[..|ShortMarker|];
      Some(i + |ShortMarker|)
    else if StartsWith(t, EmbedMarker) then
      assert s[i..i + |EmbedMarker|] == t[..|EmbedMarker|];
      Some(i + |EmbedMarker|)
    else None
  }

  /** The first pattern matches at `i`: a marker followed by at least one id character. */
  predicate DirectAt(s: string, i: nat)
    requires i <= |s|
  {
    MarkerEnd(s, i).Some? && MarkerEnd(s, i).value < |s| && IdChar(s[MarkerEnd(s, i).value])
  }

  /** The greedy `([^&\n?#]+)` from `k`. */
  function IdFrom(s: string, k: nat): (id: string)
    requires k < |s| && IdChar(s[k])
    ensures |id| > 0 && AllIdChars(id)
    ensures k + |id| <= |s| && s[k..k + |id|] == id
    ensures k + |id| < |s| ==> !IdChar(s[k + |id|])
  {
    s[k..k + RunWhile(s, k, IdChar)]
  }

  /** `re.search` of the first pattern from index `i`: where the id of the leftmost match starts. */
  function DirectScan(s: string, i: nat): (k: Option<nat>)
    requires i <= |s|
    ensures k.Some? ==> k.value < |s| && IdChar(s[k.value])
    decreases |s| - i
  {
    if DirectAt(s, i) then MarkerEnd(s, i)
    else if i == |s| then None
    else DirectScan(s, i + 1)
  }

  /** The scan reports the id start of a match at or after `i`. */
  lemma {:induction false} DirectScanFound(s: string, i: nat)
    requires i <= |s| && DirectScan(s, i).Some?
    ensures exists j :: i <= j < |s| && DirectAt(s, j) && MarkerEnd(s, j) == DirectScan(s, i)
    decreases |s| - i
  {
    if DirectAt(s, i) {
      assert MarkerEnd(s, i) == DirectScan(s, i);
    } else {
      assert DirectScan(s, i) == DirectScan(s, i + 1);
      DirectScanFound(s, i + 1);
    }
  }

  /** The scan finds nothing exactly when no match starts at or after `i`. */
  lemma {:induction false} DirectScanNone(s: string, i: nat)
    requires i <= |s|
    ensures DirectScan(s, i).None? <==> forall j :: i <= j <= |s| ==> !DirectAt(s, j)
    decreases |s| - i
  {
    if DirectAt(s, i) {
      assert DirectScan(s, i) == MarkerEnd(s, i);
    } else if i < |s| {
      assert DirectScan(s, i) == DirectScan(s, i + 1);
      DirectScanNone(s, i + 1);
    }
  }

  /** `v=` at `q` followed by an id character. */
  predicate VAt(s: string, q: nat)
  {
    q + 2 < |s| && s[q] == 'v' && s[q + 1] == '=' && IdChar(s[q + 2])
  }

  predicate NotNewline(c: char)
  {
    c != '\n'
  }

  /** The greedy `.*v=`: the last `v=` in `s[q0..q0 + n]` followed by an id character. */
  function LastV(s: string, q0: nat, n: nat): (q: Option<nat>)
    requires q0 + n <= |s|
    ensures q.Some? ==> q0 <= q.value <= q0 + n && VAt(s, q.value)
    ensures q.Some? ==> forall x :: q.value < x <= q0 + n ==> !VAt(s, x)
    ensures q.None? ==> forall x :: q0 <= x <= q0 + n ==> !VAt(s, x)
    decreases n
  {
    if VAt(s, q0 + n) then Some(q0 + n)
    else if n == 0 then None
    else LastV(s, q0, n - 1)
  }

  /** `youtube\.com/watch\?.*v=` tried at `p`: where the captured id starts. */
  function QueryAt(s: string, p: nat): (k: Option<nat>)
    requires p <= |s|
    ensures k.Some? ==> p + |WatchQuery| + 2 <= k.value < |s| && IdChar(s[k.value])
    ensures k.Some? ==> s[k.value - 2..k.value] == "v="
  {
    if StartsWith(s[p..], WatchQuery) then
      var q0 := p + |WatchQuery|;
      match LastV(s, q0, RunWhile(s, q0, NotNewline))
      case Some(q) => Some(q + 2)
      case None => None
    else None
  }

  /** `re.search` of the second pattern from `i`. */
  function QueryScan(s: string, i: nat): (k: Option<nat>)
    requires i <= |s|
    ensures k.Some? ==> k.value < |s| && IdChar(s[k.value]) && k.value >= 2 && s[k.value - 2..k.value] == "v="
    ensures k.None? <==> forall j :: i <= j <= |s| ==> QueryAt(s, j).None?
    decreases |s| - i
  {
    if QueryAt(s, i).Some? then QueryAt(s, i)
    else if i == |s| then None
    else QueryScan(s, i + 1)
  }

  /** `_extract_video_id`: the first pattern, else the second, else `None`. */
  function ExtractVideoId(url: string): (id: Option<string>)
    ensures id.Some? ==> |id.value| > 0 && AllIdChars(id.value) && Contains(url, id.value)
  {
    match DirectScan(url, 0)
    case Some(k) =>
      var id := IdFrom(url, k);
      ContainsAt(url, id, k);
      Some(id)
    case None =>
      match QueryScan(url, 0)
      case Some(k) =>
        var id := IdFrom(url, k);
        ContainsAt(url, id, k);
        Some(id)
      case None => None
  }

  /** No id exactly when neither pattern matches anywhere. */
  lemma ExtractVideoIdNone(url: string)
    ensures ExtractVideoId(url).None? <==>
      (forall j :: 0 <= j <= |url| ==> !DirectAt(url, j)) && (forall j :: 0 <= j <= |url| ==> QueryAt(url, j).None?)
  {
    DirectScanNone(url, 0);
  }

  /** When the first pattern matches, the id is the one after its leftmost marker. */
  lemma ExtractVideoIdDirect(url: string)
    requires exists j :: 0 <= j <= |url| && DirectAt(url, j)
    ensures ExtractVideoId(url).Some?
    ensures exists j :: 0 <= j <= |url| && DirectAt(url, j) && ExtractVideoId(url).value == IdFrom(url, MarkerEnd(url, j).value)
  {
    DirectScanNone(url, 0);
    DirectScanFound(url, 0);
    var k := DirectScan(url, 0).value;
    var j :| 0 <= j < |url| && DirectAt(url, j) && MarkerEnd(url, j) == Some(k);
    assert ExtractVideoId(url).value == IdFrom(url, MarkerEnd(url, j).value);
  }

  /** Positions without a 'y' can be skipped: no marker starts there. */
  lemma {:induction false} DirectScanSkip(s: string, i: nat, j: nat)
    requires i <= j <= |s|
    requires forall x :: i <= x < j ==> s[x] != 'y'
    ensures DirectScan(s, i) == DirectScan(s, j)
    decreases j - i
  {
    if i < j {
      NoMarkerWithoutY(s, i);
      DirectScanStep(s, i);
      DirectScanSkip(s, i + 1, j);
    }
  }

  /** A position where no match starts passes the scan on to the next one. */
  lemma DirectScanStep(s: string, i: nat)
    requires i < |s| && MarkerEnd(s, i).None?
    ensures DirectScan(s, i) == DirectScan(s, i + 1)
  {
  }

  /** No marker can start where there is no 'y'. */
  lemma NoMarkerWithoutY(s: string, x: nat)
    requires x < |s| && s[x] != 'y'
    ensures MarkerEnd(s, x).None?
  {
    assert s[x..][0] == s[x];
  }

  const WatchPrefix := "https://www." + WatchMarker
  const ShortPrefix := "https://" + ShortMarker

  /** A URL made of a prefix without 'y', a marker and an id yields that id. */
  lemma {:induction false} MarkedUrlId(pre: string, marker: string, id: string)
    requires |id| > 0 && AllIdChars(id)
    requires forall x :: 0 <= x < |pre| ==> pre[x] != 'y'
    requires MarkerEnd(marker + id, 0) == Some(|marker|)
    ensures ExtractVideoId(pre + marker + id) == Some(id)
  {
    var s := pre + marker + id;
    SkipPrefix(pre, marker + id);
    assert s == pre + (marker + id);
    assert s[|pre|..] == marker + id;
    MarkerEndSuffix(s, |pre|);
    assert s[|pre| + |marker|..] == id;
    IdAtEnd(s, |pre| + |marker|, id);
    assert DirectScan(s, |pre|) == Some(|pre| + |marker|);
  }

  /** The scan passes over a prefix without 'y'. */
  lemma SkipPrefix(pre: string, rest: string)
    requires forall x :: 0 <= x < |pre| ==> pre[x] != 'y'
    ensures DirectScan(pre + rest, 0) == DirectScan(pre + rest, |pre|)
  {
    var s := pre + rest;
    assert forall x :: 0 <= x < |pre| ==> s[x] == pre[x];
    DirectScanSkip(s, 0, |pre|);
  }

  /** The id of a watch URL built from an id is that id. */
  lemma WatchUrlId(id: string)
    requires |id| > 0 && AllIdChars(id)
    ensures ExtractVideoId(WatchPrefix + id) == Some(id)
  {
    var t := WatchMarker + id;
    assert t[0..] == t;
    assert t[..|WatchMarker|] == WatchMarker;
    MarkedUrlId("https://www.", WatchMarker, id);
  }

  /** A watch URL built from an id is recognised as a YouTube URL. */
  lemma WatchUrlRecognised(id: string)
    ensures TextProcessor.IsYoutubeUrl(WatchPrefix + id)
  {
    var u := WatchPrefix + id;
    assert u[12..12 + |WatchMarker|] == WatchMarker;
    TextProcessor.YoutubeUrlMarkerAt(u);
    assert TextProcessor.WatchMarkerAt(u, 12);
  }

  /** The id of a short link built from an id is that id. */
  lemma ShortUrlId(id: string)
    requires |id| > 0 && AllIdChars(id)
    ensures ExtractVideoId(ShortPrefix + id) == Some(id)
  {
    var t := ShortMarker + id;
    assert t[0..] == t;
    assert t[..|ShortMarker|] == ShortMarker;
    assert t[5] == '.';
    MarkedUrlId("https://", ShortMarker, id);
  }

  /** An id that runs to the end of the URL is captured whole. */
  lemma IdAtEnd(s: string, k: nat, id: string)
    requires |id| > 0 && AllIdChars(id) && k <= |s| && s[k..] == id
    ensures k < |s| && IdChar(s[k]) && IdFrom(s, k) == id
  {
    assert s[k] == id[0];
  }

  /** A marker match depends only on the text from where it is tried. */
  lemma MarkerEndSuffix(s: string, i: nat)
    requires i <= |s|
    ensures MarkerEnd(s, i).Some? <==> MarkerEnd(s[i..], 0).Some?
    ensures MarkerEnd(s, i).Some? ==> MarkerEnd(s, i).value == i + MarkerEnd(s[i..], 0).value
  {
    assert s[i..][0..] == s[i..];
  }

  // ----- sample phrases -----

  /** The character class `[。！？\.\!\?]` the subtitles are split on. */
  predicate IsSentenceEnd(c: char)
  {
    c == '。' || c == '！' || c == '？' || c == '.' || c == '!' || c == '?'
  }

  predicate InBracket(c: char)
  {
    c != ']' && c != '\n'
  }

  /** The `]` that closes a `[` whose content starts at `i`: the lazy `.*?\]` stops at the first `]` and cannot cross a line feed. */
  function CloseBracket(s: string, i: nat): (j: Option<nat>)
    requires i <= |s|
    ensures j.Some? ==> i <= j.value < |s| && s[j.value] == ']'
    ensures j.Some? ==> forall k :: i <= k < j.value ==> InBracket(s[k])
    ensures j.None? ==> forall k :: i <= k < |s| && s[k] == ']' ==> exists m :: i <= m < k && s[m] == '\n'
  {
    var j := i + RunWhile(s, i, InBracket);
    if j < |s| && s[j] == ']' then Some(j)
    else
      assert forall k :: i <= k < |s| && s[k] == ']' ==> j < k && s[j] == '\n';
      None
  }

  /** `re.sub(r'\[.*?\]', '', s)`: every bracketed span on one line is removed, left to right. */
  function RemoveBrackets(s: string): (r: string)
    ensures |r| <= |s|
    ensures '[' !in s ==> r == s
    decreases |s|
  {
    if |s| == 0 then ""
    else if s[0] == '[' && CloseBracket(s, 1).Some? then RemoveBrackets(s[CloseBracket(s, 1).value + 1..])
    else [s[0]] + RemoveBrackets(s[1..])
  }

  /** A bracketed noise marker at the front disappears together with its brackets. */
  lemma DropsBracketed(b: string, c: string)
    requires forall k :: 0 <= k < |b| ==> InBracket(b[k])
    ensures RemoveBrackets("[" + b + "]" + c) == RemoveBrackets(c)
  {
    var s := "[" + b + "]" + c;
    assert s[1..1 + |b|] == b;
    assert s[1 + |b|] == ']';
    assert CloseBracket(s, 1) == Some(1 + |b|);
    assert s[|b| + 2..] == c;
  }

  const Fillers: seq<string> := ["", " ", "うん", "そう", "はい", "えー", "あー"]

  /** `[あ-ん]` */
  predicate IsHiragana(c: char)
  {
    'あ' <= c <= 'ん'
  }

  /** `re.match(r'^[あ-ん]{1,3}$', s)` on a stripped sentence. */
  predicate ShortHiragana(s: string)
  {
    1 <= |s| <= 3 && forall k :: 0 <= k < |s| ==> IsHiragana(s[k])
  }

  /** `re.match(r'^[音楽拍手効果音]+', s)` */
  predicate StartsWithNoise(s: string)
  {
    |s| > 0 && s[0] in "音楽拍手効果音"
  }

  /** The sentence filter of `_extract_sample_phrases`. */
  predicate SentenceKept(s: string, minLen: int, maxLen: int)
  {
    minLen <= |s| <= maxLen && !StartsWithNoise(s) && !ShortHiragana(s) && s !in Fillers
  }

  /** The form two sentences are compared by: lower-cased with all whitespace removed. */
  function Normalize(s: string): string
  {
    TextProcessor.Squeeze(Lower(s))
  }

  predicate NormsDistinct(ss: seq<string>)
  {
    forall i, j :: 0 <= i < j < |ss| ==> Normalize(ss[i]) != Normalize(ss[j])
  }

  function Norms(ss: seq<string>): set<string>
  {
    set x | x in ss :: Normalize(x)
  }

  function StripAll(ss: seq<string>): (r: seq<string>)
    ensures |r| == |ss| && forall i :: 0 <= i < |ss| ==> r[i] == Strip(ss[i])
  {
    seq(|ss|, i requires 0 <= i < |ss| => Strip(ss[i]))
  }

  /** The de-duplication loop: a sentence is kept when its normal form is new and longer than `minLen`. */
  function Dedup(ss: seq<string>, minLen: int, seen: set<string>): (r: seq<string>)
    ensures Subseq(r, ss)
    ensures forall i :: 0 <= i < |r| ==> Normalize(r[i]) !in seen && |Normalize(r[i])| > minLen
    ensures NormsDistinct(r)
    ensures forall x :: x in ss && |Normalize(x)| > minLen && Normalize(x) !in seen ==> Normalize(x) in Norms(r)
    decreases |ss|
  {
    if |ss| == 0 then []
    else
      var n := Normalize(ss[0]);
      if n !in seen && |n| > minLen then
        var rest := Dedup(ss[1..], minLen, seen + {n});
        SubseqCons(rest, ss[1..], ss[0]);
        assert forall x :: x in ss && x != ss[0] ==> x in ss[1..];
        [ss[0]] + rest
      else
        var rest := Dedup(ss[1..], minLen, seen);
        SubseqCons(rest, ss[1..], ss[0]);
        assert forall x :: x in ss && x != ss[0] ==> x in ss[1..];
        rest
  }

  /** The stripped sentences of the joined subtitles once the bracketed noise is gone. */
  function Sentences(texts: seq<string>): seq<string>
  {
    StripAll(SplitWhere(RemoveBrackets(Join(texts, " ")), IsSentenceEnd))
  }

  /** The sentences that pass the filter, before de-duplication. */
  function KeptSentences(texts: seq<string>, minLen: int, maxLen: int): seq<string>
  {
    Filter(s => SentenceKept(s, minLen, maxLen), Sentences(texts))
  }

  /** `unique_sentences` of `_extract_sample_phrases`; nothing when the joined text is empty. */
  function UniquePhrases(texts: seq<string>, minLen: int, maxLen: int): (r: seq<string>)
    ensures Join(texts, " ") == "" ==> r == []
    ensures NormsDistinct(r) && NoDup(r)
    ensures forall i :: 0 <= i < |r| ==> r[i] in KeptSentences(texts, minLen, maxLen) && |Normalize(r[i])| > minLen
    ensures forall x :: x in KeptSentences(texts, minLen, maxLen) && |Normalize(x)| > minLen ==> Normalize(x) in Norms(r)
  {
    if Join(texts, " ") == "" then []
    else
      var kept := KeptSentences(texts, minLen, maxLen);
      var r := Dedup(kept, minLen, {});
      SubseqMembers(r, kept);
      NormsDistinctNoDup(r);
      r
  }

  /** Phrases with distinct normal forms are distinct. */
  lemma NormsDistinctNoDup(ss: seq<string>)
    requires NormsDistinct(ss)
    ensures NoDup(ss)
  {
    forall i, j | 0 <= i < j < |ss| ensures ss[i] != ss[j] {
      assert Normalize(ss[i]) != Normalize(ss[j]);
    }
  }

  /** Every unique phrase is a stripped sentence that passes the filter. */
  lemma UniquePhraseKept(texts: seq<string>, minLen: int, maxLen: int, x: string)
    ensures x in UniquePhrases(texts, minLen, maxLen) ==> SentenceKept(x, minLen, maxLen) && Strip(x) == x
  {
    if x in UniquePhrases(texts, minLen, maxLen) {
      assert x in KeptSentences(texts, minLen, maxLen);
      KeptSentence(texts, minLen, maxLen, x);
      StrippedMember(SplitWhere(RemoveBrackets(Join(texts, " ")), IsSentenceEnd), x);
    }
  }

  lemma StrippedMember(ss: seq<string>, x: string)
    ensures x in StripAll(ss) ==> Strip(x) == x
  {
    var all := StripAll(ss);
    if x in all {
      var j :| 0 <= j < |all| && all[j] == x;
      assert x == Strip(ss[j]);
      StripStripped(x);
    }
  }

  lemma KeptSentence(texts: seq<string>, minLen: int, maxLen: int, x: string)
    ensures x in KeptSentences(texts, minLen, maxLen) ==> SentenceKept(x, minLen, maxLen) && x in Sentences(texts)
  {
    var kept := KeptSentences(texts, minLen, maxLen);
    if x in kept {
      var k :| 0 <= k < |kept| && kept[k] == x;
      assert (s => SentenceKept(s, minLen, maxLen))(kept[k]) && kept[k] in Sentences(texts);
    }
  }

  /**
   * `_extract_sample_phrases`: the unique phrases, or `random.sample` of
   * `maxPhrases` of them when there are more; a negative count makes the
   * sample raise, which the method turns into [].
   */
  method ExtractSamplePhrases(texts: seq<string>, maxPhrases: int, minLen: int, maxLen: int) returns (r: seq<string>)
    ensures Join(texts, " ") == "" ==> r == []
    ensures maxPhrases < 0 ==> r == []
    ensures maxPhrases >= 0 ==> |r| <= maxPhrases
    ensures forall i :: 0 <= i < |r| ==> r[i] in UniquePhrases(texts, minLen, maxLen)
    ensures NormsDistinct(r) && NoDup(r)
    ensures |UniquePhrases(texts, minLen, maxLen)| <= maxPhrases ==> r == UniquePhrases(texts, minLen, maxLen)
    ensures |UniquePhrases(texts, minLen, maxLen)| > maxPhrases >= 0 ==> |r| == maxPhrases
  {
    var u := UniquePhrases(texts, minLen, maxLen);
    if |u| <= maxPhrases {
      r := u;
    } else if maxPhrases < 0 {
      r := [];
    } else {
      r := Sample(u, maxPhrases);
      SampleNormsDistinct(u, r);
    }
  }

  /** `random.sample(u, k)`: some `k` distinct elements of `u`, in any order. */
  method Sample<T(==)>(u: seq<T>, k: nat) returns (r: seq<T>)
    requires NoDup(u) && k <= |u|
    ensures |r| == k && NoDup(r)
    ensures forall i :: 0 <= i < |r| ==> r[i] in u
  {
    var w := u[..k];
    assert forall i :: 0 <= i < |w| ==> w[i] in u;
    NoDupPrefix(u, k);
    assert |w| == k && (forall i :: 0 <= i < |w| ==> w[i] in u) && NoDup(w);
    r :| |r| == k && (forall i :: 0 <= i < |r| ==> r[i] in u) && NoDup(r);
  }

  /** Distinct picks from a list with distinct normal forms have distinct normal forms. */
  lemma SampleNormsDistinct(u: seq<string>, r: seq<string>)
    requires NormsDistinct(u)
    requires forall i :: 0 <= i < |r| ==> r[i] in u
    requires NoDup(r)
    ensures NormsDistinct(r)
  {
    forall i, j | 0 <= i < j < |r| ensures Normalize(r[i]) != Normalize(r[j]) {
      assert r[i] in u && r[j] in u;
      var a :| 0 <= a < |u| && u[a] == r[i];
      var b :| 0 <= b < |u| && u[b] == r[j];
      assert a != b;
      if a < b {
        assert Normalize(u[a]) != Normalize(u[b]);
      } else {
        assert Normalize(u[b]) != Normalize(u[a]);
      }
    }
  }

  // ----- quality check -----

  const QualityFillers: seq<string> := ["", " ", "はい", "そう", "うん"]

  /** The tests of `_check_sample_quality` on one stripped phrase. */
  predicate QualityOk(p: string, minLen: int, maxLen: int)
  {
    minLen <= |p| <= maxLen
    && !Contains(p, "詰んだろうが") && !Contains(p, "教会の常識")
    && !(|p| > 0 && p[0] in "同じ文章の繰り返し")
    && CountChar(p, '。') <= 3
    && !(|p| > 0 && forall k :: 0 <= k < |p| ==> p[k] in "あいうえおかきくけこ")
    && !(|p| > 0 && p[0] in "音楽効果音")
    && p !in QualityFillers
  }

  /** `_check_sample_quality`: the stripped phrases that pass every test, in order. */
  function CheckSampleQuality(phrases: seq<string>, minLen: int, maxLen: int): (r: seq<string>)
    ensures Subseq(r, StripAll(phrases))
    ensures forall i :: 0 <= i < |r| ==> QualityOk(r[i], minLen, maxLen) && Strip(r[i]) == r[i]
    ensures forall j :: 0 <= j < |phrases| && QualityOk(Strip(phrases[j]), minLen, maxLen) ==> Strip(phrases[j]) in r
  {
    var all := StripAll(phrases);
    var r := Filter(p => QualityOk(p, minLen, maxLen), all);
    forall i | 0 <= i < |r| ensures QualityOk(r[i], minLen, maxLen) && Strip(r[i]) == r[i] {
      assert (p => QualityOk(p, minLen, maxLen))(r[i]);
      StrippedMember(phrases, r[i]);
    }
    forall j | 0 <= j < |phrases| && QualityOk(Strip(phrases[j]), minLen, maxLen) ensures Strip(phrases[j]) in r {
      assert all[j] in all && (p => QualityOk(p, minLen, maxLen))(all[j]);
    }
    r
  }

  /** Checking twice changes nothing: the output already passes. */
  lemma CheckSampleQualityIdempotent(phrases: seq<string>, minLen: int, maxLen: int)
    ensures CheckSampleQuality(CheckSampleQuality(phrases, minLen, maxLen), minLen, maxLen)
         == CheckSampleQuality(phrases, minLen, maxLen)
  {
    var r := CheckSampleQuality(phrases, minLen, maxLen);
    assert StripAll(r) == r;
    FilterAll(p => QualityOk(p, minLen, maxLen), r);
  }

  // ----- collect_info -----

  /** What `_get_video_transcript` reports for one id. */
  datatype Transcript = Transcript(found: bool, videoId: string, text: string, error: Option<string>)

  /** The transcripts one URL contributes: none when `idOf` finds no video id or the fetch fails. */
  function Contribution(url: string, idOf: string -> Option<string>, fetch: string -> Transcript): (r: seq<Transcript>)
    ensures |r| <= 1
    ensures |r| == 1 ==> r[0].found && idOf(url).Some? && r[0] == fetch(idOf(url).value)
  {
    match idOf(url)
    case None => []
    case Some(id) => if fetch(id).found then [fetch(id)] else []
  }

  /** Every transcript the URLs would give with no early stop, in URL order. */
  function Gathered(urls: seq<string>, idOf: string -> Option<string>, fetch: string -> Transcript): (r: seq<Transcript>)
    ensures |r| <= |urls|
    ensures forall i :: 0 <= i < |r| ==> r[i].found
    decreases |urls|
  {
    if |urls| == 0 then []
    else Gathered(urls[..|urls| - 1], idOf, fetch) + Contribution(urls[|urls| - 1], idOf, fetch)
  }

  /** Fewer URLs give a prefix of the transcripts. */
  lemma {:induction false} GatheredPrefix(urls: seq<string>, n: nat, idOf: string -> Option<string>, fetch: string -> Transcript)
    requires n <= |urls|
    ensures IsPrefix(Gathered(urls[..n], idOf, fetch), Gathered(urls, idOf, fetch))
    decreases |urls| - n
  {
    if n == |urls| {
      assert urls[..n] == urls;
    } else {
      var m := |urls| - 1;
      var front := urls[..m];
      GatheredPrefix(front, n, idOf, fetch);
      assert front[..n] == urls[..n];
      GatheredStep(urls, idOf, fetch);
      PrefixExtends(Gathered(urls[..n], idOf, fetch), Gathered(front, idOf, fetch), Contribution(urls[m], idOf, fetch));
    }
  }

  lemma GatheredStep(urls: seq<string>, idOf: string -> Option<string>, fetch: string -> Transcript)
    requires |urls| > 0
    ensures Gathered(urls, idOf, fetch) == Gathered(urls[..|urls| - 1], idOf, fetch) + Contribution(urls[|urls| - 1], idOf, fetch)
  {
  }

  const NoUrlsMessage := "YouTube URLが提供されませんでした"
  const NoTranscriptMessage := "字幕付き動画が見つかりませんでした"

  /** The record `collect_info` returns; the two counters are absent when no URL was given. */
  datatype YouTubeInfo = YouTubeInfo(
    found: bool,
    error: Option<string>,
    transcripts: seq<Transcript>,
    totalVideos: int,
    samplePhrases: seq<string>,
    processedUrls: Option<int>,
    successfulExtractions: Option<int>)

  /** The record-valued limits `collect_info` reads from `config`. */
  datatype PhraseLimits = PhraseLimits(
    maxTranscripts: int, samplePhrasesMax: int, phraseMin: int, phraseMax: int, qualityMin: int, qualityMax: int)

  function Texts(ts: seq<Transcript>): (r: seq<string>)
    ensures |r| == |ts| && forall i :: 0 <= i < |ts| ==> r[i] == ts[i].text
  {
    seq(|ts|, i requires 0 <= i < |ts| => ts[i].text)
  }

  /**
   * The subtitle loop of `collect_info` over the URL window: ids are
   * fetched in order and the loop stops once `maxTranscripts` transcripts
   * are in hand (checked after every valid id).
   */
  method FetchTranscripts(window: seq<string>, maxTranscripts: int, idOf: string -> Option<string>, fetch: string -> Transcript) returns (ts: seq<Transcript>)
    ensures |ts| <= |Gathered(window, idOf, fetch)| && ts == Gathered(window, idOf, fetch)[..|ts|]
    ensures maxTranscripts >= 1 ==> ts == Take(Gathered(window, idOf, fetch), maxTranscripts)
    ensures maxTranscripts < 1 ==> |ts| <= 1
  {
    ts := [];
    var i := 0;
    var stopped := false;
    while i < |window| && !stopped
      invariant 0 <= i <= |window|
      invariant ts == Gathered(window[..i], idOf, fetch)
      invariant !stopped && maxTranscripts >= 1 ==> |ts| < maxTranscripts
      invariant !stopped && maxTranscripts < 1 ==> ts == []
      invariant stopped && maxTranscripts >= 1 ==> |ts| == maxTranscripts
      invariant stopped && maxTranscripts < 1 ==> |ts| <= 1
    {
      GatheredNext(window, i, idOf, fetch);
      var id := idOf(window[i]);
      if id.Some? {
        var t := fetch(id.value);
        if t.found {
          ts := ts + [t];
        }
        if |ts| >= maxTranscripts {
          stopped := true;
        }
      }
      i := i + 1;
    }
    FetchedPrefix(window, i, ts, maxTranscripts, idOf, fetch);
  }

  /** One more URL adds its own contribution. */
  lemma GatheredNext(window: seq<string>, i: nat, idOf: string -> Option<string>, fetch: string -> Transcript)
    requires i < |window|
    ensures Gathered(window[..i + 1], idOf, fetch) == Gathered(window[..i], idOf, fetch) + Contribution(window[i], idOf, fetch)
  {
    assert window[..i + 1][..i] == window[..i];
  }

  /** A loop that stopped with enough transcripts, or at the end of the window, holds the first ones. */
  lemma FetchedPrefix(window: seq<string>, i: nat, ts: seq<Transcript>, maxTranscripts: int, idOf: string -> Option<string>, fetch: string -> Transcript)
    requires i <= |window| && ts == Gathered(window[..i], idOf, fetch)
    requires maxTranscripts >= 1 ==> |ts| <= maxTranscripts
    requires i < |window| ==> |ts| >= maxTranscripts
    ensures |ts| <= |Gathered(window, idOf, fetch)| && ts == Gathered(window, idOf, fetch)[..|ts|]
    ensures maxTranscripts >= 1 ==> ts == Take(Gathered(window, idOf, fetch), maxTranscripts)
  {
    GatheredPrefix(window, i, idOf, fetch);
    if i == |window| {
      assert window[..i] == window;
    }
  }

  /** Every unique phrase is already stripped. */
  lemma UniquePhrasesStripped(texts: seq<string>, minLen: int, maxLen: int)
    ensures forall x :: x in UniquePhrases(texts, minLen, maxLen) ==> Strip(x) == x
  {
    forall x | x in UniquePhrases(texts, minLen, maxLen) ensures Strip(x) == x {
      UniquePhraseKept(texts, minLen, maxLen, x);
    }
  }

  /** The quality check keeps only phrases drawn from `u` when `u`'s phrases are stripped. */
  lemma CheckedWithin(u: seq<string>, phrases: seq<string>, minLen: int, maxLen: int)
    requires forall i :: 0 <= i < |phrases| ==> phrases[i] in u
    requires forall x :: x in u ==> Strip(x) == x
    ensures forall x :: x in CheckSampleQuality(phrases, minLen, maxLen) ==> x in u
  {
    var checked := CheckSampleQuality(phrases, minLen, maxLen);
    SubseqMembers(checked, StripAll(phrases));
    forall x | x in checked ensures x in u {
      var j :| 0 <= j < |phrases| && StripAll(phrases)[j] == x;
      assert phrases[j] in u;
    }
  }

  /** Checking stripped phrases keeps every one that passes. */
  lemma CheckedComplete(phrases: seq<string>, minLen: int, maxLen: int)
    requires forall x :: x in phrases ==> Strip(x) == x
    ensures forall x :: x in phrases && QualityOk(x, minLen, maxLen) ==> x in CheckSampleQuality(phrases, minLen, maxLen)
  {
    forall x | x in phrases && QualityOk(x, minLen, maxLen) ensures x in CheckSampleQuality(phrases, minLen, maxLen) {
      var j :| 0 <= j < |phrases| && phrases[j] == x;
      assert Strip(phrases[j]) == x;
    }
  }

  /**
   * `collect_info`: the transcripts of the first `maxVideos` URLs, and the
   * sample phrases of their texts after the quality check.
   */
  method CollectInfo(urls: seq<string>, maxVideos: int, lim: PhraseLimits, fetch: string -> Transcript) returns (r: YouTubeInfo)
    ensures |urls| == 0 ==> r == YouTubeInfo(false, Some(NoUrlsMessage), [], 0, [], None, None)
    ensures |urls| > 0 ==> r.processedUrls == Some(|urls|)
    ensures |urls| > 0 ==> r.totalVideos == |r.transcripts| && r.successfulExtractions == Some(|r.transcripts|)
    ensures r.found <==> |r.transcripts| > 0
    ensures |urls| > 0 ==> (r.error.None? <==> r.found) && (r.error.Some? ==> r.error.value == NoTranscriptMessage)
    ensures var g := Gathered(SliceTo(urls, maxVideos), ExtractVideoId, fetch);
      |r.transcripts| <= |g| && r.transcripts == g[..|r.transcripts|]
    ensures lim.maxTranscripts >= 1 ==> r.transcripts == Take(Gathered(SliceTo(urls, maxVideos), ExtractVideoId, fetch), lim.maxTranscripts)
    ensures lim.maxTranscripts < 1 ==> |r.transcripts| <= 1
    ensures forall i :: 0 <= i < |r.samplePhrases| ==> QualityOk(r.samplePhrases[i], lim.qualityMin, lim.qualityMax)
    ensures lim.samplePhrasesMax >= 0 ==> |r.samplePhrases| <= lim.samplePhrasesMax
    ensures forall x :: x in r.samplePhrases ==> x in UniquePhrases(Texts(r.transcripts), lim.phraseMin, lim.phraseMax)
    ensures |UniquePhrases(Texts(r.transcripts), lim.phraseMin, lim.phraseMax)| <= lim.samplePhrasesMax ==>
      forall x :: x in UniquePhrases(Texts(r.transcripts), lim.phraseMin, lim.phraseMax) && QualityOk(x, lim.qualityMin, lim.qualityMax) ==> x in r.samplePhrases
  {
    if |urls| == 0 {
      return YouTubeInfo(false, Some(NoUrlsMessage), [], 0, [], None, None);
    }
    var transcripts := FetchTranscripts(SliceTo(urls, maxVideos), lim.maxTranscripts, ExtractVideoId, fetch);
    var phrases := ExtractSamplePhrases(Texts(transcripts), lim.samplePhrasesMax, lim.phraseMin, lim.phraseMax);
    var checked := CheckSampleQuality(phrases, lim.qualityMin, lim.qualityMax);
    SubseqMembers(checked, StripAll(phrases));
    UniquePhrasesStripped(Texts(transcripts), lim.phraseMin, lim.phraseMax);
    CheckedWithin(UniquePhrases(Texts(transcripts), lim.phraseMin, lim.phraseMax), phrases, lim.qualityMin, lim.qualityMax);
    if |UniquePhrases(Texts(transcripts), lim.phraseMin, lim.phraseMax)| <= lim.samplePhrasesMax {
      CheckedComplete(phrases, lim.qualityMin, lim.qualityMax);
    }
    var found := |transcripts| > 0;
    r := YouTubeInfo(found, if found then None else Some(NoTranscriptMessage), transcripts, |transcripts|,
                     checked, Some(|urls|), Some(|transcripts|));
  }

  // ----- filter_character_speech -----

  const MaxFilteredPhrases: nat := 10

  /** `[p.strip() for p in text.strip().split('\n') if p.strip()]` */
  function ResponseLines(text: string): (r: seq<string>)
    ensures forall i :: 0 <= i < |r| ==> |r[i]| > 0 && Strip(r[i]) == r[i] && '\n' !in r[i]
    ensures forall l :: l in SplitOn(Strip(text), "\n") && |Strip(l)| > 0 ==> Strip(l) in r
  {
    var pieces := SplitOn(Strip(text), "\n");
    var r := Filter(NonEmpty, StripAll(pieces));
    KeptLinesClean(pieces, r);
    KeptLinesComplete(pieces, r);
    r
  }

  /** The kept lines are non-empty, stripped, and hold no line feed. */
  lemma KeptLinesClean(pieces: seq<string>, r: seq<string>)
    requires forall i :: 0 <= i < |pieces| ==> !Contains(pieces[i], "\n")
    requires r == Filter(NonEmpty, StripAll(pieces))
    ensures forall i :: 0 <= i < |r| ==> |r[i]| > 0 && Strip(r[i]) == r[i] && '\n' !in r[i]
  {
    var all := StripAll(pieces);
    forall i | 0 <= i < |r| ensures |r[i]| > 0 && Strip(r[i]) == r[i] && '\n' !in r[i] {
      assert NonEmpty(r[i]) && r[i] in all;
      var j :| 0 <= j < |all| && all[j] == r[i];
      StrippedMember(pieces, r[i]);
      NoLineFeedInPiece(pieces[j]);
    }
  }

  /** Every line that is not blank once stripped is kept. */
  lemma KeptLinesComplete(pieces: seq<string>, r: seq<string>)
    requires r == Filter(NonEmpty, StripAll(pieces))
    ensures forall l :: l in pieces && |Strip(l)| > 0 ==> Strip(l) in r
  {
    var all := StripAll(pieces);
    forall l | l in pieces && |Strip(l)| > 0 ensures Strip(l) in r {
      var j :| 0 <= j < |pieces| && pieces[j] == l;
      assert all[j] in all && NonEmpty(all[j]);
    }
  }

  predicate NonEmpty(s: string)
  {
    |s| > 0
  }

  lemma NoLineFeedInPiece(piece: string)
    requires !Contains(piece, "\n")
    ensures '\n' !in Strip(piece)
  {
    ContainsCharIff(piece, '\n');
  }

  /** The subtitle text handed to the LLM: joined with spaces and cut to `limit` when longer. */
  function SubtitleText(texts: seq<string>, limit: int): (r: string)
    ensures limit >= 0 ==> |r| <= limit && IsPrefix(r, Join(texts, " "))
    ensures |Join(texts, " ")| <= limit ==> r == Join(texts, " ")
  {
    var all := Join(texts, " ");
    if |all| > limit then SliceTo(all, limit) else all
  }

  /** What the LLM exchange left behind: the answer, or the error and the fallback flag. */
  datatype Interaction = Exchange(response: string, characterName: string) | Fallback(error: string)

  /** The two return shapes of `filter_character_speech`: a bare list, or a dict with the interaction. */
  datatype SpeechFilter = Phrases(phrases: seq<string>) | Filtered(phrases: seq<string>, interaction: Interaction)

  /**
   * `filter_character_speech`: without a key the sample phrases; with one,
   * the first ten non-blank answer lines of the LLM, or the sample phrases
   * with a fallback record when the call raises. `llm` maps the name and
   * the subtitle text to the answer.
   */
  method FilterCharacterSpeech(texts: seq<string>, name: string, apiKey: string, textLimit: int,
                               lim: PhraseLimits, llm: (string, string) -> Outcome<string>) returns (r: SpeechFilter)
    ensures apiKey == "" ==> r.Phrases?
    ensures apiKey != "" ==> r.Filtered?
    ensures var o := llm(name, SubtitleText(texts, textLimit));
      apiKey != "" && o.Returned? ==>
        r.interaction == Exchange(Strip(o.value), name) && r.phrases == Take(ResponseLines(o.value), MaxFilteredPhrases)
    ensures var o := llm(name, SubtitleText(texts, textLimit));
      apiKey != "" && o.Raised? ==> r.interaction == Fallback(o.message)
    ensures |r.phrases| <= MaxFilteredPhrases || r.Phrases? || r.interaction.Fallback?
    ensures r.Phrases? || r.interaction.Fallback? ==>
      forall i :: 0 <= i < |r.phrases| ==> r.phrases[i] in UniquePhrases(texts, lim.phraseMin, lim.phraseMax)
    ensures (r.Phrases? || r.interaction.Fallback?) && lim.samplePhrasesMax >= 0 ==> |r.phrases| <= lim.samplePhrasesMax
  {
    if apiKey == "" {
      var p := ExtractSamplePhrases(texts, lim.samplePhrasesMax, lim.phraseMin, lim.phraseMax);
      return Phrases(p);
    }
    match llm(name, SubtitleText(texts, textLimit))
    case Returned(answer) =>
      r := Filtered(Take(ResponseLines(answer), MaxFilteredPhrases), Exchange(Strip(answer), name));
    case Raised(message) =>
      var p := ExtractSamplePhrases(texts, lim.samplePhrasesMax, lim.phraseMin, lim.phraseMax);
      r := Filtered(p, Fallback(message));
  }
}
